=== FILE: README.md ===
# Corna, modelled in Dafny

Corna is a multi-tenant blogging platform. Users register and log in with signed session cookies, claim a subdomain (a *corna*), and publish text, picture and video posts. They hand collaborators *roles*, each a bit mask of permissions scoped to one corna, and choose a *theme* for their page.

This project models the core of that application as pure functions over an immutable database value (`Store.Db`: users, emails, sessions, cornas, roles, role assignments, posts, text rows, media, themes). It covers:

- the permission bit masks and the permission checks;
- role management and its HTTP routes;
- cookie signing and validation, and the base64 and UTF-8 encodings under them;
- registration, login and logout, and their routes;
- corna creation;
- post creation, linking and parsing, and the posts routes;
- chunked media upload, merging and video range streaming;
- the image storage path helpers and the upload and HTML-filter utilities;
- the subdomain and frontend page builders;
- themes;
- the Ansible-vault envelope parser.

Each Dafny module follows one source file:

- `Permissions`: corna/middleware/permissions.py
- `Check`: corna/middleware/check.py
- `RolesControl`: corna/controls/roles_control.py
- `RolesRoutes`: corna/blueprints/v1/roles.py
- `Encodings`: corna/utils/encodings.py
- `Secure`: corna/utils/secure.py
- `AuthControl`: corna/controls/auth_control.py
- `AuthRoutes`: corna/blueprints/v1/auth.py
- `CornaControl`: corna/controls/corna_control.py
- `MediaControl`: corna/controls/media_control.py
- `ImageProc`: corna/utils/image_proc.py
- `Utils`: corna/utils/utils.py
- `PostControl`: corna/controls/post_control.py
- `PostsRoutes`: corna/blueprints/v1/posts.py
- `SubdomainControl`: corna/controls/subdomain_control.py
- `FrontendControl`: corna/controls/frontend_control.py
- `ThemeControl`: corna/controls/theme_control.py
- `VaultManager`: corna/utils/vault_manager.py

Shared pieces live in their own modules:

- `Base`: Result and Option, ASCII string helpers and a JSON-like value.
- `Bits`: masks as natural numbers with bitwise AND and OR.
- `Store`: the database tables, their uniqueness constraints, and the lookups the ORM helpers in corna/middleware/alchemy.py perform.
- `Http`: status codes and the catch-or-commit reply shape of the routes.

The model makes these choices:

- An exception is an `Err` value.
- A route's reply carries its status and the database it leaves behind. The route commits only on success.
- Randomness, clocks, cryptography and the file system are parameters of the functions that use them.

## Model

| member | source | states |
|---|---|---|
| Permissions.AllPermissionsIndexed | corna/middleware/permissions.py:10-21 | the nine permissions are the bits 0..8 in declaration order, each member at the index of its own bit, and THRESHOLD is 511 |
| Permissions.Lookup | corna/middleware/permissions.py:24-32 | a key names a permission exactly when it is that member's name; any other key finds nothing |
| Permissions.CreateRole | corna/middleware/permissions.py:40-56 | the role mask holds a permission exactly when some listed name denotes it, unknown names are skipped, and the mask never exceeds the threshold 511 |
| Permissions.CreateRoleConcat | corna/middleware/permissions.py:40-56 | a role built from two lists of names is the bitwise or of the roles built from each |
| Permissions.Perms | corna/middleware/permissions.py:59-73 | the table has one row per permission, in order, named by its lower-case name and true exactly when the role holds it |
| Permissions.PermsAgreesWithHasPerm | corna/middleware/permissions.py:59-94 | the permission table and has_perm give the same answer for the same permission |
| Permissions.HasPerm | corna/middleware/permissions.py:76-94 | true exactly when the upper-cased name denotes a permission whose bit the role holds |
| Permissions.RemovePerm | corna/middleware/permissions.py:97-113 | an unknown name leaves the role unchanged; otherwise the named bit is cleared and every other permission and every higher bit is kept |
| Permissions.AddPerm | corna/middleware/permissions.py:116-128 | an unknown name leaves the role unchanged; otherwise the named bit is set and every other permission and every higher bit is kept |
| Permissions.AddThenHas | corna/middleware/permissions.py:97-128 | after adding a known permission the role has it, after removing it the role lacks it |
| Permissions.AddRemoveIdempotent | corna/middleware/permissions.py:97-128 | adding twice is adding once, and removing twice is removing once |
| Permissions.AddRemoveInverse | corna/middleware/permissions.py:97-128 | adding a permission the role lacked and removing it again, or removing one it had and adding it again, gives back the original role |
| Permissions.EditsStayBelowThreshold | corna/middleware/permissions.py:37-128 | adding or removing a permission keeps a role within the threshold 511 |
| Permissions.AddPermsBuildsCreateRole | corna/middleware/permissions.py:40-128 | adding each name in turn to an empty role gives the same mask as create_role on the list |
| Check.UserHasPerm | corna/middleware/check.py:16-59 | an empty username never has the permission, and a true answer means some role carries the permission's bit |
| Check.UserHasPermMeans | corna/middleware/check.py:16-59 | on a consistent database, the user has the permission exactly when the username is non-empty and the user holds a role on the domain's corna that carries it |
| Check.HeldRoleGrants | corna/middleware/check.py:44-59 | holding a role that carries the permission on a corna of that domain makes the check true |
| Check.GrantingRoleHolds | corna/middleware/check.py:44-59 | a true check comes from a role the user holds on a corna of that domain |
| Check.IsOwner | corna/middleware/check.py:62-87 | an empty username owns nothing, and a true answer means a corna with that domain exists |
| Check.IsOwnerMeans | corna/middleware/check.py:62-87 | on a consistent database, the user is the owner exactly when the username is non-empty and it names the owner of the domain's corna |
| Check.DefaultMask | corna/middleware/alchemy.py:307-338 | the corna's default permission mask is read when exactly one corna has the domain and its mask is set; otherwise CornaNotFound |
| Check.Can | corna/middleware/check.py:90-163 | a missing corna denies; otherwise access is granted exactly when the user owns the corna, the default mask carries the permission, or a held role does |
| Check.CanRead | corna/middleware/check.py:90-116 | a missing corna denies; otherwise read access is granted exactly when the user owns the corna, the default mask holds READ, or a held role carries READ's bit |
| Check.CanWrite | corna/middleware/check.py:119-141 | a missing corna denies; otherwise write access is granted exactly when the user owns the corna, the default mask holds WRITE, or a held role carries WRITE's bit |
| Check.CanChangePermissions | corna/middleware/check.py:144-163 | a missing corna denies; otherwise the change is allowed exactly when the user owns the corna, the default mask holds CHANGE_PERMISSIONS, or a held role carries its bit |
| Check.CanMeans | corna/middleware/check.py:90-163 | on a consistent database, access is granted exactly when the user is the owner, the corna's default mask holds the permission, or the user holds a role carrying it |
| Check.LowerNameIsNamed | corna/middleware/check.py:112-159 | the lower-case names "read", "write" and "change_permissions" that the checks pass to has_perm denote the intended permissions |
| Check.MissingCornaDeniesAll | corna/middleware/check.py:104-108 | with no corna on the domain, read, write and permission changes are all refused |
| Check.OwnerPassesAll | corna/middleware/check.py:62-87 | the owner of a corna passes every check on it |
| Check.LooseDefaultGrantsAll | corna/middleware/check.py:110-114 | a default mask carrying the permission lets anyone through, even without a username |
| Check.NullDefaultDeniesAll | corna/middleware/check.py:104-108 | a corna whose default mask is null refuses every check |
| Check.BannedRoleGrantsNothing | corna/middleware/check.py:50-56 | joining a role whose mask is 0 changes no answer |
| Check.NoLeakAcrossCornas | corna/middleware/check.py:50-56 | joining a role on another corna changes no answer on this one |
| Store.UserUuid | corna/middleware/alchemy.py:406-436 | the user-uuid subquery yields a uuid only of a user with that name |
| Store.CornaUuid | corna/middleware/alchemy.py:341-371 | the corna-uuid subquery yields a uuid only of a corna with that domain |
| Store.FindCorna | corna/middleware/alchemy.py:307-338 | the lookup succeeds exactly when one corna has the domain and returns that corna; otherwise CornaNotFound |
| Store.AtMostOneMatch | corna/db/models.py:54-177 | under the unique username, cookie id and domain columns, each lookup matches at most one row |
| Store.UserUuidFinds | corna/middleware/alchemy.py:211-234 | on a consistent database the subquery finds exactly the user with that name |
| Store.CornaUuidFinds | corna/middleware/alchemy.py:211-234 | on a consistent database the subquery finds exactly the corna with that domain |
| Store.CookieId | corna/middleware/alchemy.py:277 | a missing cookie fails; otherwise the cookie id is read exactly when the signed cookie decodes, and is its decoded message |
| Store.CurrentUser | corna/middleware/alchemy.py:259-304 | a found user exists and is held by a session with the cookie's id; no such session raises the caller's exception; a bad cookie passes its error on |
| Store.SessionUser | corna/utils/utils.py:102-131 | a found user is held by a session with the cookie's id; no such session raises the caller's exception; a bad cookie passes its error on |
| Store.CurrentUserAgrees | corna/utils/utils.py:102-131 | on a consistent database, the utils and the alchemy readings of the current user agree |
| Store.CurrentUserOfSession | corna/middleware/alchemy.py:259-304 | a cookie that decodes to a session's cookie id makes that session's user the current user |
| Secure.Sign | corna/utils/secure.py:170-192 | the signature is URL-safe base64 that decodes to the expiry, the message and the encoded MAC joined by SPLITTR |
| Secure.RSplit | corna/utils/secure.py:246 | an unlimited rsplit on SPLITTR yields at least one field |
| Secure.RSplitFree | corna/utils/secure.py:246 | bytes without SPLITTR split into themselves alone |
| Secure.RSplitLast | corna/utils/secure.py:246 | a last field free of '\|' is split off whole and the rest is split as before |
| Secure.FieldsAsWritten | corna/utils/secure.py:243-248 | without SPLITTR the signature is bad; a success unpacks exactly the three fields of the unlimited rsplit |
| Secure.UnsignAsWritten | corna/utils/secure.py:225-248 | an undecodable signature is bad; otherwise the decoded bytes are split as written |
| Secure.FieldsAsWrittenOfFrame | corna/utils/secure.py:243-248 | the as-written split recovers the three fields when none holds '\|' |
| Secure.UnsignAsWrittenSign | corna/utils/secure.py:170-248 | the as-written unsign inverts sign, but only for messages free of '\|' |
| Secure.FieldsAsWrittenMisSplit | corna/utils/secure.py:246 | a message starting with '\|' loses that byte to the expiry field |
| Secure.UnsignAsWrittenMisSplits | corna/utils/secure.py:246 | the signed message `b"\|x"` comes back from the as-written unsign as `b"x"` |
| Secure.FieldsAsWrittenFour | corna/utils/secure.py:246 | a message holding SPLITTR splits into four fields and the unpacking fails |
| Secure.UnsignAsWrittenUnpackError | corna/utils/secure.py:246 | the as-written unsign of a signed message holding SPLITTR raises the unpacking ValueError |
| Secure.Fields | corna/utils/secure.py:243-248 | the intended split fails only with BadSignature, and a success gives three fields that frame back to the input |
| Secure.Unsign | corna/utils/secure.py:225-248 | an undecodable signature is bad; otherwise the decoded bytes are split as intended |
| Secure.FieldsOfFrame | corna/utils/secure.py:243-248 | the intended split recovers all three fields of any frame whose expiry and MAC are free of '\|' |
| Secure.UnsignSign | corna/utils/secure.py:170-248 | unsign inverts sign for every message, whatever bytes it holds |
| Secure.Verify | corna/utils/secure.py:195-222 | an undecodable signature raises BadSignature; otherwise the answer is true exactly when the decoded signature equals the MAC of the message |
| Secure.VerifyEncodedMac | corna/utils/secure.py:182-222 | the encoded MAC of a message verifies it, and verifies another message only if their MACs collide |
| Secure.VerifyBareMessage | corna/utils/secure.py:195-222 | the plain encoding of a message is no signature of it unless the MAC leaves it unchanged |
| Secure.ValidOf | corna/utils/secure.py:263-283 | BadSignature yields false; a true answer needs a matching MAC and an expiry that has not passed; other errors escape |
| Secure.IsValid | corna/utils/secure.py:263-283 | with the intended unsign: a bad signature is not valid; true exactly when the MAC decodes to the MAC of the message and the expiry parses and has not passed; the only error is the expiry parse error |
| Secure.IsValidAsWritten | corna/utils/secure.py:263-283 | with the as-written unsign: BadSignature is not valid; true exactly when the MAC matches and the expiry has not passed; an error is the expiry parse error or the unsign error other than BadSignature |
| Secure.IsValidOfSign | corna/utils/secure.py:170-283 | a signature made by sign is valid exactly when its expiry has not passed |
| Secure.IsValidErrors | corna/utils/secure.py:263-283 | with the intended unsign, is_valid raises nothing but the expiry parse error |
| Secure.IsValidAsWrittenRaises | corna/utils/secure.py:263-283 | the as-written is_valid lets the unpacking ValueError escape for a signed message holding SPLITTR |
| Secure.DecodedMessage | corna/utils/secure.py:286-299 | the result is the UTF-8 decoding of the unsigned message; a bad signature or bad UTF-8 is the matching error |
| Secure.DecodedMessageOfSign | corna/utils/secure.py:170-299 | decoding the message of a signed string gives the string back |
| Secure.DecodedMessageAsWritten | corna/utils/secure.py:286-299 | over the as-written unsign: the result is the UTF-8 decoding of its message, and its errors, the unpacking ValueError included, come through unchanged |
| Secure.DecodedMessageAsWrittenRaises | corna/utils/secure.py:246-297 | as written, decoded_message of a signed message holding SPLITTR raises the unpacking ValueError |
| Secure.UniqueTokenFrom | corna/utils/secure.py:76-88 | from a given attempt on, the first draw not already taken wins; if all remaining draws are taken the generation fails |
| Secure.GenerateUniqueToken | corna/utils/secure.py:58-88 | the token is untaken and is the first untaken draw among the `tries` attempts; failure means every attempt drew a taken token |
| Encodings.ToBytes | corna/utils/encodings.py:13-29 | bytes pass through unchanged, and a str becomes bytes that UTF-8 decode back to it |
| Encodings.FromBytes | corna/utils/encodings.py:32-48 | a str passes through unchanged, and the UTF-8 encoding of any string decodes back to that string |
| Encodings.Utf8RoundTrip | corna/utils/encodings.py:28-47 | decoding the UTF-8 encoding of a string gives the string back |
| Encodings.UnicodeRoundTrips | corna/utils/encodings.py:28-47 | the UTF-8 round trip holds for every string at once |
| Encodings.ToAsciiIgnore | corna/utils/encodings.py:73 | bytes pass through, and an ASCII encoding with errors ignored never lengthens a str |
| Encodings.ToUrlSafe | corna/utils/encodings.py:59 | the URL-safe encoder swaps '+' for '-' and '/' for '_' position by position and changes nothing else |
| Encodings.FromUrlSafe | corna/utils/encodings.py:77 | the URL-safe decoder swaps '-' for '+' and '_' for '/' position by position and changes nothing else |
| Encodings.FromUrlSafeUndoes | corna/utils/encodings.py:59-77 | the decoder's translation undoes the encoder's on text without '-' or '_' |
| Encodings.StripPad | corna/utils/encodings.py:59 | stripping '=' keeps a prefix that does not end in '=', and everything removed was '=' |
| Encodings.Base64Encode | corna/utils/encodings.py:51-59 | the encoding uses only the URL-safe alphabet, and its length is never one more than a multiple of four |
| Encodings.EncodedShape | corna/utils/encodings.py:59 | the padded encoding is an unpadded core of URL-safe characters followed by just the pads that complete its last group |
| Encodings.PadCount | corna/utils/encodings.py:74 | `-n % 4` is below four and brings the length to a multiple of four |
| Encodings.PadTo4 | corna/utils/encodings.py:74 | padding keeps the input as a prefix and appends only the '=' needed for a multiple of four |
| Encodings.A2bLength | corna/utils/encodings.py:77 | the base64 decoder only appends to its output, and at most three bytes for every four characters read |
| Encodings.Base64Decode | corna/utils/encodings.py:62-79 | a decoded result holds at most three bytes for each group of four ASCII characters, padding included |
| Encodings.A2bOfB2a | corna/utils/encodings.py:77 | the base64 decoder applied to a full padded encoding appends exactly the encoded bytes |
| Encodings.Base64RoundTrip | corna/utils/encodings.py:51-79 | base64_decode(base64_encode(x)) gives back x for every byte string |
| Encodings.Base64RoundTripStr | corna/utils/encodings.py:51-79 | for a str argument, the round trip gives back its UTF-8 bytes |
| Encodings.Base64RejectsLengthOneMod4 | corna/utils/encodings.py:62-79 | alphabet-only text whose length is one more than a multiple of four raises the decoding error |
| ImageProc.HashToDir | corna/utils/image_proc.py:73-91 | the path is three characters longer than the hash, and a hash of nine or more characters is cut after its 3rd, 6th and 9th characters |
| ImageProc.HashToDirRoundTrip | corna/utils/image_proc.py:73-91 | removing the inserted separators from the path gives a slash-free hash back, whatever its length |
| ImageProc.HashToDirInjective | corna/utils/image_proc.py:73-91 | two slash-free hashes share a directory only if they are equal |
| ImageProc.Save | corna/utils/image_proc.py:94-140 | an upload without a file name is refused with the OSError message; otherwise the answer is the bucket, the hashed directory and the secured name, relative to the picture directory |
| ImageProc.IsImage | corna/utils/image_proc.py:167-177 | true exactly when the name has a '.' and the lower-cased text after the last '.' is one of the image extensions |
| ImageProc.IsVideo | corna/utils/image_proc.py:180-190 | true exactly when the name has a '.' and the lower-cased text after the last '.' is one of the video extensions |
| ImageProc.ImageOrVideo | corna/utils/image_proc.py:20-21 | the two extension sets share nothing, so no file is both an image and a video |
| ImageProc.NatToHex | corna/utils/image_proc.py:49 | `hex(n)[2:]` is a non-empty run of lower-case hex digits with no leading zero |
| ImageProc.NatToHexValue | corna/utils/image_proc.py:49 | the hex digits read back give the number |
| ImageProc.NatToHexLength | corna/utils/image_proc.py:49 | a number below 16^k has at most k hex digits |
| ImageProc.RandomHash | corna/utils/image_proc.py:37-49 | the hash of a 128-bit draw is 1 to 32 lower-case hex digits that read back as the draw |
| Utils.IsAllowed | corna/utils/utils.py:293-304 | true exactly when the name has a '.' and the lower-cased text after the last '.' is an allowed extension |
| Utils.ValidateFiles | corna/utils/utils.py:307-331 | a set minimum fails too few files, then a set maximum fails too many, then any disallowed name fails; otherwise the files pass |
| Utils.ZeroBoundsIgnored | corna/utils/utils.py:314-320 | a bound of 0 checks nothing, just like no bound |
| Utils.NestedUpdate | corna/utils/utils.py:242-257 | every key of the update is written; a mapping value is the recursive merge of that mapping into what the destination holds under the key (an empty dict when nothing); other values overwrite; keys only in the destination stay; a non-dict destination raises the write error of the update's values, and every failure is a TypeError or an AttributeError |
| Utils.UpdateOkIffNoClash | corna/utils/utils.py:252-256 | the update succeeds exactly when no key path leads to a non-empty mapping in the update and a non-dict value in the destination |
| Utils.UpdateWritesLeaves | corna/utils/utils.py:252-256 | after a successful update, every non-mapping value the update holds at a key path is the value the result holds there |
| Utils.UpdateKeepsUntouched | corna/utils/utils.py:252-256 | after a successful update, a key path of the destination that leaves the update's mappings at some depth reaches the same value as before |
| Utils.WriteError | corna/utils/utils.py:253-256 | an update whose values are all mappings fails on a non-dict with AttributeError (from `dest.get`), one with no mapping value with TypeError (from item assignment) |
| Utils.MergeIntoScalarIsAttributeError | corna/utils/utils.py:253-254 | merging a non-empty mapping of mappings into a key that holds a scalar raises AttributeError |
| Utils.AssignIntoScalarIsTypeError | corna/utils/utils.py:255-256 | writing a plain value into a scalar destination raises TypeError |
| Utils.UpdateEmptyCopies | corna/utils/utils.py:242-257 | updating an empty dict yields a copy of the update |
| Utils.UpdateIdempotent | corna/utils/utils.py:242-257 | applying the same update twice is applying it once |
| Utils.AttributeFilter | corna/utils/utils.py:343-368 | an href or src on an a or img tag is kept only if it is a valid URL, and an img src only if it also starts with the API URL; other attributes pass unchanged |
| Utils.ForeignImageDropped | corna/utils/utils.py:352-368 | a valid URL hosted elsewhere is dropped as an img src but kept as an a href |
| MediaControl.GetRange | corna/controls/media_control.py:163-186 | a range is answered only for a header starting `bytes=` with a '-', and never for `bytes=-N` |
| MediaControl.GetRangeAccepts | corna/controls/media_control.py:172-179 | a range is answered exactly for headers of the form `bytes=`, at least one digit, then '-' |
| MediaControl.GetRangeOf | corna/controls/media_control.py:181-186 | `bytes=<d>-<t>` reads as the start d and the digits that t starts with, or the last byte of the file when t starts with none |
| MediaControl.GetRangeBoth | corna/controls/media_control.py:163-186 | `bytes=S-E` yields (S, E) whatever follows E |
| MediaControl.GetRangeOpenEnded | corna/controls/media_control.py:184 | `bytes=S-` yields (S, size - 1) |
| MediaControl.VideoStream | corna/controls/media_control.py:189-217 | every block is non-empty and at most the block size, and the blocks in order are exactly the requested window cut to the end of the file |
| MediaControl.UpdateMeta | corna/controls/media_control.py:422-459 | the metadata keeps the new total and the sorted distinct received indices with the new one added, and the count returned is their number |
| MediaControl.SortedSet | corna/controls/media_control.py:452-454 | `sorted(set(s))` is strictly increasing and holds exactly the values of s |
| MediaControl.SortedUnique | corna/controls/media_control.py:452-454 | a set has only one strictly sorted listing |
| MediaControl.UpdateMetaAgain | corna/controls/media_control.py:422-459 | recording the same index again changes only the total |
| MediaControl.PartNameRoundTrip | corna/controls/media_control.py:318 | every index is read back from its `{i:06d}.part` file name |
| MediaControl.PartNameInjective | corna/controls/media_control.py:318 | different chunks never share a part file |
| MediaControl.SaveChunk | corna/controls/media_control.py:295-323 | the part is written under its index name, the metadata records the index and total, and the count is the number of distinct received indices |
| MediaControl.StoredMessage | corna/controls/media_control.py:288 | the per-chunk message is never the completion message |
| MediaControl.ProcessChunk | corna/controls/media_control.py:243-292 | only the upload's own partition changes; the reply reports completion exactly when the distinct received count reaches the total |
| MediaControl.ProcessChunkKeepsStored | corna/controls/media_control.py:243-292 | every received index keeps a part file on disk |
| MediaControl.ProcessChunkResend | corna/controls/media_control.py:243-292 | sending a chunk again replaces its part and leaves the count as one send would |
| MediaControl.SaveChunkAgain | corna/controls/media_control.py:295-323 | saving the same index twice is saving the second blob once |
| MediaControl.ConcatPartsInOrder | corna/controls/media_control.py:488-492 | each part sits whole and in index order inside the merged file |
| MediaControl.FileSize | corna/controls/media_control.py:522-544 | the size is known exactly when parts 0 to total-1 are all present, and is then the length of their concatenation; otherwise the first missing part is reported |
| MediaControl.ConcatChunks | corna/controls/media_control.py:462-496 | the merge succeeds exactly when all parts are present and is then the parts in index order; otherwise the first missing part is reported |
| MediaControl.AssemblerAsWritten | corna/controls/media_control.py:353-419 | a missing part fails first; a merge refused because the lock exists still deletes the lock |
| MediaControl.LockStolenAsWritten | corna/controls/media_control.py:408-417 | while one merge holds the lock a second request is refused, but the third request is then let through |
| MediaControl.Assembler | corna/controls/media_control.py:353-419 | the partition is left as it was; the merge succeeds exactly when all parts exist, their total is within 100 MiB and no lock is held, giving the parts in order; otherwise FileNotFound, EFBIG or Merge in progress |
| MediaControl.LockHeldCorrected | corna/controls/media_control.py:408-417 | with the lock left to its owner, every request made while it is held is refused |
| MediaControl.MergeChunks | corna/controls/media_control.py:326-350 | an upload without metadata is refused, then one with fewer received indices than its total, naming how many are missing; otherwise the partition is assembled |
| MediaControl.CompleteUploadMerges | corna/controls/media_control.py:326-350 | an upload with every chunk received and stored, unlocked and small enough, merges into its parts in order |
| MediaControl.CompleteIsOnlyACount | corna/controls/media_control.py:284-343 | completion counts distinct indices only: a lone chunk 5 completes a one-chunk upload, whose merge then cannot find part 0 |
| AuthControl.Register | corna/controls/auth_control.py:13-42 | a known address is refused; a success adds exactly one emails row with the hashed password and one users row pointing at it, and changes nothing else; unused address, uuid and username always succeed |
| AuthControl.RegisterKeepsValid | corna/controls/auth_control.py:13-42 | a successful registration keeps every constraint of the account tables |
| AuthControl.RegisterTwice | corna/controls/auth_control.py:19-25 | registering the same address a second time is refused |
| AuthControl.Login | corna/controls/auth_control.py:45-88 | an unknown address, then a wrong password, are refused; a success finds the one user of the address, adds one session with unused ids for a user who had none, and hands out the signed cookie id |
| AuthControl.LoginSucceeds | corna/controls/auth_control.py:45-88 | a known address, a matching password, one user without a session and free first draws always log in |
| AuthControl.RegisterThenLogin | corna/controls/auth_control.py:13-88 | a freshly registered user can log in with the same password, and the session goes to that user |
| AuthControl.LoginKeepsValid | corna/controls/auth_control.py:45-88 | a successful login keeps every constraint |
| AuthControl.AddSessionKeepsValid | corna/controls/auth_control.py:72-78 | a session row with unused ids, for an existing user who has none, keeps every constraint |
| AuthControl.LoginCookieIdentifies | corna/controls/auth_control.py:68-88 | the signed cookie login hands out decodes to the new cookie id and identifies the user who logged in |
| AuthControl.DeleteUserSession | corna/controls/auth_control.py:91-105 | a cookie that does not decode fails; otherwise exactly the sessions with its cookie id are dropped and nothing else changes |
| AuthControl.LoginThenLogout | corna/controls/auth_control.py:45-105 | logging out with the cookie login handed out gives back the state before the login |
| AuthControl.DeleteOwnSession | corna/controls/auth_control.py:91-105 | deleting the session a cookie names removes exactly the sessions with that cookie id and leaves its user without one; users and emails are untouched |
| AuthControl.DeleteSessionIdempotent | corna/controls/auth_control.py:91-105 | deleting touches no user or email row, and a second delete changes nothing |
| AuthRoutes.RegisterRoute | corna/blueprints/v1/auth.py:116-135 | 201 and the new state exactly when registration succeeds, 400 exactly for an address in use, otherwise a server error; the cookie is never touched |
| AuthRoutes.LoginOutcome | corna/blueprints/v1/auth.py:166-185 | 200 with the signed cookie set exactly on success, 404 exactly for an unknown address, 400 exactly for a wrong password, otherwise a server error; no error commits or sets a cookie |
| AuthRoutes.LoginRouteAsWritten | corna/blueprints/v1/auth.py:152-185 | without a cookie the login proceeds; any request carrying a cookie fails on the undefined session_exists with a server error |
| AuthRoutes.ReloginFailsAsWritten | corna/blueprints/v1/auth.py:157-162 | as written, logging in again from a browser holding a live session cookie is a server error |
| AuthRoutes.LoginRoute | corna/blueprints/v1/auth.py:152-185 | a cookie naming a live session has that session deleted before the login proper; only a successful login commits or sets the cookie |
| AuthRoutes.ReloginNeedsDelete | corna/blueprints/v1/auth.py:157-167 | without the deletion, a second login by the same user breaks the one-session-per-user constraint |
| AuthRoutes.ReloginReplacesSession | corna/blueprints/v1/auth.py:152-185 | logging in again with a live session cookie succeeds, replacing the old session with the new one and keeping the rest |
| AuthRoutes.LogoutRoute | corna/blueprints/v1/auth.py:188-219 | no cookie answers 200 and changes nothing; a cookie ends its sessions and clears the cookie; a bad cookie is a server error |
| AuthRoutes.LoginThenLogoutRoute | corna/blueprints/v1/auth.py:152-219 | after login the handed-out cookie is logged in; logging out with it restores the earlier state and clears the cookie |
| AuthRoutes.IsLoggedInAsWritten | corna/blueprints/v1/auth.py:228-239 | as written, no cookie answers (200, false) and every request with a cookie is a server error |
| AuthRoutes.StatusCheckFailsAsWritten | corna/blueprints/v1/auth.py:236 | a cookie that names a live session is logged in as intended, yet the as-written check answers a server error |
| AuthRoutes.IsLoggedIn | corna/blueprints/v1/auth.py:228-239 | logged in exactly when a cookie is present, decodes, and some session carries its id |
| CornaControl.DomainUnique | corna/controls/corna_control.py:39-47 | true exactly when no corna has the domain |
| CornaControl.Create | corna/controls/corna_control.py:50-79 | no session user is NoneExistingUser, a session whose user row is gone is AttributeError, an owner is refused PreExistingCorna, then a taken domain is exactly DomainExists; for a session user, create succeeds exactly when the user exists, owns no corna, the domain is free and the new key is unused (a used key being exactly IntegrityError), and a success adds exactly one corna owned by the current user |
| CornaControl.CreateKeepsValid | corna/controls/corna_control.py:50-79 | create keeps one corna per owner, unique domains and existing owners |
| CornaControl.CreateTwice | corna/controls/corna_control.py:64-66 | a user who created a corna is refused a second one, whatever its domain |
| CornaControl.DomainTakenRefusesOthers | corna/controls/corna_control.py:68-69 | once a corna holds a domain, nobody can create another under it |
| CornaControl.GetDomainAsWritten | corna/controls/corna_control.py:82-106 | as written, any logged-in user gets AttributeError, since the user row has no `user_uuid` |
| CornaControl.GetDomainFailsAsWritten | corna/controls/corna_control.py:101 | right after creating a corna, the as-written get_domain fails while the intended one returns the new domain |
| CornaControl.GetDomain | corna/controls/corna_control.py:82-106 | the domain returned belongs to a corna the current user owns, and NoDomain is answered exactly when the user owns none |
| CornaControl.CreateThenGetDomain | corna/controls/corna_control.py:50-106 | after create, get_domain hands the creator the new domain |
| CornaControl.GetDomainOnValid | corna/controls/corna_control.py:98-103 | on a consistent database get_domain never finds several cornas |
| PostControl.BuildUrl | corna/controls/post_control.py:379-390 | the URL starts with the posts base, has the length of its parts plus three separators, and ends with the extension |
| PostControl.BuildUrlSplits | corna/controls/post_control.py:379-390 | splitting a URL on '/' gives the base's pieces, then the domain, the type and the extension |
| PostControl.BuildUrlInjective | corna/controls/post_control.py:379-390 | different slash-free (extension, domain, type) triples give different URLs |
| PostControl.SaveText | corna/controls/post_control.py:204-238 | with neither title nor content nothing is written; otherwise exactly one text row with the post's fields is added, failing only on a taken uuid |
| PostControl.Link | corna/controls/post_control.py:241-273 | no slugs changes nothing; a success links exactly the rows whose extension is listed to the post, and changes no other row or table; failures are PostDoesNotExist or several matches |
| PostControl.LinkOkIff | corna/controls/post_control.py:258-273 | linking succeeds exactly when every slug names one orphaned row and no slug is listed twice |
| PostControl.LinkTwiceFails | corna/controls/post_control.py:269-270 | once linked, a slug cannot be linked again, to this post or another |
| PostControl.LinkedRowsOf | corna/controls/post_control.py:241-273 | after linking, the post's images are exactly the rows the slugs name |
| PostControl.CreateArtefacts | corna/controls/post_control.py:149-201 | a text post without text and a photo post without images are refused with their messages; a success changes only the text and media tables |
| PostControl.CreateArtefactsOkIff | corna/controls/post_control.py:149-201 | the artefacts are written exactly when the type's content is present, a text row to write has a free key, and every uploaded slug names one orphaned media row, none twice |
| PostControl.Admit | corna/controls/post_control.py:108-115 | the checks run in order: current user, corna, write permission, content type; past the session and the corna, the request is admitted exactly when the user exists, may write and the type is known; a success names the session's user and the domain's corna |
| PostControl.AddPost | corna/controls/post_control.py:117-146 | exhausted draws fail; a success adds one post row with an unused URL extension, the draft's type, the corna and author, and touches only the posts, text and media tables |
| PostControl.AddPostOkIff | corna/controls/post_control.py:117-146 | the writes succeed exactly when a URL extension is drawn, the post key is free and the draft's artefacts can be written |
| PostControl.Create | corna/controls/post_control.py:76-146 | any failed check is passed on; a success adds a new post by the current user on the domain's corna and leaves users and cornas alone |
| PostControl.CreateOkIff | corna/controls/post_control.py:76-146 | create succeeds exactly for a logged-in, existing user who may write on an existing corna, with a known type, a drawn URL extension, a free post key and writable artefacts |
| PostControl.TextOf | corna/controls/post_control.py:330 | a post's text row is found exactly when it has one, and it points at the post |
| PostControl.ImageUrls | corna/controls/post_control.py:336-341 | every linked image contributes its image URL, and there are URLs exactly when there are linked images |
| PostControl.DomainOf | corna/controls/post_control.py:323 | the domain is read exactly when the post's corna exists; otherwise AttributeError |
| PostControl.ConstructTextPost | corna/controls/post_control.py:314-343 | a text post is shaped exactly when its corna and text row exist, with the row's content, its title only when non-empty, and image URLs only when there are images |
| PostControl.ConstructImagePost | corna/controls/post_control.py:346-376 | an image post is shaped exactly when its corna exists, with its title and caption only when the text row holds non-empty ones |
| PostControl.ParsePost | corna/controls/post_control.py:299-311 | an unknown type is InvalidContentType; a success keeps the type and is a text post exactly for text |
| PostControl.PostsOf | corna/controls/post_control.py:290-294 | the listed posts are exactly those of the corna, in the order the rows come |
| PostControl.ParseAll | corna/controls/post_control.py:296 | the list succeeds exactly when every post parses, with one entry per post in order; a failure is the error of some post |
| PostControl.Get | corna/controls/post_control.py:276-296 | an unknown domain is CornaNotFound; otherwise every post of the corna is parsed in row order |
| PostControl.AddPostTextWrites | corna/controls/post_control.py:124-238 | adding a text post without images writes its post row and exactly one text row holding the draft's fields |
| PostControl.ParseStoredText | corna/controls/post_control.py:314-343 | a stored text post with one text row and no images parses to that row's fields and its own URL |
| PostControl.AddPostThenParseText | corna/controls/post_control.py:76-343 | a text post added without images reads back with the draft's content, its title when non-empty, and its own URL |
| PostControl.CreateThenParseText | corna/controls/post_control.py:76-343 | the same round trip through create, with the domain posted to in the URL |
| PostControl.AddPostThenParsePicture | corna/controls/post_control.py:76-376 | a picture post reads back with one image URL per uploaded slug and nothing else |
| RolesControl.RolesNamed | corna/middleware/alchemy.py:468-519 | the roles matched are exactly those on the given corna stored under the lower-cased name; a NULL corna matches none |
| RolesControl.FindRole | corna/middleware/alchemy.py:468-519 | a role is found only when exactly one row matches the lower-cased name on that corna |
| RolesControl.Authorize | corna/controls/roles_control.py:86-127 | a missing session fails with its own error; otherwise the gate opens exactly when the caller may change permissions on the domain, and yields the caller |
| RolesControl.New | corna/controls/roles_control.py:30-83 | a missing session fails with its own error; for a logged-in caller, the corna is missing exactly when the answer is CornaNotFound; on an existing corna the answer is Unauthorized exactly when the caller may not change permissions, then DuplicateRole exactly when a role of that name (in any case) exists; it succeeds exactly when the caller is allowed, the name is free and the drawn key is unused, and the only change is one new role row holding the lower-cased name, the create_role mask, the caller and the corna |
| RolesControl.Edit | corna/controls/roles_control.py:86-127 | the shared rewrite: an unknown role is refused, and success changes that one role's mask and nothing else |
| RolesControl.Update | corna/controls/roles_control.py:86-127 | after the gate, an unknown role is refused; success replaces only that role's mask with the mask built from the listed permissions |
| RolesControl.Add | corna/controls/roles_control.py:166-205 | after the gate, an unknown role is refused; success changes only that role's mask, by adding the one permission |
| RolesControl.Remove | corna/controls/roles_control.py:208-250 | after the gate, an unknown role is refused; success changes only that role's mask, by removing the one permission |
| RolesControl.Delete | corna/controls/roles_control.py:130-163 | after the gate, exactly the roles of that name on the corna are removed; deleting none is a no-op; a role still held makes the database raise an integrity error |
| RolesControl.Give | corna/controls/roles_control.py:253-300 | after the gate, an unknown user is refused before an unknown role; success adds exactly the (role, user) pair and changes nothing else |
| RolesControl.Take | corna/controls/roles_control.py:303-344 | after the gate it never fails; it removes at most one assignment, and only the pair of that user and that role |
| RolesControl.Granted | corna/controls/roles_control.py:347-375 | lists exactly the permissions the mask carries, keeping the enumeration's order |
| RolesControl.TrueKeys | corna/controls/roles_control.py:372-374 | keeps exactly the keys whose value is true, in table order |
| RolesControl.PermissionsList | corna/controls/roles_control.py:347-375 | an unknown role is refused exactly when no single role of that name exists on the corna; otherwise the result is the names the role's mask carries |
| RolesControl.TrueKeysOfTable | corna/controls/roles_control.py:360-375 | the true keys of the permission table built for a mask are the lower-case names of the permissions the mask carries |
| RolesControl.PermissionsListInEnumOrder | corna/controls/roles_control.py:347-375 | the listed names are exactly the lower-case names of the role's permissions, in enumeration order |
| RolesControl.UserList | corna/controls/roles_control.py:378-409 | a username is listed exactly when its user holds the role |
| RolesControl.UserRoleList | corna/controls/roles_control.py:412-444 | a role name is listed exactly when the user holds that role on this corna; a domain with no corna lists nothing |
| RolesControl.CornaRoleList | corna/controls/roles_control.py:447-467 | a name is listed exactly when a role of that name is on the corna |
| RolesControl.UserPermList | corna/controls/roles_control.py:470-509 | an unknown permission name raises a key error exactly; otherwise a username is listed exactly when its user holds a role on the corna whose mask carries that permission |
| RolesControl.MaskEqualsValueIsHolds | corna/controls/roles_control.py:492 | for a single permission bit, the equality test on the masked value agrees with the permission being held |
| RolesControl.UnheldRoleChangesNoCheck | corna/middleware/check.py:44-59 | adding a new role row, which nobody holds yet, changes no permission check |
| RolesControl.MoreMembersKeepChecks | corna/middleware/check.py:44-59 | adding role assignments never makes a passing permission check fail |
| RolesControl.RolesNamedAtMostOne | corna/controls/roles_control.py:71-72 | under the database constraints a role name is taken at most once per corna |
| RolesControl.NewKeepsValid | corna/controls/roles_control.py:30-83 | a successful new keeps every table constraint, and the new name is the only one of its kind on the corna |
| RolesControl.AfterNew | corna/controls/roles_control.py:30-83 | after new, the same caller still passes the same gate and the new row is the one role of that name on the corna |
| RolesControl.NewTwiceIsDuplicate | corna/controls/roles_control.py:71-72 | creating a role and then creating it again, in any capitalisation, is refused as a duplicate |
| RolesControl.NewThenDelete | corna/controls/roles_control.py:30-163 | deleting the role just created restores the state before it |
| RolesControl.DeleteForgetsRole | corna/controls/roles_control.py:130-163 | after a successful delete no role of that name remains on the corna |
| RolesControl.DeleteKeepsValid | corna/controls/roles_control.py:130-163 | delete keeps every table constraint |
| RolesControl.EditKeepsValid | corna/controls/roles_control.py:86-250 | update, add and remove keep every table constraint |
| RolesControl.UpdateThenList | corna/controls/roles_control.py:86-375 | after update, the role lists exactly the permissions the update named, in enumeration order |
| RolesControl.AfterGive | corna/controls/roles_control.py:253-300 | after give the same caller passes the same gate and the user holds the role |
| RolesControl.GiveTwice | corna/controls/roles_control.py:253-300 | giving a role the user already holds changes nothing |
| RolesControl.GiveKeepsValid | corna/controls/roles_control.py:253-300 | give keeps every table constraint |
| RolesControl.GiveThenTake | corna/controls/roles_control.py:253-344 | taking back a role the user did not hold before it was given restores the state before the give |
| RolesControl.TakeKeepsValid | corna/controls/roles_control.py:303-344 | take keeps every table constraint |
| RolesRoutes.CreateRoute | corna/blueprints/v1/roles.py:75-86 | 201 exactly when new succeeds; a duplicate role or a missing corna is 400; an unauthorized caller is 401; any other error escapes as a server error; the database changes only on success |
| RolesRoutes.UpdateRoute | corna/blueprints/v1/roles.py:106-117 | 204 exactly when update succeeds; an unknown role is 400; an unauthorized caller is 401; the database changes only on success |
| RolesRoutes.DeleteRoute | corna/blueprints/v1/roles.py:153-160 | 204 exactly when delete succeeds; only an unauthorized caller is answered 401, and every other error escapes as a server error; the database changes only on success |
| RolesRoutes.AddRoute | corna/blueprints/v1/roles.py:204-215 | 204 exactly when add succeeds; an unknown role is 400; an unauthorized caller is 401; the database changes only on success |
| RolesRoutes.RemoveRoute | corna/blueprints/v1/roles.py:236-247 | 204 exactly when remove succeeds; an unknown role is 400; an unauthorized caller is 401; the database changes only on success |
| RolesRoutes.GiveRoute | corna/blueprints/v1/roles.py:289-303 | 201 exactly when give succeeds; an unknown role or user is 400; an unauthorized caller is 401; the database changes only on success |
| RolesRoutes.TakeRoute | corna/blueprints/v1/roles.py:320-329 | 201 exactly when take succeeds; an unauthorized caller is 401; the database changes only on success |
| RolesRoutes.PermListRoute | corna/blueprints/v1/roles.py:363-378 | 400 exactly when no single role of that name is on the corna; otherwise 200 with the role's permission names |
| RolesRoutes.UserPermsListRoute | corna/blueprints/v1/roles.py:537-545 | an unknown permission name is an uncaught server error; otherwise 200 with the users holding that permission |
| RolesRoutes.CreateOnCorna | corna/blueprints/v1/roles.py:75-86 | on an existing corna a logged-in caller gets 401 exactly when not allowed to change permissions, 400 with nothing changed when allowed but the name is taken, and 201 exactly when allowed with a free name and an unused key, with the new role added |
| RolesRoutes.CreateOnMissingCorna | corna/blueprints/v1/roles.py:75-86 | a logged-in caller asking for a role on a domain with no corna gets 400 and the database is unchanged |
| RolesRoutes.CreateTwice | corna/blueprints/v1/roles.py:75-86 | posting the same role twice is created once and then answered 400 with nothing added |
| RolesRoutes.DeleteMissingIsNoOp | corna/blueprints/v1/roles.py:153-160 | an allowed caller deleting a role that does not exist gets 204 and the database is unchanged |
| RolesRoutes.GiveRouteTwice | corna/blueprints/v1/roles.py:289-303 | giving the same role twice is answered 201 both times and the second call changes nothing |
| RolesRoutes.TakeNeverRejects | corna/blueprints/v1/roles.py:320-329 | once the caller passes the gate, take is always answered 201 |
| PostsRoutes.HandleJavascriptNull | corna/blueprints/v1/posts.py:33-47 | a key is kept exactly when its value is not the string "null", and kept keys keep their values |
| PostsRoutes.HandleJavascriptNullIdempotent | corna/blueprints/v1/posts.py:33-47 | filtering twice gives the same map as filtering once |
| PostsRoutes.HandleJavascriptNullSubMap | corna/blueprints/v1/posts.py:33-47 | only keys are lost, and a map with no "null" values is kept whole |
| PostsRoutes.LoginRequired | corna/utils/utils.py:134-159 | the route runs exactly when the cookie is present, non-empty and valid; otherwise the answer is 401, or a server error exactly when the validity check itself raises |
| PostsRoutes.CreateRoute | corna/blueprints/v1/posts.py:98-146 | the login gate answers first; after it, 201 exactly when create succeeds, 400 exactly for a missing corna, a bad content type or a missing upload, 401 for an unauthorized caller; the database changes only on success |
| PostsRoutes.ListRoute | corna/blueprints/v1/posts.py:149-167 | 200 with the parsed posts exactly when listing succeeds; 400 exactly when the domain has no single corna; every other error is a server error with no posts |
| SubdomainControl.CurrentCorna | corna/controls/subdomain_control.py:24-46 | succeeds exactly when one corna has the domain, and returns it; none is a corna-not-found error and several a multiple-results error |
| SubdomainControl.PostTitle | corna/controls/subdomain_control.py:49-63 | a title is given exactly when the post's text row has a non-empty one, and it is that title |
| SubdomainControl.HtmlFragment | corna/controls/subdomain_control.py:66-79 | a fragment is given exactly when the post's text row has non-empty HTML, and it is that HTML |
| SubdomainControl.ImageHref | corna/controls/subdomain_control.py:82-90 | the URL is the download base followed by the media file's extension, so the extension reads back from it |
| SubdomainControl.ImageHrefInjective | corna/controls/subdomain_control.py:82-90 | different media extensions give different download URLs |
| SubdomainControl.ImageHrefs | corna/controls/subdomain_control.py:120-125 | every media file of the post contributes its download URL, and there are none exactly when the post has no media |
| SubdomainControl.ShowPost | corna/controls/subdomain_control.py:93-127 | the shown post carries the post's identity, type, date, title and HTML; the HTML sits under "content" exactly for text posts and under "caption" otherwise; image URLs appear exactly for picture posts and posts with media |
| SubdomainControl.VisiblePosts | corna/controls/subdomain_control.py:143-153 | a post is kept exactly when it is listed and is a non-deleted post of the corna, and the filter never lengthens the list |
| SubdomainControl.VisiblePostsDistinct | corna/controls/subdomain_control.py:143-153 | filtering a list without repetition gives a list without repetition |
| SubdomainControl.ShowAll | corna/controls/subdomain_control.py:154-157 | one shown entry per post, in the given order |
| SubdomainControl.PostList | corna/controls/subdomain_control.py:130-158 | fails exactly when the subdomain's corna cannot be found, with that error; otherwise every shown post is a visible post of the corna, and every visible post listed is shown |
| SubdomainControl.PostListOnce | corna/controls/subdomain_control.py:130-158 | when the rows list every post once, each visible post is shown exactly once and nothing else is shown |
| SubdomainControl.PostsAt | corna/controls/subdomain_control.py:177-182 | exactly the posts whose URL extension is the one asked for |
| SubdomainControl.SinglePost | corna/controls/subdomain_control.py:161-192 | a corna lookup error is passed on; success shows the one post with that URL extension, which is visible on the subdomain's corna; when at most one post has the extension, success happens exactly when it is visible there; every failure is corna-not-found, multiple-results or post-not-found |
| SubdomainControl.SinglePostIsListed | corna/controls/subdomain_control.py:130-192 | a post a visitor can open on its own page is one the post list shows |
| SubdomainControl.DeletedPostHidden | corna/controls/subdomain_control.py:184-190 | a deleted post is never shown on its own page |
| SubdomainControl.CornaTitle | corna/controls/subdomain_control.py:195-211 | fails exactly when the corna cannot be found; otherwise a title is given exactly when the corna has a non-empty one, and it is that title |
| SubdomainControl.Theme | corna/controls/subdomain_control.py:214-236 | a corna lookup error is passed on; otherwise succeeds exactly when the corna points at an existing theme, giving that theme's path, and fails with a value error when it does not |
| SubdomainControl.BuildPage | corna/controls/subdomain_control.py:239-254 | succeeds exactly when the corna is found and has a theme, and then holds the post list, the corna title and the theme path |
| FrontendControl.CaptionTitle | corna/controls/frontend_control.py:42-43 | the title is a prefix of the caption of at most 91 characters, and the caption is kept whole exactly when it has at most 91 characters |
| FrontendControl.CaptionTitleIdempotent | corna/controls/frontend_control.py:42-43 | cutting a title already cut changes nothing |
| FrontendControl.CaptionTitleOnlyReadsPrefix | corna/controls/frontend_control.py:42-43 | two long captions that agree on their first 91 characters give the same title |
| FrontendControl.PostTitle | corna/controls/frontend_control.py:26-45 | any type other than text or picture gives ""; a text or picture post succeeds exactly when its mapped text or photo row exists, giving its non-empty title or its cut caption and "" otherwise; a missing row is an attribute error |
| FrontendControl.PictureTitleBounded | corna/controls/frontend_control.py:39-45 | a title that is not a text post's own title is at most 91 characters long |
| FrontendControl.FrontendUrl | corna/controls/frontend_control.py:15-19 | the URL starts with the frontend base and a slash, has the length of its pieces plus the separators, and ends with the post uuid |
| FrontendControl.FrontendUrlSplits | corna/controls/frontend_control.py:15-19 | split on '/', a URL of slash-free pieces gives the base's pieces, then the domain, "post", the type and the uuid |
| FrontendControl.FrontendUrlInjective | corna/controls/frontend_control.py:15-19 | different slash-free (domain, type, uuid) triples give different URLs |
| FrontendControl.SimplifiedPostList | corna/controls/frontend_control.py:6-23 | succeeds exactly when every post's title can be read, and then has one entry per post in order, each with the post's uuid, date and type, the domain, the post's title and its frontend URL; a failure is an attribute error |
| FrontendControl.EntryUrlNamesPost | corna/controls/frontend_control.py:6-23 | each entry's URL, read back, names that entry's domain, type and uuid |
| ThemeControl.IsAllowed | corna/controls/theme_control.py:36-47 | a name is allowed exactly when it has a '.' and the text after its last '.' is, ignoring case, html, css or js |
| ThemeControl.NoDotNotAllowed | corna/controls/theme_control.py:46 | a name without any '.' is never allowed |
| ThemeControl.ThemeFileAllowed | corna/controls/theme_control.py:17-47 | any stem, dots and slashes included, followed by ".html", ".css" or ".js" is allowed |
| ThemeControl.SanitizePath | corna/controls/theme_control.py:50-71 | no path or an empty one gives no path, exactly; a path not on disk under the themes directory is refused as such before its extension is looked at; a path on disk with a disallowed extension is refused as the wrong type; otherwise the path is kept unchanged |
| ThemeControl.SanitizePathIdempotent | corna/controls/theme_control.py:50-71 | sanitizing an already sanitized path gives the same result |
| ThemeControl.FindCreator | corna/controls/theme_control.py:104-111 | succeeds exactly when one user has the name, returning that user; none is a missing-user error and several a multiple-results error |
| ThemeControl.ThemesBy | corna/controls/theme_control.py:113-123 | exactly the themes the user created under that name |
| ThemeControl.Add | corna/controls/theme_control.py:74-149 | a missing session is refused first; after it, add fails exactly when the creator cannot be found, the creator already has a theme of that name, the path does not sanitize, or the new key is taken; a reused name is the "Theme already exists" error; success adds only the new theme, which has the given name, description and thumbnail, the named creator, the sanitized path, and MERGED status exactly when a path was given, UNKNOWN otherwise |
| ThemeControl.AddAsWritten | corna/controls/theme_control.py:132-136 | without a thumbnail blob, add as written is Add; with one it always fails |
| ThemeControl.ThumbnailFailsAsWritten | corna/controls/theme_control.py:152-160 | every request Add accepts with a thumbnail fails as written with TypeError, because `image_proc.save` is called with one of its three arguments |
| ThemeControl.AddTwiceFails | corna/controls/theme_control.py:113-123 | a creator cannot add the same theme name twice |
| ThemeControl.Locate | corna/controls/theme_control.py:181-228 | a missing session is passed on; success means the creator exists, exactly one of their themes has the name and the path sanitizes; no matching theme and several matching themes are value errors with their own messages |
| ThemeControl.Update | corna/controls/theme_control.py:181-238 | a failure to locate the theme is passed on; after it, the request is refused exactly when it asks for MERGED without a valid path; success changes only that theme's status, to the one requested |
| ThemeControl.UpdateAsWritten | corna/controls/theme_control.py:181-238 | as written, update fails exactly when the theme cannot be located, and otherwise sets the requested status whatever the path |
| ThemeControl.UpdateAgreesOffGuard | corna/controls/theme_control.py:228-230 | outside the guarded case the code as written and the corrected update agree |
| ThemeControl.MergedWithoutPathAsWritten | corna/controls/theme_control.py:228-230 | whenever the corrected update refuses MERGED for want of a path, the code as written marks the theme merged anyway |
| ThemeControl.ThumbnailUrl | corna/controls/theme_control.py:241-265 | the URL is "" exactly when the theme has no thumbnail or its image row is gone; otherwise it is the download URL of that image |
| ThemeControl.CreatorName | corna/controls/theme_control.py:268-288 | the creator's username when the user row exists, and "" when it is gone |
| ThemeControl.MergedThemes | corna/controls/theme_control.py:298-303 | a theme is kept exactly when it is listed and its status is MERGED |
| ThemeControl.ListOne | corna/controls/theme_control.py:306-312 | the entry carries the theme's id, name and description, its thumbnail URL and its creator's name |
| ThemeControl.ListAll | corna/controls/theme_control.py:305-312 | one entry per theme, in the given order |
| ThemeControl.Get | corna/controls/theme_control.py:291-314 | every entry is a listed MERGED theme with its thumbnail URL and creator name, and every listed MERGED theme has an entry |
| ThemeControl.AddThenGet | corna/controls/theme_control.py:74-314 | a theme just added is listed by get exactly when it was added with a path |
| VaultManager.HexCode | corna/utils/vault_manager.py:49-56 | each nibble is written as a lower-case hex digit that reads back as that nibble and is never a line feed |
| VaultManager.Hexlify | corna/utils/vault_manager.py:49-56 | two hex digits per byte, none of them a line feed |
| VaultManager.Unhexlify | corna/utils/vault_manager.py:49-56 | an odd number of digits is refused exactly, then exactly the inputs holding a character that is not a hex digit; success gives one byte per two digits |
| VaultManager.PairsOfHexlify | corna/utils/vault_manager.py:49-56 | reading hex digits back gives the bytes they were written from |
| VaultManager.UnhexlifyHexlify | corna/utils/vault_manager.py:49-56 | unhexlify undoes hexlify for every byte string |
| VaultManager.UnhexlifyText | corna/utils/vault_manager.py:49 | text holding a non-ASCII character is refused exactly; other text is read as the bytes of its codes |
| VaultManager.CheckHeader | corna/utils/vault_manager.py:40-46 | a file with no line is an index error; otherwise the header passes exactly when its first three ';'-fields are the format id, a known version and the cipher, and each wrong field raises its own error in that order; a header that is missing the version field, or the cipher field after a known version, raises IndexError |
| VaultManager.ParseVault | corna/utils/vault_manager.py:40-56 | a header error is passed on; a body that does not decode is refused with its decoding error; a decoded body that does not split into exactly three parts is refused as such; success means each part decodes to the salt, the HMAC and the ciphertext, in that order |
| VaultManager.DecryptData | corna/utils/vault_manager.py:29-63 | a parse error is passed on; otherwise the result is that of decrypting and loading the parsed envelope |
| VaultManager.InnerSplits | corna/utils/vault_manager.py:49-51 | the decoded body of a well-formed vault splits on line feeds into exactly the three hex parts |
| VaultManager.HeaderSplits | corna/utils/vault_manager.py:40 | a well-formed header line splits on ';' into the format id, the version and the cipher |
| VaultManager.RStripLine | corna/utils/vault_manager.py:40-47 | right-stripping a line ending in a line feed removes only the line feed when the text before it ends in a non-space |
| VaultManager.SealedHeader | corna/utils/vault_manager.py:40-46 | the header of every well-formed vault passes every check |
| VaultManager.SealedBody | corna/utils/vault_manager.py:47-49 | the body line of a well-formed vault, right-stripped and hex-decoded, is the inner body |
| VaultManager.ParseSealed | corna/utils/vault_manager.py:40-56 | every well-formed vault parses back into the envelope it was written from |
| VaultManager.WalkAppend | corna/utils/vault_manager.py:109-110 | walking a path is walking its first part and then the rest from where that ends |
| VaultManager.Crumbs | corna/utils/vault_manager.py:107 | the path always starts with "vault"; without a non-empty key it is only "vault"; otherwise the rest is the key split on '.' |
| VaultManager.GetItem | corna/utils/vault_manager.py:96-111 | without a key the whole "vault" subtree; with a dotted key, the walk from "vault" through each part; success needs a "vault" entry |
| VaultManager.GetItemNested | corna/utils/vault_manager.py:96-111 | a key "a.b" reaches exactly the value stored under vault, then a, then b |
| VaultManager.GetItems | corna/utils/vault_manager.py:114-121 | succeeds exactly when every key succeeds, and then holds one value per key in order; a failure is the error of the first key that fails |

## Left out

- Cryptography is represented by parameters, and none of its algorithms is modelled. This covers:
  - the HMAC-SHA256 of cookie signing;
  - password hashing and checking;
  - AES-256 decryption and PBKDF2 key derivation of the vault, and its YAML loading;
  - the MD5 image hash.
- The clock is a parameter: expiry dates are opaque strings and "has it expired" is a parameter, as are creation timestamps.
- Randomness is a parameter: every uuid4, random short string and random number is a drawn value the caller passes in. The freshness of a drawn uuid is a requirement, and a clash is modelled as the database's integrity error.
- File system I/O is represented by values:
  - the chunk directory is a map from part name to bytes;
  - the merge lock is a flag;
  - the theme directory is an existence predicate.
  The atomic writes, `mkdir`, `clean_chunks` and the vault file reads, together with the cache in `get_decrypted_data`, are left out.
- Concurrency: the merge lock is modelled only by its sequential effect on later requests. MediaControl.AssemblerAsWritten models that effect as written, including the `finally` that removes another request's lock.
- MediaControl.MergeChunks: it is built on the corrected MediaControl.Assembler, so a merge that finds the lock held leaves it in place. As written (corna/controls/media_control.py:414-417) that request deletes the other request's lock; AssemblerAsWritten and LockStolenAsWritten show this.
- Store.CookieId: it is built on the corrected Secure.Unsign. As written, a cookie whose frame does not split into exactly three fields at "||" (one separator, or an extra one) raises an uncaught ValueError (corna/utils/secure.py:246), so the request answers 500 rather than looking up a session; Secure.UnsignAsWrittenUnpackError shows this.
- PostsRoutes.LoginRequired: it is built on the corrected Secure.IsValid. As written, a cookie whose frame does not split into exactly three fields at "||" raises ValueError inside is_valid (corna/utils/secure.py:276), which catches only BadSignature, so the route answers 500 rather than 401 or running; Secure.IsValidAsWrittenRaises shows this.
- ImageProc.Save: werkzeug's `secure_filename` is a parameter, and the file write itself is left out.
- `hash_image`, `size`, `pretty_print`, `random_avatar`, `aspect_ratio`, `image_dimensions`, `video_dimensions`, `meta.future` and the security and CORS response headers are left out: they are hashing, floating-point imaging, randomness or framework plumbing.
- ThemeControl.Add: the intended `thumbnail()`, which would save the uploaded image, draw its token and add its image row, is represented by the thumbnail uuid it would return; the image row is not added. As written it always raises TypeError (see Findings).
- ThemeControl.ThumbnailUrl: the source queries `models.Images`, which corna/db/models.py does not define. Since `thumbnail()` writes that table with the media columns, the model reads the media table.
- Utils.AttributeFilter: `nh3.clean` itself is not modelled, only the attribute filter it calls. `validators.url` is a parameter.
- Marshmallow schema validation and its 422 answers are left out; every route is given already-validated fields.
- The ORM is represented by `Store.Db`. Autoflush and the exact moment an IntegrityError is raised are not modelled: a key clash fails the operation that adds the row.
- `MultipleResultsFound` from a `one_or_none` lookup is the `MultipleResults` error.
- PostControl.Get, SubdomainControl.PostList, ThemeControl.Get: an unordered query's row order is represented by a `rows` parameter, a list of keys. Contracts speak about membership, and about order only where the source fixes it.
- PostControl.Get: when several posts cannot be parsed, the error reported is that of the first in `rows` order.
- SubdomainControl.ImageHrefs and PostControl.ImageUrls: image URLs are a set, because the order of `post.images` is that of an unordered relationship.
- Check.DefaultMask: the CornaTable in corna/db/models.py declares no `permissions` column, so the corna's default mask is a parameter of corna creation and is stored on the modelled corna. The text and media relationships of posts are modelled as tables for the same reason.
- FrontendControl.SimplifiedPostList reads the older `post_object_map` schema through `post.mapper`. It is modelled over its own row types rather than the post tables the rest of the model uses.
- FrontendControl.SimplifiedPostList lists deleted posts too, because the source does not filter them.
- Utils.IsAllowed: `ALLOWED_EXTENSIONS` is built from an `AllowedExtensions` enumeration that corna/enums.py does not define, so the set is a parameter.
- Utils.NestedUpdate: a Python dict keeps insertion order and a map does not. So when a non-dict destination meets an update that mixes mapping and plain values, or several nested merges fail, the model does not say which exception comes first: it picks TypeError unless every failure is an AttributeError. The source also mutates `dest` in place up to the failing key; the model answers only the error.
- Secure.DecodedMessage: it is built on the corrected Secure.Unsign. As written, decoded_message calls the as-written unsign (corna/utils/secure.py:297), so a frame with one "||" separator raises ValueError where the model answers BadSignature, and a frame with an extra separator raises ValueError where the model returns the message with the separator inside; Secure.DecodedMessageAsWritten and Secure.DecodedMessageAsWrittenRaises model that behaviour. The `encoding` argument is fixed to UTF-8, its default, which every caller leaves in place.
- Secure.DecodedMessageOfSign: it is stated for the corrected decoded_message. With the as-written unsign the round trip is proved only for messages free of '|' (Secure.UnsignAsWrittenSign); it fails for a message starting with '|' (Secure.UnsignAsWrittenMisSplits) and for one holding "||" (Secure.DecodedMessageAsWrittenRaises).
- Utils.ValidateFiles: the first failing check aborts the request, so only the first rejection is modelled.
- MediaControl.VideoStream: the read size is a `nat`. A negative read size, which Python reads as "to the end of file", is not modelled.
- Case mapping (`lower()`, `upper()`) is ASCII only; full Unicode case folding is not modelled.
- ThemeControl.Update: the request's path is sanitized but never stored, as in the source. The stored path is not modelled as changing.
- user_control (credentials and user pages) is out of scope.
- These blueprints are out of scope: frontend, subdomain, media, user, themes, corna and dummy. The blueprints modelled are auth, roles and posts.
- Not modelled, because the source does not implement them (its tests expect them):
  - role-name length validation;
  - the subdomain cookie checks;
  - a two-field `unsign`.
- corna/controls/corna_control.py annotates a parameter with `Dict`, which it never imports, so the module could not be imported. Only the checks that module states are modelled.

## Findings

| source | as written | input that shows it | evidently intended | confidence | as-written member | corrected member |
|---|---|---|---|---|---|---|
| corna/controls/theme_control.py:228-230 | `data["status"] == ThemeReviewState.MERGED` compares a str with a plain Enum member, so the guard is always false | an update of an existing theme with status "merged" and no path | setting MERGED without a valid path is refused | high; not executed | ThemeControl.UpdateAsWritten, ThemeControl.MergedWithoutPathAsWritten | ThemeControl.Update, ThemeControl.UpdateAgreesOffGuard |
| corna/controls/media_control.py:408-417 | the `finally` block deletes the lock whenever it exists, including when this call failed to acquire it | a merge request arriving while another merge holds the lock | only the request that acquired the lock removes it | high; not executed | MediaControl.AssemblerAsWritten, MediaControl.LockStolenAsWritten | MediaControl.Assembler, MediaControl.LockHeldCorrected |
| corna/utils/secure.py:246 | `rsplit` on "\|\|" with no limit splits at every separator, scanning from the right | signing the two-byte message "\|x": unsign returns "x" as the message, and the expiry gains the "\|" | expiry from the first separator, MAC after the last, and the message in between | high; not executed | Secure.UnsignAsWritten, Secure.UnsignAsWrittenMisSplits | Secure.Unsign, Secure.UnsignSign |
| corna/controls/corna_control.py:101 | filters on `user.user_uuid`, an attribute UserTable does not have | get_domain by the user who just created a corna | the owner's corna is found through `user.uuid` | high; not executed | CornaControl.GetDomainAsWritten, CornaControl.GetDomainFailsAsWritten | CornaControl.GetDomain, CornaControl.CreateThenGetDomain |
| corna/controls/theme_control.py:160 | `thumbnail()` calls `image_proc.save(image)`, but `save(image, bucket, hash_)` (image_proc.py:94) has no defaults, so it raises TypeError | an add request carrying a thumbnail blob | the thumbnail is saved and its uuid stored on the new theme | high; not executed | ThemeControl.AddAsWritten, ThemeControl.ThumbnailFailsAsWritten | ThemeControl.Add |
| corna/blueprints/v1/auth.py:161, corna/blueprints/v1/auth.py:236 | calls `auth_control.session_exists`, which corna/controls/auth_control.py does not define | a login or status request that carries a session cookie | the cookie's session is looked up in the session table | high; not executed | AuthRoutes.LoginRouteAsWritten, AuthRoutes.ReloginFailsAsWritten, AuthRoutes.IsLoggedInAsWritten, AuthRoutes.StatusCheckFailsAsWritten | AuthRoutes.LoginRoute, AuthRoutes.ReloginReplacesSession, AuthRoutes.IsLoggedIn |

=== FILE: auth_control.dfy ===
/**
  Accounts and sessions (corna/controls/auth_control.py): registering a
  user, logging in (a new session and its signed cookie) and deleting the
  session a cookie names. Password hashing and checking, the random token
  source, the expiry stamp and the MAC are parameters.
 */
module AuthControl {
  import opened Base
  import opened Encodings
  import Secure
  import opened Store

  /** The default number of draws generate_unique_token makes. */
  const TokenTries: int := 10

  /**
    register_user: an address that already has an `emails` row is refused;
    otherwise one `emails` row (holding the hashed password) and one `users`
    row pointing at it are added. A username already in use, or a uuid
    already taken, is refused by the unique constraints at commit.
   */
  function Register(db: Db, email: string, password: string, username: string, uuid: Uuid, hash: string -> string): (r: Result<Db, Error>)
    ensures email in db.emails ==> r == Err(UserExists)
    ensures r.Ok? ==> r.value.emails == db.emails[email := Email(hash(password))] && email !in db.emails
    ensures r.Ok? ==> r.value.users == db.users[uuid := User(username, email)] && uuid !in db.users
    ensures r.Ok? ==> r.value == db.(emails := r.value.emails, users := r.value.users)
    ensures email !in db.emails && uuid !in db.users && UsersNamed(db, username) == {} ==> r.Ok?
  {
    if email in db.emails then Err(UserExists)
    else if uuid in db.users || UsersNamed(db, username) != {} then Err(IntegrityError)
    else Ok(db.(emails := db.emails[email := Email(hash(password))], users := db.users[uuid := User(username, email)]))
  }

  /** The users whose email_address is `email` (the `one()` query of login_user). */
  function UsersWithEmail(db: Db, email: string): (us: set<Uuid>)
    ensures forall u :: u in us <==> u in db.users && db.users[u].email == email
  {
    set u | u in db.users && db.users[u].email == email
  }

  /** The cookie ids in use: the column generate_unique_token checks for the cookie. */
  function CookieIds(db: Db): (ids: set<string>)
    ensures forall c :: c in ids <==> exists s :: s in db.sessions && db.sessions[s].cookieId == c
  {
    set s | s in db.sessions :: db.sessions[s].cookieId
  }

  /** What a successful login leaves: the new state and the signed cookie handed to the client. */
  datatype LoggedIn = LoggedIn(db: Db, sessionId: string, cookieId: string, signed: bytes)

  /**
    login_user: an unknown address, then a wrong password, are refused
    before anything is written; the user row is found with `one()`; the
    cookie id and the session id are each drawn until unused; one session
    row is added and the cookie id is signed. A user who already has a
    session violates the unique user column at commit.
   */
  function Login(db: Db, email: string, password: string, matches: (string, string) -> bool,
                 drawCookie: nat -> string, drawSession: nat -> string,
                 expiry: string, mac: bytes -> bytes): (r: Result<LoggedIn, Error>)
    ensures email !in db.emails ==> r == Err(NoneExistingUser)
    ensures email in db.emails && !matches(db.emails[email].passwordHash, password) ==> r == Err(IncorrectPassword)
    ensures r.Ok? ==> email in db.emails && matches(db.emails[email].passwordHash, password)
    ensures r.Ok? ==>
      && |UsersWithEmail(db, email)| == 1
      && r.value.sessionId !in db.sessions && r.value.cookieId !in CookieIds(db)
      && r.value.db == db.(sessions := db.sessions[r.value.sessionId := Session(r.value.cookieId, Only(UsersWithEmail(db, email)))])
    ensures r.Ok? ==> forall s :: s in db.sessions ==> db.sessions[s].user != r.value.db.sessions[r.value.sessionId].user
    ensures r.Ok? ==> r.value.signed == Secure.Sign(Text.Str(r.value.cookieId), expiry, mac)
  {
    if email !in db.emails then Err(NoneExistingUser)
    else if !matches(db.emails[email].passwordHash, password) then Err(IncorrectPassword)
    else
      var users := UsersWithEmail(db, email);
      if |users| == 0 then Err(NoResult)
      else if |users| > 1 then Err(MultipleResults)
      else
        var u := Only(users);
        match (Secure.GenerateUniqueToken(CookieIds(db), TokenTries, drawCookie),
               Secure.GenerateUniqueToken(db.sessions.Keys, TokenTries, drawSession))
        case (Ok(cookie), Ok(sid)) =>
          if exists s :: s in db.sessions && db.sessions[s].user == u then Err(IntegrityError)
          else Ok(LoggedIn(db.(sessions := db.sessions[sid := Session(cookie, u)]), sid, cookie,
                           Secure.Sign(Text.Str(cookie), expiry, mac)))
        case _ => Err(TokenExhausted)
  }

  /** delete_user_session: drop every session whose cookie id is the one the signed cookie carries. */
  function DeleteUserSession(db: Db, cookie: Text): (r: Result<Db, Error>)
    ensures CookieId(Some(cookie)).Err? <==> r.Err?
    ensures r.Ok? ==> r.value == db.(sessions := r.value.sessions)
    ensures r.Ok? ==> forall s :: s in r.value.sessions <==> s in db.sessions && db.sessions[s].cookieId != CookieId(Some(cookie)).value
    ensures r.Ok? ==> forall s :: s in r.value.sessions ==> r.value.sessions[s] == db.sessions[s]
  {
    var id :- CookieId(Some(cookie));
    Ok(db.(sessions := map s | s in db.sessions && db.sessions[s].cookieId != id :: db.sessions[s]))
  }

  // ---------------------------------------------------------------------
  // How the operations relate
  // ---------------------------------------------------------------------

  /** register keeps every constraint of the account tables. */
  lemma RegisterKeepsValid(db: Db, email: string, password: string, username: string, uuid: Uuid, hash: string -> string)
    requires Valid(db)
    requires Register(db, email, password, username, uuid, hash).Ok?
    ensures Valid(Register(db, email, password, username, uuid, hash).value)
  {
    var db2 := Register(db, email, password, username, uuid, hash).value;
    assert forall u :: u in db.users ==> db.users[u].username != username && db.users[u].email != email;
    NewUserKeepsUsers(db.users, db.emails, uuid, User(username, email), Email(hash(password)));
    SessionsFrame(db, db2);
    CornasFrame(db, db2);
    RolesFrame(db, db2);
  }

  /** The account constraints survive adding a user whose name and address no other user has, with its email row. */
  lemma NewUserKeepsUsers(users: map<Uuid, User>, emails: map<string, Email>, uuid: Uuid, row: User, emailRow: Email)
    requires uuid !in users
    requires forall u :: u in users ==> users[u].username != row.username && users[u].email != row.email
    requires forall u, v :: u in users && v in users && users[u].username == users[v].username ==> u == v
    requires forall u, v :: u in users && v in users && users[u].email == users[v].email ==> u == v
    requires forall u :: u in users ==> users[u].email in emails
    ensures var us, es := users[uuid := row], emails[row.email := emailRow];
      && (forall u, v :: u in us && v in us && us[u].username == us[v].username ==> u == v)
      && (forall u, v :: u in us && v in us && us[u].email == us[v].email ==> u == v)
      && (forall u :: u in us ==> us[u].email in es)
  {
  }

  /** Registering the same address twice is refused the second time. */
  lemma RegisterTwice(db: Db, email: string, password: string, username: string, uuid: Uuid, hash: string -> string,
                      password2: string, username2: string, uuid2: Uuid)
    requires Register(db, email, password, username, uuid, hash).Ok?
    ensures Register(Register(db, email, password, username, uuid, hash).value, email, password2, username2, uuid2, hash)
      == Err(UserExists)
  {
  }

  /**
    A freshly registered user can log in with the same password, and the
    session goes to that user.
   */
  lemma RegisterThenLogin(db: Db, email: string, password: string, username: string, uuid: Uuid, hash: string -> string,
                          matches: (string, string) -> bool, drawCookie: nat -> string, drawSession: nat -> string,
                          expiry: string, mac: bytes -> bytes)
    requires UsersValid(db) && SessionsValid(db)
    requires Register(db, email, password, username, uuid, hash).Ok?
    requires matches(hash(password), password)
    requires drawCookie(0) !in CookieIds(db) && drawSession(0) !in db.sessions
    ensures var db2 := Register(db, email, password, username, uuid, hash).value;
      var r := Login(db2, email, password, matches, drawCookie, drawSession, expiry, mac);
      r.Ok? && r.value.db.sessions[r.value.sessionId].user == uuid
  {
    var db2 := Register(db, email, password, username, uuid, hash).value;
    assert UsersWithEmail(db2, email) == {uuid} && CookieIds(db2) == CookieIds(db)
      && email in db2.emails && db2.emails[email].passwordHash == hash(password)
      && db2.sessions == db.sessions && uuid !in db.users by {
      assert UsersWithEmail(db2, email) == {uuid};
    }
    LoginSucceeds(db2, email, password, matches, drawCookie, drawSession, expiry, mac, uuid);
  }

  /** Under the constraints, a user's email address names that user alone. */
  lemma EmailNamesOneUser(db: Db, u: Uuid)
    requires UsersValid(db) && u in db.users
    ensures UsersWithEmail(db, db.users[u].email) == {u}
  {
  }

  /** An unused first draw is the token generate_unique_token hands out. */
  lemma FirstDrawTaken(taken: set<string>, draw: nat -> string)
    requires draw(0) !in taken
    ensures Secure.GenerateUniqueToken(taken, TokenTries, draw) == Ok(draw(0))
  {
  }

  /** A session row with unused ids for an existing user who has none keeps every constraint. */
  lemma AddSessionKeepsValid(db: Db, sid: string, session: Session)
    requires Valid(db)
    requires sid !in db.sessions && session.cookieId !in CookieIds(db) && session.user in db.users
    requires forall s :: s in db.sessions ==> db.sessions[s].user != session.user
    ensures Valid(db.(sessions := db.sessions[sid := session]))
  {
    var db2 := db.(sessions := db.sessions[sid := session]);
    assert forall s :: s in db.sessions ==> db.sessions[s].cookieId != session.cookieId;
    NewSessionKeepsSessions(db.sessions, sid, session, db.users);
    assert SessionsValid(db2);
    UsersFrame(db, db2);
    CornasFrame(db, db2);
    RolesFrame(db, db2);
  }

  /** The session constraints survive a row with a fresh id and cookie id for an existing user who has none. */
  lemma NewSessionKeepsSessions(sessions: map<string, Session>, sid: string, session: Session, users: map<Uuid, User>)
    requires sid !in sessions && session.user in users
    requires forall s :: s in sessions ==> sessions[s].cookieId != session.cookieId && sessions[s].user != session.user
    requires forall s, t :: s in sessions && t in sessions && sessions[s].cookieId == sessions[t].cookieId ==> s == t
    requires forall s, t :: s in sessions && t in sessions && sessions[s].user == sessions[t].user ==> s == t
    requires forall s :: s in sessions ==> sessions[s].user in users
    ensures var m := sessions[sid := session];
      && (forall s, t :: s in m && t in m && m[s].cookieId == m[t].cookieId ==> s == t)
      && (forall s, t :: s in m && t in m && m[s].user == m[t].user ==> s == t)
      && (forall s :: s in m ==> m[s].user in users)
  {
  }

  /**
    Login succeeds for a known address with the right password whose user
    has no session yet, when the first draws are unused.
   */
  lemma LoginSucceeds(db: Db, email: string, password: string, matches: (string, string) -> bool,
                      drawCookie: nat -> string, drawSession: nat -> string, expiry: string, mac: bytes -> bytes, u: Uuid)
    requires email in db.emails && matches(db.emails[email].passwordHash, password)
    requires UsersWithEmail(db, email) == {u}
    requires forall s :: s in db.sessions ==> db.sessions[s].user != u
    requires drawCookie(0) !in CookieIds(db) && drawSession(0) !in db.sessions
    ensures Login(db, email, password, matches, drawCookie, drawSession, expiry, mac)
      == Ok(LoggedIn(db.(sessions := db.sessions[drawSession(0) := Session(drawCookie(0), u)]), drawSession(0), drawCookie(0),
                     Secure.Sign(Text.Str(drawCookie(0)), expiry, mac)))
  {
    FirstDrawTaken(CookieIds(db), drawCookie);
    FirstDrawTaken(db.sessions.Keys, drawSession);
    assert Only(UsersWithEmail(db, email)) == u;
    assert !exists s :: s in db.sessions && db.sessions[s].user == u;
  }

  /** Login keeps every constraint: the new session's ids are unused and its user had none. */
  lemma LoginKeepsValid(db: Db, email: string, password: string, matches: (string, string) -> bool,
                        drawCookie: nat -> string, drawSession: nat -> string, expiry: string, mac: bytes -> bytes)
    requires Valid(db)
    requires Login(db, email, password, matches, drawCookie, drawSession, expiry, mac).Ok?
    ensures Valid(Login(db, email, password, matches, drawCookie, drawSession, expiry, mac).value.db)
  {
    var l := Login(db, email, password, matches, drawCookie, drawSession, expiry, mac).value;
    var u := Only(UsersWithEmail(db, email));
    assert u in UsersWithEmail(db, email);
    AddSessionKeepsValid(db, l.sessionId, Session(l.cookieId, u));
  }

  /**
    The signed cookie login hands out names the new session: presented on
    the next request it identifies the user who logged in.
   */
  lemma LoginCookieIdentifies(db: Db, email: string, password: string, matches: (string, string) -> bool,
                              drawCookie: nat -> string, drawSession: nat -> string, expiry: string, mac: bytes -> bytes)
    requires Login(db, email, password, matches, drawCookie, drawSession, expiry, mac).Ok?
    requires '|' !in expiry
    ensures var l := Login(db, email, password, matches, drawCookie, drawSession, expiry, mac).value;
      && CookieId(Some(Text.Bytes(l.signed))) == Ok(l.cookieId)
      && CurrentUser(l.db, Some(Text.Bytes(l.signed)), NotLoggedIn) == Ok(l.db.sessions[l.sessionId].user)
  {
    var l := Login(db, email, password, matches, drawCookie, drawSession, expiry, mac).value;
    var u := Only(UsersWithEmail(db, email));
    Secure.DecodedMessageOfSign(l.cookieId, expiry, mac);
    assert CookieId(Some(Text.Bytes(l.signed))) == Ok(l.cookieId);
    assert u in UsersWithEmail(db, email);
    FreshSessionFound(db, l.sessionId, l.cookieId, u, Some(Text.Bytes(l.signed)));
  }

  /** A cookie naming the id of a session just added, with an id no other session has, finds that session's user. */
  lemma FreshSessionFound(db: Db, sid: string, cookieId: string, u: Uuid, cookie: Option<Text>)
    requires sid !in db.sessions && cookieId !in CookieIds(db) && u in db.users
    requires CookieId(cookie) == Ok(cookieId)
    ensures CurrentUser(db.(sessions := db.sessions[sid := Session(cookieId, u)]), cookie, NotLoggedIn) == Ok(u)
  {
    var db2 := db.(sessions := db.sessions[sid := Session(cookieId, u)]);
    assert SessionsWith(db2, cookieId) == {sid};
  }

  /** Dropping the sessions with a cookie id only the newest row carries gives back the rows before it. */
  lemma DropFreshSession(db: Db, sid: string, session: Session)
    requires sid !in db.sessions && session.cookieId !in CookieIds(db)
    ensures var sessions := db.sessions[sid := session];
      (map s | s in sessions && sessions[s].cookieId != session.cookieId :: sessions[s]) == db.sessions
  {
  }

  /** Logging out with the cookie login handed out gives back the state before the login. */
  lemma LoginThenLogout(db: Db, email: string, password: string, matches: (string, string) -> bool,
                        drawCookie: nat -> string, drawSession: nat -> string, expiry: string, mac: bytes -> bytes)
    requires Login(db, email, password, matches, drawCookie, drawSession, expiry, mac).Ok?
    requires '|' !in expiry
    ensures var l := Login(db, email, password, matches, drawCookie, drawSession, expiry, mac).value;
      DeleteUserSession(l.db, Text.Bytes(l.signed)) == Ok(db)
  {
    var l := Login(db, email, password, matches, drawCookie, drawSession, expiry, mac).value;
    var u := Only(UsersWithEmail(db, email));
    Secure.DecodedMessageOfSign(l.cookieId, expiry, mac);
    DropFreshSession(db, l.sessionId, Session(l.cookieId, u));
  }

  /**
    Deleting the session a cookie names removes exactly the sessions with
    that cookie id, and with them the only session of that session's user.
   */
  lemma DeleteOwnSession(db: Db, cookie: Text, s: string)
    requires SessionsValid(db)
    requires CookieId(Some(cookie)).Ok? && s in db.sessions && db.sessions[s].cookieId == CookieId(Some(cookie)).value
    ensures DeleteUserSession(db, cookie).Ok?
    ensures var db2 := DeleteUserSession(db, cookie).value;
      && db2.sessions.Keys == db.sessions.Keys - SessionsWith(db, CookieId(Some(cookie)).value)
      && (forall t :: t in db2.sessions ==> db2.sessions[t].user != db.sessions[s].user)
      && CookieIds(db2) <= CookieIds(db)
      && db2.users == db.users && db2.emails == db.emails
  {
    var id := CookieId(Some(cookie)).value;
    var db2 := DeleteUserSession(db, cookie).value;
    assert db2.sessions.Keys == db.sessions.Keys - SessionsWith(db, id);
    forall t | t in db2.sessions ensures db2.sessions[t].user != db.sessions[s].user {
      assert t != s;
    }
    forall c | c in CookieIds(db2) ensures c in CookieIds(db) {
      var t :| t in db2.sessions && db2.sessions[t].cookieId == c;
      assert db.sessions[t].cookieId == c;
    }
  }

  /** Deleting a session touches no user or email row, and a second delete changes nothing. */
  lemma DeleteSessionIdempotent(db: Db, cookie: Text)
    requires DeleteUserSession(db, cookie).Ok?
    ensures var db2 := DeleteUserSession(db, cookie).value;
      db2.users == db.users && db2.emails == db.emails && DeleteUserSession(db2, cookie) == Ok(db2)
  {
    var db2 := DeleteUserSession(db, cookie).value;
    assert DeleteUserSession(db2, cookie).value.sessions == db2.sessions;
  }
}

=== FILE: auth_routes.dfy ===
/**
  The auth blueprint (corna/blueprints/v1/auth.py): register, login,
  logout and the login-status check, with the statuses they answer and the
  cookie they set.

  The login and status routes call `auth_control.session_exists`, which
  auth_control.py does not define: as written, any request that carries a
  session cookie fails there with an AttributeError. `LoginRouteAsWritten`
  and `IsLoggedInAsWritten` model that; `LoginRoute` and `IsLoggedIn` use
  the test the routes evidently mean (`SessionExists`).
 */
module AuthRoutes {
  import opened Base
  import opened Encodings
  import Secure
  import opened Store
  import opened Http
  import opened AuthControl

  /** What the response does to the client's session cookie. */
  datatype CookieAction = Untouched | SetTo(value: bytes) | Cleared

  datatype AuthReply = AuthReply(status: nat, db: Db, cookie: CookieAction)

  /** POST /auth/register: an address in use is 400; created is 201. */
  function RegisterRoute(db: Db, email: string, password: string, username: string, uuid: Uuid, hash: string -> string): (reply: AuthReply)
    ensures var r := Register(db, email, password, username, uuid, hash);
      && (reply.status == HttpCreated <==> r.Ok?)
      && (reply.status == HttpBadRequest <==> r == Err(UserExists))
      && (r.Err? && r != Err(UserExists) ==> reply.status == HttpServerError)
      && (reply.db == if r.Ok? then r.value else db)
      && reply.cookie == Untouched
  {
    match Register(db, email, password, username, uuid, hash)
    case Ok(db2) => AuthReply(HttpCreated, db2, Untouched)
    case Err(UserExists) => AuthReply(HttpBadRequest, db, Untouched)
    case Err(_) => AuthReply(HttpServerError, db, Untouched)
  }

  /**
    The second half of POST /auth/login: an unknown address is 404, a
    wrong password 400; success commits and sets the signed cookie.
    Nothing is committed on an error, including the session deletion
    that may have preceded the login.
   */
  function LoginOutcome(db: Db, r: Result<LoggedIn, Error>): (reply: AuthReply)
    ensures r.Ok? <==> reply.status == HttpOk
    ensures r.Ok? ==> reply == AuthReply(HttpOk, r.value.db, SetTo(r.value.signed))
    ensures r == Err(NoneExistingUser) <==> reply.status == HttpNotFound
    ensures r == Err(IncorrectPassword) <==> reply.status == HttpBadRequest
    ensures r.Err? ==> reply.db == db && reply.cookie == Untouched
    ensures r.Err? && r.error != NoneExistingUser && r.error != IncorrectPassword ==> reply.status == HttpServerError
  {
    match r
    case Ok(l) => AuthReply(HttpOk, l.db, SetTo(l.signed))
    case Err(NoneExistingUser) => AuthReply(HttpNotFound, db, Untouched)
    case Err(IncorrectPassword) => AuthReply(HttpBadRequest, db, Untouched)
    case Err(_) => AuthReply(HttpServerError, db, Untouched)
  }

  /** POST /auth/login as written: a request carrying a cookie fails on the missing helper. */
  function LoginRouteAsWritten(db: Db, cookie: Option<Text>, email: string, password: string, matches: (string, string) -> bool,
                               drawCookie: nat -> string, drawSession: nat -> string,
                               expiry: string, mac: bytes -> bytes): (reply: AuthReply)
    ensures cookie.None? ==> reply == LoginOutcome(db, Login(db, email, password, matches, drawCookie, drawSession, expiry, mac))
    ensures cookie.Some? ==> reply == AuthReply(HttpServerError, db, Untouched)
  {
    if cookie.Some? then AuthReply(HttpServerError, db, Untouched)
    else LoginOutcome(db, Login(db, email, password, matches, drawCookie, drawSession, expiry, mac))
  }

  /**
    The test the login and status routes evidently mean by
    `session_exists`: the cookie decodes, and a session carries its id.
   */
  predicate SessionExists(db: Db, cookie: Text) {
    CookieId(Some(cookie)).Ok? && SessionsWith(db, CookieId(Some(cookie)).value) != {}
  }

  /**
    POST /auth/login: a cookie that names a live session has that session
    deleted first; then the login proper.
   */
  function LoginRoute(db: Db, cookie: Option<Text>, email: string, password: string, matches: (string, string) -> bool,
                      drawCookie: nat -> string, drawSession: nat -> string,
                      expiry: string, mac: bytes -> bytes): (reply: AuthReply)
    ensures cookie.Some? && SessionExists(db, cookie.value) ==>
      reply == LoginOutcome(db, Login(DeleteUserSession(db, cookie.value).value, email, password, matches, drawCookie, drawSession, expiry, mac))
    ensures !(cookie.Some? && SessionExists(db, cookie.value)) ==>
      reply == LoginOutcome(db, Login(db, email, password, matches, drawCookie, drawSession, expiry, mac))
    ensures reply.status != HttpOk ==> reply.db == db && reply.cookie == Untouched
  {
    var start := if cookie.Some? && SessionExists(db, cookie.value) then DeleteUserSession(db, cookie.value).value else db;
    var r := Login(start, email, password, matches, drawCookie, drawSession, expiry, mac);
    var reply := LoginOutcome(db, r);
    reply
  }

  /** DELETE /auth/logout: without a cookie it answers 200 and changes nothing; with one it ends the session and clears the cookie. */
  function LogoutRoute(db: Db, cookie: Option<Text>): (reply: AuthReply)
    ensures cookie.None? ==> reply == AuthReply(HttpOk, db, Untouched)
    ensures cookie.Some? && DeleteUserSession(db, cookie.value).Ok? ==>
      reply == AuthReply(HttpOk, DeleteUserSession(db, cookie.value).value, Cleared)
    ensures cookie.Some? && DeleteUserSession(db, cookie.value).Err? ==> reply == AuthReply(HttpServerError, db, Untouched)
  {
    match cookie
    case None => AuthReply(HttpOk, db, Untouched)
    case Some(c) =>
      match DeleteUserSession(db, c)
      case Ok(db2) => AuthReply(HttpOk, db2, Cleared)
      case Err(_) => AuthReply(HttpServerError, db, Untouched)
  }

  /** GET /auth/check-login-status as written: (status, logged in). */
  function IsLoggedInAsWritten(db: Db, cookie: Option<Text>): (reply: (nat, bool))
    ensures cookie.None? <==> reply == (HttpOk, false)
    ensures cookie.Some? <==> reply.0 == HttpServerError
  {
    if cookie.None? then (HttpOk, false) else (HttpServerError, false)
  }

  /** GET /auth/check-login-status: logged in iff a cookie is present and names a session. */
  function IsLoggedIn(db: Db, cookie: Option<Text>): (loggedIn: bool)
    ensures loggedIn <==> (cookie.Some? && CookieId(cookie).Ok?
      && exists s :: s in db.sessions && db.sessions[s].cookieId == CookieId(cookie).value)
  {
    cookie.Some? && SessionExists(db, cookie.value)
  }

  // ---------------------------------------------------------------------
  // Request sequences
  // ---------------------------------------------------------------------

  /** The user behind the session a cookie names has the given address and password. */
  ghost predicate CookieOf(db: Db, cookie: Text, email: string, password: string, matches: (string, string) -> bool) {
    CookieId(Some(cookie)).Ok?
    && (exists s :: (s in db.sessions && db.sessions[s].cookieId == CookieId(Some(cookie)).value
        && db.sessions[s].user in db.users && db.users[db.sessions[s].user].email == email))
    && email in db.emails && matches(db.emails[email].passwordHash, password)
  }

  /** As written, logging in again from a browser that holds a live session cookie fails with a server error. */
  lemma ReloginFailsAsWritten(db: Db, cookie: Text, email: string, password: string, matches: (string, string) -> bool,
                              drawCookie: nat -> string, drawSession: nat -> string, expiry: string, mac: bytes -> bytes)
    requires CookieOf(db, cookie, email, password, matches)
    ensures LoginRouteAsWritten(db, Some(cookie), email, password, matches, drawCookie, drawSession, expiry, mac)
      == AuthReply(HttpServerError, db, Untouched)
  {
  }

  /**
    Without first deleting the old session, a second login by the same
    user would break the one-session-per-user constraint.
   */
  lemma ReloginNeedsDelete(db: Db, cookie: Text, email: string, password: string, matches: (string, string) -> bool,
                           drawCookie: nat -> string, drawSession: nat -> string, expiry: string, mac: bytes -> bytes)
    requires UsersValid(db)
    requires CookieOf(db, cookie, email, password, matches)
    requires drawCookie(0) !in CookieIds(db) && drawSession(0) !in db.sessions
    ensures Login(db, email, password, matches, drawCookie, drawSession, expiry, mac) == Err(IntegrityError)
  {
    var s :| s in db.sessions && db.sessions[s].cookieId == CookieId(Some(cookie)).value
      && db.sessions[s].user in db.users && db.users[db.sessions[s].user].email == email;
    var u := db.sessions[s].user;
    EmailNamesOneUser(db, u);
    FirstDrawTaken(CookieIds(db), drawCookie);
    FirstDrawTaken(db.sessions.Keys, drawSession);
    assert Only(UsersWithEmail(db, email)) == u;
  }

  /** After the old session is deleted, its user has none left and the draws are still unused. */
  lemma ReloginStart(db: Db, cookie: Text, email: string, password: string, matches: (string, string) -> bool,
                     drawCookie: nat -> string, drawSession: nat -> string) returns (u: Uuid)
    requires UsersValid(db) && SessionsValid(db)
    requires CookieOf(db, cookie, email, password, matches)
    requires drawCookie(0) !in CookieIds(db) && drawSession(0) !in db.sessions
    ensures SessionExists(db, cookie) && DeleteUserSession(db, cookie).Ok?
    ensures var start := DeleteUserSession(db, cookie).value;
      && email in start.emails && matches(start.emails[email].passwordHash, password)
      && UsersWithEmail(start, email) == {u}
      && (forall t :: t in start.sessions ==> start.sessions[t].user != u)
      && drawCookie(0) !in CookieIds(start) && drawSession(0) !in start.sessions
      && start.sessions.Keys == db.sessions.Keys - SessionsWith(db, CookieId(Some(cookie)).value)
  {
    var id := CookieId(Some(cookie)).value;
    var s :| s in db.sessions && db.sessions[s].cookieId == id
      && db.sessions[s].user in db.users && db.users[db.sessions[s].user].email == email;
    u := db.sessions[s].user;
    assert s in SessionsWith(db, id);
    DeleteOwnSession(db, cookie, s);
    assert UsersWithEmail(db, email) == {u};
    assert UsersWithEmail(DeleteUserSession(db, cookie).value, email) == UsersWithEmail(db, email);
  }

  /**
    Logging in again from a browser that holds a live session cookie
    succeeds: the old session is replaced by the new one, and the rest of
    the sessions stay as they were.
   */
  lemma ReloginReplacesSession(db: Db, cookie: Text, email: string, password: string, matches: (string, string) -> bool,
                               drawCookie: nat -> string, drawSession: nat -> string, expiry: string, mac: bytes -> bytes)
    requires UsersValid(db) && SessionsValid(db)
    requires CookieOf(db, cookie, email, password, matches)
    requires drawCookie(0) !in CookieIds(db) && drawSession(0) !in db.sessions
    ensures var reply := LoginRoute(db, Some(cookie), email, password, matches, drawCookie, drawSession, expiry, mac);
      && reply.status == HttpOk
      && reply.db.sessions.Keys == (db.sessions.Keys - SessionsWith(db, CookieId(Some(cookie)).value)) + {drawSession(0)}
  {
    var u := ReloginStart(db, cookie, email, password, matches, drawCookie, drawSession);
    var start := DeleteUserSession(db, cookie).value;
    assert Login(start, email, password, matches, drawCookie, drawSession, expiry, mac).Ok?
      && Login(start, email, password, matches, drawCookie, drawSession, expiry, mac).value.db.sessions.Keys
         == start.sessions.Keys + {drawSession(0)} by {
      LoginSucceeds(start, email, password, matches, drawCookie, drawSession, expiry, mac, u);
    }
    RouteAfterDelete(db, cookie, start, email, password, matches, drawCookie, drawSession, expiry, mac);
  }

  /** When the old session goes and the login proper succeeds, the route answers 200 with the new state. */
  lemma RouteAfterDelete(db: Db, cookie: Text, start: Db, email: string, password: string, matches: (string, string) -> bool,
                         drawCookie: nat -> string, drawSession: nat -> string, expiry: string, mac: bytes -> bytes)
    requires SessionExists(db, cookie) && DeleteUserSession(db, cookie) == Ok(start)
    requires Login(start, email, password, matches, drawCookie, drawSession, expiry, mac).Ok?
    ensures var reply := LoginRoute(db, Some(cookie), email, password, matches, drawCookie, drawSession, expiry, mac);
      && reply.status == HttpOk
      && reply.db == Login(start, email, password, matches, drawCookie, drawSession, expiry, mac).value.db
  {
  }

  /** Log in, then log out with the cookie handed out: the state is as before and the cookie is cleared. */
  lemma LoginThenLogoutRoute(db: Db, email: string, password: string, matches: (string, string) -> bool,
                             drawCookie: nat -> string, drawSession: nat -> string, expiry: string, mac: bytes -> bytes)
    requires LoginRoute(db, None, email, password, matches, drawCookie, drawSession, expiry, mac).status == HttpOk
    requires '|' !in expiry
    ensures var login := LoginRoute(db, None, email, password, matches, drawCookie, drawSession, expiry, mac);
      && login.cookie.SetTo?
      && IsLoggedIn(login.db, Some(Text.Bytes(login.cookie.value)))
      && LogoutRoute(login.db, Some(Text.Bytes(login.cookie.value))) == AuthReply(HttpOk, db, Cleared)
      && !IsLoggedIn(db, Some(Text.Bytes(login.cookie.value)))
  {
    var l := Login(db, email, password, matches, drawCookie, drawSession, expiry, mac).value;
    LoginCookieIdentifies(db, email, password, matches, drawCookie, drawSession, expiry, mac);
    LoginThenLogout(db, email, password, matches, drawCookie, drawSession, expiry, mac);
    assert l.cookieId !in CookieIds(db);
  }

  /** As written, the status check answers a server error to every request that carries a cookie. */
  lemma StatusCheckFailsAsWritten(db: Db, cookie: Text)
    requires SessionExists(db, cookie)
    ensures IsLoggedInAsWritten(db, Some(cookie)).0 == HttpServerError
    ensures IsLoggedIn(db, Some(cookie))
  {
  }
}

=== FILE: base.dfy ===
/**
  Building blocks shared by every module of the Corna model: Python-style
  outcomes (a value or a raised error), bytes, the ASCII subset of Python's
  string methods that the application relies on, and a JSON-like value type
  for the dictionaries it passes around.
 */
module Base {

  /** A value or nothing (Python's `Optional`). */
  datatype Option<+T> = None | Some(value: T)

  /** A returned value or a raised exception. */
  datatype Result<+T, +E> = Ok(value: T) | Err(error: E) {
    predicate IsFailure() { Err? }

    function PropagateFailure<U>(): Result<U, E>
      requires Err?
    {
      Err(error)
    }

    function Extract(): T
      requires Ok?
    {
      value
    }
  }

  /** One byte of a Python `bytes` object. */
  type byte = x: int | 0 <= x < 256

  type bytes = seq<byte>

  /** The one element of a singleton set (what `one_or_none` returns when exactly one row matches). */
  function Only<X>(s: set<X>): (x: X)
    requires |s| == 1
    ensures s == {x}
  {
    SingletonUnique(s);
    var x :| x in s;
    x
  }

  lemma SingletonUnique<X>(s: set<X>)
    requires |s| == 1
    ensures forall a, b :: a in s && b in s ==> a == b
  {
    forall a, b | a in s && b in s ensures a == b {
      var rest := s - {a};
      assert |rest| == 0;
      assert b !in rest;
    }
  }

  /** Some element of `s` is sent to `v` by `f`. */
  predicate AnyMapsTo<T, U(==)>(s: seq<T>, f: T -> U, v: U) {
    exists i :: 0 <= i < |s| && f(s[i]) == v
  }

  /** Splitting off the first element. */
  lemma AnyMapsToCons<T, U>(s: seq<T>, f: T -> U, v: U)
    requires |s| > 0
    ensures AnyMapsTo(s, f, v) <==> f(s[0]) == v || AnyMapsTo(s[1..], f, v)
  {
    if AnyMapsTo(s, f, v) {
      var i :| 0 <= i < |s| && f(s[i]) == v;
      if i > 0 {
        assert s[1..][i - 1] == s[i];
      }
    }
    if AnyMapsTo(s[1..], f, v) {
      var i :| 0 <= i < |s[1..]| && f(s[1..][i]) == v;
      assert s[i + 1] == s[1..][i];
    }
  }

  /** Splitting off the last element. */
  lemma AnyMapsToSnoc<T, U>(s: seq<T>, f: T -> U, v: U)
    requires |s| > 0
    ensures AnyMapsTo(s, f, v) <==> AnyMapsTo(s[..|s| - 1], f, v) || f(s[|s| - 1]) == v
  {
    var init := s[..|s| - 1];
    if AnyMapsTo(s, f, v) {
      var i :| 0 <= i < |s| && f(s[i]) == v;
      if i < |s| - 1 {
        assert init[i] == s[i];
      }
    }
    if AnyMapsTo(init, f, v) {
      var i :| 0 <= i < |init| && f(init[i]) == v;
      assert s[i] == init[i];
    }
  }

  /** A concatenation maps some element to `v` when one of its halves does. */
  lemma AnyMapsToConcat<T, U>(a: seq<T>, b: seq<T>, f: T -> U, v: U)
    ensures AnyMapsTo(a + b, f, v) <==> AnyMapsTo(a, f, v) || AnyMapsTo(b, f, v)
  {
    if AnyMapsTo(a + b, f, v) {
      var i :| 0 <= i < |a + b| && f((a + b)[i]) == v;
      if i < |a| {
        assert (a + b)[i] == a[i];
      } else {
        assert (a + b)[i] == b[i - |a|];
      }
    }
    if AnyMapsTo(a, f, v) {
      var i :| 0 <= i < |a| && f(a[i]) == v;
      assert (a + b)[i] == a[i];
    }
    if AnyMapsTo(b, f, v) {
      var i :| 0 <= i < |b| && f(b[i]) == v;
      assert (a + b)[|a| + i] == b[i];
    }
  }

  // ---------------------------------------------------------------------
  // ASCII case mapping (the model's reading of `str.lower` / `str.upper`)
  // ---------------------------------------------------------------------

  function LowerChar(c: char): char {
    if 'A' <= c <= 'Z' then (c as int + 32) as char else c
  }

  function UpperChar(c: char): char {
    if 'a' <= c <= 'z' then (c as int - 32) as char else c
  }

  function Lower(s: string): (r: string)
    ensures |r| == |s|
    ensures forall i :: 0 <= i < |s| ==> r[i] == LowerChar(s[i])
  {
    if |s| == 0 then [] else [LowerChar(s[0])] + Lower(s[1..])
  }

  function Upper(s: string): (r: string)
    ensures |r| == |s|
    ensures forall i :: 0 <= i < |s| ==> r[i] == UpperChar(s[i])
  {
    if |s| == 0 then [] else [UpperChar(s[0])] + Upper(s[1..])
  }

  lemma LowerIdempotent(s: string)
    ensures Lower(Lower(s)) == Lower(s)
  {
  }

  /** Text without upper-case ASCII letters is its own lower case. */
  lemma LowerKeeps(s: string)
    requires forall i :: 0 <= i < |s| ==> !('A' <= s[i] <= 'Z')
    ensures Lower(s) == s
  {
    assert forall i :: 0 <= i < |s| ==> Lower(s)[i] == s[i];
  }

  lemma LowerOfConcat(a: string, b: string)
    ensures Lower(a + b) == Lower(a) + Lower(b)
  {
  }

  // ---------------------------------------------------------------------
  // Searching and splitting
  // ---------------------------------------------------------------------

  /** Python's `s.rsplit(sep, 1)[1]`: the text after the last `sep`. */
  function AfterLast(s: string, sep: char): (r: string)
    requires sep in s
    ensures sep !in r
    ensures |r| < |s| && s[|s| - |r| - 1] == sep && r == s[|s| - |r|..]
  {
    if s[|s| - 1] == sep then []
    else
      var r' := AfterLast(s[..|s| - 1], sep);
      assert s[..|s| - 1][|s| - 1 - |r'|..] == s[|s| - 1 - |r'|..|s| - 1];
      r' + [s[|s| - 1]]
  }

  /**
    `"." in name and name.rsplit(".", 1)[1].lower() in exts` — the file
    extension test shared by utils.is_allowed, image_proc.is_image/is_video
    and theme_control.is_allowed.
   */
  predicate HasExtension(name: string, exts: set<string>) {
    '.' in name && Lower(AfterLast(name, '.')) in exts
  }

  /** Independent reading: some '.' is followed by a dot-free suffix whose lower-case form is allowed. */
  lemma {:induction false} HasExtensionMeans(name: string, exts: set<string>)
    ensures HasExtension(name, exts) <==>
      exists i :: 0 <= i < |name| && name[i] == '.' && '.' !in name[i + 1..] && Lower(name[i + 1..]) in exts
  {
    if HasExtension(name, exts) {
      var r := AfterLast(name, '.');
      var i := |name| - |r| - 1;
      assert name[i + 1..] == r;
    }
    if exists i :: 0 <= i < |name| && name[i] == '.' && '.' !in name[i + 1..] && Lower(name[i + 1..]) in exts {
      var i :| 0 <= i < |name| && name[i] == '.' && '.' !in name[i + 1..] && Lower(name[i + 1..]) in exts;
      LastSepIsUnique(name, '.', i);
    }
  }

  /** The only `sep` with no `sep` after it is the one AfterLast splits on. */
  lemma LastSepIsUnique(s: string, sep: char, i: nat)
    requires i < |s| && s[i] == sep && sep !in s[i + 1..]
    ensures sep in s && AfterLast(s, sep) == s[i + 1..]
  {
    assert s[i] in s;
    var r := AfterLast(s, sep);
  }

  /** Python's `s.split(sep)` for a one-element separator. */
  function Split<T(==)>(s: seq<T>, sep: T): (parts: seq<seq<T>>)
    ensures |parts| >= 1
    ensures forall k :: 0 <= k < |parts| ==> sep !in parts[k]
  {
    if |s| == 0 then [[]]
    else if s[0] == sep then [[]] + Split(s[1..], sep)
    else
      var rest := Split(s[1..], sep);
      [[s[0]] + rest[0]] + rest[1..]
  }

  /** `sep.join(parts)`. */
  function Join<T>(parts: seq<seq<T>>, sep: T): seq<T>
    requires |parts| >= 1
  {
    if |parts| == 1 then parts[0] else parts[0] + [sep] + Join(parts[1..], sep)
  }

  lemma {:induction false} JoinSplit<T>(s: seq<T>, sep: T)
    ensures Join(Split(s, sep), sep) == s
  {
    if |s| == 0 {
    } else if s[0] == sep {
      JoinSplit(s[1..], sep);
      var rest := Split(s[1..], sep);
      assert Split(s, sep) == [[]] + rest;
      assert ([[]] + rest)[1..] == rest;
    } else {
      JoinSplit(s[1..], sep);
      var rest := Split(s[1..], sep);
      var parts := [[s[0]] + rest[0]] + rest[1..];
      assert Split(s, sep) == parts;
      if |rest| == 1 {
        assert Join(parts, sep) == [s[0]] + rest[0];
      } else {
        assert parts[1..] == rest[1..];
        assert Join(rest, sep) == rest[0] + [sep] + Join(rest[1..], sep);
      }
    }
  }

  lemma {:induction false} SplitJoin<T>(parts: seq<seq<T>>, sep: T)
    requires |parts| >= 1
    requires forall k :: 0 <= k < |parts| ==> sep !in parts[k]
    ensures Split(Join(parts, sep), sep) == parts
    decreases |parts|, |parts[0]|
  {
    if |parts| == 1 {
      SplitFree(parts[0], sep);
    } else if |parts[0]| == 0 {
      SplitJoin(parts[1..], sep);
      var j := Join(parts, sep);
      assert j == [sep] + Join(parts[1..], sep);
      assert j[1..] == Join(parts[1..], sep);
      assert [[]] + parts[1..] == parts;
    } else {
      var p := parts[0];
      var parts' := [p[1..]] + parts[1..];
      assert parts'[1..] == parts[1..];
      assert forall k :: 0 <= k < |parts'| ==> sep !in parts'[k] by {
        forall k | 0 <= k < |parts'| ensures sep !in parts'[k] {
          if k == 0 {
            assert forall x :: x in p[1..] ==> x in p;
          } else {
            assert parts'[k] == parts[k];
          }
        }
      }
      SplitJoin(parts', sep);
      var j := Join(parts, sep);
      var j' := Join(parts', sep);
      assert j == [p[0]] + j' by {
        assert j == p + [sep] + Join(parts[1..], sep);
        assert j' == p[1..] + [sep] + Join(parts[1..], sep);
        assert p == [p[0]] + p[1..];
      }
      assert j[0] == p[0] && j[0] != sep;
      assert j[1..] == j';
      var rest := Split(j', sep);
      assert rest == parts';
      assert Split(j, sep) == [[p[0]] + rest[0]] + rest[1..];
      assert rest[0] == p[1..] && rest[1..] == parts[1..];
      assert [p[0]] + p[1..] == p;
      assert [[p[0]] + rest[0]] + rest[1..] == parts;
    }
  }

  /** Splitting at one separator splits each side on its own. */
  lemma {:induction false} SplitAppend<T>(a: seq<T>, sep: T, b: seq<T>)
    ensures Split(a + [sep] + b, sep) == Split(a, sep) + Split(b, sep)
  {
    var s := a + [sep] + b;
    if |a| == 0 {
      assert s == [sep] + b;
      assert s[1..] == b;
    } else {
      assert s[0] == a[0] && s[1..] == a[1..] + [sep] + b;
      SplitAppend(a[1..], sep, b);
      if a[0] != sep {
        var ra := Split(a[1..], sep);
        var r := Split(s[1..], sep);
        assert r == ra + Split(b, sep);
        assert r[0] == ra[0] && r[1..] == ra[1..] + Split(b, sep);
      }
    }
  }

  lemma {:induction false} SplitFree<T>(s: seq<T>, sep: T)
    requires sep !in s
    ensures Split(s, sep) == [s]
  {
    if |s| > 0 {
      assert forall x :: x in s[1..] ==> x in s;
      SplitFree(s[1..], sep);
      assert [s[0]] + s[1..] == s;
    }
  }
  /** Three separator-free fields joined by the separator split back into those fields. */
  lemma SplitThree<T>(x: seq<T>, y: seq<T>, z: seq<T>, sep: T)
    requires sep !in x && sep !in y && sep !in z
    ensures Split(x + [sep] + (y + [sep] + z), sep) == [x, y, z]
  {
    SplitFree(x, sep);
    SplitFree(y, sep);
    SplitFree(z, sep);
    SplitAppend(y, sep, z);
    SplitAppend(x, sep, y + [sep] + z);
  }


  // ---------------------------------------------------------------------
  // Whitespace
  // ---------------------------------------------------------------------

  /** The characters for which Python's `str.isspace()` is true. */
  predicate IsSpace(c: char) {
    var n := c as int;
    (0x09 <= n <= 0x0D) || (0x1C <= n <= 0x20) || n == 0x85 || n == 0xA0 || n == 0x1680
    || (0x2000 <= n <= 0x200A) || n == 0x2028 || n == 0x2029 || n == 0x202F || n == 0x205F || n == 0x3000
  }

  /** `s.rstrip()`. */
  function RStrip(s: string): (r: string)
    ensures |r| <= |s| && r == s[..|r|]
    ensures |r| == 0 || !IsSpace(r[|r| - 1])
    ensures forall i :: |r| <= i < |s| ==> IsSpace(s[i])
  {
    if |s| == 0 || !IsSpace(s[|s| - 1]) then s else RStrip(s[..|s| - 1])
  }

  // ---------------------------------------------------------------------
  // Decimal and hexadecimal digits
  // ---------------------------------------------------------------------

  predicate IsDigit(c: char) { '0' <= c <= '9' }

  predicate AllDigits(s: string) { forall i :: 0 <= i < |s| ==> IsDigit(s[i]) }

  /** `int(s)` for a string of ASCII digits. */
  function DigitsValue(s: string): nat
    requires AllDigits(s)
  {
    if |s| == 0 then 0 else DigitsValue(s[..|s| - 1]) * 10 + (s[|s| - 1] as int - '0' as int)
  }

  function DigitChar(d: nat): char
    requires d < 10
  {
    ('0' as int + d) as char
  }

  /** `str(n)` for a natural number: decimal digits, no leading zeros. */
  function NatToDigits(n: nat): string {
    if n < 10 then [DigitChar(n)] else NatToDigits(n / 10) + [DigitChar(n % 10)]
  }

  /**
    What NatToDigits produces: at least one digit, reading back as `n`,
    with no leading zero unless `n` is 0. Kept out of NatToDigits' own
    contract so that every file name built from a number does not drag
    these facts into unrelated proofs.
   */
  lemma {:induction false} NatToDigitsValid(n: nat)
    ensures var s := NatToDigits(n);
      && |s| >= 1 && AllDigits(s)
      && DigitsValue(s) == n
      && (n > 0 ==> s[0] != '0')
  {
    if n >= 10 {
      NatToDigitsValid(n / 10);
      var prefix := NatToDigits(n / 10);
      var s := prefix + [DigitChar(n % 10)];
      assert s[..|s| - 1] == prefix;
    }
  }

  /** Left-pads with '0' up to `width` characters (never truncates). */
  function ZeroPad(s: string, width: nat): (r: string)
    ensures |r| == if |s| >= width then |s| else width
  {
    if |s| >= width then s else seq(width - |s|, _ => '0') + s
  }

  /** ZeroPad ends with `s` and puts only '0' in front of it. */
  lemma ZeroPadShape(s: string, width: nat)
    ensures var r := ZeroPad(s, width);
      && r[|r| - |s|..] == s
      && forall i :: 0 <= i < |r| - |s| ==> r[i] == '0'
  {
  }

  /** Python's `f"{i:06d}"`-style formatting: the sign counts towards the width. */
  function FormatPadded(i: int, width: nat): string {
    if i >= 0 then ZeroPad(NatToDigits(i), width)
    else "-" + ZeroPad(NatToDigits(-i), if width > 0 then width - 1 else 0)
  }

  /** Python's `str(i)` for an int. */
  function IntToString(i: int): string {
    FormatPadded(i, 0)
  }

  /** No element occurs twice. */
  predicate Distinct<T(==)>(s: seq<T>) {
    forall i, j :: 0 <= i < j < |s| ==> s[i] != s[j]
  }

  /** Python's `s.startswith(prefix)`. */
  predicate StartsWith(s: string, prefix: string) {
    |prefix| <= |s| && s[..|prefix|] == prefix
  }

  const HexDigits: string := "0123456789abcdef"

  predicate IsHexChar(c: char) {
    ('0' <= c <= '9') || ('a' <= c <= 'f') || ('A' <= c <= 'F')
  }

  /** The value of one hexadecimal digit, either case (as `unhexlify` reads it). */
  function HexValue(c: char): (v: nat)
    requires IsHexChar(c)
    ensures v < 16
  {
    if '0' <= c <= '9' then c as int - '0' as int
    else if 'a' <= c <= 'f' then c as int - 'a' as int + 10
    else c as int - 'A' as int + 10
  }

  lemma HexValueOfDigit(d: nat)
    requires d < 16
    ensures IsHexChar(HexDigits[d]) && HexValue(HexDigits[d]) == d
  {
  }

  // ---------------------------------------------------------------------
  // JSON-like values (Python dicts, lists and scalars)
  // ---------------------------------------------------------------------

  datatype Value =
    | Null
    | Bool(b: bool)
    | Int(i: int)
    | Str(s: string)
    | List(items: seq<Value>)
    | Dict(fields: map<string, Value>)
}

=== FILE: bits.dfy ===
/**
  Bitwise arithmetic on non-negative Python integers, defined bit by bit,
  with lemmas that characterise each operation by the bits of its result.
  Role masks are such integers.
 */
module Bits {

  function Pow2(i: nat): (r: nat)
    ensures r >= 1
  {
    if i == 0 then 1 else 2 * Pow2(i - 1)
  }

  /** Bit `k` of `a` (`(a >> k) & 1 == 1`). */
  predicate TestBit(a: nat, k: nat) {
    if k == 0 then a % 2 == 1 else TestBit(a / 2, k - 1)
  }

  /** `a | b`. */
  function Or(a: nat, b: nat): nat
    decreases a + b
  {
    if a == 0 then b
    else if b == 0 then a
    else 2 * Or(a / 2, b / 2) + (if a % 2 == 1 || b % 2 == 1 then 1 else 0)
  }

  /** `a & b`. */
  function And(a: nat, b: nat): nat
    decreases a + b
  {
    if a == 0 || b == 0 then 0
    else 2 * And(a / 2, b / 2) + (if a % 2 == 1 && b % 2 == 1 then 1 else 0)
  }

  /** `a & ~b`: `a` with the bits of `b` cleared. */
  function AndNot(a: nat, b: nat): nat
    decreases a + b
  {
    if a == 0 then 0
    else if b == 0 then a
    else 2 * AndNot(a / 2, b / 2) + (if a % 2 == 1 && b % 2 == 0 then 1 else 0)
  }

  lemma {:induction false} OrBit(a: nat, b: nat, k: nat)
    ensures TestBit(Or(a, b), k) == (TestBit(a, k) || TestBit(b, k))
    decreases k
  {
    if a == 0 {
      ZeroHasNoBits(k);
    } else if b == 0 {
      ZeroHasNoBits(k);
    } else if k > 0 {
      OrBit(a / 2, b / 2, k - 1);
    }
  }

  lemma {:induction false} AndBit(a: nat, b: nat, k: nat)
    ensures TestBit(And(a, b), k) == (TestBit(a, k) && TestBit(b, k))
    decreases k
  {
    if a == 0 || b == 0 {
      ZeroHasNoBits(k);
    } else if k > 0 {
      AndBit(a / 2, b / 2, k - 1);
    }
  }

  lemma {:induction false} AndNotBit(a: nat, b: nat, k: nat)
    ensures TestBit(AndNot(a, b), k) == (TestBit(a, k) && !TestBit(b, k))
    decreases k
  {
    if a == 0 || b == 0 {
      ZeroHasNoBits(k);
    } else if k > 0 {
      AndNotBit(a / 2, b / 2, k - 1);
    }
  }

  lemma {:induction false} ZeroHasNoBits(k: nat)
    ensures !TestBit(0, k)
  {
    if k > 0 {
      ZeroHasNoBits(k - 1);
    }
  }

  lemma {:induction false} Pow2Bit(i: nat, k: nat)
    ensures TestBit(Pow2(i), k) <==> k == i
    decreases i
  {
    if i == 0 {
      if k > 0 {
        ZeroHasNoBits(k - 1);
      }
    } else if k == 0 {
    } else {
      Pow2Bit(i - 1, k - 1);
    }
  }

  /** Two integers with the same bits are equal. */
  lemma {:induction false} BitsDetermine(a: nat, b: nat)
    requires forall k: nat :: TestBit(a, k) == TestBit(b, k)
    ensures a == b
    decreases a + b
  {
    if a != 0 || b != 0 {
      assert TestBit(a, 0) == TestBit(b, 0);
      forall k: nat ensures TestBit(a / 2, k) == TestBit(b / 2, k) {
        assert TestBit(a, k + 1) == TestBit(b, k + 1);
      }
      BitsDetermine(a / 2, b / 2);
    }
  }

  /** An integer is zero exactly when it has no bit set. */
  lemma ZeroIffNoBits(a: nat)
    ensures a == 0 <==> forall k: nat :: !TestBit(a, k)
  {
    if a == 0 {
      forall k: nat ensures !TestBit(a, k) {
        ZeroHasNoBits(k);
      }
    } else {
      assert TestBit(a, 0) || TestBit(a / 2, 0) || a / 2 > 0;
      FirstBit(a);
    }
  }

  lemma {:induction false} FirstBit(a: nat)
    requires a > 0
    ensures exists k: nat :: TestBit(a, k)
  {
    if a % 2 == 1 {
      assert TestBit(a, 0);
    } else {
      FirstBit(a / 2);
      var k: nat :| TestBit(a / 2, k);
      assert TestBit(a, k + 1);
    }
  }

  /** No bit at position `n` or above is set. */
  ghost predicate NoBitsFrom(a: nat, n: nat) {
    forall k: nat :: n <= k ==> !TestBit(a, k)
  }

  /** `a < 2**n` exactly when no bit at position `n` or above is set. */
  lemma BelowPow2(a: nat, n: nat)
    ensures a < Pow2(n) <==> NoBitsFrom(a, n)
  {
    if a < Pow2(n) {
      BelowPow2HasNoHighBits(a, n);
    } else if NoBitsFrom(a, n) {
      NoHighBitsIsBelowPow2(a, n);
    }
  }

  lemma {:induction false} BelowPow2HasNoHighBits(a: nat, n: nat)
    requires a < Pow2(n)
    ensures forall k: nat :: n <= k ==> !TestBit(a, k)
    decreases n
  {
    if n == 0 {
      ZeroIffNoBits(a);
    } else {
      assert a / 2 < Pow2(n - 1);
      BelowPow2HasNoHighBits(a / 2, n - 1);
      forall k: nat | n <= k ensures !TestBit(a, k) {
        assert !TestBit(a / 2, k - 1);
      }
    }
  }

  lemma {:induction false} NoHighBitsIsBelowPow2(a: nat, n: nat)
    requires forall k: nat :: n <= k ==> !TestBit(a, k)
    ensures a < Pow2(n)
    decreases n
  {
    if n == 0 {
      ZeroIffNoBits(a);
    } else {
      forall k: nat | n - 1 <= k ensures !TestBit(a / 2, k) {
        assert !TestBit(a, k + 1);
      }
      NoHighBitsIsBelowPow2(a / 2, n - 1);
    }
  }

  /** `a & (1 << i) != 0` tests bit `i`. */
  lemma AndPow2(a: nat, i: nat)
    ensures And(a, Pow2(i)) != 0 <==> TestBit(a, i)
  {
    ZeroIffNoBits(And(a, Pow2(i)));
    forall k: nat ensures TestBit(And(a, Pow2(i)), k) == (TestBit(a, k) && k == i) {
      AndBit(a, Pow2(i), k);
      Pow2Bit(i, k);
    }
  }

  lemma OrBits(a: nat, b: nat)
    ensures forall k: nat :: TestBit(Or(a, b), k) == (TestBit(a, k) || TestBit(b, k))
  {
    forall k: nat ensures TestBit(Or(a, b), k) == (TestBit(a, k) || TestBit(b, k)) {
      OrBit(a, b, k);
    }
  }

  lemma AndNotBits(a: nat, b: nat)
    ensures forall k: nat :: TestBit(AndNot(a, b), k) == (TestBit(a, k) && !TestBit(b, k))
  {
    forall k: nat ensures TestBit(AndNot(a, b), k) == (TestBit(a, k) && !TestBit(b, k)) {
      AndNotBit(a, b, k);
    }
  }

  lemma Pow2Bits(i: nat)
    ensures forall k: nat :: TestBit(Pow2(i), k) <==> k == i
  {
    forall k: nat ensures TestBit(Pow2(i), k) <==> k == i {
      Pow2Bit(i, k);
    }
  }
}

=== FILE: check.dfy ===
/**
  Authorization (corna/middleware/check.py): a user may do something on a
  corna when they own it, when the corna's default mask carries the
  permission, or when one of the roles they hold on that same corna does.
  A username is falsy when it is empty; `None` takes the same branch and
  is modelled by "".
 */
module Check {
  import opened Base
  import opened Bits
  import opened Permissions
  import opened Store

  /**
    The roles the `_user_has_perm` query counts: assigned to the user the
    username subquery finds, on the corna the domain subquery finds, with
    `permissions & perm != 0`.
   */
  function GrantingRoles(db: Db, perm: nat, domain: string, username: string): (rs: set<Uuid>)
    ensures forall r :: r in rs ==> r in db.roles && And(db.roles[r].permissions, perm) != 0
  {
    var user := UserUuid(db, username);
    var corna := CornaUuid(db, domain);
    set r | r in db.roles && user.Some? && corna.Some?
      && (r, user.value) in db.members
      && And(db.roles[r].permissions, perm) != 0
      && db.roles[r].corna == corna.value
  }

  /** `_user_has_perm`: a non-empty username and at least one granting role. */
  function UserHasPerm(db: Db, perm: nat, domain: string, username: string): (b: bool)
    ensures username == "" ==> !b
    ensures b ==> exists r :: r in db.roles && And(db.roles[r].permissions, perm) != 0
  {
    if username == "" then false else |GrantingRoles(db, perm, domain, username)| >= 1
  }

  /** The cornas the `is_owner` query matches: this domain, owned by the named user. */
  function OwnedAt(db: Db, domain: string, username: string): (cs: set<Uuid>)
    ensures forall c :: c in cs ==> c in db.cornas && db.cornas[c].domain == domain
  {
    var user := UserUuid(db, username);
    set c | c in db.cornas && db.cornas[c].domain == domain && user.Some? && db.cornas[c].owner == user.value
  }

  /** `is_owner`: one_or_none over the matching cornas found a row. */
  function IsOwner(db: Db, domain: string, username: string): (b: bool)
    ensures username == "" ==> !b
    ensures b ==> exists c :: c in db.cornas && db.cornas[c].domain == domain
  {
    username != "" && |OwnedAt(db, domain, username)| == 1
  }

  /**
    `alchemy.corna(session, domain, "permissions")`: the default mask of the
    corna with this domain. No such corna, several, or a NULL column all
    raise CornaNotFoundError.
   */
  function DefaultMask(db: Db, domain: string): (r: Result<nat, Error>)
    ensures r.Err? ==> r.error == CornaNotFound
    ensures r.Ok? <==> exists c :: c in db.cornas && CornasAt(db, domain) == {c} && db.cornas[c].permissions.Some?
    ensures r.Ok? ==> exists c :: c in db.cornas && db.cornas[c].domain == domain && db.cornas[c].permissions == Some(r.value)
  {
    match The(CornasAt(db, domain))
    case None => Err(CornaNotFound)
    case Some(c) =>
      match db.cornas[c].permissions
      case None => Err(CornaNotFound)
      case Some(m) => Ok(m)
  }

  /**
    The shape shared by can_read, can_write and can_change_permissions:
    `name` is the permission's name as the check spells it for has_perm,
    `p` the enum member whose value is passed to `_user_has_perm`.
   */
  function Can(db: Db, domain: string, username: string, name: string, p: Permission): (b: bool)
    ensures DefaultMask(db, domain).Err? ==> !b
    ensures DefaultMask(db, domain).Ok? ==>
      (b <==> IsOwner(db, domain, username)
              || HasPerm(DefaultMask(db, domain).value, name)
              || UserHasPerm(db, p.Value(), domain, username))
  {
    match DefaultMask(db, domain)
    case Err(_) => false
    case Ok(mask) =>
      IsOwner(db, domain, username) || HasPerm(mask, name) || UserHasPerm(db, p.Value(), domain, username)
  }

  /** can_read: has_perm is asked for "read", the lower-case name of READ. */
  function CanRead(db: Db, domain: string, username: string): (b: bool)
    ensures DefaultMask(db, domain).Err? ==> !b
    ensures DefaultMask(db, domain).Ok? ==>
      (b <==> IsOwner(db, domain, username)
              || Holds(DefaultMask(db, domain).value, Read)
              || UserHasPerm(db, Read.Value(), domain, username))
  {
    LowerNameIsNamed(Read);
    Can(db, domain, username, Lower(Read.Name()), Read)
  }

  /** can_write: has_perm is asked for "write". */
  function CanWrite(db: Db, domain: string, username: string): (b: bool)
    ensures DefaultMask(db, domain).Err? ==> !b
    ensures DefaultMask(db, domain).Ok? ==>
      (b <==> IsOwner(db, domain, username)
              || Holds(DefaultMask(db, domain).value, Write)
              || UserHasPerm(db, Write.Value(), domain, username))
  {
    LowerNameIsNamed(Write);
    Can(db, domain, username, Lower(Write.Name()), Write)
  }

  /** can_change_permissions: has_perm is asked for "change_permissions". */
  function CanChangePermissions(db: Db, domain: string, username: string): (b: bool)
    ensures DefaultMask(db, domain).Err? ==> !b
    ensures DefaultMask(db, domain).Ok? ==>
      (b <==> IsOwner(db, domain, username)
              || Holds(DefaultMask(db, domain).value, ChangePermissions)
              || UserHasPerm(db, ChangePermissions.Value(), domain, username))
  {
    LowerNameIsNamed(ChangePermissions);
    Can(db, domain, username, Lower(ChangePermissions.Name()), ChangePermissions)
  }

  // ---------------------------------------------------------------------
  // What the checks mean on a consistent database
  // ---------------------------------------------------------------------

  /** The user named `username` holds a role on corna `c` that carries `p`. */
  ghost predicate HoldsRoleWith(db: Db, username: string, c: Uuid, p: Permission) {
    exists r, u :: r in db.roles && u in db.users && db.users[u].username == username
      && (r, u) in db.members && db.roles[r].corna == c && Holds(db.roles[r].permissions, p)
  }

  /**
    `_user_has_perm` for a permission's own bit, stated without the
    subqueries: the named user holds a role on the domain's corna whose mask
    carries the permission.
   */
  lemma UserHasPermMeans(db: Db, p: Permission, domain: string, username: string)
    requires Valid(db)
    ensures UserHasPerm(db, p.Value(), domain, username) <==>
      username != "" && exists c :: c in db.cornas && db.cornas[c].domain == domain && HoldsRoleWith(db, username, c, p)
  {
    if UserHasPerm(db, p.Value(), domain, username) {
      GrantingRoleHolds(db, p, domain, username);
    }
    if username != "" && exists c :: c in db.cornas && db.cornas[c].domain == domain && HoldsRoleWith(db, username, c, p) {
      var c :| c in db.cornas && db.cornas[c].domain == domain && HoldsRoleWith(db, username, c, p);
      HeldRoleGrants(db, p, domain, username, c);
    }
  }

  lemma GrantingRoleHolds(db: Db, p: Permission, domain: string, username: string)
    requires UserHasPerm(db, p.Value(), domain, username)
    ensures exists c :: c in db.cornas && db.cornas[c].domain == domain && HoldsRoleWith(db, username, c, p)
  {
    var r :| r in GrantingRoles(db, p.Value(), domain, username);
    var u := UserUuid(db, username).value;
    var c := CornaUuid(db, domain).value;
    HoldsIsMaskTest(db.roles[r].permissions, p);
    AndCommutes(db.roles[r].permissions, p.Value());
    assert HoldsRoleWith(db, username, c, p);
  }

  lemma HeldRoleGrants(db: Db, p: Permission, domain: string, username: string, c: Uuid)
    requires Valid(db) && username != ""
    requires c in db.cornas && db.cornas[c].domain == domain && HoldsRoleWith(db, username, c, p)
    ensures UserHasPerm(db, p.Value(), domain, username)
  {
    var r, u :| r in db.roles && u in db.users && db.users[u].username == username
      && (r, u) in db.members && db.roles[r].corna == c && Holds(db.roles[r].permissions, p);
    UserUuidFinds(db, username, u);
    CornaUuidFinds(db, domain, c);
    HoldsIsMaskTest(db.roles[r].permissions, p);
    AndCommutes(db.roles[r].permissions, p.Value());
    assert r in GrantingRoles(db, p.Value(), domain, username);
  }

  /** The corna with this domain is owned by the user named `username`. */
  ghost predicate OwnsAt(db: Db, domain: string, username: string) {
    exists c :: c in db.cornas && db.cornas[c].domain == domain && db.cornas[c].owner in db.users
      && db.users[db.cornas[c].owner].username == username
  }

  /** `is_owner` stated without the subquery: the domain's corna is owned by the named user. */
  lemma IsOwnerMeans(db: Db, domain: string, username: string)
    requires Valid(db)
    ensures IsOwner(db, domain, username) <==> username != "" && OwnsAt(db, domain, username)
  {
    if IsOwner(db, domain, username) {
      var c := Only(OwnedAt(db, domain, username));
      assert c in OwnedAt(db, domain, username);
    }
    if username != "" && OwnsAt(db, domain, username) {
      var c :| c in db.cornas && db.cornas[c].domain == domain && db.cornas[c].owner in db.users
        && db.users[db.cornas[c].owner].username == username;
      UserUuidFinds(db, username, db.cornas[c].owner);
      assert OwnedAt(db, domain, username) == {c};
    }
  }

  /**
    A check on an existing corna whose default mask is set: owner, or
    default mask, or a role on that corna, each in the model's own terms.
   */
  lemma CanMeans(db: Db, domain: string, username: string, c: Uuid, p: Permission)
    requires Valid(db)
    requires c in db.cornas && db.cornas[c].domain == domain && db.cornas[c].permissions.Some?
    ensures Can(db, domain, username, Lower(p.Name()), p) <==>
      (username != "" && db.users[db.cornas[c].owner].username == username)
      || Holds(db.cornas[c].permissions.value, p)
      || (username != "" && HoldsRoleWith(db, username, c, p))
  {
    CornaUuidFinds(db, domain, c);
    assert CornasAt(db, domain) == {c};
    IsOwnerMeans(db, domain, username);
    UserHasPermMeans(db, p, domain, username);
    LowerNameIsNamed(p);
  }

  /** A word of capitals and underscores. */
  predicate CapitalWord(s: string) {
    forall i :: 0 <= i < |s| ==> ('A' <= s[i] <= 'Z') || s[i] == '_'
  }

  lemma UpperOfLower(s: string)
    requires CapitalWord(s)
    ensures Upper(Lower(s)) == s
  {
  }

  /** The lower-case member name is a name has_perm recognises, and it denotes the member. */
  lemma LowerNameIsNamed(p: Permission)
    ensures Named(Lower(p.Name())) == Some(p)
  {
    assert CapitalWord(p.Name());
    UpperOfLower(p.Name());
  }

  /** No corna with that domain: every check fails, whoever asks. */
  lemma MissingCornaDeniesAll(db: Db, domain: string, username: string)
    requires CornasAt(db, domain) == {}
    ensures !CanRead(db, domain, username) && !CanWrite(db, domain, username)
    ensures !CanChangePermissions(db, domain, username)
  {
  }

  /** The owner passes every check on a corna whose default mask is set. */
  lemma OwnerPassesAll(db: Db, c: Uuid, p: Permission)
    requires Valid(db)
    requires c in db.cornas && db.cornas[c].permissions.Some?
    requires db.users[db.cornas[c].owner].username != ""
    ensures Can(db, db.cornas[c].domain, db.users[db.cornas[c].owner].username, Lower(p.Name()), p)
  {
    CanMeans(db, db.cornas[c].domain, db.users[db.cornas[c].owner].username, c, p);
  }

  /** A default mask carrying the permission lets everybody through, even without a username. */
  lemma LooseDefaultGrantsAll(db: Db, c: Uuid, username: string, p: Permission)
    requires Valid(db)
    requires c in db.cornas && db.cornas[c].permissions.Some? && Holds(db.cornas[c].permissions.value, p)
    ensures Can(db, db.cornas[c].domain, username, Lower(p.Name()), p)
  {
    CanMeans(db, db.cornas[c].domain, username, c, p);
  }

  /**
    A corna whose default-mask column is NULL makes `alchemy.corna` raise,
    so every check fails on it, the owner's included.
   */
  lemma NullDefaultDeniesAll(db: Db, c: Uuid, username: string, name: string, p: Permission)
    requires Valid(db)
    requires c in db.cornas && db.cornas[c].permissions.None?
    ensures !Can(db, db.cornas[c].domain, username, name, p)
  {
    CornaUuidFinds(db, db.cornas[c].domain, c);
  }

  /** Holding a role whose mask is 0 ("banned") grants nothing. */
  lemma BannedRoleGrantsNothing(db: Db, r: Uuid, u: Uuid, perm: nat, domain: string, username: string)
    requires r in db.roles && db.roles[r].permissions == 0
    ensures UserHasPerm(db.(members := db.members + {(r, u)}), perm, domain, username)
         == UserHasPerm(db, perm, domain, username)
  {
    var db' := db.(members := db.members + {(r, u)});
    assert And(0, perm) == 0;
    assert GrantingRoles(db', perm, domain, username) == GrantingRoles(db, perm, domain, username);
  }

  /** A role on another corna never grants anything on this one. */
  lemma NoLeakAcrossCornas(db: Db, r: Uuid, u: Uuid, perm: nat, domain: string, username: string)
    requires r in db.roles && db.roles[r].corna in db.cornas && db.cornas[db.roles[r].corna].domain != domain
    ensures UserHasPerm(db.(members := db.members + {(r, u)}), perm, domain, username)
         == UserHasPerm(db, perm, domain, username)
  {
    var db' := db.(members := db.members + {(r, u)});
    assert GrantingRoles(db', perm, domain, username) == GrantingRoles(db, perm, domain, username);
  }
}

=== FILE: corna_control.dfy ===
/**
  One corna per user, under a unique domain (corna/controls/corna_control.py):
  the existence test behind `domain_unique`, `create`, and `get_domain` both
  as written and as evidently intended.
 */
module CornaControl {
  import opened Base
  import opened Encodings
  import opened Store

  /** `exists_(CornaTable.domain_name, domain)`: some corna already has the domain. */
  predicate DomainTaken(db: Db, domain: string)
  {
    exists c :: c in db.cornas && db.cornas[c].domain == domain
  }

  /** `exists_(CornaTable.user_uuid, user)`: the user already owns a corna. */
  predicate OwnsCorna(db: Db, user: Uuid)
  {
    exists c :: c in db.cornas && db.cornas[c].owner == user
  }

  /** domain_unique: no corna has the domain. */
  function DomainUnique(db: Db, domain: string): (unique: bool)
    ensures unique <==> forall c :: c in db.cornas ==> db.cornas[c].domain != domain
    ensures unique <==> CornasAt(db, domain) == {}
  {
    !DomainTaken(db, domain)
  }

  /**
    create: the current user (the session's user; a missing session raises
    NoneExistingUser) must not own a corna yet, then the domain must be
    free; one corna row is added. The row's uuid is `uuid`; the default
    role mask the row gets is `defaultMask`, which the shown code leaves to
    the database. A session whose user row is gone has `None` for its user,
    and reading its uuid raises AttributeError.
   */
  function Create(db: Db, cookie: Option<Text>, domain: string, title: Option<string>, uuid: Uuid,
                  defaultMask: Option<nat>): (r: Result<Db, Error>)
    ensures SessionUser(db, cookie, NoneExistingUser).Err? ==> r == Err(SessionUser(db, cookie, NoneExistingUser).error)
    ensures SessionUser(db, cookie, NoneExistingUser).Ok? && SessionUser(db, cookie, NoneExistingUser).value !in db.users
            ==> r == Err(AttributeError)
    ensures (SessionUser(db, cookie, NoneExistingUser).Ok? && SessionUser(db, cookie, NoneExistingUser).value in db.users
             && OwnsCorna(db, SessionUser(db, cookie, NoneExistingUser).value)) ==> r == Err(PreExistingCorna)
    ensures r == Err(DomainExists) <==> (SessionUser(db, cookie, NoneExistingUser).Ok?
            && SessionUser(db, cookie, NoneExistingUser).value in db.users
            && !OwnsCorna(db, SessionUser(db, cookie, NoneExistingUser).value) && !DomainUnique(db, domain))
    ensures SessionUser(db, cookie, NoneExistingUser).Ok? ==>
      var u := SessionUser(db, cookie, NoneExistingUser).value;
      && (r == Err(IntegrityError) <==> u in db.users && !OwnsCorna(db, u) && DomainUnique(db, domain) && uuid in db.cornas)
      && (r.Ok? <==> u in db.users && !OwnsCorna(db, u) && DomainUnique(db, domain) && uuid !in db.cornas)
    ensures r.Ok? ==> (SessionUser(db, cookie, NoneExistingUser).Ok? && uuid !in db.cornas
            && r.value == db.(cornas := db.cornas[uuid := Corna(domain, title, SessionUser(db, cookie, NoneExistingUser).value, defaultMask, None)]))
  {
    var u :- SessionUser(db, cookie, NoneExistingUser);
    if u !in db.users then Err(AttributeError)
    else if OwnsCorna(db, u) then Err(PreExistingCorna)
    else if !DomainUnique(db, domain) then Err(DomainExists)
    else if uuid in db.cornas then Err(IntegrityError)
    else Ok(db.(cornas := db.cornas[uuid := Corna(domain, title, u, defaultMask, None)]))
  }

  /**
    get_domain as written: it filters on `user.user_uuid`, an attribute the
    user row does not have, so every request that gets past the session
    lookup raises AttributeError.
   */
  function GetDomainAsWritten(db: Db, cookie: Option<Text>): (r: Result<string, Error>)
    ensures SessionUser(db, cookie, NoneExistingUser).Err? ==> r == Err(SessionUser(db, cookie, NoneExistingUser).error)
    ensures SessionUser(db, cookie, NoneExistingUser).Ok? ==> r == Err(AttributeError)
  {
    var _ :- SessionUser(db, cookie, NoneExistingUser);
    Err(AttributeError)
  }

  /** The cornas the user owns (the `user_uuid` filter get_domain means). */
  function CornasOwnedBy(db: Db, user: Uuid): (cs: set<Uuid>)
    ensures forall c :: c in cs <==> c in db.cornas && db.cornas[c].owner == user
  {
    set c | c in db.cornas && db.cornas[c].owner == user
  }

  /**
    get_domain as intended: the domain of the corna the current user owns,
    found with one_or_none; a user without one gets NoDomain.
   */
  function GetDomain(db: Db, cookie: Option<Text>): (r: Result<string, Error>)
    ensures SessionUser(db, cookie, NoneExistingUser).Err? ==> r == Err(SessionUser(db, cookie, NoneExistingUser).error)
    ensures r.Ok? ==> exists c :: (c in db.cornas && db.cornas[c].owner == SessionUser(db, cookie, NoneExistingUser).value
            && db.cornas[c].domain == r.value)
    ensures SessionUser(db, cookie, NoneExistingUser).Ok? ==>
            (r == Err(NoDomain) <==> !OwnsCorna(db, SessionUser(db, cookie, NoneExistingUser).value))
  {
    var u :- SessionUser(db, cookie, NoneExistingUser);
    var owned := CornasOwnedBy(db, u);
    if |owned| > 1 then Err(MultipleResults)
    else if owned == {} then Err(NoDomain)
    else Ok(db.cornas[Only(owned)].domain)
  }

  // ---------------------------------------------------------------------
  // How the operations relate
  // ---------------------------------------------------------------------

  /** create keeps every constraint: one corna per owner, unique domains, owners exist. */
  lemma CreateKeepsValid(db: Db, cookie: Option<Text>, domain: string, title: Option<string>, uuid: Uuid, defaultMask: Option<nat>)
    requires Valid(db)
    requires Create(db, cookie, domain, title, uuid, defaultMask).Ok?
    ensures Valid(Create(db, cookie, domain, title, uuid, defaultMask).value)
  {
    var u := SessionUser(db, cookie, NoneExistingUser).value;
    assert u in db.users && !OwnsCorna(db, u) && DomainUnique(db, domain);
    NewCornaKeepsValid(db, uuid, Corna(domain, title, u, defaultMask, None));
  }

  /** A corna row with a fresh uuid, a free domain and an existing owner who owns none keeps every constraint. */
  lemma NewCornaKeepsValid(db: Db, uuid: Uuid, row: Corna)
    requires Valid(db) && uuid !in db.cornas
    requires row.owner in db.users && !OwnsCorna(db, row.owner) && DomainUnique(db, row.domain)
    ensures Valid(db.(cornas := db.cornas[uuid := row]))
  {
    var db2 := db.(cornas := db.cornas[uuid := row]);
    UsersSessionsFrame(db, db2);
    RolesFrame(db, db2);
    CornaAddedKeepsCornas(db.cornas, uuid, row, db.users);
  }

  /** The corna constraints survive adding a row whose domain and owner no other row has. */
  lemma CornaAddedKeepsCornas(cornas: map<Uuid, Corna>, uuid: Uuid, row: Corna, users: map<Uuid, User>)
    requires uuid !in cornas && row.owner in users
    requires forall c :: c in cornas ==> cornas[c].owner != row.owner && cornas[c].domain != row.domain
    requires forall c, d :: c in cornas && d in cornas && cornas[c].domain == cornas[d].domain ==> c == d
    requires forall c, d :: c in cornas && d in cornas && cornas[c].owner == cornas[d].owner ==> c == d
    requires forall c :: c in cornas ==> cornas[c].owner in users
    ensures var m := cornas[uuid := row];
      && (forall c, d :: c in m && d in m && m[c].domain == m[d].domain ==> c == d)
      && (forall c, d :: c in m && d in m && m[c].owner == m[d].owner ==> c == d)
      && (forall c :: c in m ==> m[c].owner in users)
  {
  }

  /** A user who created a corna is refused a second one, whatever its domain. */
  lemma CreateTwice(db: Db, cookie: Option<Text>, domain: string, title: Option<string>, uuid: Uuid, defaultMask: Option<nat>,
                    domain2: string, title2: Option<string>, uuid2: Uuid, defaultMask2: Option<nat>)
    requires Create(db, cookie, domain, title, uuid, defaultMask).Ok?
    ensures Create(Create(db, cookie, domain, title, uuid, defaultMask).value, cookie, domain2, title2, uuid2, defaultMask2)
            == Err(PreExistingCorna)
  {
    var db2 := Create(db, cookie, domain, title, uuid, defaultMask).value;
    var u := SessionUser(db, cookie, NoneExistingUser).value;
    assert SessionsWith(db2, CookieId(cookie).value) == SessionsWith(db, CookieId(cookie).value);
    assert SessionUser(db2, cookie, NoneExistingUser) == Ok(u);
    assert db2.cornas[uuid].owner == u;
  }

  /** Once a corna holds a domain, nobody else can create one under it. */
  lemma DomainTakenRefusesOthers(db: Db, cookie: Option<Text>, domain: string, title: Option<string>, uuid: Uuid, defaultMask: Option<nat>,
                                 c: Uuid)
    requires c in db.cornas && db.cornas[c].domain == domain
    ensures Create(db, cookie, domain, title, uuid, defaultMask).Err?
  {
    assert !DomainUnique(db, domain);
  }

  /** After create, the intended get_domain hands the creator the new domain. */
  lemma CreateThenGetDomain(db: Db, cookie: Option<Text>, domain: string, title: Option<string>, uuid: Uuid, defaultMask: Option<nat>)
    requires Create(db, cookie, domain, title, uuid, defaultMask).Ok?
    ensures GetDomain(Create(db, cookie, domain, title, uuid, defaultMask).value, cookie) == Ok(domain)
  {
    var db2 := Create(db, cookie, domain, title, uuid, defaultMask).value;
    var u := SessionUser(db, cookie, NoneExistingUser).value;
    assert SessionsWith(db2, CookieId(cookie).value) == SessionsWith(db, CookieId(cookie).value);
    assert SessionUser(db2, cookie, NoneExistingUser) == Ok(u);
    assert CornasOwnedBy(db2, u) == {uuid};
  }

  /**
    The discrepancy in get_domain: for the very user who just created a
    corna, the code as written raises AttributeError instead of answering
    the domain.
   */
  lemma GetDomainFailsAsWritten(db: Db, cookie: Option<Text>, domain: string, title: Option<string>, uuid: Uuid, defaultMask: Option<nat>)
    requires Create(db, cookie, domain, title, uuid, defaultMask).Ok?
    ensures GetDomainAsWritten(Create(db, cookie, domain, title, uuid, defaultMask).value, cookie) == Err(AttributeError)
    ensures GetDomain(Create(db, cookie, domain, title, uuid, defaultMask).value, cookie) == Ok(domain)
  {
    var db2 := Create(db, cookie, domain, title, uuid, defaultMask).value;
    assert SessionsWith(db2, CookieId(cookie).value) == SessionsWith(db, CookieId(cookie).value);
    CreateThenGetDomain(db, cookie, domain, title, uuid, defaultMask);
  }

  /** On a consistent database the intended get_domain never meets several cornas. */
  lemma GetDomainOnValid(db: Db, cookie: Option<Text>)
    requires Valid(db)
    requires SessionUser(db, cookie, NoneExistingUser).Ok?
    ensures GetDomain(db, cookie) != Err(MultipleResults)
  {
    var u := SessionUser(db, cookie, NoneExistingUser).value;
    UniqueKeysAtMostOne(CornasOwnedBy(db, u));
  }
}

=== FILE: encodings.dfy ===
/**
  corna/utils/encodings.py: conversion between `str` and `bytes` (UTF-8),
  and unpadded URL-safe base64 (section 5 of RFC 4648, padding dropped as
  section 3.2 permits). Decoding restores the padding and then runs the
  lenient decoder of Python's `binascii` module, which skips characters
  outside the alphabet.
 */
module Encodings {
  import opened Base

  /** A Python value that is either `str` or `bytes` (`Union[bytes, str]`). */
  datatype Text = Bytes(b: bytes) | Str(s: string)

  // ---------------------------------------------------------------------
  // UTF-8
  // ---------------------------------------------------------------------

  /** UTF-8 encoding of one Unicode scalar value. */
  function EncodeChar(c: char): (b: bytes)
    ensures 1 <= |b| <= 4
  {
    var n := c as int;
    if n < 0x80 then [n]
    else if n < 0x800 then [0xC0 + n / 64, 0x80 + n % 64]
    else if n < 0x10000 then [0xE0 + n / 4096, 0x80 + (n / 64) % 64, 0x80 + n % 64]
    else [0xF0 + n / 262144, 0x80 + (n / 4096) % 64, 0x80 + (n / 64) % 64, 0x80 + n % 64]
  }

  /** `s.encode("utf-8")`. */
  function Utf8Encode(s: string): bytes {
    if |s| == 0 then [] else EncodeChar(s[0]) + Utf8Encode(s[1..])
  }

  predicate IsCont(b: byte) { 0x80 <= b <= 0xBF }

  /**
    The first character of a strict UTF-8 decode and the number of bytes it
    used; None when the bytes are not well-formed UTF-8 (a truncated or
    overlong sequence, a surrogate, a value above U+10FFFF, a stray byte).
   */
  function DecodeFirst(b: bytes): (r: Option<(char, nat)>)
    requires |b| > 0
    ensures r.Some? ==> 1 <= r.value.1 <= |b|
  {
    var b0 := b[0] as int;
    if b0 < 0x80 then Some((b0 as char, 1))
    else if 0xC2 <= b0 <= 0xDF then
      if |b| >= 2 && IsCont(b[1]) then Some((Scalar2(b0, b[1]), 2)) else None
    else if 0xE0 <= b0 <= 0xEF then
      var lo := if b0 == 0xE0 then 0xA0 else 0x80;
      var hi := if b0 == 0xED then 0x9F else 0xBF;
      if |b| >= 3 && lo <= b[1] <= hi && IsCont(b[2]) then Some((Scalar3(b0, b[1], b[2]), 3))
      else None
    else if 0xF0 <= b0 <= 0xF4 then
      var lo := if b0 == 0xF0 then 0x90 else 0x80;
      var hi := if b0 == 0xF4 then 0x8F else 0xBF;
      if |b| >= 4 && lo <= b[1] <= hi && IsCont(b[2]) && IsCont(b[3]) then Some((Scalar4(b0, b[1], b[2], b[3]), 4))
      else None
    else None
  }

  function Scalar2(b0: int, b1: int): char
    requires 0xC2 <= b0 <= 0xDF && 0x80 <= b1 <= 0xBF
  {
    ((b0 - 0xC0) * 64 + (b1 - 0x80)) as char
  }

  function Scalar3(b0: int, b1: int, b2: int): char
    requires 0xE0 <= b0 <= 0xEF && 0x80 <= b1 <= 0xBF && 0x80 <= b2 <= 0xBF
    requires b0 == 0xE0 ==> b1 >= 0xA0
    requires b0 == 0xED ==> b1 <= 0x9F
  {
    ((b0 - 0xE0) * 4096 + (b1 - 0x80) * 64 + (b2 - 0x80)) as char
  }

  function Scalar4(b0: int, b1: int, b2: int, b3: int): char
    requires 0xF0 <= b0 <= 0xF4 && 0x80 <= b1 <= 0xBF && 0x80 <= b2 <= 0xBF && 0x80 <= b3 <= 0xBF
    requires b0 == 0xF0 ==> b1 >= 0x90
    requires b0 == 0xF4 ==> b1 <= 0x8F
  {
    ((b0 - 0xF0) * 262144 + (b1 - 0x80) * 4096 + (b2 - 0x80) * 64 + (b3 - 0x80)) as char
  }

  /** `b.decode("utf-8")`; None stands for the UnicodeDecodeError it raises. */
  function Utf8Decode(b: bytes): Option<string>
    decreases |b|
  {
    if |b| == 0 then Some([])
    else match DecodeFirst(b)
      case None => None
      case Some((c, n)) =>
        match Utf8Decode(b[n..])
        case None => None
        case Some(rest) => Some([c] + rest)
  }

  lemma DecodeEncodedChar(c: char, rest: bytes)
    ensures DecodeFirst(EncodeChar(c) + rest) == Some((c, |EncodeChar(c)|))
  {
    var n := c as int;
    if n < 0x80 {
    } else if n < 0x800 {
      DecodeTwo(c, rest);
    } else if n < 0x10000 {
      DecodeThree(c, rest);
    } else {
      DecodeFour(c, rest);
    }
  }

  lemma DecodeTwo(c: char, rest: bytes)
    requires 0x80 <= c as int < 0x800
    ensures DecodeFirst(EncodeChar(c) + rest) == Some((c, 2))
  {
    var n := c as int;
    var b := EncodeChar(c) + rest;
    var b0, b1 := 0xC0 + n / 64, 0x80 + n % 64;
    assert b[0] == b0 && b[1] == b1;
    assert (b0 - 0xC0) * 64 + (b1 - 0x80) == n;
  }

  lemma DecodeThree(c: char, rest: bytes)
    requires 0x800 <= c as int < 0x10000
    ensures DecodeFirst(EncodeChar(c) + rest) == Some((c, 3))
  {
    var n := c as int;
    var b := EncodeChar(c) + rest;
    var hi, mid, lo := n / 4096, (n / 64) % 64, n % 64;
    assert b[0] == 0xE0 + hi && b[1] == 0x80 + mid && b[2] == 0x80 + lo;
    assert hi * 4096 + mid * 64 + lo == n;
    assert hi == 0 ==> mid >= 0x20;
    assert hi == 0xD ==> mid <= 0x1F;
  }

  lemma DecodeFour(c: char, rest: bytes)
    requires 0x10000 <= c as int
    ensures DecodeFirst(EncodeChar(c) + rest) == Some((c, 4))
  {
    var n := c as int;
    var b := EncodeChar(c) + rest;
    var top, hi, mid, lo := n / 262144, (n / 4096) % 64, (n / 64) % 64, n % 64;
    FourDigits(n);
    assert b[0] == 0xF0 + top && b[1] == 0x80 + hi && b[2] == 0x80 + mid && b[3] == 0x80 + lo;
    assert Scalar4(b[0], b[1], b[2], b[3]) == c;
  }

  /** The digits of a supplementary-plane scalar in base 64, as its four-byte form carries them. */
  lemma FourDigits(n: int)
    requires 0x10000 <= n < 0x110000
    ensures var top, hi, mid, lo := n / 262144, (n / 4096) % 64, (n / 64) % 64, n % 64;
      && 0 <= top <= 4
      && top * 262144 + hi * 4096 + mid * 64 + lo == n
      && (top == 0 ==> hi >= 0x10)
      && (top == 4 ==> hi <= 0x0F)
  {
  }

  /** Decoding what was encoded gives the string back. */
  lemma {:induction false} Utf8RoundTrip(s: string)
    ensures Utf8Decode(Utf8Encode(s)) == Some(s)
  {
    if |s| > 0 {
      var e := EncodeChar(s[0]);
      var tail := Utf8Encode(s[1..]);
      assert Utf8Encode(s) == e + tail;
      DecodeEncodedChar(s[0], tail);
      assert (e + tail)[|e|..] == tail;
      Utf8RoundTrip(s[1..]);
      assert [s[0]] + s[1..] == s;
    }
  }

  /** to_bytes: `str` is UTF-8 encoded, `bytes` pass through. */
  function ToBytes(t: Text): (b: bytes)
    ensures t.Bytes? ==> b == t.b
    ensures t.Str? ==> Utf8Decode(b) == Some(t.s)
  {
    match t
    case Bytes(b) => b
    case Str(s) => Utf8RoundTrip(s); Utf8Encode(s)
  }

  /** from_bytes: `bytes` are UTF-8 decoded (None when that raises), `str` passes through. */
  function FromBytes(t: Text): (s: Option<string>)
    ensures t.Str? ==> s == Some(t.s)
    ensures forall x: string :: t == Bytes(Utf8Encode(x)) ==> s == Some(x)
  {
    match t
    case Str(s) => Some(s)
    case Bytes(b) =>
      UnicodeRoundTrips();
      Utf8Decode(b)
  }

  lemma UnicodeRoundTrips()
    ensures forall x: string :: Utf8Decode(Utf8Encode(x)) == Some(x)
  {
    forall x: string ensures Utf8Decode(Utf8Encode(x)) == Some(x) {
      Utf8RoundTrip(x);
    }
  }

  /** `to_bytes(t, encoding="ascii", errors="ignore")`: drops every non-ASCII character of a `str`. */
  function ToAsciiIgnore(t: Text): (b: bytes)
    ensures t.Bytes? ==> b == t.b
    ensures t.Str? ==> |b| <= |t.s|
  {
    match t
    case Bytes(b) => b
    case Str(s) => AsciiOf(s)
  }

  function AsciiOf(s: string): (b: bytes)
    ensures |b| <= |s|
  {
    if |s| == 0 then []
    else (if s[0] as int < 128 then [s[0] as int as byte] else []) + AsciiOf(s[1..])
  }

  // ---------------------------------------------------------------------
  // Base64
  // ---------------------------------------------------------------------

  const Pad: byte := 61   // '='
  const Plus: byte := 43  // '+'
  const Slash: byte := 47 // '/'
  const Dash: byte := 45  // '-'
  const Under: byte := 95 // '_'

  /** The standard alphabet character for a sextet. */
  function StdChar(v: nat): (c: byte)
    requires v < 64
  {
    if v < 26 then 65 + v
    else if v < 52 then 97 + (v - 26)
    else if v < 62 then 48 + (v - 52)
    else if v == 62 then Plus
    else Slash
  }

  /** binascii's decoding table: the sextet a character stands for, or 64 and above for non-alphabet bytes. */
  function StdValue(c: byte): (v: nat)
    ensures v < 64 ==> StdChar(v) == c
  {
    if 65 <= c <= 90 then c - 65
    else if 97 <= c <= 122 then c - 97 + 26
    else if 48 <= c <= 57 then c - 48 + 52
    else if c == Plus then 62
    else if c == Slash then 63
    else 255
  }

  lemma StdValueOfChar(v: nat)
    requires v < 64
    ensures StdValue(StdChar(v)) == v
  {
  }

  /** `binascii.b2a_base64(data, newline=False)`: standard alphabet, '=' padded. */
  function B2a(data: bytes): (s: bytes)
    ensures |s| == 4 * ((|data| + 2) / 3)
    decreases |data|
  {
    if |data| == 0 then []
    else if |data| == 1 then
      [StdChar(data[0] / 4), StdChar((data[0] % 4) * 16), Pad, Pad]
    else if |data| == 2 then
      [StdChar(data[0] / 4), StdChar((data[0] % 4) * 16 + data[1] / 16), StdChar((data[1] % 16) * 4), Pad]
    else
      [StdChar(data[0] / 4), StdChar((data[0] % 4) * 16 + data[1] / 16),
       StdChar((data[1] % 16) * 4 + data[2] / 64), StdChar(data[2] % 64)] + B2a(data[3..])
  }

  /** The `+/` to `-_` translation of `urlsafe_b64encode`. */
  function ToUrlSafe(s: bytes): (r: bytes)
    ensures |r| == |s|
    ensures forall i :: 0 <= i < |s| ==> r[i] == (if s[i] == Plus then Dash else if s[i] == Slash then Under else s[i])
  {
    if |s| == 0 then [] else [if s[0] == Plus then Dash else if s[0] == Slash then Under else s[0]] + ToUrlSafe(s[1..])
  }

  /** The `-_` to `+/` translation of `urlsafe_b64decode`. */
  function FromUrlSafe(s: bytes): (r: bytes)
    ensures |r| == |s|
    ensures forall i :: 0 <= i < |s| ==> r[i] == (if s[i] == Dash then Plus else if s[i] == Under then Slash else s[i])
  {
    if |s| == 0 then [] else [if s[0] == Dash then Plus else if s[0] == Under then Slash else s[0]] + FromUrlSafe(s[1..])
  }

  /** `s.rstrip(b"=")`. */
  function StripPad(s: bytes): (r: bytes)
    ensures |r| <= |s| && r == s[..|r|]
    ensures |r| == 0 || r[|r| - 1] != Pad
    ensures forall i :: |r| <= i < |s| ==> s[i] == Pad
  {
    if |s| == 0 || s[|s| - 1] != Pad then s else StripPad(s[..|s| - 1])
  }

  /** The characters `base64_encode` can emit: the URL-safe alphabet. */
  predicate UrlSafeChar(c: byte) {
    (65 <= c <= 90) || (97 <= c <= 122) || (48 <= c <= 57) || c == Dash || c == Under
  }

  /** base64_encode: URL-safe base64 of `to_bytes(t)` with the '=' padding stripped. */
  function Base64Encode(t: Text): (e: bytes)
    ensures forall i :: 0 <= i < |e| ==> UrlSafeChar(e[i])
    ensures |e| % 4 != 1
  {
    var data := ToBytes(t);
    var e := StripPad(ToUrlSafe(B2a(data)));
    EncodedShape(data);
    e
  }

  /** Number of alphabet characters `B2a` emits for `n` bytes (the rest of its output is padding). */
  function Used(n: nat): nat {
    4 * (n / 3) + (if n % 3 == 0 then 0 else n % 3 + 1)
  }

  /** Arithmetic of the padded length: `Used(n)` characters, then `-Used(n) % 4` pads. */
  lemma UsedArithmetic(n: nat)
    ensures Used(n) <= 4 * ((n + 2) / 3)
    ensures Used(n) % 4 != 1
    ensures 4 * ((n + 2) / 3) == Used(n) + PadCount(Used(n))
  {
    var k := n / 3;
    assert n == 3 * k + n % 3;
    if n % 3 == 0 {
      assert (n + 2) / 3 == k;
    } else {
      assert (n + 2) / 3 == k + 1;
    }
  }

  /** Shape of the padded encoding: an unpadded core of URL-safe characters, then `-len(core) % 4` pads. */
  lemma EncodedShape(data: bytes)
    ensures var s := ToUrlSafe(B2a(data));
      var core := StripPad(s);
      && (forall i :: 0 <= i < |core| ==> UrlSafeChar(core[i]))
      && |core| % 4 != 1
      && |s| == |core| + PadCount(|core|)
      && s == core + seq(|s| - |core|, _ => Pad)
  {
    var u := Used(|data|);
    UsedArithmetic(|data|);
    UrlSafeBody(data);
    UrlSafePadding(data);
    ShapeOf(ToUrlSafe(B2a(data)), u);
  }

  /** The translated encoding keeps its padding where B2a put it. */
  lemma UrlSafePadding(data: bytes)
    ensures forall i :: Used(|data|) <= i < |ToUrlSafe(B2a(data))| ==> ToUrlSafe(B2a(data))[i] == Pad
  {
    PaddingAtEnd(data);
  }

  /** A run of `u` non-pad URL-safe characters followed by the `-u % 4` pads has the shape EncodedShape states. */
  lemma ShapeOf(s: bytes, u: nat)
    requires u <= |s| && u % 4 != 1 && |s| == u + PadCount(u)
    requires forall i :: 0 <= i < u ==> UrlSafeChar(s[i]) && s[i] != Pad
    requires forall i :: u <= i < |s| ==> s[i] == Pad
    ensures var core := StripPad(s);
      && (forall i :: 0 <= i < |core| ==> UrlSafeChar(core[i]))
      && |core| % 4 != 1
      && |s| == |core| + PadCount(|core|)
      && s == core + seq(|s| - |core|, _ => Pad)
  {
    StripPadOf(s, u);
    PadsTail(s, u);
  }

  lemma PadsTail(s: bytes, u: nat)
    requires u <= |s|
    requires forall i :: u <= i < |s| ==> s[i] == Pad
    ensures s == s[..u] + seq(|s| - u, _ => Pad)
  {
  }

  lemma UrlSafeBody(data: bytes)
    ensures Used(|data|) <= |B2a(data)|
    ensures forall i :: 0 <= i < Used(|data|) ==> UrlSafeChar(ToUrlSafe(B2a(data))[i]) && ToUrlSafe(B2a(data))[i] != Pad
  {
    BodyIsAlphabet(data);
  }

  /** The first `Used(|data|)` characters of `B2a(data)` are alphabet characters. */
  lemma {:induction false} BodyIsAlphabet(data: bytes)
    ensures Used(|data|) <= |B2a(data)|
    ensures forall i :: 0 <= i < Used(|data|) ==> B2a(data)[i] != Pad && StdValue(B2a(data)[i]) < 64
    decreases |data|
  {
    if |data| >= 3 {
      BodyIsAlphabet(data[3..]);
      assert Used(|data|) == Used(|data| - 3) + 4;
      assert B2a(data)[4..] == B2a(data[3..]);
    }
  }

  /** Everything after the first `Used(|data|)` characters of `B2a(data)` is padding. */
  lemma {:induction false} PaddingAtEnd(data: bytes)
    ensures forall i :: Used(|data|) <= i < |B2a(data)| ==> B2a(data)[i] == Pad
    decreases |data|
  {
    if |data| >= 3 {
      PaddingAtEnd(data[3..]);
      assert Used(|data|) == Used(|data| - 3) + 4;
      assert B2a(data)[4..] == B2a(data[3..]);
    }
  }

  lemma StripPadOf(s: bytes, k: nat)
    requires k <= |s|
    requires k == 0 || s[k - 1] != Pad
    requires forall i :: k <= i < |s| ==> s[i] == Pad
    ensures StripPad(s) == s[..k]
    decreases |s|
  {
    if |s| > k {
      StripPadOf(s[..|s| - 1], k);
      assert s[..|s| - 1][..k] == s[..k];
    }
  }

  // ----- decoding -----

  /** The error binascii reports. */
  datatype DecodeError =
    | ExcessDataChar(dataChars: nat)   // one data character more than a multiple of 4
    | IncorrectPadding

  /**
    binascii.a2b_base64 in its default (non-strict) mode, as a loop over the
    remaining input with the decoder's state: position within the current
    group of four, the leftover bits, pads seen, and the bytes produced.
    A '=' ends decoding once at least two data characters of the group have
    been read and the group is complete; other non-alphabet bytes are skipped.
   */
  function A2b(s: bytes, quad: nat, left: nat, pads: nat, out: bytes): Result<bytes, DecodeError>
    requires quad < 4
    requires quad == 1 ==> left < 64
    requires quad == 2 ==> left < 16
    requires quad == 3 ==> left < 4
    decreases |s|
  {
    if |s| == 0 then
      if quad == 0 then Ok(out)
      else if quad == 1 then Err(ExcessDataChar(|out| / 3 * 4 + 1))
      else Err(IncorrectPadding)
    else if s[0] == Pad then
      if quad >= 2 && quad + pads + 1 >= 4 then Ok(out)
      else A2b(s[1..], quad, left, if quad >= 2 then pads + 1 else pads, out)
    else
      var v := StdValue(s[0]);
      if v >= 64 then A2b(s[1..], quad, left, pads, out)
      // The shifted leftover bits and the new bits never overlap, so `|` is `+`.
      else if quad == 0 then A2b(s[1..], 1, v, 0, out)
      else if quad == 1 then A2b(s[1..], 2, v % 16, 0, out + [left * 16 / 4 + v / 16])
      else if quad == 2 then A2b(s[1..], 3, v % 4, 0, out + [left * 16 + v / 4])
      else A2b(s[1..], 0, 0, 0, out + [left * 64 + v])
  }

  /** base64_decode's padding step: `-len(s) % 4` '=' characters. */
  function PadTo4(s: bytes): (r: bytes)
    ensures |r| % 4 == 0 && |r| - |s| == PadCount(|s|)
    ensures r[..|s|] == s && forall i :: |s| <= i < |r| ==> r[i] == Pad
  {
    s + seq(PadCount(|s|), _ => Pad)
  }

  /** Python's `-n % 4`: the number of '=' that completes the last group. */
  function PadCount(n: nat): (k: nat)
    ensures k < 4 && (n + k) % 4 == 0
  {
    (-(n as int)) % 4
  }

  /** Bytes still owed by a group of which `quad` characters are consumed, counted in quarters of three. */
  function GroupSlack(quad: nat): nat {
    if quad == 0 then 0 else if quad == 1 then 3 else if quad == 2 then 2 else 1
  }

  /** a2b_base64 only appends, and never more than three bytes for four characters. */
  lemma {:induction false} A2bLength(s: bytes, quad: nat, left: nat, pads: nat, out: bytes)
    requires quad < 4
    requires quad == 1 ==> left < 64
    requires quad == 2 ==> left < 16
    requires quad == 3 ==> left < 4
    ensures var r := A2b(s, quad, left, pads, out);
      r.Ok? ==> |out| <= |r.value| && r.value[..|out|] == out && 4 * (|r.value| - |out|) <= 3 * |s| + GroupSlack(quad)
    decreases |s|, 0
  {
    if |s| != 0 {
      if s[0] == Pad {
        if !(quad >= 2 && quad + pads + 1 >= 4) {
          A2bLength(s[1..], quad, left, if quad >= 2 then pads + 1 else pads, out);
        }
      } else {
        var v := StdValue(s[0]);
        if v >= 64 {
          A2bLength(s[1..], quad, left, pads, out);
        } else if quad == 0 {
          A2bLength(s[1..], 1, v, 0, out);
        } else if quad == 1 {
          A2bAppends(s[1..], 2, v % 16, out, left * 16 / 4 + v / 16);
        } else if quad == 2 {
          A2bAppends(s[1..], 3, v % 4, out, left * 16 + v / 4);
        } else {
          A2bAppends(s[1..], 0, 0, out, left * 64 + v);
        }
      }
    }
  }

  /** One emitted byte: the bound for the rest, shifted by that byte. */
  lemma {:induction false} A2bAppends(s: bytes, quad: nat, left: nat, out: bytes, x: byte)
    requires quad < 4
    requires quad == 1 ==> left < 64
    requires quad == 2 ==> left < 16
    requires quad == 3 ==> left < 4
    ensures var r := A2b(s, quad, left, 0, out + [x]);
      r.Ok? ==> |out| < |r.value| && r.value[..|out|] == out && 4 * (|r.value| - |out| - 1) <= 3 * |s| + GroupSlack(quad)
    decreases |s|, 1
  {
    A2bLength(s, quad, left, 0, out + [x]);
    var r := A2b(s, quad, left, 0, out + [x]);
    if r.Ok? {
      assert r.value[..|out|] == r.value[..|out| + 1][..|out|];
    }
  }

  /** base64_decode: drop non-ASCII characters, restore padding, translate `-_`, then decode. */
  function Base64Decode(t: Text): (r: Result<bytes, DecodeError>)
    ensures r.Ok? ==> |r.value| <= 3 * ((|ToAsciiIgnore(t)| + 3) / 4)
  {
    var padded := PadTo4(ToAsciiIgnore(t));
    A2bLength(FromUrlSafe(padded), 0, 0, 0, []);
    A2b(FromUrlSafe(padded), 0, 0, 0, [])
  }

  /** Decoding a full padded encoding appends exactly the encoded bytes. */
  lemma {:induction false} A2bOfB2a(data: bytes, out: bytes)
    ensures A2b(B2a(data), 0, 0, 0, out) == Ok(out + data)
    decreases |data|
  {
    if |data| == 1 {
      assert data == [data[0]];
      A2bOfLastOne(data[0], out);
    } else if |data| == 2 {
      assert data == [data[0], data[1]];
      A2bOfLastTwo(data[0], data[1], out);
    } else if |data| >= 3 {
      var head := [data[0], data[1], data[2]];
      var tail := data[3..];
      assert data == head + tail;
      B2aOfGroup(head, tail);
      assert B2a(data) == B2a(head) + B2a(tail);
      A2bOfGroup(data[0], data[1], data[2], B2a(tail), out);
      assert A2b(B2a(data), 0, 0, 0, out) == A2b(B2a(tail), 0, 0, 0, out + head);
      A2bOfB2a(tail, out + head);
      assert out + head + tail == out + data;
    } else {
      assert out + data == out;
    }
  }

  lemma B2aOfGroup(head: bytes, tail: bytes)
    requires |head| == 3
    ensures B2a(head + tail) == B2a(head) + B2a(tail)
  {
    assert (head + tail)[3..] == tail;
    assert head[3..] == [];
  }

  lemma A2bOfLastOne(b0: byte, out: bytes)
    ensures A2b(B2a([b0]), 0, 0, 0, out) == Ok(out + [b0])
  {
    var s := B2a([b0]);
    var c0, c1 := b0 as int / 4, (b0 as int % 4) * 16;
    StdValueOfChar(c0);
    StdValueOfChar(c1);
    assert c0 * 16 / 4 + c1 / 16 == b0 as int;
    var o1 := out + [b0];
    assert A2b(s, 0, 0, 0, out) == A2b(s[1..], 1, c0, 0, out);
    assert A2b(s[1..], 1, c0, 0, out) == A2b(s[2..], 2, c1 % 16, 0, o1);
    assert A2b(s[2..], 2, c1 % 16, 0, o1) == A2b(s[3..], 2, c1 % 16, 1, o1);
  }

  lemma A2bOfLastTwo(b0: byte, b1: byte, out: bytes)
    ensures A2b(B2a([b0, b1]), 0, 0, 0, out) == Ok(out + [b0, b1])
  {
    var s := B2a([b0, b1]);
    var c0, c1, c2 := b0 as int / 4, (b0 as int % 4) * 16 + b1 as int / 16, (b1 as int % 16) * 4;
    assert s == [StdChar(c0), StdChar(c1), StdChar(c2), Pad];
    assert c0 * 16 / 4 + c1 / 16 == b0 as int && (c1 % 16) * 16 + c2 / 4 == b1 as int by {
      GroupArithmetic(b0 as int, b1 as int, 0);
    }
    var s1, s2, s3 := s[1..], s[2..], s[3..];
    assert s2 == s1[1..] && s3 == s2[1..] && s3 == [Pad];
    var o1 := out + [b0];
    A2bFirstChar(s, s1, out, c0);
    A2bSecondChar(s1, s2, c0, out, c1, b0);
    A2bThirdChar(s2, s3, c1 % 16, o1, c2, b1);
    assert o1 + [b1] == out + [b0, b1];
  }

  /** A full group of four data characters yields its three bytes and returns to the group start. */
  lemma A2bOfGroup(b0: byte, b1: byte, b2: byte, rest: bytes, out: bytes)
    ensures A2b(B2a([b0, b1, b2]) + rest, 0, 0, 0, out) == A2b(rest, 0, 0, 0, out + [b0, b1, b2])
  {
    var s := B2a([b0, b1, b2]) + rest;
    var c0, c1 := b0 as int / 4, (b0 as int % 4) * 16 + b1 as int / 16;
    var c2, c3 := (b1 as int % 16) * 4 + b2 as int / 64, b2 as int % 64;
    assert s[0] == StdChar(c0) && s[1] == StdChar(c1) && s[2] == StdChar(c2) && s[3] == StdChar(c3) && s[4..] == rest by {
      assert B2a([b0, b1, b2]) == [StdChar(c0), StdChar(c1), StdChar(c2), StdChar(c3)] + B2a([]);
    }
    assert c0 * 16 / 4 + c1 / 16 == b0 as int && (c1 % 16) * 16 + c2 / 4 == b1 as int && (c2 % 4) * 64 + c3 == b2 as int by {
      GroupArithmetic(b0 as int, b1 as int, b2 as int);
    }
    var s1, s2, s3 := s[1..], s[2..], s[3..];
    assert s2 == s1[1..] && s3 == s2[1..] && rest == s3[1..];
    var o1 := out + [b0];
    var o2 := o1 + [b1];
    var o3 := o2 + [b2];
    A2bFirstChar(s, s1, out, c0);
    A2bSecondChar(s1, s2, c0, out, c1, b0);
    A2bThirdChar(s2, s3, c1 % 16, o1, c2, b1);
    A2bFourthChar(s3, rest, c2 % 4, o2, c3, b2);
    assert o3 == out + [b0, b1, b2];
  }

  /** The first data character of a group is kept whole as the leftover bits. */
  lemma A2bFirstChar(s: bytes, t: bytes, out: bytes, c: nat)
    requires c < 64 && |s| > 0 && s[0] == StdChar(c) && t == s[1..]
    ensures A2b(s, 0, 0, 0, out) == A2b(t, 1, c, 0, out)
  {
    StdValueOfChar(c);
  }

  /** The second data character completes the first byte. */
  lemma A2bSecondChar(s: bytes, t: bytes, left: nat, out: bytes, c: nat, b: byte)
    requires c < 64 && |s| > 0 && s[0] == StdChar(c) && t == s[1..] && left < 64
    requires b == left * 16 / 4 + c / 16
    ensures A2b(s, 1, left, 0, out) == A2b(t, 2, c % 16, 0, out + [b])
  {
    StdValueOfChar(c);
  }

  /** The third data character completes the second byte. */
  lemma A2bThirdChar(s: bytes, t: bytes, left: nat, out: bytes, c: nat, b: byte)
    requires c < 64 && |s| > 0 && s[0] == StdChar(c) && t == s[1..] && left < 16
    requires b == left * 16 + c / 4
    ensures A2b(s, 2, left, 0, out) == A2b(t, 3, c % 4, 0, out + [b])
  {
    StdValueOfChar(c);
  }

  /** The fourth data character completes the third byte and ends the group. */
  lemma A2bFourthChar(s: bytes, t: bytes, left: nat, out: bytes, c: nat, b: byte)
    requires c < 64 && |s| > 0 && s[0] == StdChar(c) && t == s[1..] && left < 4
    requires b == left * 64 + c
    ensures A2b(s, 3, left, 0, out) == A2b(t, 0, 0, 0, out + [b])
  {
    StdValueOfChar(c);
  }

  /** The four sextets of three bytes put the bytes back together. */
  lemma GroupArithmetic(b0: int, b1: int, b2: int)
    requires 0 <= b0 < 256 && 0 <= b1 < 256 && 0 <= b2 < 256
    ensures var c0, c1 := b0 / 4, (b0 % 4) * 16 + b1 / 16;
      var c2, c3 := (b1 % 16) * 4 + b2 / 64, b2 % 64;
      && c0 * 16 / 4 + c1 / 16 == b0
      && (c1 % 16) * 16 + c2 / 4 == b1
      && (c2 % 4) * 64 + c3 == b2
  {
  }

  lemma {:induction false} FromUrlSafeUndoes(s: bytes)
    requires forall i :: 0 <= i < |s| ==> s[i] != Dash && s[i] != Under
    ensures FromUrlSafe(ToUrlSafe(s)) == s
  {
  }

  lemma B2aHasNoUrlSafeOnlyChars(data: bytes)
    ensures forall i :: 0 <= i < |B2a(data)| ==> B2a(data)[i] != Dash && B2a(data)[i] != Under
  {
    BodyIsAlphabet(data);
    PaddingAtEnd(data);
  }

  /** base64_decode(base64_encode(x)) == x for every byte string. */
  lemma Base64RoundTrip(data: bytes)
    ensures Base64Decode(Bytes(Base64Encode(Bytes(data)))) == Ok(data)
  {
    var t := B2a(data);
    var s := ToUrlSafe(t);
    var core := StripPad(s);
    assert Base64Encode(Bytes(data)) == core;
    assert ToAsciiIgnore(Bytes(core)) == core;
    EncodedShape(data);
    assert PadTo4(core) == s;
    B2aHasNoUrlSafeOnlyChars(data);
    FromUrlSafeUndoes(t);
    assert FromUrlSafe(s) == t;
    A2bOfB2a(data, []);
    assert [] + data == data;
  }

  /** The same holds for a `str` argument: decoding gives back its UTF-8 bytes. */
  lemma Base64RoundTripStr(s: string)
    ensures Base64Decode(Bytes(Base64Encode(Text.Str(s)))) == Ok(Utf8Encode(s))
  {
    Base64RoundTrip(Utf8Encode(s));
  }

  /** Over alphabet-only input, a length one more than a multiple of four cannot be decoded. */
  lemma Base64RejectsLengthOneMod4(e: bytes)
    requires forall i :: 0 <= i < |e| ==> UrlSafeChar(e[i])
    requires |e| % 4 == 1
    ensures Base64Decode(Bytes(e)).Err?
  {
    var u := FromUrlSafe(e);
    var p := PadTo4(e);
    assert FromUrlSafe(p) == u + [Pad, Pad, Pad];
    forall i | 0 <= i < |u| ensures StdValue(u[i]) < 64 {
    }
    DataThenPadsEndsWithOne(u, [Pad, Pad, Pad], 0, 0, 0, []);
  }

  lemma {:induction false} DataThenPadsEndsWithOne(u: bytes, pads: bytes, quad: nat, left: nat, p: nat, out: bytes)
    requires quad < 4
    requires quad == 1 ==> left < 64
    requires quad == 2 ==> left < 16
    requires quad == 3 ==> left < 4
    requires forall i :: 0 <= i < |u| ==> StdValue(u[i]) < 64 && u[i] != Pad
    requires forall i :: 0 <= i < |pads| ==> pads[i] == Pad
    requires (quad + |u|) % 4 == 1
    ensures A2b(u + pads, quad, left, p, out).Err?
    decreases |u| + |pads|
  {
    if |u| > 0 {
      var s := u + pads;
      assert s[0] == u[0] && s[1..] == u[1..] + pads;
      var v := StdValue(u[0]);
      if quad == 0 {
        DataThenPadsEndsWithOne(u[1..], pads, 1, v, 0, out);
      } else if quad == 1 {
        DataThenPadsEndsWithOne(u[1..], pads, 2, v % 16, 0, out + [left * 16 / 4 + v / 16]);
      } else if quad == 2 {
        DataThenPadsEndsWithOne(u[1..], pads, 3, v % 4, 0, out + [left * 16 + v / 4]);
      } else {
        DataThenPadsEndsWithOne(u[1..], pads, 0, 0, 0, out + [left * 64 + v]);
      }
    } else if |pads| > 0 {
      assert u + pads == pads;
      assert pads[1..] == [] + pads[1..];
      DataThenPadsEndsWithOne([], pads[1..], quad, left, p, out);
    }
  }
}

=== FILE: frontend_control.dfy ===
/**
  The frontend page helpers (corna/controls/frontend_control.py): the
  title each post shows and the simplified list of a corna's posts with
  their frontend URLs. These helpers read a post's content through the
  `post_object_map` row (`post.mapper`), which points at a `text_posts`
  or a `photo_posts` row; those rows are the small datatypes below.
 */
module FrontendControl {
  import opened Base
  import opened Store

  /** A `text_posts` row: only its nullable title is read here. */
  datatype TextRow = TextRow(title: Option<string>)

  /** A `photo_posts` row: only its nullable caption is read here. */
  datatype PhotoRow = PhotoRow(caption: Option<string>)

  /** A `post_object_map` row: the text or photo row the post maps to, when any. */
  datatype ObjectMap = ObjectMap(text: Option<TextRow>, photo: Option<PhotoRow>)

  /** A `posts` row as the frontend reads it; `mapper` is `None` when no map row exists. */
  datatype PostRow = PostRow(postUuid: Uuid, created: string, kind: string, mapper: Option<ObjectMap>)

  /** Captions of this many characters or more are cut. */
  const CaptionCut: nat := 90

  /** What a caption is cut to: `caption[:91]`. */
  const CaptionKeep: nat := 91

  /**
    The picture title rule: a caption shorter than 90 characters is kept
    whole, a longer one becomes its first 91 characters.
   */
  function CaptionTitle(caption: string): (title: string)
    ensures |title| <= CaptionKeep
    ensures StartsWith(caption, title)
    ensures title == caption <==> |caption| <= CaptionKeep
  {
    if |caption| < CaptionCut then caption
    else if |caption| <= CaptionKeep then caption
    else caption[..CaptionKeep]
  }

  /** A title already cut is not cut again. */
  lemma CaptionTitleIdempotent(caption: string)
    ensures CaptionTitle(CaptionTitle(caption)) == CaptionTitle(caption)
  {
  }

  /** Two captions with the same first 91 characters give the same title. */
  lemma CaptionTitleOnlyReadsPrefix(a: string, b: string)
    requires |a| > CaptionKeep && |b| > CaptionKeep && a[..CaptionKeep] == b[..CaptionKeep]
    ensures CaptionTitle(a) == CaptionTitle(b)
  {
  }

  /**
    _post_title: a text post shows its title, a picture post its caption
    cut by CaptionTitle, and any other type "" (as does an empty title or
    caption). A text or picture post without its mapped row raises
    AttributeError, since the attribute is read from `None`.
   */
  function PostTitle(post: PostRow): (r: Result<string, Error>)
    ensures post.kind != "text" && post.kind != "picture" ==> r == Ok("")
    ensures post.kind == "text" ==>
      (r.Ok? <==> post.mapper.Some? && post.mapper.value.text.Some?)
    ensures post.kind == "text" && r.Ok? ==>
      var title := post.mapper.value.text.value.title;
      r.value == if title.Some? && title.value != "" then title.value else ""
    ensures post.kind == "picture" ==>
      (r.Ok? <==> post.mapper.Some? && post.mapper.value.photo.Some?)
    ensures post.kind == "picture" && r.Ok? ==>
      var caption := post.mapper.value.photo.value.caption;
      r.value == if caption.Some? && caption.value != "" then CaptionTitle(caption.value) else ""
    ensures r.Err? ==> r.error == AttributeError
  {
    if post.kind == "text" then
      match post.mapper
      case None => Err(AttributeError)
      case Some(m) =>
        match m.text
        case None => Err(AttributeError)
        case Some(t) => Ok(if t.title.Some? && t.title.value != "" then t.title.value else "")
    else if post.kind == "picture" then
      match post.mapper
      case None => Err(AttributeError)
      case Some(m) =>
        match m.photo
        case None => Err(AttributeError)
        case Some(p) => Ok(if p.caption.Some? && p.caption.value != "" then CaptionTitle(p.caption.value) else "")
    else Ok("")
  }

  /** A title is never longer than 91 characters unless it is a text post's own title. */
  lemma PictureTitleBounded(post: PostRow)
    requires post.kind != "text" && PostTitle(post).Ok?
    ensures |PostTitle(post).value| <= CaptionKeep
  {
  }

  /** The base every frontend post URL starts with. */
  const FrontendBase: string := "http://192.168.1.152:8080/api/v1/frontend"

  /** `{base}/{domain}/post/{type}/{post_uuid}`. */
  function FrontendUrl(domain: string, kind: string, post: Uuid): (url: string)
    ensures StartsWith(url, FrontendBase + "/")
    ensures |url| == |FrontendBase| + |domain| + |kind| + |post| + 8
    ensures url[|url| - |post|..] == post
  {
    FrontendBase + "/" + domain + "/post/" + kind + "/" + post
  }

  /**
    Splitting a frontend URL on '/' gives the pieces of the base, then the
    domain, "post", the type and the post uuid, when none holds a '/'.
   */
  lemma FrontendUrlSplits(domain: string, kind: string, post: Uuid)
    requires '/' !in domain && '/' !in kind && '/' !in post
    ensures Split(FrontendUrl(domain, kind, post), '/') == Split(FrontendBase, '/') + [domain, "post", kind, post]
  {
    var t5 := domain + "/" + ("post" + "/" + (kind + "/" + post));
    assert FrontendUrl(domain, kind, post) == FrontendBase + ['/'] + t5;
    PathSplits(domain, kind, post);
    SplitAppend(FrontendBase, '/', t5);
  }

  /** The part after the base splits into its four pieces. */
  lemma PathSplits(domain: string, kind: string, post: Uuid)
    requires '/' !in domain && '/' !in kind && '/' !in post
    ensures Split(domain + "/" + ("post" + "/" + (kind + "/" + post)), '/') == [domain, "post", kind, post]
  {
    var t7 := kind + "/" + post;
    var t6 := "post" + "/" + t7;
    SplitFree(post, '/');
    SplitFree(kind, '/');
    SplitFree("post", '/');
    SplitFree(domain, '/');
    SplitAppend(kind, '/', post);
    assert Split(t7, '/') == [kind, post];
    SplitAppend("post", '/', t7);
    assert Split(t6, '/') == ["post", kind, post];
    SplitAppend(domain, '/', t6);
  }

  /** Different slash-free (domain, type, uuid) triples give different URLs. */
  lemma FrontendUrlInjective(d1: string, k1: string, p1: Uuid, d2: string, k2: string, p2: Uuid)
    requires '/' !in d1 && '/' !in k1 && '/' !in p1
    requires '/' !in d2 && '/' !in k2 && '/' !in p2
    requires FrontendUrl(d1, k1, p1) == FrontendUrl(d2, k2, p2)
    ensures d1 == d2 && k1 == k2 && p1 == p2
  {
    FrontendUrlSplits(d1, k1, p1);
    FrontendUrlSplits(d2, k2, p2);
    var n := |Split(FrontendBase, '/')|;
    assert (Split(FrontendBase, '/') + [d1, "post", k1, p1])[n..] == [d1, "post", k1, p1];
    assert (Split(FrontendBase, '/') + [d2, "post", k2, p2])[n..] == [d2, "post", k2, p2];
  }

  /** One entry of simplified_post_list. */
  datatype Entry = Entry(postUuid: Uuid, domain: string, created: string, kind: string, title: string, postUrl: string)

  /** The entry of one post: its uuid, date and type, the corna's domain, the title given and the post's frontend URL. */
  function EntryOf(post: PostRow, domain: string, title: string): Entry {
    Entry(post.postUuid, domain, post.created, post.kind, title, FrontendUrl(domain, post.kind, post.postUuid))
  }

  /**
    simplified_post_list: one entry per post of the corna, in the order of
    `corna.posts`, deleted posts included; the first title that raises
    aborts the list.
   */
  function SimplifiedPostList(posts: seq<PostRow>, domain: string): (r: Result<seq<Entry>, Error>)
    ensures r.Ok? <==> forall i :: 0 <= i < |posts| ==> PostTitle(posts[i]).Ok?
    ensures r.Err? ==> r.error == AttributeError
    ensures r.Ok? ==> |r.value| == |posts|
    ensures r.Ok? ==> forall i :: 0 <= i < |posts| ==> r.value[i] == EntryOf(posts[i], domain, PostTitle(posts[i]).value)
  {
    if posts == [] then Ok([])
    else
      match PostTitle(posts[0])
      case Err(e) => Err(e)
      case Ok(title) =>
        match SimplifiedPostList(posts[1..], domain)
        case Err(e) => Err(e)
        case Ok(rest) =>
          assert forall i :: 1 <= i < |posts| ==> posts[i] == posts[1..][i - 1];
          Ok([EntryOf(posts[0], domain, title)] + rest)
  }

  /**
    Every entry links back to its own post: the URL read back from the
    entry names the entry's domain, type and uuid.
   */
  lemma EntryUrlNamesPost(posts: seq<PostRow>, domain: string, i: nat)
    requires SimplifiedPostList(posts, domain).Ok? && i < |posts|
    requires '/' !in domain && '/' !in posts[i].kind && '/' !in posts[i].postUuid
    ensures var e := SimplifiedPostList(posts, domain).value[i];
      Split(e.postUrl, '/') == Split(FrontendBase, '/') + [e.domain, "post", e.kind, e.postUuid]
  {
    FrontendUrlSplits(domain, posts[i].kind, posts[i].postUuid);
  }
}

=== FILE: http.dfy ===
/**
  What a route hands back: an HTTP status and the database as the request
  leaves it. Routes commit the session only after the control returned;
  an exception, caught or not, leaves the database as it was.
 */
module Http {
  import opened Base
  import opened Store

  const HttpOk: nat := 200
  const HttpCreated: nat := 201
  const HttpNoContent: nat := 204
  const HttpBadRequest: nat := 400
  const HttpUnauthorized: nat := 401
  const HttpNotFound: nat := 404
  /** The status Flask answers an uncaught exception with. */
  const HttpServerError: nat := 500

  datatype Reply = Reply(status: nat, db: Db)

  /**
    One route: on success the session is committed and `success` is
    answered; an error the route catches is answered with the status
    `caught` gives it; any other error escapes as a server error. Neither
    error path commits.
   */
  function Respond(db: Db, r: Result<Db, Error>, caught: Error -> Option<nat>, success: nat): (reply: Reply)
    ensures r.Ok? ==> reply == Reply(success, r.value)
    ensures r.Err? ==> reply.db == db
    ensures r.Err? && caught(r.error).None? ==> reply.status == HttpServerError
    ensures r.Err? && caught(r.error).Some? ==> reply.status == caught(r.error).value
  {
    match r
    case Ok(db2) => Reply(success, db2)
    case Err(e) =>
      match caught(e)
      case Some(status) => Reply(status, db)
      case None => Reply(HttpServerError, db)
  }
}

=== FILE: image_proc.dfy ===
/**
  File-name and path rules of the media store (corna/utils/image_proc.py):
  the hash-derived directory layout, the relative path `save` answers, the
  image and video extension tests, and the random 128-bit "hash". Writing
  the file, `secure_filename` and the random source are parameters.
 */
module ImageProc {
  import opened Base

  const ImageExtensions: set<string> := {"gif", "jpg", "jpeg", "png", "webp"}

  const VideoExtensions: set<string> := {"avi", "flv", "mkv", "mp4", "mov", "wmv"}

  /** Python's `s[i:j]` for 0 <= i <= j: both ends clipped to the string. */
  function Slice(s: string, i: nat, j: nat): (r: string)
    requires i <= j
    ensures |r| <= j - i
  {
    var a := if i <= |s| then i else |s|;
    var b := if j <= |s| then j else |s|;
    s[a..b]
  }

  /** Python's `s[i:]`. */
  function From(s: string, i: nat): string {
    if i <= |s| then s[i..] else []
  }

  /**
    hash_to_dir: the hash cut after its 3rd, 6th and 9th characters into
    four path components (shorter hashes give empty components).
   */
  function HashToDir(hash: string): (path: string)
    ensures |path| == |hash| + 3
    ensures |hash| >= 9 ==> path == hash[..3] + "/" + hash[3..6] + "/" + hash[6..9] + "/" + hash[9..]
  {
    Slice(hash, 0, 3) + "/" + Slice(hash, 3, 6) + "/" + Slice(hash, 6, 9) + "/" + From(hash, 9)
  }

  /** Every character but '/'. */
  function DropSlashes(s: string): (r: string)
    ensures '/' !in r
  {
    if |s| == 0 then [] else Keep(s[0]) + DropSlashes(s[1..])
  }

  function Keep(c: char): (r: string)
    ensures '/' !in r
  {
    if c == '/' then [] else [c]
  }

  lemma {:induction false} DropSlashesConcat(a: string, b: string)
    ensures DropSlashes(a + b) == DropSlashes(a) + DropSlashes(b)
  {
    if |a| == 0 {
      assert a + b == b;
    } else {
      assert (a + b)[0] == a[0];
      assert (a + b)[1..] == a[1..] + b;
      DropSlashesConcat(a[1..], b);
      calc {
        DropSlashes(a + b);
        Keep(a[0]) + DropSlashes(a[1..] + b);
        Keep(a[0]) + (DropSlashes(a[1..]) + DropSlashes(b));
        (Keep(a[0]) + DropSlashes(a[1..])) + DropSlashes(b);
      }
    }
  }

  lemma {:induction false} DropSlashesFree(s: string)
    requires '/' !in s
    ensures DropSlashes(s) == s
  {
    if |s| > 0 {
      DropSlashesFree(s[1..]);
    }
  }

  /** Removing the three inserted separators gives the hash back, whatever its length. */
  lemma HashToDirRoundTrip(hash: string)
    requires '/' !in hash
    ensures DropSlashes(HashToDir(hash)) == hash
  {
    var p0, p1, p2, p3 := Slice(hash, 0, 3), Slice(hash, 3, 6), Slice(hash, 6, 9), From(hash, 9);
    assert hash == p0 + p1 + p2 + p3;
    var a1 := p0 + "/" + p1;
    var a2 := a1 + "/" + p2;
    DropSlashesFree(p0);
    DropSlashesThenSlash(p0, p1);
    DropSlashesThenSlash(a1, p2);
    DropSlashesThenSlash(a2, p3);
    assert HashToDir(hash) == a2 + "/" + p3;
  }

  /** A '/' followed by slash-free text: only the '/' is dropped. */
  lemma DropSlashesThenSlash(a: string, b: string)
    requires '/' !in b
    ensures DropSlashes(a + "/" + b) == DropSlashes(a) + b
  {
    var slash: string := "/";
    assert DropSlashes(slash) == Keep('/') + DropSlashes([]) == [];
    DropSlashesConcat(a, slash);
    DropSlashesConcat(a + slash, b);
    DropSlashesFree(b);
  }

  /** Two slash-free hashes share a directory only if they are equal. */
  lemma HashToDirInjective(h1: string, h2: string)
    requires '/' !in h1 && '/' !in h2
    requires HashToDir(h1) == HashToDir(h2)
    ensures h1 == h2
  {
    HashToDirRoundTrip(h1);
    HashToDirRoundTrip(h2);
  }

  /**
    save: an upload without a file name is refused (OSError); otherwise the
    file lands under `<bucket>/<hash_to_dir(hash)>/<secure name>`, and that
    path, relative to the picture directory, is the answer.
   */
  function Save(filename: string, bucket: string, hash: string, secureName: string -> string): (r: Result<string, string>)
    ensures filename == [] <==> r.Err?
    ensures r.Err? ==> r.error == "File needs name to be saved"
    ensures r.Ok? ==> var prefix := bucket + "/" + HashToDir(hash) + "/";
      |prefix| <= |r.value| && r.value[..|prefix|] == prefix && r.value[|prefix|..] == secureName(filename)
  {
    if filename == [] then Err("File needs name to be saved")
    else
      var path := bucket + "/" + HashToDir(hash) + "/" + secureName(filename);
      assert path == (bucket + "/" + HashToDir(hash) + "/") + secureName(filename);
      Ok(path)
  }

  /** is_image: the name has a '.', and the text after the last one, lower-cased, is an image extension. */
  function IsImage(filename: string): (b: bool)
    ensures b <==> exists i :: (0 <= i < |filename| && filename[i] == '.' && '.' !in filename[i + 1..]
                                && Lower(filename[i + 1..]) in ImageExtensions)
  {
    HasExtensionMeans(filename, ImageExtensions);
    HasExtension(filename, ImageExtensions)
  }

  /** is_video: the same test against the video extensions. */
  function IsVideo(filename: string): (b: bool)
    ensures b <==> exists i :: (0 <= i < |filename| && filename[i] == '.' && '.' !in filename[i + 1..]
                                && Lower(filename[i + 1..]) in VideoExtensions)
  {
    HasExtensionMeans(filename, VideoExtensions);
    HasExtension(filename, VideoExtensions)
  }

  /** The two extension lists share nothing, so no file is both an image and a video. */
  lemma ImageOrVideo(filename: string)
    ensures !(IsImage(filename) && IsVideo(filename))
  {
    if '.' in filename {
      var e := Lower(AfterLast(filename, '.'));
      assert IsImage(filename) == (e in ImageExtensions);
      assert IsVideo(filename) == (e in VideoExtensions);
      if e in ImageExtensions {
        NotVideoExtension(e);
      }
    }
  }

  /** No image extension is a video extension. */
  lemma NotVideoExtension(e: string)
    requires e in ImageExtensions
    ensures e !in VideoExtensions
  {
    if e == "gif" {
      assert e[0] == 'g';
    } else if e == "jpg" || e == "jpeg" {
      assert e[0] == 'j';
    } else if e == "png" {
      assert e[0] == 'p';
    } else {
      assert e[0] == 'w' && e[1] == 'e';
    }
  }

  // ---------------------------------------------------------------------
  // random_hash: `hex(random.getrandbits(128))[2:]`
  // ---------------------------------------------------------------------

  function Pow16(k: nat): (r: nat)
    ensures r >= 1
  {
    if k == 0 then 1 else 16 * Pow16(k - 1)
  }

  /** 16^32 = 2^128, the bound `getrandbits(128)` stays below. */
  const Bound128: nat := Pow16(32)

  /** `hex(n)[2:]`: lower-case hexadecimal digits without leading zeros ("0" for zero). */
  function NatToHex(n: nat): (h: string)
    ensures |h| >= 1 && forall i :: 0 <= i < |h| ==> h[i] in HexDigits
    ensures n > 0 ==> h[0] != '0'
  {
    if n < 16 then [HexDigits[n]]
    else NatToHex(n / 16) + [HexDigits[n % 16]]
  }

  /** The value of a string of hexadecimal digits. */
  function HexDigitsValue(h: string): nat
    requires forall i :: 0 <= i < |h| ==> IsHexChar(h[i])
  {
    if |h| == 0 then 0 else HexDigitsValue(h[..|h| - 1]) * 16 + HexValue(h[|h| - 1])
  }

  /** The digits read back give the number. */
  lemma {:induction false} NatToHexValue(n: nat)
    ensures forall i :: 0 <= i < |NatToHex(n)| ==> IsHexChar(NatToHex(n)[i])
    ensures HexDigitsValue(NatToHex(n)) == n
  {
    if n < 16 {
      HexValueOfDigit(n);
    } else {
      NatToHexValue(n / 16);
      HexValueOfDigit(n % 16);
      var h := NatToHex(n);
      assert h[..|h| - 1] == NatToHex(n / 16);
    }
  }

  /** A number below 16^k has at most k hex digits (at least one). */
  lemma {:induction false} NatToHexLength(n: nat, k: nat)
    requires n < Pow16(k)
    ensures |NatToHex(n)| <= if k == 0 then 1 else k
  {
    if n >= 16 {
      NatToHexLength(n / 16, k - 1);
    }
  }

  /**
    random_hash, given the drawn number: lower-case hex without prefix,
    at most 32 digits, and reading it back gives the number.
   */
  function RandomHash(bits: nat): (h: string)
    requires bits < Bound128
    ensures 1 <= |h| <= 32
    ensures forall i :: 0 <= i < |h| ==> h[i] in HexDigits
    ensures forall i :: 0 <= i < |h| ==> IsHexChar(h[i])
    ensures HexDigitsValue(h) == bits
  {
    NatToHexLength(bits, 32);
    NatToHexValue(bits);
    NatToHex(bits)
  }
}

=== FILE: media_control.dfy ===
/**
  Media handling (corna/controls/media_control.py): the `Range` header
  parser, the bounded-block video stream, and the chunked-upload state
  machine: per-upload metadata of received indices, index-named part files,
  the completeness test, and merging the parts in order under a lock file.
  The chunk directory is a map from upload id to its partition; a file is
  its bytes.
 */
module MediaControl {
  import opened Base

  /** image_proc.MAX_BLOB_SIZE: 100 MiB. */
  const MaxBlobSize: nat := 100 * 1024 * 1024

  /** image_proc.READ_BYTES: the default block size of the stream. */
  const ReadBytes: nat := 8192

  function Min(a: int, b: int): int { if a <= b then a else b }

  function Max(a: int, b: int): int { if a >= b then a else b }

  // ---------------------------------------------------------------------
  // get_range: `re.match(r"bytes=(\d+)-(\d*)", header)`
  // ---------------------------------------------------------------------

  /** The longest run of digits `s` starts with (what a greedy `\d*` takes). */
  function LeadingDigits(s: string): (d: string)
    ensures |d| <= |s| && d == s[..|d|] && AllDigits(d)
    ensures |d| == |s| || !IsDigit(s[|d|])
  {
    if |s| == 0 || !IsDigit(s[0]) then []
    else
      var rest := LeadingDigits(s[1..]);
      assert s[1..][..|rest|] == s[1..1 + |rest|];
      [s[0]] + rest
  }

  /**
    get_range: the header's absence, or a header that does not start with
    `bytes=<digits>-`, gives None; otherwise the first number is the start
    and the second, when present, the end, else the last byte of the file.
    Neither order nor size is checked, and anything after the second
    number is ignored.
   */
  function GetRange(header: Option<string>, size: int): (r: Option<(nat, int)>)
    ensures r.Some? ==> header.Some? && |header.value| > 7 && header.value[..6] == "bytes=" && '-' in header.value
    ensures header.Some? && |header.value| >= 7 && header.value[..7] == "bytes=-" ==> r.None?
  {
    if header.None? || header.value == [] then None
    else
      var h := header.value;
      if |h| < 6 || h[..6] != "bytes=" then None
      else
        var first := LeadingDigits(h[6..]);
        var rest := h[6 + |first|..];
        if |first| == 0 || |rest| == 0 || rest[0] != '-' then None
        else
          assert h[6 + |first|] == '-';
          var second := LeadingDigits(rest[1..]);
          Some((DigitsValue(first), if |second| > 0 then DigitsValue(second) else size - 1))
  }

  /** The header the parser accepts, read independently: `bytes=`, at least one digit, then '-'. */
  ghost predicate RangeForm(h: string)
  {
    |h| > 7 && h[..6] == "bytes=" && exists i :: 6 < i < |h| && AllDigits(h[6..i]) && h[i] == '-'
  }

  /** get_range answers a range exactly for the headers of that form. */
  lemma GetRangeAccepts(h: string, size: int)
    ensures GetRange(Some(h), size).Some? <==> RangeForm(h)
  {
    if RangeForm(h) {
      var i :| 6 < i < |h| && AllDigits(h[6..i]) && h[i] == '-';
      assert |LeadingDigits(h[6..])| == i - 6 by {
        assert h[6..][..i - 6] == h[6..i] && h[6..][i - 6] == h[i];
        LeadingDigitsStop(h[6..], i - 6);
      }
    }
    if GetRange(Some(h), size).Some? {
      var first := LeadingDigits(h[6..]);
      assert h[6..6 + |first|] == first;
      assert h[6 + |first|] == '-';
    }
  }

  /** The digits a string starts with end at its first non-digit. */
  lemma LeadingDigitsStop(s: string, k: nat)
    requires k < |s| && AllDigits(s[..k]) && !IsDigit(s[k])
    ensures |LeadingDigits(s)| == k
  {
  }

  /** A header `bytes=<d>-<t>` is read as d and the digits `t` starts with. */
  lemma GetRangeOf(d: string, t: string, size: int)
    requires |d| > 0 && AllDigits(d)
    ensures var second := LeadingDigits(t);
      GetRange(Some("bytes=" + d + "-" + t), size)
      == Some((DigitsValue(d), if |second| > 0 then DigitsValue(second) else size - 1))
  {
    var h := "bytes=" + d + "-" + t;
    assert h[..6] == "bytes=";
    assert h[6..] == d + ("-" + t);
    LeadingDigitsOf(d, "-" + t);
    assert h[6 + |d|..] == "-" + t;
    assert ("-" + t)[1..] == t;
  }

  /** `bytes=S-E` yields (S, E) whatever follows E. */
  lemma GetRangeBoth(s: nat, e: nat, tail: string, size: int)
    requires |tail| == 0 || !IsDigit(tail[0])
    ensures GetRange(Some("bytes=" + NatToDigits(s) + "-" + NatToDigits(e) + tail), size) == Some((s, e))
  {
    var ds, de := NatToDigits(s), NatToDigits(e);
    assert |ds| > 0 && AllDigits(ds) && DigitsValue(ds) == s && |de| > 0 && AllDigits(de) && DigitsValue(de) == e by {
      NatToDigitsValid(s);
      NatToDigitsValid(e);
    }
    assert "bytes=" + ds + "-" + de + tail == "bytes=" + ds + "-" + (de + tail);
    GetRangeOf(ds, de + tail, size);
    LeadingDigitsOf(de, tail);
  }

  /** `bytes=S-` (no end) yields (S, size - 1). */
  lemma GetRangeOpenEnded(s: nat, tail: string, size: int)
    requires |tail| == 0 || !IsDigit(tail[0])
    ensures GetRange(Some("bytes=" + NatToDigits(s) + "-" + tail), size) == Some((s, size - 1))
  {
    NatToDigitsValid(s);
    GetRangeOf(NatToDigits(s), tail, size);
    LeadingDigitsOf([], tail);
    assert [] + tail == tail;
  }

  lemma {:induction false} LeadingDigitsOf(d: string, tail: string)
    requires AllDigits(d)
    requires |tail| == 0 || !IsDigit(tail[0])
    ensures LeadingDigits(d + tail) == d
  {
    if |d| > 0 {
      assert (d + tail)[1..] == d[1..] + tail;
      LeadingDigitsOf(d[1..], tail);
    } else {
      assert d + tail == tail;
    }
  }

  // ---------------------------------------------------------------------
  // video_stream
  // ---------------------------------------------------------------------

  function Flatten(blocks: seq<bytes>): (out: bytes)
    ensures |blocks| == 0 ==> out == []
  {
    if |blocks| == 0 then [] else Flatten(blocks[..|blocks| - 1]) + blocks[|blocks| - 1]
  }

  /** `fd.read(n)` at offset `pos`: at most n bytes, fewer at the end of the file. */
  function ReadAt(data: bytes, pos: nat, n: nat): (block: bytes)
    requires pos <= |data|
    ensures |block| == Min(n, |data| - pos)
    ensures block == data[pos..pos + |block|]
  {
    data[pos..Min(pos + n, |data|)]
  }

  /** Appending the block read at `pos` to the window read so far extends the window to the block's end. */
  lemma WindowGrows(data: bytes, blocks: seq<bytes>, from: nat, pos: nat, block: bytes, blocks2: seq<bytes>, pos2: nat)
    requires from <= pos && pos2 == pos + |block| <= |data|
    requires Flatten(blocks) == data[from..pos] && block == data[pos..pos2]
    requires blocks2 == blocks + [block]
    ensures Flatten(blocks2) == data[from..pos2]
  {
    assert blocks2[..|blocks|] == blocks;
    assert data[from..pos2] == data[from..pos] + data[pos..pos2];
  }

  /** A non-empty block no longer than `limit` keeps every block within the read size. */
  lemma BlocksStayWithin(blocks: seq<bytes>, block: bytes, limit: nat)
    requires forall b :: b in blocks ==> 0 < |b| <= limit
    requires 0 < |block| <= limit
    ensures forall b :: b in blocks + [block] ==> 0 < |b| <= limit
  {
  }

  /**
    video_stream over the file's bytes: seek to `start`, then read blocks of
    at most `readBytes` until `end - start + 1` bytes are sent or the file
    ends. The blocks, in order, are exactly the requested window cut to
    the file.
   */
  method VideoStream(data: bytes, start: nat, end: int, readBytes: nat) returns (blocks: seq<bytes>)
    ensures forall b :: b in blocks ==> 0 < |b| <= readBytes
    ensures readBytes > 0 ==>
      var from := Min(start, |data|);
      Flatten(blocks) == data[from..Min(from + Max(end - start + 1, 0), |data|)]
    ensures readBytes == 0 ==> blocks == []
  {
    var pos: nat := Min(start, |data|);
    ghost var from := pos;
    var chunkLength := end - start + 1;
    blocks := [];
    while chunkLength > 0
      invariant from <= pos <= |data|
      invariant Flatten(blocks) == data[from..pos]
      invariant chunkLength == end - start + 1 - (pos - from)
      invariant pos == from || chunkLength >= 0
      invariant readBytes == 0 ==> blocks == []
      invariant forall b :: b in blocks ==> 0 < |b| <= readBytes
      decreases chunkLength
    {
      var block := ReadAt(data, pos, Min(chunkLength, readBytes));
      if |block| == 0 {
        break;
      }
      BlocksStayWithin(blocks, block, readBytes);
      ghost var before, at := blocks, pos;
      blocks := blocks + [block];
      pos := pos + |block|;
      chunkLength := chunkLength - |block|;
      WindowGrows(data, before, from, at, block, blocks, pos);
    }
    if readBytes > 0 {
      WindowEnd(from, pos, end - start + 1, |data|, chunkLength);
    }
  }

  /** Where the reading stops: the end of the window, or the end of the file when that comes first. */
  lemma WindowEnd(from: int, pos: int, size: int, len: int, chunkLength: int)
    requires from <= pos <= len
    requires chunkLength == size - (pos - from)
    requires pos == from || chunkLength >= 0
    requires chunkLength <= 0 || pos == len
    ensures pos == Min(from + Max(size, 0), len)
  {
  }

  // ---------------------------------------------------------------------
  // Upload metadata: update_meta
  // ---------------------------------------------------------------------

  /** The `meta.json` of one upload: the received indices and the expected count. */
  datatype Meta = Meta(received: seq<int>, totalChunks: int)

  predicate StrictlySorted(s: seq<int>) {
    forall i, j :: 0 <= i < j < |s| ==> s[i] < s[j]
  }

  function Elements(s: seq<int>): (e: set<int>)
    ensures forall x :: x in e <==> x in s
  {
    set x | x in s
  }

  /** Inserts `x` into a strictly sorted list, unless it is already there. */
  function Insert(s: seq<int>, x: int): (r: seq<int>)
    requires StrictlySorted(s)
    ensures StrictlySorted(r)
    ensures Elements(r) == Elements(s) + {x}
  {
    if |s| == 0 then [x]
    else if x < s[0] then [x] + s
    else if x == s[0] then s
    else
      var rest := Insert(s[1..], x);
      assert forall y :: y in rest ==> s[0] < y;
      ConsSorted(s[0], rest);
      ConsElements(s);
      [s[0]] + rest
  }

  /** A value below every element of a strictly sorted list may go in front of it. */
  lemma ConsSorted(a: int, rest: seq<int>)
    requires StrictlySorted(rest)
    requires forall y :: y in rest ==> a < y
    ensures StrictlySorted([a] + rest)
  {
    forall i, j | 0 <= i < j < |[a] + rest| ensures ([a] + rest)[i] < ([a] + rest)[j] {
      assert ([a] + rest)[j] == rest[j - 1] && rest[j - 1] in rest;
      if i > 0 {
        assert ([a] + rest)[i] == rest[i - 1];
      }
    }
  }

  lemma ConsElements(s: seq<int>)
    requires |s| > 0
    ensures Elements(s) == {s[0]} + Elements(s[1..])
  {
    assert s == [s[0]] + s[1..];
  }

  /** Python's `sorted(set(s))`: the distinct values of `s` in increasing order. */
  function SortedSet(s: seq<int>): (r: seq<int>)
    ensures StrictlySorted(r)
    ensures Elements(r) == Elements(s)
  {
    if |s| == 0 then []
    else
      assert Elements(s) == Elements(s[..|s| - 1]) + {s[|s| - 1]};
      Insert(SortedSet(s[..|s| - 1]), s[|s| - 1])
  }

  /** A strictly sorted list has no repeats: its length is its number of values. */
  lemma {:induction false} SortedCard(s: seq<int>)
    requires StrictlySorted(s)
    ensures |Elements(s)| == |s|
  {
    if |s| > 0 {
      SortedCard(s[1..]);
      assert Elements(s) == {s[0]} + Elements(s[1..]);
      assert s[0] !in Elements(s[1..]);
    }
  }

  /** A set has one sorted listing. */
  lemma {:induction false} SortedUnique(a: seq<int>, b: seq<int>)
    requires StrictlySorted(a) && StrictlySorted(b) && Elements(a) == Elements(b)
    ensures a == b
  {
    assert |a| == |b| by {
      SortedCard(a);
      SortedCard(b);
    }
    if |a| > 0 {
      assert a[0] == b[0] && Elements(a[1..]) == Elements(b[1..]) && StrictlySorted(a[1..]) && StrictlySorted(b[1..]) by {
        SortedSplit(a);
        SortedSplit(b);
        assert a[0] in Elements(b) && b[0] in Elements(a);
        SameHeadSameTail(a[0], Elements(a[1..]), Elements(b[1..]));
      }
      SortedUnique(a[1..], b[1..]);
      assert a == [a[0]] + a[1..] && b == [b[0]] + b[1..];
    }
  }

  /** The head of a strictly sorted list is its least value, not repeated in its tail, which is sorted too. */
  lemma SortedSplit(s: seq<int>)
    requires StrictlySorted(s) && |s| > 0
    ensures forall x :: x in Elements(s) ==> s[0] <= x
    ensures Elements(s) == {s[0]} + Elements(s[1..]) && s[0] !in Elements(s[1..])
    ensures StrictlySorted(s[1..])
  {
    ConsElements(s);
    forall x | x in Elements(s) ensures s[0] <= x {
      var k :| 0 <= k < |s| && s[k] == x;
    }
    forall x | x in s[1..] ensures s[0] < x {
      var k :| 0 <= k < |s[1..]| && s[1..][k] == x;
      assert s[k + 1] == x;
    }
  }

  /** Taking away a head that neither rest holds leaves equal rests. */
  lemma SameHeadSameTail(h: int, x: set<int>, y: set<int>)
    requires {h} + x == {h} + y && h !in x && h !in y
    ensures x == y
  {
    assert x == ({h} + x) - {h};
    assert y == ({h} + y) - {h};
  }

  /** Received indices stored so far: none before the first chunk's metadata is written. */
  function ReceivedOf(stored: Option<Meta>): set<int> {
    if stored.Some? then Elements(stored.value.received) else {}
  }

  function ReceivedList(stored: Option<Meta>): seq<int> {
    if stored.Some? then stored.value.received else []
  }

  /**
    update_meta: the stored received list (none when no metadata is saved
    yet) gains `index`, is deduplicated and sorted, and `totalChunks` is
    overwritten; the answer is the number of distinct indices.
   */
  function UpdateMeta(stored: Option<Meta>, index: int, total: int): (r: (Meta, nat))
    ensures r.0.totalChunks == total
    ensures StrictlySorted(r.0.received)
    ensures Elements(r.0.received) == ReceivedOf(stored) + {index}
    ensures r.1 == |ReceivedOf(stored) + {index}| == |r.0.received|
  {
    var rec := Insert(SortedSet(ReceivedList(stored)), index);
    SortedCard(rec);
    (Meta(rec, total), |rec|)
  }

  /** Saving the same index again changes nothing but the total (idempotent for the same total). */
  lemma UpdateMetaAgain(stored: Option<Meta>, index: int, total: int, total2: int)
    ensures UpdateMeta(Some(UpdateMeta(stored, index, total).0), index, total2) == UpdateMeta(stored, index, total2)
  {
    var once := UpdateMeta(stored, index, total).0.received;
    var twice := UpdateMeta(Some(UpdateMeta(stored, index, total).0), index, total2).0.received;
    SortedUnique(once, twice);
  }

  // ---------------------------------------------------------------------
  // Parts: save_chunk naming and process_chunk
  // ---------------------------------------------------------------------

  /** The part file of chunk `i`: `f"{i:06d}.part"`. */
  function PartName(i: int): string {
    FormatPadded(i, 6) + ".part"
  }

  /** Reads a part name back into its index (the inverse of PartName). */
  function PartIndex(name: string): (r: Option<int>)
  {
    if |name| < 5 || name[|name| - 5..] != ".part" then None
    else
      var stem := name[..|name| - 5];
      if |stem| > 0 && stem[0] == '-' && AllDigits(stem[1..]) then Some(0 - DigitsValue(stem[1..]) as int)
      else if AllDigits(stem) then Some(DigitsValue(stem))
      else None
  }

  lemma {:induction false} ZerosValue(n: nat)
    ensures AllDigits(seq(n, _ => '0')) && DigitsValue(seq(n, _ => '0')) == 0
  {
    if n > 0 {
      assert seq(n, _ => '0')[..n - 1] == seq(n - 1, _ => '0');
      ZerosValue(n - 1);
    }
  }

  /** Leading zeros do not change a decimal value. */
  lemma {:induction false} ZeroPadValue(s: string, width: nat)
    requires AllDigits(s)
    ensures AllDigits(ZeroPad(s, width)) && DigitsValue(ZeroPad(s, width)) == DigitsValue(s)
  {
    if |s| < width {
      ZerosPrefixValue(width - |s|, s);
    }
  }

  lemma {:induction false} ZerosPrefixValue(n: nat, s: string)
    requires AllDigits(s)
    ensures AllDigits(seq(n, _ => '0') + s) && DigitsValue(seq(n, _ => '0') + s) == DigitsValue(s)
  {
    var z: string := seq(n, _ => '0');
    if |s| == 0 {
      assert z + s == z;
      ZerosValue(n);
    } else {
      assert (z + s)[..|z + s| - 1] == z + s[..|s| - 1];
      ZerosPrefixValue(n, s[..|s| - 1]);
    }
  }

  /** Part names round-trip: every index is read back from its file name. */
  lemma PartNameRoundTrip(i: int)
    ensures PartIndex(PartName(i)) == Some(i)
  {
    if i >= 0 {
      var d := ZeroPad(NatToDigits(i), 6);
      assert |d| > 0 && AllDigits(d) && DigitsValue(d) == i by {
        NatToDigitsValid(i);
        ZeroPadValue(NatToDigits(i), 6);
      }
      assert d[0] != '-';
      PartIndexOfStem(d);
    } else {
      var d := ZeroPad(NatToDigits(-i), 5);
      assert AllDigits(d) && DigitsValue(d) == -i by {
        NatToDigitsValid(-i);
        ZeroPadValue(NatToDigits(-i), 5);
      }
      var stem := "-" + d;
      assert stem[1..] == d;
      PartIndexOfStem(stem);
    }
  }

  /** How PartIndex reads the file name `stem + ".part"`: a '-' and digits, or digits alone. */
  lemma PartIndexOfStem(stem: string)
    ensures |stem| > 0 && stem[0] == '-' && AllDigits(stem[1..]) ==> PartIndex(stem + ".part") == Some(0 - DigitsValue(stem[1..]))
    ensures |stem| > 0 && stem[0] != '-' && AllDigits(stem) ==> PartIndex(stem + ".part") == Some(DigitsValue(stem))
  {
    var name := stem + ".part";
    assert name[|name| - 5..] == ".part";
    assert name[..|name| - 5] == stem;
  }

  /** Different chunks never share a part file. */
  lemma PartNameInjective(i: int, j: int)
    requires i != j
    ensures PartName(i) != PartName(j)
  {
    PartNameRoundTrip(i);
    PartNameRoundTrip(j);
  }

  /** One upload's partition: its part files, its metadata, and whether the merge lock exists. */
  datatype Upload = Upload(parts: map<string, bytes>, meta: Option<Meta>, locked: bool)

  /** The chunk directory: a partition per upload id. */
  type Chunks = map<string, Upload>

  /** The partition of an upload, created empty on first use. */
  function PartitionOf(chunks: Chunks, uploadId: string): Upload {
    if uploadId in chunks then chunks[uploadId] else Upload(map[], None, false)
  }

  /** The dict process_chunk answers. */
  datatype ChunkReply = ChunkReply(message: string, received: nat, total: int, uploadId: string)

  const UploadComplete: string := "upload complete"

  /** The message for a chunk that does not complete the upload: `chunk <i> stored`. */
  function StoredMessage(index: int): (m: string)
    ensures m != UploadComplete
  {
    var m := "chunk " + FormatPadded(index, 0) + " stored";
    assert m[0] == 'c';
    m
  }

  /**
    save_chunk followed by update_meta inside one partition: the part is
    written under its index name and the metadata records the index; the
    number is the count of distinct received indices.
   */
  function SaveChunk(up: Upload, blob: bytes, index: int, total: int): (r: (Upload, nat))
    ensures r.0.parts == up.parts[PartName(index) := blob] && r.0.locked == up.locked
    ensures r.0.meta.Some? && r.0.meta.value.totalChunks == total
    ensures Elements(r.0.meta.value.received) == ReceivedOf(up.meta) + {index}
    ensures r.1 == |ReceivedOf(up.meta) + {index}|
  {
    var m := UpdateMeta(up.meta, index, total);
    (up.(parts := up.parts[PartName(index) := blob], meta := Some(m.0)), m.1)
  }

  /**
    process_chunk: store the chunk in its upload's partition, leaving every
    other partition alone, and report completion once the distinct received
    count reaches the total, else `chunk <i> stored`.
   */
  function ProcessChunk(chunks: Chunks, blob: bytes, index: int, total: int, uploadId: string): (r: (Chunks, ChunkReply))
    ensures r.0 == chunks[uploadId := SaveChunk(PartitionOf(chunks, uploadId), blob, index, total).0]
    ensures r.1.received == SaveChunk(PartitionOf(chunks, uploadId), blob, index, total).1
    ensures r.1.message == UploadComplete <==> r.1.received >= total
    ensures r.1.total == total && r.1.uploadId == uploadId
  {
    var saved := SaveChunk(PartitionOf(chunks, uploadId), blob, index, total);
    var message := if saved.1 >= total then UploadComplete else StoredMessage(index);
    (chunks[uploadId := saved.0], ChunkReply(message, saved.1, total, uploadId))
  }

  /** Every received index has its part file: the invariant process_chunk keeps. */
  ghost predicate Stored(up: Upload) {
    up.meta.Some? ==> forall i :: i in up.meta.value.received ==> PartName(i) in up.parts
  }

  lemma ProcessChunkKeepsStored(chunks: Chunks, blob: bytes, index: int, total: int, uploadId: string)
    requires Stored(PartitionOf(chunks, uploadId))
    ensures Stored(ProcessChunk(chunks, blob, index, total, uploadId).0[uploadId])
  {
    var after := ProcessChunk(chunks, blob, index, total, uploadId).0[uploadId];
    forall i | i in after.meta.value.received
      ensures PartName(i) in after.parts
    {
      assert i in Elements(after.meta.value.received);
    }
  }

  /** Sending a chunk again replaces its part and leaves the count as one send would. */
  lemma ProcessChunkResend(chunks: Chunks, blob: bytes, blob2: bytes, index: int, total: int, uploadId: string)
    ensures ProcessChunk(ProcessChunk(chunks, blob, index, total, uploadId).0, blob2, index, total, uploadId)
            == ProcessChunk(chunks, blob2, index, total, uploadId)
  {
    var up := PartitionOf(chunks, uploadId);
    var once := ProcessChunk(chunks, blob, index, total, uploadId).0;
    var first := SaveChunk(up, blob, index, total).0;
    var second := SaveChunk(up, blob2, index, total).0;
    assert once == chunks[uploadId := first];
    assert PartitionOf(once, uploadId) == first;
    SaveChunkAgain(up, blob, blob2, index, total);
    UpdateTwice(chunks, uploadId, first, second);
  }

  lemma UpdateTwice<K, V>(m: map<K, V>, k: K, x: V, y: V)
    ensures m[k := x][k := y] == m[k := y]
  {
  }

  lemma SaveChunkAgain(up: Upload, blob: bytes, blob2: bytes, index: int, total: int)
    ensures SaveChunk(SaveChunk(up, blob, index, total).0, blob2, index, total) == SaveChunk(up, blob2, index, total)
  {
    var m := UpdateMeta(up.meta, index, total);
    var once := SaveChunk(up, blob, index, total).0;
    assert once == Upload(up.parts[PartName(index) := blob], Some(m.0), up.locked);
    UpdateMetaAgain(up.meta, index, total, total);
    assert UpdateMeta(once.meta, index, total) == m;
    UpdateTwice(up.parts, PartName(index), blob, blob2);
  }

  // ---------------------------------------------------------------------
  // Merging: file_size, concat_chunks, assembler, merge_chunks
  // ---------------------------------------------------------------------

  /** Why a merge fails: the MergingError messages, EFBIG, and a part file that cannot be opened. */
  datatype MediaError =
    | NoUpload(uploadId: string)
    | Incomplete(missing: int)
    | MergeInProgress
    | FileTooLarge
    | FileNotFound(name: string)

  /** Parts 0 .. total-1 are all on disk. */
  predicate PartsPresent(parts: map<string, bytes>, total: int) {
    forall i :: 0 <= i < total ==> PartName(i) in parts
  }

  /** Parts 0 .. n are present exactly when parts 0 .. n-1 are and part n is. */
  lemma PresentStep(parts: map<string, bytes>, n: nat)
    ensures PartsPresent(parts, n + 1) <==> PartsPresent(parts, n) && PartName(n) in parts
  {
  }

  /** Parts 0 .. n-1 one after the other. */
  function ConcatParts(parts: map<string, bytes>, n: nat): bytes
    requires PartsPresent(parts, n)
  {
    if n == 0 then [] else ConcatParts(parts, n - 1) + parts[PartName(n - 1)]
  }

  /** Each part sits, whole and in index order, inside the merged file. */
  lemma {:induction false} ConcatPartsInOrder(parts: map<string, bytes>, i: nat, n: nat)
    requires PartsPresent(parts, n) && i < n
    ensures var prefix := ConcatParts(parts, i) + parts[PartName(i)];
      |prefix| <= |ConcatParts(parts, n)| && ConcatParts(parts, n)[..|prefix|] == prefix
  {
    var prefix := ConcatParts(parts, i) + parts[PartName(i)];
    if i < n - 1 {
      var before := ConcatParts(parts, n - 1);
      assert |prefix| <= |before| && before[..|prefix|] == prefix by {
        ConcatPartsInOrder(parts, i, n - 1);
      }
      assert ConcatParts(parts, n) == before + parts[PartName(n - 1)];
      PrefixExtends(prefix, before, parts[PartName(n - 1)]);
    } else {
      assert prefix == ConcatParts(parts, n);
    }
  }

  /** A prefix of a list is a prefix of every extension of it. */
  lemma PrefixExtends(p: bytes, a: bytes, b: bytes)
    requires |p| <= |a| && a[..|p|] == p
    ensures |p| <= |a + b| && (a + b)[..|p|] == p
  {
    assert (a + b)[..|p|] == a[..|p|];
  }

  /**
    file_size: the sizes of parts 0 .. total-1 added up, stopping at the
    first missing part (os.stat raises FileNotFoundError).
   */
  method FileSize(parts: map<string, bytes>, total: int) returns (r: Result<nat, MediaError>)
    ensures r.Ok? <==> PartsPresent(parts, total)
    ensures r.Ok? ==> r.value == |ConcatParts(parts, Max(total, 0))|
    ensures r.Err? ==> exists i :: (0 <= i < total && PartsPresent(parts, i) && PartName(i) !in parts
                                     && r.error == FileNotFound(PartName(i)))
  {
    var size: nat := 0;
    var i: nat := 0;
    while i < total
      invariant i <= Max(total, 0)
      invariant PartsPresent(parts, i)
      invariant size == |ConcatParts(parts, i)|
    {
      var name := PartName(i);
      PresentStep(parts, i);
      if name !in parts {
        return Err(FileNotFound(name));
      }
      size := size + |parts[name]|;
      i := i + 1;
    }
    assert i == Max(total, 0);
    return Ok(size);
  }

  /** concat_chunks: parts 0 .. total-1 written one after the other into one stream. */
  method ConcatChunks(parts: map<string, bytes>, total: int) returns (r: Result<bytes, MediaError>)
    ensures r.Ok? <==> PartsPresent(parts, total)
    ensures r.Ok? ==> r.value == ConcatParts(parts, Max(total, 0))
    ensures r.Err? ==> exists i :: (0 <= i < total && PartsPresent(parts, i) && PartName(i) !in parts
                                     && r.error == FileNotFound(PartName(i)))
  {
    var stream: bytes := [];
    var i: nat := 0;
    while i < total
      invariant i <= Max(total, 0)
      invariant PartsPresent(parts, i)
      invariant stream == ConcatParts(parts, i)
    {
      var name := PartName(i);
      if name !in parts {
        assert !PartsPresent(parts, total);
        return Err(FileNotFound(name));
      }
      stream := stream + parts[name];
      i := i + 1;
    }
    assert i == Max(total, 0);
    return Ok(stream);
  }

  /** The first part missing among 0 .. total-1 (the one file_size trips over). */
  function FirstMissing(parts: map<string, bytes>, total: int): (i: nat)
    requires !PartsPresent(parts, total)
    ensures i < total && PartsPresent(parts, i) && PartName(i) !in parts
    decreases Max(total, 0)
  {
    MissingBelow(parts, total);
    if PartsPresent(parts, total - 1) then total - 1 else FirstMissing(parts, total - 1)
  }

  /** Some part below `total` is missing, so `total` is positive, and when the parts below `total - 1` are all there the missing one is the last. */
  lemma MissingBelow(parts: map<string, bytes>, total: int)
    requires !PartsPresent(parts, total)
    ensures total >= 1
    ensures PartsPresent(parts, total - 1) ==> PartName(total - 1) !in parts
  {
    var k :| 0 <= k < total && PartName(k) !in parts;
  }

  /**
    assembler as written: the size check comes first (EFBIG, nothing
    touched); an existing lock fails the merge with "Merge in progress",
    and the `finally` clause then deletes that lock although this call
    never acquired it; otherwise the lock is taken, the parts concatenated
    in order, and the lock released.
   */
  function AssemblerAsWritten(up: Upload, total: int): (r: (Upload, Result<bytes, MediaError>))
    ensures !PartsPresent(up.parts, total) ==> r.0 == up && r.1.Err? && r.1.error.FileNotFound?
    ensures up.locked && PartsPresent(up.parts, total) && |ConcatParts(up.parts, Max(total, 0))| <= MaxBlobSize
            ==> r == (up.(locked := false), Err(MergeInProgress))
  {
    if !PartsPresent(up.parts, total) then (up, Err(FileNotFound(PartName(FirstMissing(up.parts, total)))))
    else
      var merged := ConcatParts(up.parts, Max(total, 0));
      if |merged| > MaxBlobSize then (up, Err(FileTooLarge))
      else if up.locked then (up.(locked := false), Err(MergeInProgress))
      else (up, Ok(merged))
  }

  /**
    assembler as intended ("cleanup lock if it was successfully acquired"):
    the same, except that a merge refused for an existing lock leaves that
    lock in place.
   */
  function Assembler(up: Upload, total: int): (r: (Upload, Result<bytes, MediaError>))
    ensures r.0 == up
    ensures r.1.Ok? <==> (PartsPresent(up.parts, total) && !up.locked
                          && |ConcatParts(up.parts, Max(total, 0))| <= MaxBlobSize)
    ensures r.1.Ok? ==> r.1.value == ConcatParts(up.parts, Max(total, 0))
    ensures PartsPresent(up.parts, total) && |ConcatParts(up.parts, Max(total, 0))| > MaxBlobSize
            ==> r.1 == Err(FileTooLarge)
    ensures up.locked && PartsPresent(up.parts, total) && |ConcatParts(up.parts, Max(total, 0))| <= MaxBlobSize
            ==> r.1 == Err(MergeInProgress)
    ensures !PartsPresent(up.parts, total) ==> r.1.Err? && r.1.error.FileNotFound?
  {
    if !PartsPresent(up.parts, total) then (up, Err(FileNotFound(PartName(FirstMissing(up.parts, total)))))
    else
      var merged := ConcatParts(up.parts, Max(total, 0));
      if |merged| > MaxBlobSize then (up, Err(FileTooLarge))
      else if up.locked then (up, Err(MergeInProgress))
      else (up, Ok(merged))
  }

  /**
    The discrepancy in assembler: while one merge holds the lock, a second
    request is refused, but it deletes the lock on its way out, so a third
    request is let through and merges concurrently with the first.
   */
  lemma LockStolenAsWritten(up: Upload, total: int)
    requires up.locked && PartsPresent(up.parts, total) && |ConcatParts(up.parts, Max(total, 0))| <= MaxBlobSize
    ensures AssemblerAsWritten(up, total).1 == Err(MergeInProgress)
    ensures AssemblerAsWritten(AssemblerAsWritten(up, total).0, total).1.Ok?
  {
  }

  /** With the lock left to its owner, every request made while it is held is refused. */
  lemma LockHeldCorrected(up: Upload, total: int)
    requires up.locked && PartsPresent(up.parts, total) && |ConcatParts(up.parts, Max(total, 0))| <= MaxBlobSize
    ensures Assembler(up, total).1 == Err(MergeInProgress)
    ensures Assembler(Assembler(up, total).0, total).1 == Err(MergeInProgress)
  {
  }

  /**
    merge_chunks: an upload without metadata is refused, then one whose
    total exceeds the number of received indices ("N chunks missing");
    otherwise the partition is assembled.
   */
  function MergeChunks(chunks: Chunks, uploadId: string): (r: (Chunks, Result<bytes, MediaError>))
    ensures (uploadId !in chunks || chunks[uploadId].meta.None?) ==> r == (chunks, Err(NoUpload(uploadId)))
    ensures uploadId in chunks && chunks[uploadId].meta.Some? ==>
      var m := chunks[uploadId].meta.value;
      (m.totalChunks > |m.received| ==> r == (chunks, Err(Incomplete(m.totalChunks - |m.received|))))
      && (m.totalChunks <= |m.received| ==> r == (chunks, Assembler(chunks[uploadId], m.totalChunks).1))
  {
    if uploadId !in chunks || chunks[uploadId].meta.None? then (chunks, Err(NoUpload(uploadId)))
    else
      var up := chunks[uploadId];
      var missing := up.meta.value.totalChunks - |up.meta.value.received|;
      if missing > 0 then (chunks, Err(Incomplete(missing)))
      else
        var (up', merged) := Assembler(up, up.meta.value.totalChunks);
        assert chunks[uploadId := up'] == chunks;
        (chunks[uploadId := up'], merged)
  }

  /** The indices 0 .. n-1 in order. */
  function Indices(n: nat): (r: seq<int>)
    ensures |r| == n && StrictlySorted(r)
    ensures forall x :: x in r ==> 0 <= x < n
  {
    seq(n, i => i)
  }

  lemma {:induction false} ElementsCard(s: seq<int>)
    ensures |Elements(s)| <= |s|
  {
    if |s| > 0 {
      ElementsCard(s[1..]);
      assert Elements(s) == Elements(s[1..]) + {s[0]};
    }
  }

  /**
    An upload whose every chunk 0 .. total-1 was received (and stored)
    merges into its parts in order, unless it is too large or locked.
   */
  lemma CompleteUploadMerges(chunks: Chunks, uploadId: string)
    requires uploadId in chunks && chunks[uploadId].meta.Some? && Stored(chunks[uploadId])
    requires var m := chunks[uploadId].meta.value;
      forall i :: 0 <= i < m.totalChunks ==> i in m.received
    requires !chunks[uploadId].locked
    requires var up := chunks[uploadId];
      PartsPresent(up.parts, up.meta.value.totalChunks) ==>
      |ConcatParts(up.parts, Max(up.meta.value.totalChunks, 0))| <= MaxBlobSize
    ensures var up := chunks[uploadId];
      PartsPresent(up.parts, up.meta.value.totalChunks)
      && MergeChunks(chunks, uploadId) == (chunks, Ok(ConcatParts(up.parts, Max(up.meta.value.totalChunks, 0))))
  {
    var up := chunks[uploadId];
    var m := up.meta.value;
    assert PartsPresent(up.parts, m.totalChunks);
    if m.totalChunks > 0 {
      var range := Elements(Indices(m.totalChunks));
      SortedCard(Indices(m.totalChunks));
      ElementsCard(m.received);
      SubsetCard(range, Elements(m.received));
    }
    assert chunks[uploadId := up] == chunks;
  }

  lemma SubsetCard(a: set<int>, b: set<int>)
    requires a <= b
    ensures |a| <= |b|
  {
    assert b == a + (b - a);
  }

  /**
    "upload complete" counts distinct indices, not which ones: a single
    chunk with index 5 completes a one-chunk upload, whose merge then finds
    no part 0.
   */
  lemma CompleteIsOnlyACount(blob: bytes)
    ensures var (chunks, reply) := ProcessChunk(map[], blob, 5, 1, "u");
      reply.message == UploadComplete && MergeChunks(chunks, "u").1 == Err(FileNotFound(PartName(0)))
  {
    var (chunks, reply) := ProcessChunk(map[], blob, 5, 1, "u");
    PartNameInjective(0, 5);
    var up := chunks["u"];
    assert up.parts == map[PartName(5) := blob];
    assert !PartsPresent(up.parts, 1);
    assert FirstMissing(up.parts, 1) == 0;
  }
}

=== FILE: permissions.dfy ===
/**
  Role masks (corna/middleware/permissions.py): a role is a non-negative
  integer whose bits are the nine `CornaPermissions`, combined with bitwise
  OR and tested with bitwise AND. Names are matched after upper-casing.
 */
module Permissions {
  import opened Base
  import opened Bits

  /** The `CornaPermissions` enumeration, in declaration order. */
  datatype Permission =
    | Read | Write | Edit | Delete | ChangeTheme | ChangePermissions | Comment | Like | Follow
  {
    /** Bit position: READ is 0x1, WRITE 0x2, …, FOLLOW 0x100. */
    function Index(): nat {
      match this
      case Read => 0
      case Write => 1
      case Edit => 2
      case Delete => 3
      case ChangeTheme => 4
      case ChangePermissions => 5
      case Comment => 6
      case Like => 7
      case Follow => 8
    }

    /** The enum member's integer value. */
    function Value(): nat {
      Pow2(Index())
    }

    /** The member name, as `key.name` spells it. */
    function Name(): string {
      match this
      case Read => "READ"
      case Write => "WRITE"
      case Edit => "EDIT"
      case Delete => "DELETE"
      case ChangeTheme => "CHANGE_THEME"
      case ChangePermissions => "CHANGE_PERMISSIONS"
      case Comment => "COMMENT"
      case Like => "LIKE"
      case Follow => "FOLLOW"
    }
  }

  /** Iteration order of `for key in CornaPermissions`. */
  const AllPermissions: seq<Permission> :=
    [Read, Write, Edit, Delete, ChangeTheme, ChangePermissions, Comment, Like, Follow]

  /** `(1 << len(CornaPermissions)) - 1`: every permission bit set. */
  const Threshold: nat := Pow2(|AllPermissions|) - 1

  lemma AllPermissionsIndexed()
    ensures forall i :: 0 <= i < |AllPermissions| ==> AllPermissions[i].Index() == i
    ensures forall p: Permission :: AllPermissions[p.Index()] == p
    ensures |AllPermissions| == 9 && Threshold == 511
  {
  }

  /** `CornaPermissions[key]` for a name already upper-cased: the member, if `has_key` holds. */
  function Lookup(key: string): (p: Option<Permission>)
    ensures forall q: Permission :: p == Some(q) <==> q.Name() == key
  {
    if key == "READ" then Some(Read)
    else if key == "WRITE" then Some(Write)
    else if key == "EDIT" then Some(Edit)
    else if key == "DELETE" then Some(Delete)
    else if key == "CHANGE_THEME" then Some(ChangeTheme)
    else if key == "CHANGE_PERMISSIONS" then Some(ChangePermissions)
    else if key == "COMMENT" then Some(Comment)
    else if key == "LIKE" then Some(Like)
    else if key == "FOLLOW" then Some(Follow)
    else None
  }

  /** The permission a user-supplied name denotes (`permission.upper()` then the member lookup). */
  function Named(name: string): Option<Permission> {
    Lookup(Upper(name))
  }

  /** Whether `role` carries permission `p` (`(p & role) != 0`). */
  predicate Holds(role: nat, p: Permission) {
    TestBit(role, p.Index())
  }

  lemma HoldsIsMaskTest(role: nat, p: Permission)
    ensures Holds(role, p) <==> And(p.Value(), role) != 0
  {
    AndPow2(role, p.Index());
    AndCommutes(role, p.Value());
  }

  lemma HoldsAreMaskTests(role: nat)
    ensures forall p: Permission :: Holds(role, p) <==> And(p.Value(), role) != 0
  {
    forall p: Permission ensures Holds(role, p) <==> And(p.Value(), role) != 0 {
      HoldsIsMaskTest(role, p);
    }
  }

  lemma AndCommutes(a: nat, b: nat)
    ensures And(a, b) == And(b, a)
  {
    forall k: nat ensures TestBit(And(a, b), k) == TestBit(And(b, a), k) {
      AndBit(a, b, k);
      AndBit(b, a, k);
    }
    BitsDetermine(And(a, b), And(b, a));
  }

  /** Some name in `names` denotes `p`. */
  predicate Mentions(names: seq<string>, p: Permission) {
    AnyMapsTo(names, Named, Some(p))
  }

  /**
    create_role: OR together the permissions named (case-insensitively),
    skipping unknown names. The result holds exactly the permissions
    mentioned and nothing above the nine permission bits.
   */
  function CreateRole(names: seq<string>): (role: nat)
    ensures forall p: Permission :: Holds(role, p) <==> Mentions(names, p)
    ensures role <= Threshold
  {
    if |names| == 0 then
      ZeroHasNoBitsAll();
      0
    else
      var init := names[..|names| - 1];
      var prev := CreateRole(init);
      var role := match Named(names[|names| - 1])
        case None => prev
        case Some(p) => Or(prev, p.Value());
      CreateRoleStep(names, prev, role);
      role
  }

  lemma ZeroHasNoBitsAll()
    ensures forall k: nat :: !TestBit(0, k)
  {
    forall k: nat ensures !TestBit(0, k) {
      ZeroHasNoBits(k);
    }
  }

  /** The inductive step of CreateRole: OR-ing in the last name's bit keeps both postconditions. */
  lemma CreateRoleStep(names: seq<string>, prev: nat, role: nat)
    requires |names| > 0
    requires forall p: Permission :: Holds(prev, p) <==> Mentions(names[..|names| - 1], p)
    requires prev <= Threshold
    requires role == match Named(names[|names| - 1])
                     case None => prev
                     case Some(p) => Or(prev, p.Value())
    ensures forall p: Permission :: Holds(role, p) <==> Mentions(names, p)
    ensures role <= Threshold
  {
    var last := names[|names| - 1];
    MentionsSnoc(names);
    match Named(last)
    case None =>
    case Some(q) =>
      SetPermBits(prev, q);
      OrKeepsBound(prev, q);
  }

  lemma MentionsSnoc(names: seq<string>)
    requires |names| > 0
    ensures forall p: Permission :: Mentions(names, p) <==>
      Mentions(names[..|names| - 1], p) || Named(names[|names| - 1]) == Some(p)
  {
    forall p: Permission ensures Mentions(names, p) <==> Mentions(names[..|names| - 1], p) || Named(names[|names| - 1]) == Some(p) {
      AnyMapsToSnoc(names, Named, Some(p));
    }
  }

  /** OR-ing a permission bit into a role within the threshold stays within it. */
  lemma OrKeepsBound(role: nat, q: Permission)
    requires role <= Threshold
    ensures Or(role, q.Value()) <= Threshold
  {
    BelowPow2(role, 9);
    OrBits(role, q.Value());
    Pow2Bits(q.Index());
    forall k: nat | 9 <= k ensures !TestBit(Or(role, q.Value()), k) {
      assert !TestBit(role, k);
    }
    BelowPow2(Or(role, q.Value()), 9);
  }

  /** Creating a role from two lists of names is the OR of the two roles. */
  lemma CreateRoleConcat(a: seq<string>, b: seq<string>)
    ensures CreateRole(a + b) == Or(CreateRole(a), CreateRole(b))
  {
    var ra, rb, rab := CreateRole(a), CreateRole(b), CreateRole(a + b);
    forall p: Permission ensures Mentions(a + b, p) <==> Mentions(a, p) || Mentions(b, p) {
      AnyMapsToConcat(a, b, Named, Some(p));
    }
    OrBits(ra, rb);
    BelowPow2(ra, 9);
    BelowPow2(rb, 9);
    BelowPow2(rab, 9);
    AllPermissionsIndexed();
    forall k: nat ensures TestBit(rab, k) == TestBit(Or(ra, rb), k) {
      if k < 9 {
        var p := AllPermissions[k];
        assert Holds(rab, p) <==> Holds(ra, p) || Holds(rb, p);
      }
    }
    BitsDetermine(rab, Or(ra, rb));
  }

  /**
    perms: every permission, in enumeration order, paired with its
    lower-case name and whether the role carries it.
   */
  function Perms(role: nat): (table: seq<(string, bool)>)
    ensures |table| == |AllPermissions|
    ensures forall i :: 0 <= i < |table| ==>
      table[i].0 == Lower(AllPermissions[i].Name()) && (table[i].1 <==> Holds(role, AllPermissions[i]))
  {
    HoldsAreMaskTests(role);
    seq(|AllPermissions|, i requires 0 <= i < |AllPermissions| =>
      (Lower(AllPermissions[i].Name()), And(AllPermissions[i].Value(), role) != 0))
  }

  /** Looking a name up in the `perms` table agrees with has_perm. */
  lemma PermsAgreesWithHasPerm(role: nat, name: string, i: int)
    requires 0 <= i < |AllPermissions| && Perms(role)[i].0 == Lower(name)
    requires Upper(name) == AllPermissions[i].Name()
    ensures Perms(role)[i].1 == HasPerm(role, name)
  {
  }

  /** has_perm: the name denotes a permission and the role carries it. */
  function HasPerm(role: nat, name: string): (b: bool)
    ensures b <==> exists p: Permission :: Named(name) == Some(p) && Holds(role, p)
  {
    match Named(name)
    case None => false
    case Some(p) =>
      HoldsIsMaskTest(role, p);
      And(p.Value(), role) != 0
  }

  /** add_perm: set the named permission's bit; unknown names leave the role as it is. */
  function AddPerm(role: nat, name: string): (r: nat)
    ensures Named(name).None? ==> r == role
    ensures Named(name).Some? ==> Holds(r, Named(name).value)
    ensures forall p: Permission :: Named(name) != Some(p) ==> (Holds(r, p) <==> Holds(role, p))
    ensures forall k: nat :: k >= |AllPermissions| ==> (TestBit(r, k) <==> TestBit(role, k))
  {
    match Named(name)
    case None => role
    case Some(p) =>
      SetPermBits(role, p);
      Or(role, p.Value())
  }

  /** remove_perm: clear the named permission's bit; unknown names leave the role as it is. */
  function RemovePerm(role: nat, name: string): (r: nat)
    ensures Named(name).None? ==> r == role
    ensures Named(name).Some? ==> !Holds(r, Named(name).value)
    ensures forall p: Permission :: Named(name) != Some(p) ==> (Holds(r, p) <==> Holds(role, p))
    ensures forall k: nat :: k >= |AllPermissions| ==> (TestBit(r, k) <==> TestBit(role, k))
  {
    match Named(name)
    case None => role
    case Some(p) =>
      ClearPermBits(role, p);
      AndNot(role, p.Value())
  }

  /** Different permissions sit on different bits. */
  lemma IndexInjective()
    ensures forall p: Permission, q: Permission :: p.Index() == q.Index() ==> p == q
  {
  }

  /** Setting `p`'s bit adds `p` and changes no other bit. */
  lemma SetPermBits(role: nat, p: Permission)
    ensures Holds(Or(role, p.Value()), p)
    ensures forall q: Permission :: q != p ==> (Holds(Or(role, p.Value()), q) <==> Holds(role, q))
    ensures forall k: nat :: k >= |AllPermissions| ==> (TestBit(Or(role, p.Value()), k) <==> TestBit(role, k))
  {
    OrBits(role, p.Value());
    Pow2Bits(p.Index());
    IndexInjective();
  }

  /** Clearing `p`'s bit removes `p` and changes no other bit. */
  lemma ClearPermBits(role: nat, p: Permission)
    ensures !Holds(AndNot(role, p.Value()), p)
    ensures forall q: Permission :: q != p ==> (Holds(AndNot(role, p.Value()), q) <==> Holds(role, q))
    ensures forall k: nat :: k >= |AllPermissions| ==> (TestBit(AndNot(role, p.Value()), k) <==> TestBit(role, k))
  {
    AndNotBits(role, p.Value());
    Pow2Bits(p.Index());
    IndexInjective();
  }

  /** Two masks that agree on the nine permissions and on every higher bit are equal. */
  lemma SameHoldsSameRole(a: nat, b: nat)
    requires forall p: Permission :: Holds(a, p) <==> Holds(b, p)
    requires forall k: nat :: k >= |AllPermissions| ==> (TestBit(a, k) <==> TestBit(b, k))
    ensures a == b
  {
    AllPermissionsIndexed();
    forall k: nat ensures TestBit(a, k) == TestBit(b, k) {
      if k < |AllPermissions| {
        assert Holds(a, AllPermissions[k]) <==> Holds(b, AllPermissions[k]);
      }
    }
    BitsDetermine(a, b);
  }

  /** After add_perm the role has the permission; after remove_perm it has not. */
  lemma AddThenHas(role: nat, name: string)
    requires Named(name).Some?
    ensures HasPerm(AddPerm(role, name), name)
    ensures !HasPerm(RemovePerm(role, name), name)
  {
  }

  /** Adding a permission twice is adding it once; likewise for removing. */
  lemma AddRemoveIdempotent(role: nat, name: string)
    ensures AddPerm(AddPerm(role, name), name) == AddPerm(role, name)
    ensures RemovePerm(RemovePerm(role, name), name) == RemovePerm(role, name)
  {
    if Named(name).Some? {
      SameHoldsSameRole(AddPerm(AddPerm(role, name), name), AddPerm(role, name));
      SameHoldsSameRole(RemovePerm(RemovePerm(role, name), name), RemovePerm(role, name));
    }
  }

  /** Removing undoes adding when the role lacked the permission, and adding undoes removing when it had it. */
  lemma AddRemoveInverse(role: nat, name: string)
    ensures !HasPerm(role, name) ==> RemovePerm(AddPerm(role, name), name) == role
    ensures HasPerm(role, name) ==> AddPerm(RemovePerm(role, name), name) == role
  {
    if Named(name).Some? {
      if !HasPerm(role, name) {
        SameHoldsSameRole(RemovePerm(AddPerm(role, name), name), role);
      } else {
        SameHoldsSameRole(AddPerm(RemovePerm(role, name), name), role);
      }
    }
  }

  /** Neither operation takes a role created by create_role above the threshold. */
  lemma EditsStayBelowThreshold(role: nat, name: string)
    requires role <= Threshold
    ensures AddPerm(role, name) <= Threshold
    ensures RemovePerm(role, name) <= Threshold
  {
    BelowPow2(role, 9);
    BelowPow2(AddPerm(role, name), 9);
    BelowPow2(RemovePerm(role, name), 9);
  }

  /** Adding each name in turn to the empty role builds the same role create_role does. */
  lemma AddPermsBuildsCreateRole(names: seq<string>)
    ensures AddAll(0, names) == CreateRole(names)
  {
    AddAllHolds(0, names);
    ZeroHasNoBitsAll();
    AddAllHighBits(0, names);
    BelowPow2(CreateRole(names), 9);
    SameHoldsSameRole(AddAll(0, names), CreateRole(names));
  }

  /** Successive add_perm calls, one per name. */
  function AddAll(role: nat, names: seq<string>): nat
    decreases |names|
  {
    if |names| == 0 then role else AddAll(AddPerm(role, names[0]), names[1..])
  }

  lemma {:induction false} AddAllHolds(role: nat, names: seq<string>)
    ensures forall p: Permission :: Holds(AddAll(role, names), p) <==> Holds(role, p) || Mentions(names, p)
    decreases |names|
  {
    if |names| > 0 {
      AddAllHolds(AddPerm(role, names[0]), names[1..]);
      MentionsCons(names);
    }
  }

  lemma MentionsCons(names: seq<string>)
    requires |names| > 0
    ensures forall p: Permission :: Mentions(names, p) <==> Named(names[0]) == Some(p) || Mentions(names[1..], p)
  {
    forall p: Permission ensures Mentions(names, p) <==> Named(names[0]) == Some(p) || Mentions(names[1..], p) {
      AnyMapsToCons(names, Named, Some(p));
    }
  }

  lemma {:induction false} AddAllHighBits(role: nat, names: seq<string>)
    ensures forall k: nat :: k >= |AllPermissions| ==> (TestBit(AddAll(role, names), k) <==> TestBit(role, k))
    decreases |names|
  {
    if |names| > 0 {
      AddAllHighBits(AddPerm(role, names[0]), names[1..]);
    }
  }
}

=== FILE: post_control.dfy ===
/**
  Posts (corna/controls/post_control.py): the checks `create` makes before
  a post row is written, the text row and the media links that go with
  it, the API shape a stored post is read back in, and the post URLs.
  The url extension comes from a drawing function, the uuids and the
  creation time are parameters.
 */
module PostControl {
  import opened Base
  import opened Encodings
  import opened Store
  import opened Check
  import Secure
  import Utils

  /** The values of ContentType, which is all POST_TYPES holds. */
  const TextType: string := "text"
  const PictureType: string := "picture"
  const PostTypes: set<string> := {TextType, PictureType}

  /** The `tries` generate_unique_token is called with. */
  const UrlTries: int := 10

  /** Python truthiness of an optional string: None and "" are false. */
  predicate Filled(o: Option<string>) {
    o.Some? && o.value != ""
  }

  /** The fields of a create request, as the schema hands them to `create`. */
  datatype Draft = Draft(kind: string, uploadedImages: seq<string>, content: Option<string>,
                         innerHtml: Option<string>, title: Option<string>)

  // ---------------------------------------------------------------------
  // build_url
  // ---------------------------------------------------------------------

  const PostsBase: string := Utils.ApiUrl + "/v1/posts"

  /** build_url: `<api>/v1/posts/<domain>/<type>/<extension>`. */
  function BuildUrl(extension: string, domain: string, kind: string): (url: string)
    ensures StartsWith(url, PostsBase + "/")
    ensures |url| == |PostsBase| + |domain| + |kind| + |extension| + 3
    ensures url[|url| - |extension|..] == extension
  {
    PostsBase + "/" + domain + "/" + kind + "/" + extension
  }

  /**
    Splitting a post URL on '/' gives the pieces of the base, then domain,
    type and extension, when none of the three holds a '/'.
   */
  lemma BuildUrlSplits(extension: string, domain: string, kind: string)
    requires '/' !in extension && '/' !in domain && '/' !in kind
    ensures Split(BuildUrl(extension, domain, kind), '/') == Split(PostsBase, '/') + [domain, kind, extension]
  {
    var t6 := kind + "/" + extension;
    var t5 := domain + "/" + t6;
    assert BuildUrl(extension, domain, kind) == PostsBase + ['/'] + t5;
    SplitFree(extension, '/');
    SplitFree(kind, '/');
    SplitFree(domain, '/');
    SplitAppend(kind, '/', extension);
    SplitAppend(domain, '/', t6);
    SplitAppend(PostsBase, '/', t5);
  }

  /** Different slash-free (extension, domain, type) triples give different URLs. */
  lemma BuildUrlInjective(e1: string, d1: string, k1: string, e2: string, d2: string, k2: string)
    requires '/' !in e1 && '/' !in d1 && '/' !in k1
    requires '/' !in e2 && '/' !in d2 && '/' !in k2
    requires BuildUrl(e1, d1, k1) == BuildUrl(e2, d2, k2)
    ensures e1 == e2 && d1 == d2 && k1 == k2
  {
    BuildUrlSplits(e1, d1, k1);
    BuildUrlSplits(e2, d2, k2);
    var n := |Split(PostsBase, '/')|;
    assert (Split(PostsBase, '/') + [d1, k1, e1])[n..] == [d1, k1, e1];
    assert (Split(PostsBase, '/') + [d2, k2, e2])[n..] == [d2, k2, e2];
  }

  // ---------------------------------------------------------------------
  // text and link: the rows that go with a new post
  // ---------------------------------------------------------------------

  /**
    text: a text row is written only when there is a title or content to
    save; a row whose uuid is taken fails at commit.
   */
  function SaveText(db: Db, post: Uuid, title: Option<string>, content: Option<string>, html: Option<string>, uuid: Uuid): (r: Result<Db, Error>)
    ensures !Filled(title) && !Filled(content) ==> r == Ok(db)
    ensures (Filled(title) || Filled(content)) ==> (r.Ok? <==> uuid !in db.texts)
    ensures r.Err? ==> r.error == IntegrityError
    ensures r.Ok? ==> r.value == db.(texts := r.value.texts)
    ensures r.Ok? && (Filled(title) || Filled(content)) ==>
      r.value.texts.Keys == db.texts.Keys + {uuid} && r.value.texts[uuid] == TextContent(post, title, content, html)
  {
    if !Filled(title) && !Filled(content) then Ok(db)
    else if uuid in db.texts then Err(IntegrityError)
    else Ok(db.(texts := db.texts[uuid := TextContent(post, title, content, html)]))
  }

  /** The media rows whose url extension is `slug`. */
  function MediaWith(db: Db, slug: string): (ms: set<Uuid>)
    ensures forall m :: m in ms <==> m in db.media && db.media[m].urlExtension == slug
  {
    set m | m in db.media && db.media[m].urlExtension == slug
  }

  /** A media row once it belongs to `post`. */
  function Linked(row: Media, post: Uuid): (linked: Media)
    ensures !linked.orphaned && linked.post == Some(post)
    ensures linked.urlExtension == row.urlExtension && linked.path == row.path && linked.size == row.size
  {
    row.(post := Some(post), orphaned := false)
  }

  /**
    link: each slug in turn must name one media row (one_or_none: several
    raise MultipleResultsFound) that is still orphaned, else
    PostDoesNotExist; the row then belongs to the post.
   */
  function Link(db: Db, post: Uuid, slugs: seq<string>): (r: Result<Db, Error>)
    ensures slugs == [] ==> r == Ok(db)
    ensures r.Err? ==> r.error == PostDoesNotExist || r.error == MultipleResults
    ensures r.Ok? ==> r.value == db.(media := r.value.media) && r.value.media.Keys == db.media.Keys
    ensures r.Ok? ==> forall m :: m in db.media ==>
      r.value.media[m] == if db.media[m].urlExtension in slugs then Linked(db.media[m], post) else db.media[m]
    decreases |slugs|
  {
    if slugs == [] then Ok(db)
    else
      var ms := MediaWith(db, slugs[0]);
      if |ms| > 1 then Err(MultipleResults)
      else if |ms| == 0 then Err(PostDoesNotExist)
      else
        var m := Only(ms);
        if !db.media[m].orphaned then Err(PostDoesNotExist)
        else Link(db.(media := db.media[m := Linked(db.media[m], post)]), post, slugs[1..])
  }

  /** Every slug names exactly one orphaned row, and no slug is listed twice. */
  ghost predicate Linkable(db: Db, slugs: seq<string>) {
    (forall i :: 0 <= i < |slugs| ==> |MediaWith(db, slugs[i])| == 1 && db.media[Only(MediaWith(db, slugs[i]))].orphaned)
    && (forall i, j :: 0 <= i < j < |slugs| ==> slugs[i] != slugs[j])
  }

  /** Linking one row changes no url extension, so every slug still finds the same rows. */
  lemma LinkOneKeepsMatches(db: Db, m: Uuid, post: Uuid, x: string)
    requires m in db.media
    ensures MediaWith(db.(media := db.media[m := Linked(db.media[m], post)]), x) == MediaWith(db, x)
  {
  }

  /**
    After the first slug's row is linked, the remaining slugs are linkable
    exactly when the whole list was.
   */
  lemma LinkableStep(db: Db, post: Uuid, slugs: seq<string>)
    requires slugs != [] && |MediaWith(db, slugs[0])| == 1
    requires db.media[Only(MediaWith(db, slugs[0]))].orphaned
    ensures var m := Only(MediaWith(db, slugs[0]));
      Linkable(db.(media := db.media[m := Linked(db.media[m], post)]), slugs[1..]) <==> Linkable(db, slugs)
  {
    var m := Only(MediaWith(db, slugs[0]));
    var db1 := db.(media := db.media[m := Linked(db.media[m], post)]);
    var rest := slugs[1..];
    forall x ensures MediaWith(db1, x) == MediaWith(db, x) {
      LinkOneKeepsMatches(db, m, post, x);
    }
    // For a later slug with one match, its row is orphaned after the step
    // exactly when it was before and the slug differs from the first.
    forall i | 1 <= i < |slugs| && |MediaWith(db, slugs[i])| == 1
      ensures db1.media[Only(MediaWith(db1, slugs[i]))].orphaned <==>
              (db.media[Only(MediaWith(db, slugs[i]))].orphaned && slugs[i] != slugs[0])
    {
      var n := Only(MediaWith(db, slugs[i]));
      assert db.media[n].urlExtension == slugs[i];
      assert db.media[m].urlExtension == slugs[0];
    }
    assert forall i :: 1 <= i < |slugs| ==> rest[i - 1] == slugs[i];
  }

  /**
    link succeeds exactly on linkable slugs: a slug listed twice fails the
    second time, because its row is no longer orphaned.
   */
  lemma {:induction false} LinkOkIff(db: Db, post: Uuid, slugs: seq<string>)
    ensures Link(db, post, slugs).Ok? <==> Linkable(db, slugs)
    decreases |slugs|
  {
    if slugs != [] {
      var ms := MediaWith(db, slugs[0]);
      if |ms| == 1 && db.media[Only(ms)].orphaned {
        var m := Only(ms);
        var db1 := db.(media := db.media[m := Linked(db.media[m], post)]);
        LinkOkIff(db1, post, slugs[1..]);
        LinkableStep(db, post, slugs);
      } else {
        assert !Linkable(db, slugs);
      }
    }
  }

  /** Once linked, a slug cannot be linked again, to this post or another. */
  lemma LinkTwiceFails(db: Db, post: Uuid, slugs: seq<string>, i: nat, other: Uuid)
    requires Link(db, post, slugs).Ok?
    requires i < |slugs|
    ensures Link(Link(db, post, slugs).value, other, [slugs[i]]) == Err(PostDoesNotExist)
  {
    var db2 := Link(db, post, slugs).value;
    LinkOkIff(db, post, slugs);
    var m := Only(MediaWith(db, slugs[i]));
    assert MediaWith(db2, slugs[i]) == MediaWith(db, slugs[i]);
    assert db2.media[m] == Linked(db.media[m], post);
  }

  // ---------------------------------------------------------------------
  // create
  // ---------------------------------------------------------------------

  /**
    _create_artefacts: a text post needs content and a picture post needs
    uploaded images; then the text row is saved and the images linked.
   */
  function CreateArtefacts(db: Db, post: Uuid, d: Draft, textUuid: Uuid): (r: Result<Db, Error>)
    ensures d.kind == TextType && !Filled(d.content) ==> r == Err(InvalidContentType("Text post needs text"))
    ensures d.kind == PictureType && d.uploadedImages == [] ==> r == Err(InvalidContentType("Photo post needs images"))
    ensures r.Ok? ==> (d.kind == TextType ==> Filled(d.content)) && (d.kind == PictureType ==> d.uploadedImages != [])
    ensures r.Ok? ==> r.value == db.(texts := r.value.texts, media := r.value.media)
  {
    if d.kind == TextType && !Filled(d.content) then Err(InvalidContentType("Text post needs text"))
    else if d.kind == PictureType && d.uploadedImages == [] then Err(InvalidContentType("Photo post needs images"))
    else
      var db1 :- SaveText(db, post, d.title, d.content, d.innerHtml, textUuid);
      Link(db1, post, d.uploadedImages)
  }

  /**
    What the artefacts of a draft need from the database: the content its
    type demands, a free text key when a text row is written, and slugs
    that each name one orphaned media row, none listed twice.
   */
  ghost predicate ArtefactsReady(db: Db, d: Draft, textUuid: Uuid) {
    && (d.kind == TextType ==> Filled(d.content))
    && (d.kind == PictureType ==> d.uploadedImages != [])
    && (Filled(d.title) || Filled(d.content) ==> textUuid !in db.texts)
    && Linkable(db, d.uploadedImages)
  }

  /** Only the media table decides which slugs are linkable. */
  lemma LinkableReadsMedia(db: Db, db2: Db, slugs: seq<string>)
    requires db2.media == db.media
    ensures Linkable(db2, slugs) <==> Linkable(db, slugs)
  {
    forall x ensures MediaWith(db2, x) == MediaWith(db, x) {
    }
  }

  /** _create_artefacts succeeds exactly on a ready draft. */
  lemma CreateArtefactsOkIff(db: Db, post: Uuid, d: Draft, textUuid: Uuid)
    ensures CreateArtefacts(db, post, d, textUuid).Ok? <==> ArtefactsReady(db, d, textUuid)
  {
    if (d.kind == TextType ==> Filled(d.content)) && (d.kind == PictureType ==> d.uploadedImages != []) {
      match SaveText(db, post, d.title, d.content, d.innerHtml, textUuid)
      case Err(_) => SaveTextRefused(db, post, d, textUuid);
      case Ok(saved) => SaveTextThenLink(db, post, d, textUuid, saved);
    }
  }

  /** A draft whose text row clashes is refused, and it is not ready. */
  lemma SaveTextRefused(db: Db, post: Uuid, d: Draft, textUuid: Uuid)
    requires (d.kind == TextType ==> Filled(d.content)) && (d.kind == PictureType ==> d.uploadedImages != [])
    requires SaveText(db, post, d.title, d.content, d.innerHtml, textUuid).Err?
    ensures CreateArtefacts(db, post, d, textUuid).Err? && !ArtefactsReady(db, d, textUuid)
  {
  }

  /** Once the text row is saved, the artefacts succeed exactly when the draft is ready. */
  lemma SaveTextThenLink(db: Db, post: Uuid, d: Draft, textUuid: Uuid, saved: Db)
    requires (d.kind == TextType ==> Filled(d.content)) && (d.kind == PictureType ==> d.uploadedImages != [])
    requires SaveText(db, post, d.title, d.content, d.innerHtml, textUuid) == Ok(saved)
    ensures CreateArtefacts(db, post, d, textUuid).Ok? <==> ArtefactsReady(db, d, textUuid)
  {
    assert CreateArtefacts(db, post, d, textUuid) == Link(saved, post, d.uploadedImages);
    LinkAfterSave(db, saved, post, d.uploadedImages);
  }

  /** Linking after the text row is saved succeeds exactly on slugs linkable before it. */
  lemma LinkAfterSave(db: Db, saved: Db, post: Uuid, slugs: seq<string>)
    requires saved.media == db.media
    ensures Link(saved, post, slugs).Ok? <==> Linkable(db, slugs)
  {
    LinkOkIff(saved, post, slugs);
    LinkableReadsMedia(db, saved, slugs);
  }

  /** The url extensions the posts table already holds. */
  function PostUrls(db: Db): (urls: set<string>)
    ensures forall u :: u in urls <==> exists p :: p in db.posts && db.posts[p].urlExtension == u
  {
    set p | p in db.posts :: db.posts[p].urlExtension
  }

  /** The message create's type check raises. */
  function NotAType(kind: string): string {
    kind + " is not a valid type of content"
  }

  /**
    The checks create makes before it writes anything, in order: the
    current user (NotLoggedIn when the cookie names no session), the corna,
    write permission (UnauthorizedAction) and the content type. A session
    whose user row is gone leaves `user` None, and reading its name raises
    AttributeError. Answers the author and the corna.
   */
  function Admit(db: Db, cookie: Option<Text>, domain: string, kind: string): (r: Result<(Uuid, Uuid), Error>)
    ensures SessionUser(db, cookie, NotLoggedIn).Err? ==> r == Err(SessionUser(db, cookie, NotLoggedIn).error)
    ensures SessionUser(db, cookie, NotLoggedIn).Ok? && FindCorna(db, domain).Err? ==> r == Err(CornaNotFound)
    ensures SessionUser(db, cookie, NotLoggedIn).Ok? && FindCorna(db, domain).Ok? ==>
      var u := SessionUser(db, cookie, NotLoggedIn).value;
      && (u !in db.users ==> r == Err(AttributeError))
      && (u in db.users && !CanWrite(db, domain, db.users[u].username) ==> r == Err(Unauthorized))
      && (u in db.users && CanWrite(db, domain, db.users[u].username) && kind !in PostTypes
          ==> r == Err(InvalidContentType(NotAType(kind))))
      && (r.Ok? <==> u in db.users && CanWrite(db, domain, db.users[u].username) && kind in PostTypes)
    ensures r.Ok? ==>
      && SessionUser(db, cookie, NotLoggedIn) == Ok(r.value.0) && FindCorna(db, domain) == Ok(r.value.1)
      && r.value.0 in db.users && CanWrite(db, domain, db.users[r.value.0].username) && kind in PostTypes
  {
    var u :- SessionUser(db, cookie, NotLoggedIn);
    var c :- FindCorna(db, domain);
    if u !in db.users then Err(AttributeError)
    else if !CanWrite(db, domain, db.users[u].username) then Err(Unauthorized)
    else if kind !in PostTypes then Err(InvalidContentType(NotAType(kind)))
    else Ok((u, c))
  }

  /**
    The writes of create once admitted: a url extension not yet used by
    any post (at most ten draws), the post row, and its artefacts. A post
    uuid that is taken fails at commit.
   */
  function AddPost(db: Db, author: Uuid, corna: Uuid, d: Draft, draw: nat -> string,
                   postUuid: Uuid, textUuid: Uuid, created: string): (r: Result<Db, Error>)
    ensures Secure.GenerateUniqueToken(PostUrls(db), UrlTries, draw).Err? ==> r == Err(TokenExhausted)
    ensures r.Ok? ==> (d.kind == TextType ==> Filled(d.content)) && (d.kind == PictureType ==> d.uploadedImages != [])
    ensures r.Ok? ==>
      && postUuid !in db.posts && postUuid in r.value.posts
      && r.value.posts == db.posts[postUuid := r.value.posts[postUuid]]
      && r.value == db.(posts := r.value.posts, texts := r.value.texts, media := r.value.media)
    ensures r.Ok? ==>
      var p := r.value.posts[postUuid];
      && p.urlExtension !in PostUrls(db)
      && p == Post(p.urlExtension, d.kind, false, corna, author, created)
  {
    match Secure.GenerateUniqueToken(PostUrls(db), UrlTries, draw)
    case Err(_) => Err(TokenExhausted)
    case Ok(url) =>
      var db1 := db.(posts := db.posts[postUuid := Post(url, d.kind, false, corna, author, created)]);
      var db2 :- CreateArtefacts(db1, postUuid, d, textUuid);
      if postUuid in db.posts then Err(IntegrityError) else Ok(db2)
  }

  /** create: the checks of Admit, then the writes of AddPost. */
  function Create(db: Db, cookie: Option<Text>, domain: string, d: Draft, draw: nat -> string,
                  postUuid: Uuid, textUuid: Uuid, created: string): (r: Result<Db, Error>)
    ensures Admit(db, cookie, domain, d.kind).Err? ==> r == Err(Admit(db, cookie, domain, d.kind).error)
    ensures r.Ok? ==> Admit(db, cookie, domain, d.kind).Ok?
    ensures r.Ok? ==> postUuid !in db.posts && r.value.users == db.users && r.value.cornas == db.cornas
    ensures r.Ok? ==> postUuid in r.value.posts && r.value.posts[postUuid].author == SessionUser(db, cookie, NotLoggedIn).value
                      && r.value.posts[postUuid].corna == FindCorna(db, domain).value
  {
    var (u, c) :- Admit(db, cookie, domain, d.kind);
    AddPost(db, u, c, d, draw, postUuid, textUuid, created)
  }

  /**
    The writes succeed exactly when a url extension is drawn, the post key
    is free and the draft's artefacts are ready.
   */
  lemma AddPostOkIff(db: Db, author: Uuid, corna: Uuid, d: Draft, draw: nat -> string,
                     postUuid: Uuid, textUuid: Uuid, created: string)
    ensures AddPost(db, author, corna, d, draw, postUuid, textUuid, created).Ok? <==>
      && Secure.GenerateUniqueToken(PostUrls(db), UrlTries, draw).Ok?
      && postUuid !in db.posts && ArtefactsReady(db, d, textUuid)
  {
    match Secure.GenerateUniqueToken(PostUrls(db), UrlTries, draw)
    case Err(_) =>
    case Ok(url) =>
      var db1 := db.(posts := db.posts[postUuid := Post(url, d.kind, false, corna, author, created)]);
      CreateArtefactsOkIff(db1, postUuid, d, textUuid);
      LinkableReadsMedia(db, db1, d.uploadedImages);
  }

  /**
    create succeeds exactly for an admitted request whose url draw, post
    key and artefacts succeed: a logged-in writer on an existing corna,
    with a known type and a ready draft, gets the post.
   */
  lemma CreateOkIff(db: Db, cookie: Option<Text>, domain: string, d: Draft, draw: nat -> string,
                    postUuid: Uuid, textUuid: Uuid, created: string)
    ensures Create(db, cookie, domain, d, draw, postUuid, textUuid, created).Ok? <==>
      && SessionUser(db, cookie, NotLoggedIn).Ok? && FindCorna(db, domain).Ok?
      && SessionUser(db, cookie, NotLoggedIn).value in db.users
      && CanWrite(db, domain, db.users[SessionUser(db, cookie, NotLoggedIn).value].username)
      && d.kind in PostTypes
      && Secure.GenerateUniqueToken(PostUrls(db), UrlTries, draw).Ok?
      && postUuid !in db.posts && ArtefactsReady(db, d, textUuid)
  {
    var a := Admit(db, cookie, domain, d.kind);
    if a.Ok? {
      AddPostOkIff(db, a.value.0, a.value.1, d, draw, postUuid, textUuid, created);
    }
  }

  // ---------------------------------------------------------------------
  // Reading posts back: _parse_post and the _construct_* helpers
  // ---------------------------------------------------------------------

  /**
    A post as the API answers it. Optional fields are `None` when the
    dict leaves the key out. Image URLs form a set: the relationship
    lists the post's media in no particular order.
   */
  datatype Parsed =
    | TextPost(kind: string, created: string, postUrl: string, content: Option<string>,
               title: Option<string>, imageUrlsIfAny: Option<set<string>>)
    | ImagePost(kind: string, created: string, postUrl: string, imageUrls: set<string>,
                title: Option<string>, caption: Option<string>)

  /** The text rows of a post. */
  function TextRows(db: Db, post: Uuid): (ts: set<Uuid>)
    ensures forall t :: t in ts <==> t in db.texts && db.texts[t].post == post
  {
    set t | t in db.texts && db.texts[t].post == post
  }

  /** `post.text`: the post's one text row, None when it has none. */
  function TextOf(db: Db, post: Uuid): (r: Option<TextContent>)
    ensures r.Some? <==> |TextRows(db, post)| == 1
    ensures r.Some? ==> exists t :: t in db.texts && db.texts[t] == r.value && db.texts[t].post == post
  {
    match The(TextRows(db, post))
    case None => None
    case Some(t) => Some(db.texts[t])
  }

  /** `post.images`: the media rows linked to the post. */
  function ImagesOf(db: Db, post: Uuid): (ms: set<Uuid>)
    ensures forall m :: m in ms <==> m in db.media && db.media[m].post == Some(post)
  {
    set m | m in db.media && db.media[m].post == Some(post)
  }

  /** The image URLs of a post: `build_url(ext, domain, "image")` per linked row. */
  function ImageUrls(db: Db, post: Uuid, domain: string): (urls: set<string>)
    ensures forall m :: m in ImagesOf(db, post) ==> BuildUrl(db.media[m].urlExtension, domain, "image") in urls
    ensures ImagesOf(db, post) == {} <==> urls == {}
  {
    var urls := set m | m in ImagesOf(db, post) :: BuildUrl(db.media[m].urlExtension, domain, "image");
    assert forall m :: m in ImagesOf(db, post) ==> BuildUrl(db.media[m].urlExtension, domain, "image") in urls;
    urls
  }

  /** `post.corna.domain_name`; a post whose corna row is gone raises AttributeError. */
  function DomainOf(db: Db, post: Uuid): (r: Result<string, Error>)
    requires post in db.posts
    ensures r.Ok? <==> db.posts[post].corna in db.cornas
    ensures r.Ok? ==> r.value == db.cornas[db.posts[post].corna].domain
    ensures r.Err? ==> r.error == AttributeError
  {
    var c := db.posts[post].corna;
    if c in db.cornas then Ok(db.cornas[c].domain) else Err(AttributeError)
  }

  /**
    _construct_text_post: the content of the text row (a post without one
    raises AttributeError), its title only when non-empty, and the image
    URLs only when the post has images.
   */
  function ConstructTextPost(db: Db, post: Uuid): (r: Result<Parsed, Error>)
    requires post in db.posts
    ensures r.Ok? <==> DomainOf(db, post).Ok? && TextOf(db, post).Some?
    ensures r.Err? ==> r.error == AttributeError
    ensures r.Ok? ==> r.value.TextPost? && r.value.kind == db.posts[post].kind && r.value.created == db.posts[post].created
    ensures r.Ok? ==> r.value.content == TextOf(db, post).value.content
    ensures r.Ok? ==> (r.value.title.Some? <==> Filled(TextOf(db, post).value.title))
    ensures r.Ok? && r.value.title.Some? ==> r.value.title == TextOf(db, post).value.title
    ensures r.Ok? ==> (r.value.imageUrlsIfAny.Some? <==> ImagesOf(db, post) != {})
  {
    var domain :- DomainOf(db, post);
    var row := db.posts[post];
    match TextOf(db, post)
    case None => Err(AttributeError)
    case Some(text) =>
      Ok(TextPost(row.kind, row.created, BuildUrl(row.urlExtension, domain, row.kind), text.content,
                  if Filled(text.title) then text.title else None,
                  if ImagesOf(db, post) != {} then Some(ImageUrls(db, post, domain)) else None))
  }

  /**
    _construct_image_post: the image URLs always; a title and a caption
    only when the post has a text row and they are non-empty.
   */
  function ConstructImagePost(db: Db, post: Uuid): (r: Result<Parsed, Error>)
    requires post in db.posts
    ensures r.Ok? <==> DomainOf(db, post).Ok?
    ensures r.Err? ==> r.error == AttributeError
    ensures r.Ok? ==> r.value.ImagePost? && r.value.kind == db.posts[post].kind && r.value.created == db.posts[post].created
    ensures r.Ok? ==> (r.value.title.Some? <==> TextOf(db, post).Some? && Filled(TextOf(db, post).value.title))
    ensures r.Ok? ==> (r.value.caption.Some? <==> TextOf(db, post).Some? && Filled(TextOf(db, post).value.content))
    ensures r.Ok? && r.value.caption.Some? ==> r.value.caption == TextOf(db, post).value.content
  {
    var domain :- DomainOf(db, post);
    var row := db.posts[post];
    var text := TextOf(db, post);
    Ok(ImagePost(row.kind, row.created, BuildUrl(row.urlExtension, domain, row.kind), ImageUrls(db, post, domain),
                 if text.Some? && Filled(text.value.title) then text.value.title else None,
                 if text.Some? && Filled(text.value.content) then text.value.content else None))
  }

  /** _parse_post: text and picture posts are shaped; any other type is InvalidContentType. */
  function ParsePost(db: Db, post: Uuid): (r: Result<Parsed, Error>)
    requires post in db.posts
    ensures db.posts[post].kind !in PostTypes ==> r == Err(InvalidContentType("Unrecognised content Type"))
    ensures r.Ok? ==> db.posts[post].kind in PostTypes && r.value.kind == db.posts[post].kind
    ensures r.Ok? ==> (r.value.TextPost? <==> db.posts[post].kind == TextType)
    ensures r.Err? && db.posts[post].kind in PostTypes ==> r.error == AttributeError
  {
    var kind := db.posts[post].kind;
    if kind == TextType then ConstructTextPost(db, post)
    else if kind == PictureType then ConstructImagePost(db, post)
    else Err(InvalidContentType("Unrecognised content Type"))
  }

  /** The posts of corna `c`, in the order the database lists `rows`. */
  function PostsOf(db: Db, c: Uuid, rows: seq<Uuid>): (ps: seq<Uuid>)
    ensures forall p :: p in ps <==> p in rows && p in db.posts && db.posts[p].corna == c
    ensures forall i :: 0 <= i < |ps| ==> ps[i] in db.posts
    ensures |ps| <= |rows|
  {
    if rows == [] then []
    else
      var rest := PostsOf(db, c, rows[1..]);
      if rows[0] in db.posts && db.posts[rows[0]].corna == c then [rows[0]] + rest else rest
  }

  /** A list comprehension of _parse_post: the first post that raises decides the error. */
  function ParseAll(db: Db, ps: seq<Uuid>): (r: Result<seq<Parsed>, Error>)
    requires forall i :: 0 <= i < |ps| ==> ps[i] in db.posts
    ensures r.Ok? <==> forall i :: 0 <= i < |ps| ==> ParsePost(db, ps[i]).Ok?
    ensures r.Ok? ==> |r.value| == |ps| && forall i :: 0 <= i < |ps| ==> ParsePost(db, ps[i]) == Ok(r.value[i])
    ensures r.Err? ==> exists i :: (0 <= i < |ps| && ParsePost(db, ps[i]) == Err(r.error)
                                   && forall j :: 0 <= j < i ==> ParsePost(db, ps[j]).Ok?)
  {
    if ps == [] then Ok([])
    else
      var first :- ParsePost(db, ps[0]);
      var rest :- ParseAll(db, ps[1..]);
      Ok([first] + rest)
  }

  /**
    get: every post of the corna (deleted ones too), parsed; `rows` is the
    order the unordered query happens to return the posts table in.
   */
  function Get(db: Db, domain: string, rows: seq<Uuid>): (r: Result<seq<Parsed>, Error>)
    ensures FindCorna(db, domain).Err? ==> r == Err(CornaNotFound)
    ensures FindCorna(db, domain).Ok? ==>
      r == ParseAll(db, PostsOf(db, FindCorna(db, domain).value, rows))
  {
    var c :- FindCorna(db, domain);
    ParseAll(db, PostsOf(db, c, rows))
  }

  // ---------------------------------------------------------------------
  // What a created post reads back as
  // ---------------------------------------------------------------------

  /** What a text post without images writes: its post row and its one text row. */
  lemma AddPostTextWrites(db: Db, author: Uuid, corna: Uuid, d: Draft, draw: nat -> string,
                          postUuid: Uuid, textUuid: Uuid, created: string, db2: Db)
    requires AddPost(db, author, corna, d, draw, postUuid, textUuid, created) == Ok(db2)
    requires d.kind == TextType && d.uploadedImages == []
    requires TextRows(db, postUuid) == {}
    ensures postUuid in db2.posts && db2.posts[postUuid].kind == TextType && db2.posts[postUuid].corna == corna
    ensures db2.posts[postUuid].created == created
    ensures db2.media == db.media && db2.cornas == db.cornas
    ensures TextRows(db2, postUuid) == {textUuid}
    ensures db2.texts[textUuid] == TextContent(postUuid, d.title, d.content, d.innerHtml)
  {
    var url := Secure.GenerateUniqueToken(PostUrls(db), UrlTries, draw).value;
    var db1 := db.(posts := db.posts[postUuid := Post(url, d.kind, false, corna, author, created)]);
    assert db2 == SaveText(db1, postUuid, d.title, d.content, d.innerHtml, textUuid).value;
  }

  /** A stored text post with one text row and no images parses to that row's fields. */
  lemma ParseStoredText(db: Db, post: Uuid, t: Uuid)
    requires post in db.posts && db.posts[post].kind == TextType && db.posts[post].corna in db.cornas
    requires TextRows(db, post) == {t} && ImagesOf(db, post) == {}
    ensures var row := db.posts[post];
      ParsePost(db, post) == Ok(TextPost(TextType, row.created, BuildUrl(row.urlExtension, db.cornas[row.corna].domain, TextType),
                                         db.texts[t].content, if Filled(db.texts[t].title) then db.texts[t].title else None, None))
  {
  }

  /**
    Round trip: a text post added without images reads back with the
    draft's content, its title when non-empty, and its own URL, provided
    no row pointed at the new uuid before.
   */
  lemma AddPostThenParseText(db: Db, author: Uuid, corna: Uuid, d: Draft, draw: nat -> string,
                             postUuid: Uuid, textUuid: Uuid, created: string, db2: Db)
    requires AddPost(db, author, corna, d, draw, postUuid, textUuid, created) == Ok(db2)
    requires d.kind == TextType && d.uploadedImages == []
    requires corna in db.cornas
    requires TextRows(db, postUuid) == {} && ImagesOf(db, postUuid) == {}
    ensures postUuid in db2.posts
    ensures ParsePost(db2, postUuid) == Ok(TextPost(TextType, created,
                                                    BuildUrl(db2.posts[postUuid].urlExtension, db.cornas[corna].domain, TextType),
                                                    d.content, if Filled(d.title) then d.title else None, None))
  {
    AddPostTextWrites(db, author, corna, d, draw, postUuid, textUuid, created, db2);
    ParseStoredText(db2, postUuid, textUuid);
  }

  /** The same round trip through create: the domain in the URL is the one posted to. */
  lemma CreateThenParseText(db: Db, cookie: Option<Text>, domain: string, d: Draft, draw: nat -> string,
                            postUuid: Uuid, textUuid: Uuid, created: string)
    requires Create(db, cookie, domain, d, draw, postUuid, textUuid, created).Ok?
    requires d.kind == TextType && d.uploadedImages == []
    requires TextRows(db, postUuid) == {} && ImagesOf(db, postUuid) == {}
    ensures var db2 := Create(db, cookie, domain, d, draw, postUuid, textUuid, created).value;
      ParsePost(db2, postUuid) == Ok(TextPost(TextType, created, BuildUrl(db2.posts[postUuid].urlExtension, domain, TextType),
                                              d.content, if Filled(d.title) then d.title else None, None))
  {
    var a := Admit(db, cookie, domain, d.kind).value;
    var db2 := Create(db, cookie, domain, d, draw, postUuid, textUuid, created).value;
    AddPostThenParseText(db, a.0, a.1, d, draw, postUuid, textUuid, created, db2);
  }

  /**
    A picture post added from uploads reads back with one URL per uploaded
    slug and nothing else, given that no row pointed at the new uuid
    before.
   */
  lemma AddPostThenParsePicture(db: Db, author: Uuid, corna: Uuid, d: Draft, draw: nat -> string,
                                postUuid: Uuid, textUuid: Uuid, created: string)
    requires AddPost(db, author, corna, d, draw, postUuid, textUuid, created).Ok?
    requires d.kind == PictureType
    requires corna in db.cornas
    requires ImagesOf(db, postUuid) == {}
    ensures var db2 := AddPost(db, author, corna, d, draw, postUuid, textUuid, created).value;
      ParsePost(db2, postUuid).Ok? && ParsePost(db2, postUuid).value.ImagePost?
      && ParsePost(db2, postUuid).value.imageUrls == set s | s in d.uploadedImages :: BuildUrl(s, db.cornas[corna].domain, "image")
  {
    var db2 := AddPost(db, author, corna, d, draw, postUuid, textUuid, created).value;
    var url := Secure.GenerateUniqueToken(PostUrls(db), UrlTries, draw).value;
    var db1 := db.(posts := db.posts[postUuid := Post(url, d.kind, false, corna, author, created)]);
    var dbt := SaveText(db1, postUuid, d.title, d.content, d.innerHtml, textUuid).value;
    assert db2 == Link(dbt, postUuid, d.uploadedImages).value;
    var domain := db.cornas[corna].domain;
    assert DomainOf(db2, postUuid) == Ok(domain);
    LinkedImageUrls(dbt, postUuid, d.uploadedImages, domain);
  }

  /** Linking slugs onto a post nothing pointed at gives it one image URL per slug. */
  lemma LinkedImageUrls(db: Db, post: Uuid, slugs: seq<string>, domain: string)
    requires Link(db, post, slugs).Ok?
    requires ImagesOf(db, post) == {}
    ensures ImageUrls(Link(db, post, slugs).value, post, domain) == set s | s in slugs :: BuildUrl(s, domain, "image")
  {
    var db2 := Link(db, post, slugs).value;
    LinkedRowsOf(db, post, slugs);
    var want := set s | s in slugs :: BuildUrl(s, domain, "image");
    var got := ImageUrls(db2, post, domain);
    forall s | s in slugs ensures BuildUrl(s, domain, "image") in got {
      var m := Only(MediaWith(db, s));
      assert m in ImagesOf(db2, post);
    }
    assert got == want;
  }

  /**
    After a successful link onto a post nothing pointed at, the post's
    images are exactly the rows the slugs name.
   */
  lemma LinkedRowsOf(db: Db, post: Uuid, slugs: seq<string>)
    requires Link(db, post, slugs).Ok?
    requires ImagesOf(db, post) == {}
    ensures Linkable(db, slugs)
    ensures forall m :: m in ImagesOf(Link(db, post, slugs).value, post) <==> m in db.media && db.media[m].urlExtension in slugs
    ensures forall s :: s in slugs ==> Only(MediaWith(db, s)) in ImagesOf(Link(db, post, slugs).value, post)
  {
    LinkOkIff(db, post, slugs);
    forall s | s in slugs ensures |MediaWith(db, s)| == 1 {
      var i :| 0 <= i < |slugs| && slugs[i] == s;
    }
  }
}

=== FILE: posts_routes.dfy ===
/**
  The posts blueprint (corna/blueprints/v1/posts.py): the pre-load filter
  that drops JavaScript "null" fields, the login gate, and how creating
  and listing posts answer.
 */
module PostsRoutes {
  import opened Base
  import opened Encodings
  import opened Store
  import opened Http
  import opened PostControl
  import Secure

  // ---------------------------------------------------------------------
  // _handle_javascript_null
  // ---------------------------------------------------------------------

  /** The string a JavaScript client sends for an absent field. */
  const JsNull: Value := Value.Str("null")

  /** _handle_javascript_null: every pair whose value is the string "null" is dropped. */
  function HandleJavascriptNull(data: map<string, Value>): (cleaned: map<string, Value>)
    ensures forall k :: k in cleaned <==> k in data && data[k] != JsNull
    ensures forall k :: k in cleaned ==> cleaned[k] == data[k]
  {
    map k | k in data && data[k] != JsNull :: data[k]
  }

  /** Filtering twice is filtering once. */
  lemma HandleJavascriptNullIdempotent(data: map<string, Value>)
    ensures HandleJavascriptNull(HandleJavascriptNull(data)) == HandleJavascriptNull(data)
  {
    var once := HandleJavascriptNull(data);
    assert HandleJavascriptNull(once).Keys == once.Keys;
  }

  /** Only keys are lost: the result is a sub-map, and a map without "null" values is kept whole. */
  lemma HandleJavascriptNullSubMap(data: map<string, Value>)
    ensures HandleJavascriptNull(data).Keys <= data.Keys
    ensures (forall k :: k in data ==> data[k] != JsNull) ==> HandleJavascriptNull(data) == data
  {
  }

  // ---------------------------------------------------------------------
  // login_required
  // ---------------------------------------------------------------------

  /** An empty cookie value, which Python treats as false. */
  predicate Blank(t: Text) {
    t == Text.Str("") || t == Bytes([])
  }

  /**
    login_required: a missing or empty cookie, or one is_valid rejects, is
    answered 401 before the route runs (`None` lets the route run). An
    exception inside is_valid escapes as a server error.
   */
  function LoginRequired(cookie: Option<Text>, mac: bytes -> bytes, expired: bytes -> Option<bool>): (stop: Option<nat>)
    ensures stop.None? <==> cookie.Some? && !Blank(cookie.value) && Secure.IsValid(cookie.value, mac, expired) == Ok(true)
    ensures stop.Some? ==> stop.value == HttpUnauthorized || stop.value == HttpServerError
    ensures stop == Some(HttpServerError) <==> cookie.Some? && !Blank(cookie.value) && Secure.IsValid(cookie.value, mac, expired).Err?
  {
    if cookie.None? || Blank(cookie.value) then Some(HttpUnauthorized)
    else
      match Secure.IsValid(cookie.value, mac, expired)
      case Err(_) => Some(HttpServerError)
      case Ok(false) => Some(HttpUnauthorized)
      case Ok(true) => None
  }

  // ---------------------------------------------------------------------
  // The routes
  // ---------------------------------------------------------------------

  /** How post creation answers: a missing corna, a bad type or image, a missing upload is 400; unauthorized 401. */
  function CreateCaught(e: Error): (status: Option<nat>)
    ensures status == Some(HttpBadRequest) <==> e == CornaNotFound || e.InvalidContentType? || e == PostDoesNotExist
    ensures status == Some(HttpUnauthorized) <==> e == Unauthorized
    ensures status.None? <==> !(e == CornaNotFound || e.InvalidContentType? || e == PostDoesNotExist || e == Unauthorized)
  {
    if e == CornaNotFound || e.InvalidContentType? || e == PostDoesNotExist then Some(HttpBadRequest)
    else if e == Unauthorized then Some(HttpUnauthorized)
    else None
  }

  /**
    POST /posts/<domain>/post: the login gate, then create; 201 and a
    commit on success, the caught errors as above, anything else a server
    error; no error path commits.
   */
  function CreateRoute(db: Db, cookie: Option<Text>, mac: bytes -> bytes, expired: bytes -> Option<bool>,
                       domain: string, d: Draft, draw: nat -> string, postUuid: Uuid, textUuid: Uuid, created: string): (reply: Reply)
    ensures LoginRequired(cookie, mac, expired).Some? ==> reply == Reply(LoginRequired(cookie, mac, expired).value, db)
    ensures LoginRequired(cookie, mac, expired).None? ==>
      var r := Create(db, cookie, domain, d, draw, postUuid, textUuid, created);
      && (reply.status == HttpCreated <==> r.Ok?)
      && (reply.status == HttpBadRequest <==> r.Err? && (r.error == CornaNotFound || r.error.InvalidContentType? || r.error == PostDoesNotExist))
      && (reply.status == HttpUnauthorized <==> r == Err(Unauthorized))
      && (reply.db == if r.Ok? then r.value else db)
    ensures reply.status in {HttpCreated, HttpBadRequest, HttpUnauthorized, HttpServerError}
  {
    match LoginRequired(cookie, mac, expired)
    case Some(status) => Reply(status, db)
    case None => Respond(db, Create(db, cookie, domain, d, draw, postUuid, textUuid, created), CreateCaught, HttpCreated)
  }

  /**
    GET /posts/<domain>: the parsed posts with 200; an unknown corna is
    400, and a post that cannot be parsed escapes as a server error.
   */
  function ListRoute(db: Db, domain: string, rows: seq<Uuid>): (reply: (nat, seq<Parsed>))
    ensures reply.0 == HttpOk <==> Get(db, domain, rows).Ok?
    ensures reply.0 == HttpOk ==> reply.1 == Get(db, domain, rows).value
    ensures reply.0 == HttpBadRequest <==> FindCorna(db, domain).Err?
    ensures reply.0 != HttpOk ==> reply.1 == []
    ensures reply.0 in {HttpOk, HttpBadRequest, HttpServerError}
  {
    match Get(db, domain, rows)
    case Ok(posts) => (HttpOk, posts)
    case Err(e) => if e == CornaNotFound then (HttpBadRequest, []) else (HttpServerError, [])
  }
}

=== FILE: roles_control.dfy ===
/**
  Role management (corna/controls/roles_control.py): creating, editing and
  deleting the roles of a corna, giving roles to users and taking them
  away, and the listings. Every operation returns the database it leaves
  behind or the exception it raises; nothing it did survives an exception,
  because the routes commit only on success.
 */
module RolesControl {
  import opened Base
  import opened Bits
  import opened Encodings
  import opened Permissions
  import opened Store
  import opened Check

  /**
    `alchemy.role(session, name, corna)`: the roles on corna `c` whose
    stored name is `name.lower()`. A NULL corna (`c == None`) matches
    nothing.
   */
  function RolesNamed(db: Db, name: string, c: Option<Uuid>): (rs: set<Uuid>)
    ensures forall r :: r in rs <==> r in db.roles && c == Some(db.roles[r].corna) && db.roles[r].name == Lower(name)
  {
    set r | r in db.roles && c == Some(db.roles[r].corna) && db.roles[r].name == Lower(name)
  }

  /** one_or_none over `RolesNamed` (several matches are swallowed into None). */
  function FindRole(db: Db, name: string, c: Option<Uuid>): (r: Option<Uuid>)
    ensures r.Some? ==> r.value in db.roles && c == Some(db.roles[r.value].corna) && db.roles[r.value].name == Lower(name)
    ensures r.None? ==> |RolesNamed(db, name, c)| != 1
  {
    The(RolesNamed(db, name, c))
  }

  /**
    The gate every operation except `new` opens with: the current user
    (NotLoggedInError when the cookie names no session) must pass
    can_change_permissions on the domain.
   */
  function Authorize(db: Db, cookie: Option<Text>, domain: string): (r: Result<Uuid, Error>)
    ensures CurrentUser(db, cookie, NotLoggedIn).Err? ==> r == Err(CurrentUser(db, cookie, NotLoggedIn).error)
    ensures CurrentUser(db, cookie, NotLoggedIn).Ok? ==>
      var u := CurrentUser(db, cookie, NotLoggedIn).value;
      (r.Ok? <==> CanChangePermissions(db, domain, db.users[u].username))
      && (r.Ok? ==> r.value == u)
      && (r.Err? ==> r.error == Unauthorized)
  {
    var u :- CurrentUser(db, cookie, NotLoggedIn);
    if CanChangePermissions(db, domain, db.users[u].username) then Ok(u) else Err(Unauthorized)
  }

  // ---------------------------------------------------------------------
  // new
  // ---------------------------------------------------------------------

  /**
    new: the corna must exist (checked before authorization), the current
    user must be allowed to change permissions, and no role of that name
    (compared lower-case) may exist on the corna. The role is stored under
    the lower-case name with the mask create_role builds; `uuid` is the
    identifier the call draws for the new row.
   */
  function New(db: Db, cookie: Option<Text>, name: string, domain: string, permissions: seq<string>, uuid: Uuid): (r: Result<Db, Error>)
    ensures CurrentUser(db, cookie, NotLoggedIn).Err? ==> r == Err(CurrentUser(db, cookie, NotLoggedIn).error)
    ensures CurrentUser(db, cookie, NotLoggedIn).Ok? ==>
      var user := db.users[CurrentUser(db, cookie, NotLoggedIn).value].username;
      var c := CornaUuid(db, domain);
      && (c.None? <==> r == Err(CornaNotFound))
      && (c.Some? ==> (r == Err(Unauthorized) <==> !CanChangePermissions(db, domain, user)))
      && (c.Some? && CanChangePermissions(db, domain, user) ==> (r == Err(DuplicateRole) <==> FindRole(db, name, c).Some?))
      && (r.Ok? <==> c.Some? && CanChangePermissions(db, domain, user) && FindRole(db, name, c).None? && uuid !in db.roles)
    ensures r.Ok? ==> exists c ::
      CornasAt(db, domain) == {c} && FindRole(db, name, Some(c)).None? && uuid !in db.roles
      && r.value == db.(roles := db.roles[uuid := Role(Lower(name), CreateRole(permissions), CurrentUser(db, cookie, NotLoggedIn).value, c)])
    ensures r.Ok? ==> CanChangePermissions(db, domain, db.users[CurrentUser(db, cookie, NotLoggedIn).value].username)
  {
    var u :- CurrentUser(db, cookie, NotLoggedIn);
    var corna := The(CornasAt(db, domain));
    if corna.None? then Err(CornaNotFound)
    else if !CanChangePermissions(db, domain, db.users[u].username) then Err(Unauthorized)
    else if FindRole(db, name, corna).Some? then Err(DuplicateRole)
    else if uuid in db.roles then Err(IntegrityError)
    else Ok(db.(roles := db.roles[uuid := Role(Lower(name), CreateRole(permissions), u, corna.value)]))
  }

  // ---------------------------------------------------------------------
  // update, add and remove: one role's mask is rewritten
  // ---------------------------------------------------------------------

  /** `db2` is `db` with role `rid`'s mask set to `mask` and nothing else changed. */
  ghost predicate MaskChanged(db: Db, db2: Db, rid: Uuid, mask: nat) {
    rid in db.roles && db2 == db.(roles := db.roles[rid := db.roles[rid].(permissions := mask)])
  }

  /** The shared body of update, add and remove: find the role, rewrite its mask with `edit`. */
  function Edit(db: Db, cookie: Option<Text>, name: string, domain: string, edit: nat -> nat): (r: Result<Db, Error>)
    ensures Authorize(db, cookie, domain).Err? ==> r == Err(Authorize(db, cookie, domain).error)
    ensures Authorize(db, cookie, domain).Ok? && FindRole(db, name, CornaUuid(db, domain)).None? ==> r == Err(NoneExistingRole)
    ensures Authorize(db, cookie, domain).Ok? && FindRole(db, name, CornaUuid(db, domain)).Some? ==>
      var rid := FindRole(db, name, CornaUuid(db, domain)).value;
      r.Ok? && MaskChanged(db, r.value, rid, edit(db.roles[rid].permissions))
    ensures r.Ok? ==> Authorize(db, cookie, domain).Ok? && FindRole(db, name, CornaUuid(db, domain)).Some?
  {
    var _ :- Authorize(db, cookie, domain);
    match FindRole(db, name, CornaUuid(db, domain))
    case None => Err(NoneExistingRole)
    case Some(rid) => Ok(db.(roles := db.roles[rid := db.roles[rid].(permissions := edit(db.roles[rid].permissions))]))
  }

  /** update: the role's mask is replaced wholesale by create_role(permissions). */
  function Update(db: Db, cookie: Option<Text>, name: string, domain: string, permissions: seq<string>): (r: Result<Db, Error>)
    ensures r.Ok? ==> exists rid :: (rid in db.roles && db.roles[rid].name == Lower(name)
      && Some(db.roles[rid].corna) == CornaUuid(db, domain)
      && MaskChanged(db, r.value, rid, CreateRole(permissions)))
    ensures Authorize(db, cookie, domain).Ok? && FindRole(db, name, CornaUuid(db, domain)).None? ==> r == Err(NoneExistingRole)
    ensures Authorize(db, cookie, domain).Err? ==> r == Err(Authorize(db, cookie, domain).error)
  {
    Edit(db, cookie, name, domain, _ => CreateRole(permissions))
  }

  /** add: add_perm on the role's mask. */
  function Add(db: Db, cookie: Option<Text>, name: string, domain: string, permission: string): (r: Result<Db, Error>)
    ensures r.Ok? ==> exists rid :: (rid in db.roles && db.roles[rid].name == Lower(name)
      && Some(db.roles[rid].corna) == CornaUuid(db, domain)
      && MaskChanged(db, r.value, rid, AddPerm(db.roles[rid].permissions, permission))
      && HasPerm(r.value.roles[rid].permissions, permission) == Named(permission).Some?)
    ensures r.Ok? && Named(permission).None? ==> r.value == db
    ensures Authorize(db, cookie, domain).Ok? && FindRole(db, name, CornaUuid(db, domain)).None? ==> r == Err(NoneExistingRole)
    ensures Authorize(db, cookie, domain).Err? ==> r == Err(Authorize(db, cookie, domain).error)
  {
    var r := Edit(db, cookie, name, domain, m => AddPerm(m, permission));
    assert r.Ok? && Named(permission).None? ==> r.value.roles == db.roles;
    r
  }

  /** remove: remove_perm on the role's mask. */
  function Remove(db: Db, cookie: Option<Text>, name: string, domain: string, permission: string): (r: Result<Db, Error>)
    ensures r.Ok? ==> exists rid :: (rid in db.roles && db.roles[rid].name == Lower(name)
      && Some(db.roles[rid].corna) == CornaUuid(db, domain)
      && MaskChanged(db, r.value, rid, RemovePerm(db.roles[rid].permissions, permission))
      && !HasPerm(r.value.roles[rid].permissions, permission))
    ensures r.Ok? && Named(permission).None? ==> r.value == db
    ensures Authorize(db, cookie, domain).Ok? && FindRole(db, name, CornaUuid(db, domain)).None? ==> r == Err(NoneExistingRole)
    ensures Authorize(db, cookie, domain).Err? ==> r == Err(Authorize(db, cookie, domain).error)
  {
    var r := Edit(db, cookie, name, domain, m => RemovePerm(m, permission));
    assert r.Ok? && Named(permission).None? ==> r.value.roles == db.roles;
    r
  }

  // ---------------------------------------------------------------------
  // delete
  // ---------------------------------------------------------------------

  /**
    delete: a bulk DELETE of the roles so named on the corna. Deleting no
    row is not an error; deleting a role somebody still holds violates the
    role_user_map foreign key, and the database raises.
   */
  function Delete(db: Db, cookie: Option<Text>, name: string, domain: string): (r: Result<Db, Error>)
    ensures Authorize(db, cookie, domain).Err? ==> r == Err(Authorize(db, cookie, domain).error)
    ensures r.Ok? ==> r.value == db.(roles := db.roles - RolesNamed(db, name, CornaUuid(db, domain)))
    ensures r.Ok? ==> forall a :: a in db.members ==> a.0 !in RolesNamed(db, name, CornaUuid(db, domain))
    ensures Authorize(db, cookie, domain).Ok? && RolesNamed(db, name, CornaUuid(db, domain)) == {} ==> r == Ok(db)
    ensures r.Err? && Authorize(db, cookie, domain).Ok? ==> r.error == IntegrityError
  {
    var _ :- Authorize(db, cookie, domain);
    var doomed := RolesNamed(db, name, CornaUuid(db, domain));
    if exists a :: a in db.members && a.0 in doomed then Err(IntegrityError)
    else
      assert doomed == {} ==> db.roles - doomed == db.roles;
      Ok(db.(roles := db.roles - doomed))
  }

  // ---------------------------------------------------------------------
  // give and take
  // ---------------------------------------------------------------------

  /**
    give: the user must exist (checked first; several matches raise), then
    the role; the pair joins role_user_map, which holds each pair once.
   */
  function Give(db: Db, cookie: Option<Text>, name: string, domain: string, username: string): (r: Result<Db, Error>)
    ensures Authorize(db, cookie, domain).Err? ==> r == Err(Authorize(db, cookie, domain).error)
    ensures Authorize(db, cookie, domain).Ok? && UsersNamed(db, username) == {} ==> r == Err(NoneExistingUser)
    ensures Authorize(db, cookie, domain).Ok? && |UsersNamed(db, username)| == 1 && FindRole(db, name, CornaUuid(db, domain)).None?
      ==> r == Err(NoneExistingRole)
    ensures r.Ok? ==> exists u, rid ::
      UsersNamed(db, username) == {u} && FindRole(db, name, CornaUuid(db, domain)) == Some(rid)
      && r.value == db.(members := db.members + {(rid, u)})
  {
    var _ :- Authorize(db, cookie, domain);
    var users := UsersNamed(db, username);
    if |users| > 1 then Err(MultipleResults)
    else if |users| == 0 then Err(NoneExistingUser)
    else
      match FindRole(db, name, CornaUuid(db, domain))
      case None => Err(NoneExistingRole)
      case Some(rid) => Ok(db.(members := db.members + {(rid, Only(users))}))
  }

  /**
    take: delete the role_user_map rows whose user is the username subquery
    and whose role is the role subquery. A missing user or role makes a
    subquery NULL, so nothing is deleted and nothing is raised.
   */
  function Take(db: Db, cookie: Option<Text>, name: string, domain: string, username: string): (r: Result<Db, Error>)
    ensures Authorize(db, cookie, domain).Err? ==> r == Err(Authorize(db, cookie, domain).error)
    ensures Authorize(db, cookie, domain).Ok? ==> r.Ok?
    ensures r.Ok? ==> r.value == db.(members := r.value.members) && r.value.members <= db.members
    ensures r.Ok? ==> |db.members - r.value.members| <= 1
    ensures r.Ok? ==> forall a :: a in db.members - r.value.members ==>
      Some(a.1) == UserUuid(db, username) && Some(a.0) == FindRole(db, name, CornaUuid(db, domain))
  {
    var _ :- Authorize(db, cookie, domain);
    match (UserUuid(db, username), FindRole(db, name, CornaUuid(db, domain)))
    case (Some(u), Some(rid)) =>
      assert db.members - (db.members - {(rid, u)}) <= {(rid, u)};
      SubsetCard(db.members - (db.members - {(rid, u)}), {(rid, u)});
      Ok(db.(members := db.members - {(rid, u)}))
    case _ => Ok(db)
  }

  lemma SubsetCard<X>(a: set<X>, b: set<X>)
    requires a <= b
    ensures |a| <= |b|
  {
    assert b == a + (b - a);
  }

  // ---------------------------------------------------------------------
  // Listings
  // ---------------------------------------------------------------------

  /** The permissions of `ps` a mask carries, in the order of `ps`. */
  function Granted(mask: nat, ps: seq<Permission>): (g: seq<Permission>)
    ensures forall p :: p in g <==> p in ps && Holds(mask, p)
    ensures |g| <= |ps|
  {
    if |ps| == 0 then []
    else (if Holds(mask, ps[0]) then [ps[0]] else []) + Granted(mask, ps[1..])
  }

  /** The lower-case names of a list of permissions. */
  function LowerNames(ps: seq<Permission>): (names: seq<string>)
    ensures |names| == |ps| && forall i :: 0 <= i < |ps| ==> names[i] == Lower(ps[i].Name())
  {
    if |ps| == 0 then [] else [Lower(ps[0].Name())] + LowerNames(ps[1..])
  }

  /** `[key for key, value in table.items() if value is True]`. */
  function TrueKeys(table: seq<(string, bool)>): (keys: seq<string>)
    ensures forall k :: k in keys <==> exists i :: 0 <= i < |table| && table[i] == (k, true)
  {
    if |table| == 0 then []
    else
      var rest := TrueKeys(table[1..]);
      assert forall i :: 1 <= i < |table| ==> table[i] == table[1..][i - 1];
      (if table[0].1 then [table[0].0] else []) + rest
  }

  /**
    permissions_list: the names `perms` marks true for the role's mask, in
    enum order; no role of that name on the corna raises.
   */
  function PermissionsList(db: Db, name: string, domain: string): (r: Result<seq<string>, Error>)
    ensures FindRole(db, name, CornaUuid(db, domain)).None? <==> r == Err(NoneExistingRole)
  {
    match FindRole(db, name, CornaUuid(db, domain))
    case None => Err(NoneExistingRole)
    case Some(rid) => Ok(TrueKeys(Perms(db.roles[rid].permissions)))
  }

  /** The table `perms` builds over a list of permissions, in that order. */
  function Table(mask: nat, ps: seq<Permission>): seq<(string, bool)> {
    seq(|ps|, i requires 0 <= i < |ps| => (Lower(ps[i].Name()), Holds(mask, ps[i])))
  }

  lemma {:induction false} TrueKeysOfTable(mask: nat, ps: seq<Permission>)
    ensures TrueKeys(Table(mask, ps)) == LowerNames(Granted(mask, ps))
  {
    if |ps| > 0 {
      TrueKeysOfTable(mask, ps[1..]);
      assert Table(mask, ps)[1..] == Table(mask, ps[1..]);
      var g := Granted(mask, ps[1..]);
      if Holds(mask, ps[0]) {
        assert LowerNames([ps[0]] + g) == [Lower(ps[0].Name())] + LowerNames(g);
      } else {
        assert [] + g == g;
      }
    }
  }

  /**
    The listed names are exactly the lower-case names of the permissions
    the role's mask carries, in the enumeration's order.
   */
  lemma PermissionsListInEnumOrder(db: Db, name: string, domain: string)
    requires FindRole(db, name, CornaUuid(db, domain)).Some?
    ensures PermissionsList(db, name, domain)
      == Ok(LowerNames(Granted(db.roles[FindRole(db, name, CornaUuid(db, domain)).value].permissions, AllPermissions)))
  {
    var mask := db.roles[FindRole(db, name, CornaUuid(db, domain)).value].permissions;
    assert Perms(mask) == Table(mask, AllPermissions);
    TrueKeysOfTable(mask, AllPermissions);
  }

  /** user_list: the usernames of the users holding the role (an unordered SQL result). */
  function UserList(db: Db, name: string, domain: string): (names: set<string>)
    ensures forall n :: n in names <==> exists u, rid ::
      u in db.users && db.users[u].username == n && FindRole(db, name, CornaUuid(db, domain)) == Some(rid) && (rid, u) in db.members
  {
    var role := FindRole(db, name, CornaUuid(db, domain));
    set u | u in db.users && role.Some? && (role.value, u) in db.members :: db.users[u].username
  }

  /** user_role_list: the names of the roles the user holds on this corna. */
  function UserRoleList(db: Db, domain: string, username: string): (names: set<string>)
    ensures forall n :: n in names <==> exists rid, u ::
      rid in db.roles && db.roles[rid].name == n && UserUuid(db, username) == Some(u) && (rid, u) in db.members
      && CornaUuid(db, domain) == Some(db.roles[rid].corna)
    ensures CornasAt(db, domain) == {} ==> names == {}
  {
    var user := UserUuid(db, username);
    var corna := CornaUuid(db, domain);
    set rid | rid in db.roles && user.Some? && (rid, user.value) in db.members && corna == Some(db.roles[rid].corna)
      :: db.roles[rid].name
  }

  /** corna_role_list: the names of the roles on this corna. */
  function CornaRoleList(db: Db, domain: string): (names: set<string>)
    ensures forall n :: n in names <==> exists rid ::
      rid in db.roles && db.roles[rid].name == n && CornaUuid(db, domain) == Some(db.roles[rid].corna)
  {
    var corna := CornaUuid(db, domain);
    set rid | rid in db.roles && corna == Some(db.roles[rid].corna) :: db.roles[rid].name
  }

  /**
    user_perm_list: `CornaPermissions[permission.upper()]` raises KeyError
    for an unknown name; otherwise the usernames of the users holding a
    role on the corna with `mask & value == value`.
   */
  function UserPermList(db: Db, domain: string, permission: string): (r: Result<set<string>, Error>)
    ensures Named(permission).None? <==> r == Err(KeyError)
    ensures r.Ok? ==> forall n :: n in r.value <==> exists u, rid ::
      u in db.users && db.users[u].username == n && rid in db.roles && (rid, u) in db.members
      && CornaUuid(db, domain) == Some(db.roles[rid].corna)
      && Holds(db.roles[rid].permissions, Named(permission).value)
  {
    match Named(permission)
    case None => Err(KeyError)
    case Some(p) =>
      var corna := CornaUuid(db, domain);
      var holders := set u, rid | u in db.users && rid in db.roles && (rid, u) in db.members
        && corna == Some(db.roles[rid].corna) && And(db.roles[rid].permissions, p.Value()) == p.Value()
        :: db.users[u].username;
      MaskEqualsValueIsHolds(p);
      Ok(holders)
  }

  /** For a single bit, `mask & value == value` is the same test as `mask & value != 0`. */
  lemma MaskEqualsValueIsHolds(p: Permission)
    ensures forall m: nat :: And(m, p.Value()) == p.Value() <==> Holds(m, p)
  {
    forall m: nat ensures And(m, p.Value()) == p.Value() <==> Holds(m, p) {
      AndPow2(m, p.Index());
      if Holds(m, p) {
        forall k: nat ensures TestBit(And(m, p.Value()), k) == TestBit(p.Value(), k) {
          AndBit(m, p.Value(), k);
          Pow2Bit(p.Index(), k);
        }
        BitsDetermine(And(m, p.Value()), p.Value());
      } else {
        Pow2Bit(p.Index(), p.Index());
      }
    }
  }

  // ---------------------------------------------------------------------
  // How the operations relate
  // ---------------------------------------------------------------------

  /** Two states with the same users, sessions and cornas agree on who is asking and on ownership. */
  lemma SameAccounts(db: Db, db2: Db, cookie: Option<Text>, domain: string, username: string)
    requires db2.users == db.users && db2.sessions == db.sessions && db2.cornas == db.cornas
    ensures CurrentUser(db2, cookie, NotLoggedIn) == CurrentUser(db, cookie, NotLoggedIn)
    ensures UsersNamed(db2, username) == UsersNamed(db, username) && UserUuid(db2, username) == UserUuid(db, username)
    ensures CornasAt(db2, domain) == CornasAt(db, domain) && CornaUuid(db2, domain) == CornaUuid(db, domain)
    ensures DefaultMask(db2, domain) == DefaultMask(db, domain)
    ensures IsOwner(db2, domain, username) == IsOwner(db, domain, username)
  {
    if CookieId(cookie).Ok? {
      assert SessionsWith(db2, CookieId(cookie).value) == SessionsWith(db, CookieId(cookie).value);
    }
    assert UsersNamed(db2, username) == UsersNamed(db, username);
    assert CornasAt(db2, domain) == CornasAt(db, domain);
    assert OwnedAt(db2, domain, username) == OwnedAt(db, domain, username);
  }

  /** A role nobody holds changes no check, whatever its mask. */
  lemma UnheldRoleChangesNoCheck(db: Db, rid: Uuid, role: Role, domain: string, username: string, name: string, p: Permission)
    requires forall a :: a in db.members ==> a.0 in db.roles
    requires rid !in db.roles
    ensures Can(db.(roles := db.roles[rid := role]), domain, username, name, p) == Can(db, domain, username, name, p)
  {
    var db2 := db.(roles := db.roles[rid := role]);
    SameAccounts(db, db2, None, domain, username);
    assert GrantingRoles(db2, p.Value(), domain, username) == GrantingRoles(db, p.Value(), domain, username);
  }

  /** More role_user_map rows never make a check fail. */
  lemma MoreMembersKeepChecks(db: Db, more: set<(Uuid, Uuid)>, domain: string, username: string, name: string, p: Permission)
    requires db.members <= more
    ensures Can(db, domain, username, name, p) ==> Can(db.(members := more), domain, username, name, p)
  {
    var db2 := db.(members := more);
    SameAccounts(db, db2, None, domain, username);
    SubsetCard(GrantingRoles(db, p.Value(), domain, username), GrantingRoles(db2, p.Value(), domain, username));
  }

  /** Under the constraints a role name is taken at most once per corna. */
  lemma RolesNamedAtMostOne(db: Db, name: string, c: Option<Uuid>)
    requires Valid(db)
    ensures |RolesNamed(db, name, c)| <= 1
    ensures FindRole(db, name, c).None? ==> RolesNamed(db, name, c) == {}
  {
    UniqueKeysAtMostOne(RolesNamed(db, name, c));
  }

  /** Changes to roles and role_user_map leave the other tables' constraints alone. */
  lemma AccountsKeepValid(db: Db, db2: Db)
    requires Valid(db) && RolesValid(db2)
    requires db2.users == db.users && db2.emails == db.emails && db2.sessions == db.sessions && db2.cornas == db.cornas
    ensures Valid(db2)
  {
  }

  /** A new role on an existing corna, by an existing user, under a lower-case name still free there. */
  lemma AddRoleKeepsValid(db: Db, uuid: Uuid, role: Role)
    requires Valid(db) && uuid !in db.roles
    requires role.corna in db.cornas && role.creator in db.users && Lower(role.name) == role.name
    requires forall q :: q in db.roles && db.roles[q].corna == role.corna ==> db.roles[q].name != role.name
    ensures Valid(db.(roles := db.roles[uuid := role]))
  {
    var db2 := db.(roles := db.roles[uuid := role]);
    RoleAddedKeepsRoles(db, uuid, role);
    AccountsKeepValid(db, db2);
  }

  lemma RoleAddedKeepsRoles(db: Db, uuid: Uuid, role: Role)
    requires RolesValid(db) && uuid !in db.roles
    requires role.corna in db.cornas && role.creator in db.users && Lower(role.name) == role.name
    requires forall q :: q in db.roles && db.roles[q].corna == role.corna ==> db.roles[q].name != role.name
    ensures RolesValid(db.(roles := db.roles[uuid := role]))
  {
  }

  /** A role's mask is not constrained. */
  lemma SetMaskKeepsValid(db: Db, rid: Uuid, mask: nat)
    requires Valid(db) && rid in db.roles
    ensures Valid(db.(roles := db.roles[rid := db.roles[rid].(permissions := mask)]))
  {
    var db2 := db.(roles := db.roles[rid := db.roles[rid].(permissions := mask)]);
    MaskChangeKeepsRoles(db, rid, mask);
    AccountsKeepValid(db, db2);
  }

  lemma MaskChangeKeepsRoles(db: Db, rid: Uuid, mask: nat)
    requires RolesValid(db) && rid in db.roles
    ensures RolesValid(db.(roles := db.roles[rid := db.roles[rid].(permissions := mask)]))
  {
    var db2 := db.(roles := db.roles[rid := db.roles[rid].(permissions := mask)]);
    assert db2.roles.Keys == db.roles.Keys;
    forall r | r in db2.roles
      ensures db2.roles[r].corna == db.roles[r].corna && db2.roles[r].name == db.roles[r].name
      ensures db2.roles[r].creator == db.roles[r].creator
    {
    }
  }

  /** A pair of an existing role and an existing user may join role_user_map. */
  lemma AddMemberKeepsValid(db: Db, rid: Uuid, u: Uuid)
    requires Valid(db) && rid in db.roles && u in db.users
    ensures Valid(db.(members := db.members + {(rid, u)}))
  {
    var db2 := db.(members := db.members + {(rid, u)});
    MemberAddedKeepsRoles(db, rid, u);
    AccountsKeepValid(db, db2);
  }

  lemma MemberAddedKeepsRoles(db: Db, rid: Uuid, u: Uuid)
    requires RolesValid(db) && rid in db.roles && u in db.users
    ensures RolesValid(db.(members := db.members + {(rid, u)}))
  {
  }

  /** new keeps every constraint; in particular the new name is the only one of its kind on the corna. */
  lemma NewKeepsValid(db: Db, cookie: Option<Text>, name: string, domain: string, permissions: seq<string>, uuid: Uuid)
    requires Valid(db)
    requires New(db, cookie, name, domain, permissions, uuid).Ok?
    ensures Valid(New(db, cookie, name, domain, permissions, uuid).value)
  {
    var db2 := New(db, cookie, name, domain, permissions, uuid).value;
    var u := CurrentUser(db, cookie, NotLoggedIn).value;
    var c :| CornasAt(db, domain) == {c} && FindRole(db, name, Some(c)).None? && uuid !in db.roles
      && db2 == db.(roles := db.roles[uuid := Role(Lower(name), CreateRole(permissions), u, c)]);
    assert c in CornasAt(db, domain);
    RolesNamedAtMostOne(db, name, Some(c));
    LowerIdempotent(name);
    AddRoleKeepsValid(db, uuid, Role(Lower(name), CreateRole(permissions), u, c));
  }

  /** A row added under a name still free on its corna is the one role of that name there. */
  lemma FreshRowIsOnlyOne(db: Db, uuid: Uuid, role: Role, name: string)
    requires uuid !in db.roles
    requires role.name == Lower(name) && RolesNamed(db, name, Some(role.corna)) == {}
    ensures RolesNamed(db.(roles := db.roles[uuid := role]), name, Some(role.corna)) == {uuid}
    ensures db.roles[uuid := role] - {uuid} == db.roles
  {
    var db2 := db.(roles := db.roles[uuid := role]);
    assert RolesNamed(db2, name, Some(role.corna)) == {uuid};
    assert db2.roles - {uuid} == db.roles;
  }

  /**
    What a successful new leaves behind: the same user passes the same
    gate, and the new row is the one role of that name on the corna.
   */
  lemma AfterNew(db: Db, cookie: Option<Text>, name: string, domain: string, permissions: seq<string>, uuid: Uuid, name2: string)
    requires Valid(db)
    requires New(db, cookie, name, domain, permissions, uuid).Ok?
    requires Lower(name2) == Lower(name)
    ensures var db2 := New(db, cookie, name, domain, permissions, uuid).value;
      && Authorize(db2, cookie, domain).Ok?
      && RolesNamed(db2, name2, CornaUuid(db2, domain)) == {uuid}
      && db2 == db.(roles := db2.roles) && db2.roles - {uuid} == db.roles
      && forall a :: a in db2.members ==> a.0 != uuid
  {
    var db2 := New(db, cookie, name, domain, permissions, uuid).value;
    var u := CurrentUser(db, cookie, NotLoggedIn).value;
    var c :| CornasAt(db, domain) == {c} && FindRole(db, name, Some(c)).None? && uuid !in db.roles
      && db2 == db.(roles := db.roles[uuid := Role(Lower(name), CreateRole(permissions), u, c)]);
    var role := Role(Lower(name), CreateRole(permissions), u, c);
    RolesNamedAtMostOne(db, name, Some(c));
    assert RolesNamed(db, name2, Some(c)) == RolesNamed(db, name, Some(c));
    FreshRowIsOnlyOne(db, uuid, role, name2);
    GateAfterNewRow(db, cookie, domain, uuid, role);
    SameAccounts(db, db2, cookie, domain, "");
  }

  /** Adding a row nobody holds keeps the gate open for whoever passed it. */
  lemma GateAfterNewRow(db: Db, cookie: Option<Text>, domain: string, uuid: Uuid, role: Role)
    requires forall a :: a in db.members ==> a.0 in db.roles
    requires uuid !in db.roles
    requires Authorize(db, cookie, domain).Ok?
    ensures Authorize(db.(roles := db.roles[uuid := role]), cookie, domain).Ok?
  {
    var db2 := db.(roles := db.roles[uuid := role]);
    var u := CurrentUser(db, cookie, NotLoggedIn).value;
    SameAccounts(db, db2, cookie, domain, db.users[u].username);
    UnheldRoleChangesNoCheck(db, uuid, role, domain, db.users[u].username,
      Lower(ChangePermissions.Name()), ChangePermissions);
  }

  /** Creating a role and then creating it again (in any capitalisation) is refused as a duplicate. */
  lemma NewTwiceIsDuplicate(db: Db, cookie: Option<Text>, name: string, domain: string, permissions: seq<string>, uuid: Uuid,
                            name2: string, permissions2: seq<string>, uuid2: Uuid)
    requires Valid(db)
    requires New(db, cookie, name, domain, permissions, uuid).Ok?
    requires Lower(name2) == Lower(name)
    ensures New(New(db, cookie, name, domain, permissions, uuid).value, cookie, name2, domain, permissions2, uuid2) == Err(DuplicateRole)
  {
    AfterNew(db, cookie, name, domain, permissions, uuid, name2);
  }

  /** Deleting the role just created gives back the state before it. */
  lemma NewThenDelete(db: Db, cookie: Option<Text>, name: string, domain: string, permissions: seq<string>, uuid: Uuid)
    requires Valid(db)
    requires New(db, cookie, name, domain, permissions, uuid).Ok?
    ensures Delete(New(db, cookie, name, domain, permissions, uuid).value, cookie, name, domain) == Ok(db)
  {
    AfterNew(db, cookie, name, domain, permissions, uuid, name);
  }

  /** After a successful delete no role of that name is left on the corna. */
  lemma DeleteForgetsRole(db: Db, cookie: Option<Text>, name: string, domain: string)
    requires Delete(db, cookie, name, domain).Ok?
    ensures PermissionsList(Delete(db, cookie, name, domain).value, name, domain) == Err(NoneExistingRole)
  {
    var db2 := Delete(db, cookie, name, domain).value;
    SameAccounts(db, db2, cookie, domain, "");
    assert RolesNamed(db2, name, CornaUuid(db2, domain)) == {};
  }

  /** delete keeps every constraint: the roles it removes are held by nobody. */
  lemma DeleteKeepsValid(db: Db, cookie: Option<Text>, name: string, domain: string)
    requires Valid(db)
    requires Delete(db, cookie, name, domain).Ok?
    ensures Valid(Delete(db, cookie, name, domain).value)
  {
    var db2 := Delete(db, cookie, name, domain).value;
    assert RolesValid(db2);
    AccountsKeepValid(db, db2);
  }

  /** update, add and remove change one mask and so keep every constraint. */
  lemma EditKeepsValid(db: Db, cookie: Option<Text>, name: string, domain: string, edit: nat -> nat)
    requires Valid(db)
    requires Edit(db, cookie, name, domain, edit).Ok?
    ensures Valid(Edit(db, cookie, name, domain, edit).value)
  {
    var rid := FindRole(db, name, CornaUuid(db, domain)).value;
    SetMaskKeepsValid(db, rid, edit(db.roles[rid].permissions));
  }

  /** After update, the role lists exactly the permissions the update named, in enum order. */
  lemma UpdateThenList(db: Db, cookie: Option<Text>, name: string, domain: string, permissions: seq<string>)
    requires Update(db, cookie, name, domain, permissions).Ok?
    ensures PermissionsList(Update(db, cookie, name, domain, permissions).value, name, domain)
      == Ok(LowerNames(Granted(CreateRole(permissions), AllPermissions)))
  {
    var db2 := Update(db, cookie, name, domain, permissions).value;
    SameAccounts(db, db2, cookie, domain, "");
    assert RolesNamed(db2, name, CornaUuid(db2, domain)) == RolesNamed(db, name, CornaUuid(db, domain));
    PermissionsListInEnumOrder(db2, name, domain);
  }

  /** More role_user_map rows keep the gate open for whoever passed it. */
  lemma GateAfterMoreMembers(db: Db, cookie: Option<Text>, domain: string, more: set<(Uuid, Uuid)>)
    requires db.members <= more
    requires Authorize(db, cookie, domain).Ok?
    ensures Authorize(db.(members := more), cookie, domain).Ok?
  {
    var db2 := db.(members := more);
    var u := CurrentUser(db, cookie, NotLoggedIn).value;
    SameAccounts(db, db2, cookie, domain, db.users[u].username);
    MoreMembersKeepChecks(db, more, domain, db.users[u].username, Lower(ChangePermissions.Name()), ChangePermissions);
  }

  /** What a successful give leaves behind: the same gate, user and role, and one more pair. */
  lemma AfterGive(db: Db, cookie: Option<Text>, name: string, domain: string, username: string)
    requires Give(db, cookie, name, domain, username).Ok?
    ensures var db2 := Give(db, cookie, name, domain, username).value;
      && Authorize(db2, cookie, domain).Ok?
      && UsersNamed(db2, username) == UsersNamed(db, username)
      && FindRole(db2, name, CornaUuid(db2, domain)) == FindRole(db, name, CornaUuid(db, domain))
      && |UsersNamed(db, username)| == 1 && FindRole(db, name, CornaUuid(db, domain)).Some?
      && db2 == db.(members := db.members + {(FindRole(db, name, CornaUuid(db, domain)).value, Only(UsersNamed(db, username)))})
  {
    var db2 := Give(db, cookie, name, domain, username).value;
    var u, rid :| UsersNamed(db, username) == {u} && FindRole(db, name, CornaUuid(db, domain)) == Some(rid)
      && db2 == db.(members := db.members + {(rid, u)});
    GateAfterMoreMembers(db, cookie, domain, db2.members);
    SameAccounts(db, db2, cookie, domain, username);
    assert RolesNamed(db2, name, CornaUuid(db2, domain)) == RolesNamed(db, name, CornaUuid(db, domain));
  }

  /** give is idempotent: giving a role the user already holds changes nothing. */
  lemma GiveTwice(db: Db, cookie: Option<Text>, name: string, domain: string, username: string)
    requires Give(db, cookie, name, domain, username).Ok?
    ensures Give(Give(db, cookie, name, domain, username).value, cookie, name, domain, username)
      == Give(db, cookie, name, domain, username)
  {
    AfterGive(db, cookie, name, domain, username);
    var db2 := Give(db, cookie, name, domain, username).value;
    var pair := (FindRole(db, name, CornaUuid(db, domain)).value, Only(UsersNamed(db, username)));
    assert db2.members + {pair} == db2.members;
  }

  /** give keeps every constraint: the pair names an existing role and user. */
  lemma GiveKeepsValid(db: Db, cookie: Option<Text>, name: string, domain: string, username: string)
    requires Valid(db)
    requires Give(db, cookie, name, domain, username).Ok?
    ensures Valid(Give(db, cookie, name, domain, username).value)
  {
    AfterGive(db, cookie, name, domain, username);
    var u := Only(UsersNamed(db, username));
    assert u in UsersNamed(db, username);
    AddMemberKeepsValid(db, FindRole(db, name, CornaUuid(db, domain)).value, u);
  }

  /**
    Taking back a role the user did not hold before it was given restores
    the state before the give.
   */
  lemma GiveThenTake(db: Db, cookie: Option<Text>, name: string, domain: string, username: string)
    requires Give(db, cookie, name, domain, username).Ok?
    requires forall a :: a in db.members ==> Some(a.0) != FindRole(db, name, CornaUuid(db, domain))
    ensures Take(Give(db, cookie, name, domain, username).value, cookie, name, domain, username) == Ok(db)
  {
    AfterGive(db, cookie, name, domain, username);
    var db2 := Give(db, cookie, name, domain, username).value;
    var pair := (FindRole(db, name, CornaUuid(db, domain)).value, Only(UsersNamed(db, username)));
    assert UserUuid(db2, username) == Some(pair.1);
    assert db2.members - {pair} == db.members;
  }

  /** take keeps every constraint. */
  lemma TakeKeepsValid(db: Db, cookie: Option<Text>, name: string, domain: string, username: string)
    requires Valid(db)
    requires Take(db, cookie, name, domain, username).Ok?
    ensures Valid(Take(db, cookie, name, domain, username).value)
  {
    var db2 := Take(db, cookie, name, domain, username).value;
    assert RolesValid(db2);
    AccountsKeepValid(db, db2);
  }
}

=== FILE: roles_routes.dfy ===
/**
  The roles blueprint (corna/blueprints/v1/roles.py): each route runs one
  role control, answers the errors it catches with a client status and
  commits only on success.
 */
module RolesRoutes {
  import opened Base
  import opened Encodings
  import opened Permissions
  import opened Store
  import opened Check
  import opened Http
  import opened RolesControl

  /** How create answers: a duplicate role or a missing corna is 400, unauthorized 401. */
  function CreateCaught(e: Error): (status: Option<nat>)
    ensures status == Some(HttpBadRequest) <==> e == DuplicateRole || e == CornaNotFound
    ensures status == Some(HttpUnauthorized) <==> e == Unauthorized
    ensures status.None? <==> e != DuplicateRole && e != CornaNotFound && e != Unauthorized
  {
    if e == DuplicateRole || e == CornaNotFound then Some(HttpBadRequest)
    else if e == Unauthorized then Some(HttpUnauthorized)
    else None
  }

  /** How give answers: a missing role or user is 400, unauthorized 401. */
  function GiveCaught(e: Error): (status: Option<nat>)
    ensures status == Some(HttpBadRequest) <==> e == NoneExistingRole || e == NoneExistingUser
    ensures status == Some(HttpUnauthorized) <==> e == Unauthorized
    ensures status.None? <==> e != NoneExistingRole && e != NoneExistingUser && e != Unauthorized
  {
    if e == NoneExistingRole || e == NoneExistingUser then Some(HttpBadRequest)
    else if e == Unauthorized then Some(HttpUnauthorized)
    else None
  }

  /** How delete and take answer: only an unauthorized caller is caught (401). */
  function UnauthorizedCaught(e: Error): (status: Option<nat>)
    ensures status == Some(HttpUnauthorized) <==> e == Unauthorized
    ensures status.None? <==> e != Unauthorized
  {
    if e == Unauthorized then Some(HttpUnauthorized) else None
  }

  /** POST /roles: duplicate role or missing corna is 400, unauthorized 401, created 201. */
  function CreateRoute(db: Db, cookie: Option<Text>, name: string, domain: string, permissions: seq<string>, uuid: Uuid): (reply: Reply)
    ensures var r := New(db, cookie, name, domain, permissions, uuid);
      && (reply.status == HttpCreated <==> r.Ok?)
      && (reply.status == HttpBadRequest <==> r == Err(DuplicateRole) || r == Err(CornaNotFound))
      && (reply.status == HttpUnauthorized <==> r == Err(Unauthorized))
      && (reply.status == HttpCreated || reply.status == HttpBadRequest || reply.status == HttpUnauthorized
          || reply.status == HttpServerError)
      && (reply.db == if r.Ok? then r.value else db)
  {
    Respond(db, New(db, cookie, name, domain, permissions, uuid), CreateCaught, HttpCreated)
  }

  /** How update, add and remove answer: a missing role is 400, unauthorized 401, success 204. */
  function EditCaught(e: Error): (status: Option<nat>)
    ensures status == Some(HttpBadRequest) <==> e == NoneExistingRole
    ensures status == Some(HttpUnauthorized) <==> e == Unauthorized
    ensures status.None? <==> e != NoneExistingRole && e != Unauthorized
  {
    if e == NoneExistingRole then Some(HttpBadRequest)
    else if e == Unauthorized then Some(HttpUnauthorized)
    else None
  }

  /** PUT /roles. */
  function UpdateRoute(db: Db, cookie: Option<Text>, name: string, domain: string, permissions: seq<string>): (reply: Reply)
    ensures var r := Update(db, cookie, name, domain, permissions);
      && (reply.status == HttpNoContent <==> r.Ok?)
      && (reply.status == HttpBadRequest <==> r == Err(NoneExistingRole))
      && (reply.status == HttpUnauthorized <==> r == Err(Unauthorized))
      && (reply.db == if r.Ok? then r.value else db)
  {
    Respond(db, Update(db, cookie, name, domain, permissions), EditCaught, HttpNoContent)
  }

  /** PUT /roles/permissions/add. */
  function AddRoute(db: Db, cookie: Option<Text>, name: string, domain: string, permission: string): (reply: Reply)
    ensures var r := Add(db, cookie, name, domain, permission);
      && (reply.status == HttpNoContent <==> r.Ok?)
      && (reply.status == HttpBadRequest <==> r == Err(NoneExistingRole))
      && (reply.status == HttpUnauthorized <==> r == Err(Unauthorized))
      && (reply.db == if r.Ok? then r.value else db)
  {
    Respond(db, Add(db, cookie, name, domain, permission), EditCaught, HttpNoContent)
  }

  /** PUT /roles/permissions/remove. */
  function RemoveRoute(db: Db, cookie: Option<Text>, name: string, domain: string, permission: string): (reply: Reply)
    ensures var r := Remove(db, cookie, name, domain, permission);
      && (reply.status == HttpNoContent <==> r.Ok?)
      && (reply.status == HttpBadRequest <==> r == Err(NoneExistingRole))
      && (reply.status == HttpUnauthorized <==> r == Err(Unauthorized))
      && (reply.db == if r.Ok? then r.value else db)
  {
    Respond(db, Remove(db, cookie, name, domain, permission), EditCaught, HttpNoContent)
  }

  /**
    DELETE /roles: only an unauthorized caller is answered (401); success
    is 204 and every other error escapes as a server error.
   */
  function DeleteRoute(db: Db, cookie: Option<Text>, name: string, domain: string): (reply: Reply)
    ensures var r := RolesControl.Delete(db, cookie, name, domain);
      && (reply.status == HttpNoContent <==> r.Ok?)
      && (reply.status == HttpUnauthorized <==> r == Err(Unauthorized))
      && (r.Err? && r.error != Unauthorized ==> reply.status == HttpServerError)
      && (reply.db == if r.Ok? then r.value else db)
  {
    Respond(db, RolesControl.Delete(db, cookie, name, domain), UnauthorizedCaught, HttpNoContent)
  }

  /** POST /roles/give: a missing role or user is 400, unauthorized 401, success 201. */
  function GiveRoute(db: Db, cookie: Option<Text>, name: string, domain: string, username: string): (reply: Reply)
    ensures var r := Give(db, cookie, name, domain, username);
      && (reply.status == HttpCreated <==> r.Ok?)
      && (reply.status == HttpBadRequest <==> r == Err(NoneExistingRole) || r == Err(NoneExistingUser))
      && (reply.status == HttpUnauthorized <==> r == Err(Unauthorized))
      && (reply.db == if r.Ok? then r.value else db)
  {
    Respond(db, Give(db, cookie, name, domain, username), GiveCaught, HttpCreated)
  }

  /** POST /roles/take: unauthorized is 401, success 201. */
  function TakeRoute(db: Db, cookie: Option<Text>, name: string, domain: string, username: string): (reply: Reply)
    ensures var r := Take(db, cookie, name, domain, username);
      && (reply.status == HttpCreated <==> r.Ok?)
      && (reply.status == HttpUnauthorized <==> r == Err(Unauthorized))
      && (reply.db == if r.Ok? then r.value else db)
  {
    Respond(db, Take(db, cookie, name, domain, username), UnauthorizedCaught, HttpCreated)
  }

  /** GET /roles/<domain>/<role>/permissions: a missing role is 400, otherwise 200 and the names. */
  function PermListRoute(db: Db, domain: string, name: string): (reply: (nat, seq<string>))
    ensures reply.0 == HttpBadRequest <==> FindRole(db, name, CornaUuid(db, domain)).None?
    ensures reply.0 == HttpOk <==> FindRole(db, name, CornaUuid(db, domain)).Some?
    ensures reply.0 == HttpOk ==> Ok(reply.1) == PermissionsList(db, name, domain)
  {
    match PermissionsList(db, name, domain)
    case Err(_) => (HttpBadRequest, [])
    case Ok(names) => (HttpOk, names)
  }

  /** GET /roles/<domain>/users/<perm>: the KeyError of an unknown permission is not caught. */
  function UserPermsListRoute(db: Db, domain: string, permission: string): (reply: (nat, set<string>))
    ensures reply.0 == HttpServerError <==> Named(permission).None?
    ensures reply.0 == HttpOk ==> Ok(reply.1) == UserPermList(db, domain, permission)
    ensures reply.0 == HttpOk || reply.0 == HttpServerError
  {
    match UserPermList(db, domain, permission)
    case Err(_) => (HttpServerError, {})
    case Ok(names) => (HttpOk, names)
  }

  // ---------------------------------------------------------------------
  // Request sequences
  // ---------------------------------------------------------------------

  /** A logged-in user asking for a role on a domain without a corna gets 400 and nothing changes. */
  lemma CreateOnMissingCorna(db: Db, cookie: Option<Text>, name: string, domain: string, permissions: seq<string>, uuid: Uuid)
    requires CurrentUser(db, cookie, NotLoggedIn).Ok?
    requires forall c :: c in db.cornas ==> db.cornas[c].domain != domain
    ensures CreateRoute(db, cookie, name, domain, permissions, uuid) == Reply(HttpBadRequest, db)
  {
    assert CornasAt(db, domain) == {};
  }

  /**
    On an existing corna a logged-in caller is answered 401 exactly when
    they may not change permissions, 400 when they may and the name is
    taken, and 201, with the role added, exactly when they may, the name
    is free and the drawn key is unused.
   */
  lemma CreateOnCorna(db: Db, cookie: Option<Text>, name: string, domain: string, permissions: seq<string>, uuid: Uuid)
    requires CurrentUser(db, cookie, NotLoggedIn).Ok? && CornaUuid(db, domain).Some?
    ensures var user := db.users[CurrentUser(db, cookie, NotLoggedIn).value].username;
      var reply := CreateRoute(db, cookie, name, domain, permissions, uuid);
      var allowed := CanChangePermissions(db, domain, user);
      && (reply.status == HttpUnauthorized <==> !allowed)
      && (allowed && FindRole(db, name, CornaUuid(db, domain)).Some? ==> reply == Reply(HttpBadRequest, db))
      && (reply.status == HttpCreated <==> allowed && FindRole(db, name, CornaUuid(db, domain)).None? && uuid !in db.roles)
      && (reply.status == HttpCreated ==> reply.db.roles == db.roles[uuid := Role(Lower(name), CreateRole(permissions),
            CurrentUser(db, cookie, NotLoggedIn).value, CornaUuid(db, domain).value)])
  {
  }

  /** Posting the same role twice: created, then 400 with nothing added. */
  lemma CreateTwice(db: Db, cookie: Option<Text>, name: string, domain: string, permissions: seq<string>, uuid: Uuid, uuid2: Uuid)
    requires Valid(db)
    requires CreateRoute(db, cookie, name, domain, permissions, uuid).status == HttpCreated
    ensures var db2 := CreateRoute(db, cookie, name, domain, permissions, uuid).db;
      CreateRoute(db2, cookie, name, domain, permissions, uuid2) == Reply(HttpBadRequest, db2)
  {
    NewTwiceIsDuplicate(db, cookie, name, domain, permissions, uuid, name, permissions, uuid2);
  }

  /** Deleting a role that does not exist, when allowed to, is answered 204 and changes nothing. */
  lemma DeleteMissingIsNoOp(db: Db, cookie: Option<Text>, name: string, domain: string)
    requires Authorize(db, cookie, domain).Ok?
    requires FindRole(db, name, CornaUuid(db, domain)).None? && RolesNamed(db, name, CornaUuid(db, domain)) == {}
    ensures DeleteRoute(db, cookie, name, domain) == Reply(HttpNoContent, db)
  {
  }

  /** Giving the same role twice is answered 201 both times and leaves one assignment. */
  lemma GiveRouteTwice(db: Db, cookie: Option<Text>, name: string, domain: string, username: string)
    requires GiveRoute(db, cookie, name, domain, username).status == HttpCreated
    ensures var db2 := GiveRoute(db, cookie, name, domain, username).db;
      GiveRoute(db2, cookie, name, domain, username) == Reply(HttpCreated, db2)
  {
    GiveTwice(db, cookie, name, domain, username);
  }

  /** take, once the caller passes the gate, is always answered 201. */
  lemma TakeNeverRejects(db: Db, cookie: Option<Text>, name: string, domain: string, username: string)
    requires Authorize(db, cookie, domain).Ok?
    ensures TakeRoute(db, cookie, name, domain, username).status == HttpCreated
  {
  }
}

=== FILE: secure.dfy ===
/**
  corna/utils/secure.py: signed cookies. A signature is the URL-safe base64
  of `expiry || "||" || message || "||" || b64url(mac(message))`.
  The HMAC-SHA256 under the salted secret key is the parameter `mac`, the
  expiry timestamp (`future().isoformat()`) is the parameter `expiry`, and
  `expired` (dateutil parsing compared with the clock) is a parameter that
  answers None when the timestamp cannot be parsed.
 */
module Secure {
  import opened Base
  import opened Encodings

  const Bar: byte := 124  // '|'

  /** SPLITTR, `b"||"`. */
  const Sep: bytes := [Bar, Bar]

  datatype SecureError =
    | BadSignature
    | UnpackError(fields: nat)          // the ValueError of unpacking a split of the wrong arity
    | UnparsableExpiry                  // dateutil's ParserError
    | UnicodeError                      // UnicodeDecodeError of from_bytes
    | UnableToGenerateUniqueToken

  /** The three fields a signature carries. */
  datatype Unsigned = Unsigned(expiry: bytes, message: bytes, hash: bytes)

  /** The signed text before base64: the three fields joined by SPLITTR. */
  function Frame(expiry: bytes, message: bytes, hash: bytes): bytes {
    expiry + Sep + message + Sep + hash
  }

  /** sign: frame the expiry, the message and its encoded MAC, then base64-encode. */
  function Sign(message: Text, expiry: string, mac: bytes -> bytes): (sig: bytes)
    ensures forall i :: 0 <= i < |sig| ==> UrlSafeChar(sig[i])
    ensures Base64Decode(Bytes(sig)) ==
      Ok(Frame(Utf8Encode(expiry), ToBytes(message), Base64Encode(Bytes(mac(ToBytes(message))))))
  {
    var m := ToBytes(message);
    var framed := Frame(ToBytes(Text.Str(expiry)), m, Base64Encode(Bytes(mac(m))));
    Base64RoundTrip(framed);
    Base64Encode(Bytes(framed))
  }

  // ---------------------------------------------------------------------
  // Splitting on SPLITTR
  // ---------------------------------------------------------------------

  /** An occurrence of SPLITTR starts at `i`. */
  predicate SepAt(s: bytes, i: int) {
    0 <= i && i + 1 < |s| && s[i] == Bar && s[i + 1] == Bar
  }

  /** `SPLITTR in s`. */
  predicate HasSep(s: bytes) {
    exists i :: 0 <= i < |s| && SepAt(s, i)
  }

  /**
    `s.rsplit(b"||")` with no limit: the rightmost occurrence ending at or
    before the current end is cut off first, as CPython's reverse search does.
   */
  function RSplit(s: bytes): (parts: seq<bytes>)
    ensures |parts| >= 1
    decreases |s|
  {
    if |s| >= 2 && s[|s| - 2] == Bar && s[|s| - 1] == Bar then RSplit(s[..|s| - 2]) + [[]]
    else if |s| == 0 then [[]]
    else
      var p := RSplit(s[..|s| - 1]);
      p[..|p| - 1] + [p[|p| - 1] + [s[|s| - 1]]]
  }

  /** Text free of SPLITTR is one field. */
  lemma {:induction false} RSplitFree(s: bytes)
    requires !HasSep(s)
    ensures RSplit(s) == [s]
    decreases |s|
  {
    if |s| > 0 {
      var s' := s[..|s| - 1];
      assert !HasSep(s') by {
        forall i | SepAt(s', i) ensures SepAt(s, i) { }
      }
      assert !SepAt(s, |s| - 2);
      RSplitFree(s');
      assert s' + [s[|s| - 1]] == s;
    }
  }

  /** A last field without '|' is split off whole. */
  lemma {:induction false} RSplitLast(a: bytes, c: bytes)
    requires Bar !in c
    ensures RSplit(a + Sep + c) == RSplit(a) + [c]
    decreases |c|
  {
    var s := a + Sep + c;
    if |c| == 0 {
      assert s[..|s| - 2] == a;
    } else {
      var c' := c[..|c| - 1];
      assert s[..|s| - 1] == a + Sep + c';
      assert s[|s| - 1] == c[|c| - 1];
      assert Bar !in c' by {
        assert forall x :: x in c' ==> x in c;
      }
      RSplitLast(a, c');
      assert c' + [c[|c| - 1]] == c;
    }
  }

  /** The first occurrence of SPLITTR. */
  function FirstSep(s: bytes): (r: Option<nat>)
    ensures r.Some? ==> SepAt(s, r.value) && forall j :: 0 <= j < r.value ==> !SepAt(s, j)
    ensures r.None? ==> !HasSep(s)
    decreases |s|
  {
    if |s| < 2 then None
    else if SepAt(s, 0) then Some(0)
    else match FirstSep(s[1..])
      case None =>
        assert forall j :: SepAt(s, j) ==> j == 0 || SepAt(s[1..], j - 1);
        None
      case Some(i) =>
        assert forall j :: 1 <= j ==> SepAt(s, j) == SepAt(s[1..], j - 1);
        Some(i + 1)
  }

  /** The last occurrence of SPLITTR. */
  function LastSep(s: bytes): (r: Option<nat>)
    ensures r.Some? ==> SepAt(s, r.value) && forall j :: r.value < j ==> !SepAt(s, j)
    ensures r.None? ==> !HasSep(s)
    decreases |s|
  {
    if |s| < 2 then None
    else if SepAt(s, |s| - 2) then Some(|s| - 2)
    else
      assert forall j :: SepAt(s, j) && j != |s| - 2 ==> SepAt(s[..|s| - 1], j);
      LastSep(s[..|s| - 1])
  }

  // ---------------------------------------------------------------------
  // unsign
  // ---------------------------------------------------------------------

  /** The fields of a decoded signature as unsign as written finds them: the unlimited `rsplit` unpacked into three. */
  function FieldsAsWritten(d: bytes): (r: Result<Unsigned, SecureError>)
    ensures !HasSep(d) ==> r == Err(BadSignature)
    ensures r.Ok? ==> RSplit(d) == [r.value.expiry, r.value.message, r.value.hash]
  {
    if !HasSep(d) then Err(BadSignature)
    else
      var parts := RSplit(d);
      if |parts| != 3 then Err(UnpackError(|parts|))
      else Ok(Unsigned(parts[0], parts[1], parts[2]))
  }

  /**
    unsign as written: decode, require some SPLITTR, then unpack the
    unlimited `rsplit` into exactly three fields (any other arity is a
    ValueError, not BadSignature).
   */
  function UnsignAsWritten(signature: Text): (r: Result<Unsigned, SecureError>)
    ensures Base64Decode(signature).Err? ==> r == Err(BadSignature)
    ensures Base64Decode(signature).Ok? ==> r == FieldsAsWritten(Base64Decode(signature).value)
  {
    match Base64Decode(signature)
    case Err(_) => Err(BadSignature)
    case Ok(d) => FieldsAsWritten(d)
  }

  /**
    The fields as evidently intended: the expiry ends at the first SPLITTR
    and the encoded MAC starts after the last one (neither can contain '|'),
    and everything between is the message.
   */
  function Fields(d: bytes): (r: Result<Unsigned, SecureError>)
    ensures r.Err? ==> r.error == BadSignature
    ensures r.Ok? ==> d == Frame(r.value.expiry, r.value.message, r.value.hash)
  {
    match FirstSep(d)
    case None => Err(BadSignature)
    case Some(f) =>
      var rest := d[f + 2..];
      match LastSep(rest)
      case None => Err(BadSignature)
      case Some(l) =>
        assert d == d[..f] + Sep + rest[..l] + Sep + rest[l + 2..];
        Ok(Unsigned(d[..f], rest[..l], rest[l + 2..]))
  }

  /** unsign as evidently intended. */
  function Unsign(signature: Text): (r: Result<Unsigned, SecureError>)
    ensures Base64Decode(signature).Err? ==> r == Err(BadSignature)
    ensures Base64Decode(signature).Ok? ==> r == Fields(Base64Decode(signature).value)
  {
    match Base64Decode(signature)
    case Err(_) => Err(BadSignature)
    case Ok(d) => Fields(d)
  }

  /** A character other than '|' never encodes to a byte 124. */
  lemma {:induction false} NoBarInUtf8(s: string)
    requires '|' !in s
    ensures Bar !in Utf8Encode(s)
  {
    if |s| > 0 {
      assert s[0] != '|';
      assert '|' !in s[1..] by {
        assert forall x :: x in s[1..] ==> x in s;
      }
      NoBarInUtf8(s[1..]);
      assert Utf8Encode(s) == EncodeChar(s[0]) + Utf8Encode(s[1..]);
    }
  }

  lemma NoBarInEncoded(e: bytes)
    requires forall i :: 0 <= i < |e| ==> UrlSafeChar(e[i])
    ensures Bar !in e
  {
  }

  lemma FirstSepIs(d: bytes, k: nat)
    requires SepAt(d, k) && forall j :: 0 <= j < k ==> !SepAt(d, j)
    ensures FirstSep(d) == Some(k)
  {
    assert HasSep(d);
    var f := FirstSep(d).value;
    assert !(f < k);
    assert !(k < f);
  }

  lemma LastSepIs(d: bytes, k: nat)
    requires SepAt(d, k) && forall j :: k < j ==> !SepAt(d, j)
    ensures LastSep(d) == Some(k)
  {
    assert HasSep(d);
    var l := LastSep(d).value;
    assert !(l < k);
    assert !(k < l);
  }

  /** The intended split recovers the three fields of any frame whose outer fields are free of '|'. */
  lemma FieldsOfFrame(e: bytes, m: bytes, c: bytes)
    requires Bar !in e && Bar !in c
    ensures Fields(Frame(e, m, c)) == Ok(Unsigned(e, m, c))
  {
    var d := Frame(e, m, c);
    var rest := m + Sep + c;
    assert d == e + Sep + rest;
    forall j | 0 <= j < |e| ensures !SepAt(d, j) {
      assert d[j] == e[j] && e[j] in e;
    }
    FirstSepIs(d, |e|);
    assert d[|e| + 2..] == rest;
    forall j | |m| < j ensures !SepAt(rest, j) {
      if |m| + 2 <= j < |rest| {
        assert rest[j] == c[j - |m| - 2] && c[j - |m| - 2] in c;
      } else if j == |m| + 1 && j + 1 < |rest| {
        assert rest[j + 1] == c[0] && c[0] in c;
      }
    }
    LastSepIs(rest, |m|);
    assert rest[..|m|] == m && rest[|m| + 2..] == c && d[..|e|] == e;
  }

  /** The fields `sign` puts in a signature: the expiry, the message, and the encoded MAC. */
  function Signed(message: Text, expiry: string, mac: bytes -> bytes): Unsigned {
    Unsigned(Utf8Encode(expiry), ToBytes(message), Base64Encode(Bytes(mac(ToBytes(message)))))
  }

  lemma SignedFieldsHaveNoBar(message: Text, expiry: string, mac: bytes -> bytes)
    requires '|' !in expiry
    ensures Bar !in Signed(message, expiry, mac).expiry && Bar !in Signed(message, expiry, mac).hash
  {
    NoBarInUtf8(expiry);
    NoBarInEncoded(Signed(message, expiry, mac).hash);
  }

  /** The intended unsign recovers every signed message, whatever bytes it holds. */
  lemma UnsignSign(message: Text, expiry: string, mac: bytes -> bytes)
    requires '|' !in expiry
    ensures Unsign(Bytes(Sign(message, expiry, mac))) == Ok(Signed(message, expiry, mac))
  {
    var u := Signed(message, expiry, mac);
    SignedFieldsHaveNoBar(message, expiry, mac);
    FieldsOfFrame(u.expiry, u.message, u.hash);
  }

  lemma NoSepWithoutBar(e: bytes)
    requires Bar !in e
    ensures !HasSep(e)
  {
    forall i | 0 <= i < |e| ensures !SepAt(e, i) {
      assert e[i] in e;
    }
  }

  /** As written, the split recovers the fields when the message is free of '|'. */
  lemma FieldsAsWrittenOfFrame(e: bytes, m: bytes, c: bytes)
    requires Bar !in e && Bar !in m && Bar !in c
    ensures FieldsAsWritten(Frame(e, m, c)) == Ok(Unsigned(e, m, c))
  {
    var d := Frame(e, m, c);
    assert SepAt(d, |e|);
    assert HasSep(d);
    assert d == (e + Sep + m) + Sep + c;
    RSplitLast(e + Sep + m, c);
    RSplitLast(e, m);
    NoSepWithoutBar(e);
    RSplitFree(e);
    assert RSplit(d) == [e, m, c];
  }

  /** As written, unsign also inverts sign, but only for messages free of '|'. */
  lemma UnsignAsWrittenSign(message: Text, expiry: string, mac: bytes -> bytes)
    requires '|' !in expiry
    requires Bar !in ToBytes(message)
    ensures UnsignAsWritten(Bytes(Sign(message, expiry, mac))) == Ok(Signed(message, expiry, mac))
  {
    var u := Signed(message, expiry, mac);
    SignedFieldsHaveNoBar(message, expiry, mac);
    FieldsAsWrittenOfFrame(u.expiry, u.message, u.hash);
  }

  /** The mis-split at the level of the frame: the leading '|' of the message joins the expiry. */
  lemma FieldsAsWrittenMisSplit(e: bytes, c: bytes)
    requires Bar !in e && Bar !in c
    ensures FieldsAsWritten(Frame(e, [Bar, 120], c)) == Ok(Unsigned(e + [Bar], [120], c))
  {
    var d := Frame(e, [Bar, 120], c);
    assert SepAt(d, |e|);
    assert d == ((e + [Bar]) + Sep + [120]) + Sep + c;
    RSplitLast((e + [Bar]) + Sep + [120], c);
    RSplitLast(e + [Bar], [120]);
    assert !HasSep(e + [Bar]) by {
      forall i | 0 <= i < |e| + 1 ensures !SepAt(e + [Bar], i) {
        if i < |e| {
          assert (e + [Bar])[i] == e[i];
          assert e[i] in e;
        }
      }
    }
    RSplitFree(e + [Bar]);
  }

  /**
    The discrepancy: a message free of SPLITTR, `b"|x"`, is mis-split; the
    first field swallows its '|' and the message comes back as `b"x"`.
   */
  lemma UnsignAsWrittenMisSplits(expiry: string, mac: bytes -> bytes)
    requires '|' !in expiry
    ensures !HasSep([Bar, 120])
    ensures var u := Signed(Bytes([Bar, 120]), expiry, mac);
      UnsignAsWritten(Bytes(Sign(Bytes([Bar, 120]), expiry, mac))) == Ok(Unsigned(u.expiry + [Bar], [120], u.hash))
  {
    var u := Signed(Bytes([Bar, 120]), expiry, mac);
    SignedFieldsHaveNoBar(Bytes([Bar, 120]), expiry, mac);
    FieldsAsWrittenMisSplit(u.expiry, u.hash);
    assert !SepAt([Bar, 120], 0);
  }

  /** A frame whose message holds one SPLITTR splits into four fields. */
  lemma FieldsAsWrittenFour(e: bytes, c: bytes)
    requires Bar !in e && Bar !in c
    ensures FieldsAsWritten(Frame(e, [97, Bar, Bar, 98], c)) == Err(UnpackError(4))
  {
    var d := Frame(e, [97, Bar, Bar, 98], c);
    assert SepAt(d, |e|);
    assert d == (((e + Sep + [97]) + Sep + [98]) + Sep + c);
    RSplitLast((e + Sep + [97]) + Sep + [98], c);
    RSplitLast(e + Sep + [97], [98]);
    RSplitLast(e, [97]);
    NoSepWithoutBar(e);
    RSplitFree(e);
  }

  /** And a message containing SPLITTR makes unsign raise the ValueError that is_valid does not catch. */
  lemma UnsignAsWrittenUnpackError(expiry: string, mac: bytes -> bytes)
    requires '|' !in expiry
    ensures UnsignAsWritten(Bytes(Sign(Bytes([97, Bar, Bar, 98]), expiry, mac))) == Err(UnpackError(4))
  {
    var u := Signed(Bytes([97, Bar, Bar, 98]), expiry, mac);
    SignedFieldsHaveNoBar(Bytes([97, Bar, Bar, 98]), expiry, mac);
    FieldsAsWrittenFour(u.expiry, u.hash);
  }

  // ---------------------------------------------------------------------
  // verify, is_valid, decoded_message
  // ---------------------------------------------------------------------

  /** verify: the decoded signature equals the MAC of the message (`compare_digest` is equality). */
  function Verify(original: Text, signature: Text, mac: bytes -> bytes): (r: Result<bool, SecureError>)
    ensures Base64Decode(signature).Err? <==> r == Err(BadSignature)
    ensures r.Ok? ==> (r.value <==> Base64Decode(signature) == Ok(mac(ToBytes(original))))
  {
    match Base64Decode(signature)
    case Err(_) => Err(BadSignature)
    case Ok(d) => Ok(d == mac(ToBytes(original)))
  }

  /** The encoded MAC of a message verifies it; against another message it verifies only if the MACs collide. */
  lemma VerifyEncodedMac(m: Text, other: Text, mac: bytes -> bytes)
    ensures Verify(other, Bytes(Base64Encode(Bytes(mac(ToBytes(m))))), mac) == Ok(mac(ToBytes(m)) == mac(ToBytes(other)))
    ensures Verify(m, Bytes(Base64Encode(Bytes(mac(ToBytes(m))))), mac) == Ok(true)
  {
    Base64RoundTrip(mac(ToBytes(m)));
  }

  /** The bare encoding of a message is no signature of it unless the MAC is the identity there. */
  lemma VerifyBareMessage(m: bytes, mac: bytes -> bytes)
    ensures Verify(Bytes(m), Bytes(Base64Encode(Bytes(m))), mac) == Ok(mac(m) == m)
  {
    Base64RoundTrip(m);
  }

  /**
    is_valid over an unsign outcome: BadSignature from unsign or verify
    means False; verify and not expired otherwise. `and` short-circuits, so
    the expiry is only parsed once the MAC matches; other errors propagate.
   */
  function ValidOf(unsigned: Result<Unsigned, SecureError>, mac: bytes -> bytes, expired: bytes -> Option<bool>): (r: Result<bool, SecureError>)
    ensures unsigned == Err(BadSignature) ==> r == Ok(false)
    ensures r.Err? ==> unsigned.Err? || (unsigned.Ok? && expired(unsigned.value.expiry).None?)
    ensures r == Ok(true) ==>
      && unsigned.Ok?
      && Base64Decode(Bytes(unsigned.value.hash)) == Ok(mac(unsigned.value.message))
      && expired(unsigned.value.expiry) == Some(false)
  {
    match unsigned
    case Err(BadSignature) => Ok(false)
    case Err(e) => Err(e)
    case Ok(u) =>
      match Verify(Bytes(u.message), Bytes(u.hash), mac)
      case Err(_) => Ok(false)
      case Ok(false) => Ok(false)
      case Ok(true) =>
        match expired(u.expiry)
        case None => Err(UnparsableExpiry)
        case Some(x) => Ok(!x)
  }

  /** is_valid (with the intended unsign). */
  function IsValid(signature: Text, mac: bytes -> bytes, expired: bytes -> Option<bool>): (r: Result<bool, SecureError>)
    ensures Unsign(signature).Err? ==> r == Ok(false)
    ensures r == Ok(true) <==>
      && Unsign(signature).Ok?
      && Base64Decode(Bytes(Unsign(signature).value.hash)) == Ok(mac(Unsign(signature).value.message))
      && expired(Unsign(signature).value.expiry) == Some(false)
    ensures r.Err? ==> r == Err(UnparsableExpiry)
  {
    ValidOf(Unsign(signature), mac, expired)
  }

  /** is_valid as written, over the as-written unsign. */
  function IsValidAsWritten(signature: Text, mac: bytes -> bytes, expired: bytes -> Option<bool>): (r: Result<bool, SecureError>)
    ensures UnsignAsWritten(signature) == Err(BadSignature) ==> r == Ok(false)
    ensures r == Ok(true) <==>
      && UnsignAsWritten(signature).Ok?
      && Base64Decode(Bytes(UnsignAsWritten(signature).value.hash)) == Ok(mac(UnsignAsWritten(signature).value.message))
      && expired(UnsignAsWritten(signature).value.expiry) == Some(false)
    ensures r.Err? ==> r == Err(UnparsableExpiry) || (UnsignAsWritten(signature).Err? && r.error == UnsignAsWritten(signature).error)
  {
    ValidOf(UnsignAsWritten(signature), mac, expired)
  }

  /** A signature made by `sign` is valid exactly when its expiry has not passed. */
  lemma IsValidOfSign(message: Text, expiry: string, mac: bytes -> bytes, expired: bytes -> Option<bool>)
    requires '|' !in expiry
    ensures var sig := Bytes(Sign(message, expiry, mac));
      match expired(Utf8Encode(expiry))
      case None => IsValid(sig, mac, expired) == Err(UnparsableExpiry)
      case Some(x) => IsValid(sig, mac, expired) == Ok(!x)
  {
    UnsignSign(message, expiry, mac);
    ValidOfSigned(message, expiry, mac, expired);
  }

  /** A signed triple passes the MAC check, so only its expiry decides. */
  lemma ValidOfSigned(message: Text, expiry: string, mac: bytes -> bytes, expired: bytes -> Option<bool>)
    ensures var u := Signed(message, expiry, mac);
      ValidOf(Ok(u), mac, expired) == match expired(u.expiry)
        case None => Err(UnparsableExpiry)
        case Some(x) => Ok(!x)
  {
    var u := Signed(message, expiry, mac);
    var m := ToBytes(message);
    VerifyEncodedMac(Bytes(m), Bytes(m), mac);
    assert Verify(Bytes(u.message), Bytes(u.hash), mac) == Ok(true);
  }

  /** With the intended unsign, is_valid never raises anything but the expiry parse error. */
  lemma IsValidErrors(signature: Text, mac: bytes -> bytes, expired: bytes -> Option<bool>)
    ensures IsValid(signature, mac, expired).Err? ==> IsValid(signature, mac, expired) == Err(UnparsableExpiry)
  {
  }

  /** The as-written is_valid lets the unpacking ValueError escape for a signed message holding SPLITTR. */
  lemma IsValidAsWrittenRaises(expiry: string, mac: bytes -> bytes, expired: bytes -> Option<bool>)
    requires '|' !in expiry
    ensures IsValidAsWritten(Bytes(Sign(Bytes([97, Bar, Bar, 98]), expiry, mac)), mac, expired) == Err(UnpackError(4))
  {
    UnsignAsWrittenUnpackError(expiry, mac);
  }

  /** decoded_message: the middle field, UTF-8 decoded. */
  function DecodedMessage(signature: Text): (r: Result<string, SecureError>)
    ensures r.Ok? ==> Unsign(signature).Ok? && Utf8Decode(Unsign(signature).value.message) == Some(r.value)
    ensures Unsign(signature).Err? ==> r == Err(BadSignature)
    ensures Unsign(signature).Ok? && Utf8Decode(Unsign(signature).value.message).None? ==> r == Err(UnicodeError)
  {
    match Unsign(signature)
    case Err(e) => Err(e)
    case Ok(u) =>
      match FromBytes(Bytes(u.message))
      case None => Err(UnicodeError)
      case Some(s) => Ok(s)
  }

  /** decoded_message as written, over the as-written unsign: an unpacking ValueError escapes. */
  function DecodedMessageAsWritten(signature: Text): (r: Result<string, SecureError>)
    ensures r.Ok? ==> UnsignAsWritten(signature).Ok? && Utf8Decode(UnsignAsWritten(signature).value.message) == Some(r.value)
    ensures UnsignAsWritten(signature).Err? ==> r.Err? && r.error == UnsignAsWritten(signature).error
    ensures UnsignAsWritten(signature).Ok? && Utf8Decode(UnsignAsWritten(signature).value.message).None? ==> r == Err(UnicodeError)
  {
    match UnsignAsWritten(signature)
    case Err(e) => Err(e)
    case Ok(u) =>
      match FromBytes(Bytes(u.message))
      case None => Err(UnicodeError)
      case Some(s) => Ok(s)
  }

  /** As written, decoded_message raises the unpacking ValueError for a signed message holding SPLITTR. */
  lemma DecodedMessageAsWrittenRaises(expiry: string, mac: bytes -> bytes)
    requires '|' !in expiry
    ensures DecodedMessageAsWritten(Bytes(Sign(Bytes([97, Bar, Bar, 98]), expiry, mac))) == Err(UnpackError(4))
  {
    UnsignAsWrittenUnpackError(expiry, mac);
  }

  /** Decoding the message of a signed string gives the string back. */
  lemma DecodedMessageOfSign(message: string, expiry: string, mac: bytes -> bytes)
    requires '|' !in expiry
    ensures DecodedMessage(Bytes(Sign(Text.Str(message), expiry, mac))) == Ok(message)
  {
    UnsignSign(Text.Str(message), expiry, mac);
    Utf8RoundTrip(message);
  }

  // ---------------------------------------------------------------------
  // generate_unique_token
  // ---------------------------------------------------------------------

  /**
    generate_unique_token from attempt `i` on: `draw(k)` is the token the
    k-th call of `func` returns and `taken` the values already in the
    column. The first free draw among attempts `i .. tries - 1` wins.
   */
  function UniqueTokenFrom(taken: set<string>, tries: int, draw: nat -> string, i: nat): (r: Result<string, SecureError>)
    ensures r.Ok? ==> r.value !in taken && exists k :: i <= k < tries && draw(k) == r.value && forall j :: i <= j < k ==> draw(j) in taken
    ensures r.Err? ==> r.error == UnableToGenerateUniqueToken && forall k :: i <= k < tries ==> draw(k) in taken
    decreases tries - i
  {
    if i >= tries then Err(UnableToGenerateUniqueToken)
    else if draw(i) !in taken then Ok(draw(i))
    else UniqueTokenFrom(taken, tries, draw, i + 1)
  }

  /** generate_unique_token: at most `tries` calls of `func`. */
  function GenerateUniqueToken(taken: set<string>, tries: int, draw: nat -> string): (r: Result<string, SecureError>)
    ensures r.Ok? ==> r.value !in taken && exists k :: 0 <= k < tries && draw(k) == r.value && forall j :: 0 <= j < k ==> draw(j) in taken
    ensures r.Err? ==> forall k :: 0 <= k < tries ==> draw(k) in taken
  {
    UniqueTokenFrom(taken, tries, draw, 0)
  }
}

=== FILE: store.dfy ===
/**
  The database the controls work on, as immutable tables: every table is a
  map from its primary key to the row's other columns, and the
  `role_user_map` association table is a set of (role, user) pairs. The
  SQL lookups the controls issue become set comprehensions, and the
  application's exceptions one `Error` datatype.
 */
module Store {
  import opened Base
  import opened Encodings
  import Secure

  /** A `uuid4` string, the primary key of most tables. */
  type Uuid = string

  /** A row of `users`, keyed by its uuid; `email` is the `emails` row it points to. */
  datatype User = User(username: string, email: string)

  /** A row of `emails`, keyed by the address. */
  datatype Email = Email(passwordHash: string)

  /** A row of `sessions`, keyed by `session_id`. */
  datatype Session = Session(cookieId: string, user: Uuid)

  /**
    A row of `corna`, keyed by its uuid. `permissions` is the default role
    mask every visitor holds; it is a nullable column.
   */
  datatype Corna = Corna(domain: string, title: Option<string>, owner: Uuid, permissions: Option<nat>, theme: Option<Uuid>)

  /** A row of `roles`, keyed by its uuid: a named mask on one corna. */
  datatype Role = Role(name: string, permissions: nat, creator: Uuid, corna: Uuid)

  /** A row of `posts`, keyed by its uuid. `kind` is the `type` column. */
  datatype Post = Post(urlExtension: string, kind: string, deleted: bool, corna: Uuid, author: Uuid, created: string)

  /** A row of `text`: the optional title and content of one post. */
  datatype TextContent = TextContent(post: Uuid, title: Option<string>, content: Option<string>, html: Option<string>)

  /** A row of the uploaded media table; `post` is set once the file is linked to a post. */
  datatype Media = Media(urlExtension: string, path: string, size: nat, post: Option<Uuid>, orphaned: bool)

  /** A row of `themes`. `thumbnail` points into the media table. */
  datatype Theme = Theme(name: string, description: Option<string>, path: Option<string>, status: string, creator: Uuid, thumbnail: Option<Uuid>)

  datatype Db = Db(
    users: map<Uuid, User>,
    emails: map<string, Email>,
    sessions: map<string, Session>,
    cornas: map<Uuid, Corna>,
    roles: map<Uuid, Role>,
    members: set<(Uuid, Uuid)>,
    posts: map<Uuid, Post>,
    texts: map<Uuid, TextContent>,
    media: map<Uuid, Media>,
    themes: map<Uuid, Theme>)

  /**
    The exceptions the controls raise. `Signature` wraps a failure of
    `decoded_message`; `MissingCookie` is the TypeError a request without a
    cookie runs into when the cookie is decoded; the rest are the named
    errors of the application, `KeyError`, `AttributeError`, `TypeError`, the
    query errors of `one()` (`MultipleResults`, `NoResult`) and the
    database's `IntegrityError`.
   */
  datatype Error =
    | Signature(cause: Secure.SecureError)
    | MissingCookie
    | NotLoggedIn
    | NoneExistingUser
    | UserExists
    | IncorrectPassword
    | CornaNotFound
    | Unauthorized
    | DuplicateRole
    | NoneExistingRole
    | PreExistingCorna
    | DomainExists
    | NoDomain
    | InvalidContentType(message: string)
    | PostDoesNotExist
    | PostNotFound
    | ThemeError(message: string)
    | ValueError(message: string)
    | TokenExhausted
    | MultipleResults
    | NoResult
    | KeyError
    | AttributeError
    | TypeError
    | IntegrityError

  // ---------------------------------------------------------------------
  // Integrity: the unique and foreign-key constraints of the schema, and
  // the one invariant the application keeps itself (lower-case role names
  // unique per corna).
  // ---------------------------------------------------------------------

  ghost predicate UsersValid(db: Db) {
    (forall u, v :: u in db.users && v in db.users && db.users[u].username == db.users[v].username ==> u == v)
    && (forall u, v :: u in db.users && v in db.users && db.users[u].email == db.users[v].email ==> u == v)
    && (forall u :: u in db.users ==> db.users[u].email in db.emails)
  }

  ghost predicate SessionsValid(db: Db) {
    (forall s, t :: s in db.sessions && t in db.sessions && db.sessions[s].cookieId == db.sessions[t].cookieId ==> s == t)
    && (forall s, t :: s in db.sessions && t in db.sessions && db.sessions[s].user == db.sessions[t].user ==> s == t)
    && (forall s :: s in db.sessions ==> db.sessions[s].user in db.users)
  }

  ghost predicate CornasValid(db: Db) {
    (forall c, d :: c in db.cornas && d in db.cornas && db.cornas[c].domain == db.cornas[d].domain ==> c == d)
    && (forall c, d :: c in db.cornas && d in db.cornas && db.cornas[c].owner == db.cornas[d].owner ==> c == d)
    && (forall c :: c in db.cornas ==> db.cornas[c].owner in db.users)
  }

  ghost predicate RolesValid(db: Db) {
    (forall r :: r in db.roles ==> db.roles[r].corna in db.cornas && db.roles[r].creator in db.users)
    && (forall r :: r in db.roles ==> Lower(db.roles[r].name) == db.roles[r].name)
    && (forall r, q ::
          (r in db.roles && q in db.roles && db.roles[r].corna == db.roles[q].corna && db.roles[r].name == db.roles[q].name)
          ==> r == q)
    && (forall a :: a in db.members ==> a.0 in db.roles && a.1 in db.users)
  }

  /** The constraints every committed state satisfies. */
  ghost predicate Valid(db: Db) {
    UsersValid(db) && SessionsValid(db) && CornasValid(db) && RolesValid(db)
  }

  /** The user and session constraints read only the users, emails and sessions tables. */
  lemma UsersSessionsFrame(db: Db, db2: Db)
    requires UsersValid(db) && SessionsValid(db)
    requires db2.users == db.users && db2.emails == db.emails && db2.sessions == db.sessions
    ensures UsersValid(db2) && SessionsValid(db2)
  {
  }

  /** The user constraints read only the users and emails tables. */
  lemma UsersFrame(db: Db, db2: Db)
    requires UsersValid(db)
    requires db2.users == db.users && db2.emails == db.emails
    ensures UsersValid(db2)
  {
  }

  /** The session constraints survive when the sessions stay and users are only added. */
  lemma SessionsFrame(db: Db, db2: Db)
    requires SessionsValid(db)
    requires db2.sessions == db.sessions && db.users.Keys <= db2.users.Keys
    ensures SessionsValid(db2)
  {
  }

  /** The corna constraints survive when the cornas stay and users are only added. */
  lemma CornasFrame(db: Db, db2: Db)
    requires CornasValid(db)
    requires db2.cornas == db.cornas && db.users.Keys <= db2.users.Keys
    ensures CornasValid(db2)
  {
  }

  /** The role constraints survive when roles and members stay and cornas and users are only added. */
  lemma RolesFrame(db: Db, db2: Db)
    requires RolesValid(db)
    requires db2.roles == db.roles && db2.members == db.members
    requires db.cornas.Keys <= db2.cornas.Keys && db.users.Keys <= db2.users.Keys
    ensures RolesValid(db2)
  {
  }

  // ---------------------------------------------------------------------
  // Lookups
  // ---------------------------------------------------------------------

  /** `query(UserTable).filter(username == name)`. */
  function UsersNamed(db: Db, name: string): (us: set<Uuid>)
    ensures forall u :: u in us <==> u in db.users && db.users[u].username == name
  {
    set u | u in db.users && db.users[u].username == name
  }

  /** `query(CornaTable).filter(domain_name == domain)`. */
  function CornasAt(db: Db, domain: string): (cs: set<Uuid>)
    ensures forall c :: c in cs <==> c in db.cornas && db.cornas[c].domain == domain
  {
    set c | c in db.cornas && db.cornas[c].domain == domain
  }

  /** `query(SessionTable).filter(cookie_id == id)`. */
  function SessionsWith(db: Db, id: string): (ss: set<string>)
    ensures forall s :: s in ss <==> s in db.sessions && db.sessions[s].cookieId == id
  {
    set s | s in db.sessions && db.sessions[s].cookieId == id
  }

  /**
    The value of a scalar subquery over a set of matching rows: the one
    match, or NULL when there is none. (Several matches would make the
    database reject the statement; the unique constraints rule that out.)
   */
  function The(s: set<Uuid>): (r: Option<Uuid>)
    ensures r.Some? <==> |s| == 1
    ensures r.Some? ==> s == {r.value}
  {
    if |s| == 1 then Some(Only(s)) else None
  }

  /** `alchemy.user_uuid(session, name, as_subquery=True)`. */
  function UserUuid(db: Db, name: string): (r: Option<Uuid>)
    ensures r.Some? ==> r.value in db.users && db.users[r.value].username == name
  {
    The(UsersNamed(db, name))
  }

  /** `alchemy.corna_uuid(session, domain, as_subquery=True)`. */
  function CornaUuid(db: Db, domain: string): (r: Option<Uuid>)
    ensures r.Some? ==> r.value in db.cornas && db.cornas[r.value].domain == domain
  {
    The(CornasAt(db, domain))
  }

  /**
    `alchemy.corna(session, domain)`: the corna with this domain. None, or
    several (whose MultipleResultsFound `scalar` swallows), raise
    CornaNotFoundError.
   */
  function FindCorna(db: Db, domain: string): (r: Result<Uuid, Error>)
    ensures r.Ok? <==> |CornasAt(db, domain)| == 1
    ensures r.Ok? ==> CornasAt(db, domain) == {r.value}
    ensures r.Err? ==> r.error == CornaNotFound
  {
    match CornaUuid(db, domain)
    case None => Err(CornaNotFound)
    case Some(c) => Ok(c)
  }

  /** Under the unique constraints a username and a domain match at most one row. */
  lemma AtMostOneMatch(db: Db, name: string, domain: string, id: string)
    requires Valid(db)
    ensures |UsersNamed(db, name)| <= 1
    ensures |CornasAt(db, domain)| <= 1
    ensures |SessionsWith(db, id)| <= 1
  {
    UniqueKeysAtMostOne(UsersNamed(db, name));
    UniqueKeysAtMostOne(CornasAt(db, domain));
    UniqueKeysAtMostOne(SessionsWith(db, id));
  }

  lemma UniqueKeysAtMostOne<X>(s: set<X>)
    requires forall a, b :: a in s && b in s ==> a == b
    ensures |s| <= 1
  {
    if s != {} {
      var a :| a in s;
      assert s == {a};
    }
  }

  /** Under the constraints, the subquery finds exactly the user with that name. */
  lemma UserUuidFinds(db: Db, name: string, u: Uuid)
    requires UsersValid(db)
    requires u in db.users && db.users[u].username == name
    ensures UserUuid(db, name) == Some(u)
  {
    assert UsersNamed(db, name) == {u};
  }

  /** Under the constraints, the subquery finds exactly the corna with that domain. */
  lemma CornaUuidFinds(db: Db, domain: string, c: Uuid)
    requires CornasValid(db)
    requires c in db.cornas && db.cornas[c].domain == domain
    ensures CornaUuid(db, domain) == Some(c)
  {
    assert CornasAt(db, domain) == {c};
  }

  // ---------------------------------------------------------------------
  // The current user (the session the signed cookie names)
  // ---------------------------------------------------------------------

  /**
    The cookie id a signed cookie carries (`decoded_message`). A request
    without a cookie passes `None`, which base64_decode cannot measure.
   */
  function CookieId(cookie: Option<Text>): (r: Result<string, Error>)
    ensures cookie.None? ==> r == Err(MissingCookie)
    ensures cookie.Some? ==> (r.Ok? <==> Secure.DecodedMessage(cookie.value).Ok?)
    ensures r.Ok? ==> Secure.DecodedMessage(cookie.value) == Ok(r.value)
  {
    match cookie
    case None => Err(MissingCookie)
    case Some(c) =>
      match Secure.DecodedMessage(c)
      case Err(e) => Err(Signature(e))
      case Ok(id) => Ok(id)
  }

  /**
    alchemy.current_user: the user whose uuid the session with this cookie
    id holds (a scalar subquery), found with one_or_none; no such user
    raises `missing`.
   */
  function CurrentUser(db: Db, cookie: Option<Text>, missing: Error): (r: Result<Uuid, Error>)
    ensures r.Ok? ==> r.value in db.users
    ensures r.Ok? ==> exists s :: s in db.sessions && Ok(db.sessions[s].cookieId) == CookieId(cookie) && db.sessions[s].user == r.value
    ensures CookieId(cookie).Ok? && SessionsWith(db, CookieId(cookie).value) == {} ==> r == Err(missing)
    ensures CookieId(cookie).Err? ==> r == Err(CookieId(cookie).error)
  {
    var id :- CookieId(cookie);
    match The(SessionsWith(db, id))
    case None => Err(missing)
    case Some(s) =>
      var u := db.sessions[s].user;
      if u in db.users then Ok(u) else Err(missing)
  }

  /**
    utils.current_user: the session with this cookie id, found with
    one_or_none (which raises on several matches), and its user.
   */
  function SessionUser(db: Db, cookie: Option<Text>, missing: Error): (r: Result<Uuid, Error>)
    ensures r.Ok? ==> exists s :: s in db.sessions && Ok(db.sessions[s].cookieId) == CookieId(cookie) && db.sessions[s].user == r.value
    ensures CookieId(cookie).Ok? && SessionsWith(db, CookieId(cookie).value) == {} ==> r == Err(missing)
    ensures CookieId(cookie).Err? ==> r == Err(CookieId(cookie).error)
  {
    var id :- CookieId(cookie);
    var ss := SessionsWith(db, id);
    if |ss| > 1 then Err(MultipleResults)
    else if |ss| == 0 then Err(missing)
    else Ok(db.sessions[Only(ss)].user)
  }

  /** On a consistent database the two readings of "the current user" agree. */
  lemma CurrentUserAgrees(db: Db, cookie: Option<Text>, missing: Error)
    requires SessionsValid(db)
    ensures CurrentUser(db, cookie, missing) == SessionUser(db, cookie, missing)
  {
    if CookieId(cookie).Ok? {
      var ss := SessionsWith(db, CookieId(cookie).value);
      UniqueKeysAtMostOne(ss);
      if |ss| == 1 {
        assert The(ss) == Some(Only(ss));
      }
    }
  }

  /** Logging in with a session makes its user the current user of its signed cookie. */
  lemma CurrentUserOfSession(db: Db, s: string, cookie: Text, missing: Error)
    requires SessionsValid(db)
    requires s in db.sessions && Secure.DecodedMessage(cookie) == Ok(db.sessions[s].cookieId)
    ensures CurrentUser(db, Some(cookie), missing) == Ok(db.sessions[s].user)
  {
    var id := db.sessions[s].cookieId;
    assert CookieId(Some(cookie)) == Ok(id);
    assert SessionsWith(db, id) == {s};
    assert The({s}) == Some(s);
  }
}

=== FILE: subdomain_control.dfy ===
/**
  What a visitor of a corna's subdomain sees (corna/controls/subdomain_control.py):
  the corna the subdomain names, its visible posts in the shape the page
  renders, a single post, the corna's title and its theme.
 */
module SubdomainControl {
  import opened Base
  import opened Store
  import opened PostControl
  import Utils

  /**
    _current_corna: the corna with this domain, found with one_or_none;
    none raises CornaNotFoundError and several raise MultipleResultsFound.
   */
  function CurrentCorna(db: Db, subdomain: string): (r: Result<Uuid, Error>)
    ensures r.Ok? <==> |CornasAt(db, subdomain)| == 1
    ensures r.Ok? ==> CornasAt(db, subdomain) == {r.value}
    ensures CornasAt(db, subdomain) == {} <==> r == Err(CornaNotFound)
    ensures |CornasAt(db, subdomain)| > 1 <==> r == Err(MultipleResults)
  {
    var cs := CornasAt(db, subdomain);
    if |cs| > 1 then Err(MultipleResults)
    else if |cs| == 0 then Err(CornaNotFound)
    else Ok(Only(cs))
  }

  /** _post_title: the text row's title when there is one and it is non-empty. */
  function PostTitle(db: Db, post: Uuid): (title: Option<string>)
    ensures title.Some? <==> TextOf(db, post).Some? && Filled(TextOf(db, post).value.title)
    ensures title.Some? ==> title.value != "" && title == TextOf(db, post).value.title
  {
    var text := TextOf(db, post);
    if text.Some? && Filled(text.value.title) then text.value.title else None
  }

  /** _post_html_fragment: the text row's inner HTML when there is some. */
  function HtmlFragment(db: Db, post: Uuid): (html: Option<string>)
    ensures html.Some? <==> TextOf(db, post).Some? && Filled(TextOf(db, post).value.html)
    ensures html.Some? ==> html == TextOf(db, post).value.html
  {
    var text := TextOf(db, post);
    if text.Some? && Filled(text.value.html) then text.value.html else None
  }

  const DownloadBase: string := Utils.ApiUrl + "/v1/media/download/"

  /** _image_api_href: the download URL of one media file. */
  function ImageHref(extension: string): (href: string)
    ensures StartsWith(href, DownloadBase) && href[|DownloadBase|..] == extension
  {
    DownloadBase + extension
  }

  /** Different extensions download from different URLs. */
  lemma ImageHrefInjective(e1: string, e2: string)
    requires ImageHref(e1) == ImageHref(e2)
    ensures e1 == e2
  {
    assert ImageHref(e1)[|DownloadBase|..] == e1;
  }

  /** The download URLs of a post's media. */
  function ImageHrefs(db: Db, post: Uuid): (hrefs: set<string>)
    ensures forall m :: m in ImagesOf(db, post) ==> ImageHref(db.media[m].urlExtension) in hrefs
    ensures hrefs == {} <==> ImagesOf(db, post) == {}
  {
    var hrefs := set m | m in ImagesOf(db, post) :: ImageHref(db.media[m].urlExtension);
    assert forall m :: m in ImagesOf(db, post) ==> ImageHref(db.media[m].urlExtension) in hrefs;
    hrefs
  }

  /**
    A post as the page renders it. The HTML goes under `bodyKey`, which is
    "content" for text posts and "caption" for every other type; `images`
    is `None` when the dict has no "images" key.
   */
  datatype Shown = Shown(uuid: Uuid, href: string, created: string, kind: string, domain: string,
                         title: Option<string>, bodyKey: string, body: Option<string>, images: Option<set<string>>)

  /**
    _parse_post: the post's identity and title, its HTML under the key its
    type selects, and the download URLs when the post is a picture post or
    has media.
   */
  function ShowPost(db: Db, post: Uuid, subdomain: string): (s: Shown)
    requires post in db.posts
    ensures s.uuid == post && s.href == db.posts[post].urlExtension && s.domain == subdomain
    ensures s.kind == db.posts[post].kind && s.created == db.posts[post].created
    ensures s.title == PostTitle(db, post) && s.body == HtmlFragment(db, post)
    ensures s.bodyKey == "content" <==> db.posts[post].kind == TextType
    ensures s.bodyKey == "content" || s.bodyKey == "caption"
    ensures s.images.Some? <==> db.posts[post].kind == PictureType || ImagesOf(db, post) != {}
    ensures s.images.Some? ==> s.images.value == ImageHrefs(db, post)
  {
    var row := db.posts[post];
    Shown(post, row.urlExtension, row.created, row.kind, subdomain, PostTitle(db, post),
          if row.kind == TextType then "content" else "caption", HtmlFragment(db, post),
          if row.kind == PictureType || ImagesOf(db, post) != {} then Some(ImageHrefs(db, post)) else None)
  }

  /** A post a visitor of corna `c` may see: it is on that corna and not deleted. */
  predicate Visible(db: Db, c: Uuid, post: Uuid) {
    post in db.posts && !db.posts[post].deleted && db.posts[post].corna == c
  }

  /** The visible posts of `c`, in the order the database lists `rows`. */
  function VisiblePosts(db: Db, c: Uuid, rows: seq<Uuid>): (ps: seq<Uuid>)
    ensures forall p :: p in ps <==> p in rows && Visible(db, c, p)
    ensures forall i :: 0 <= i < |ps| ==> Visible(db, c, ps[i])
    ensures |ps| <= |rows|
  {
    if rows == [] then []
    else
      var rest := VisiblePosts(db, c, rows[1..]);
      if Visible(db, c, rows[0]) then [rows[0]] + rest else rest
  }

  /** Rows listed without repetition stay without repetition after filtering. */
  lemma {:induction false} VisiblePostsDistinct(db: Db, c: Uuid, rows: seq<Uuid>)
    requires Distinct(rows)
    ensures Distinct(VisiblePosts(db, c, rows))
  {
    if rows != [] {
      assert Distinct(rows[1..]) by {
        assert forall k :: 0 <= k < |rows| - 1 ==> rows[1..][k] == rows[k + 1];
      }
      VisiblePostsDistinct(db, c, rows[1..]);
      var rest := VisiblePosts(db, c, rows[1..]);
      if Visible(db, c, rows[0]) {
        assert rows[0] !in rest by {
          assert forall k :: 0 <= k < |rows| - 1 ==> rows[1..][k] == rows[k + 1];
        }
        var ps := [rows[0]] + rest;
        assert VisiblePosts(db, c, rows) == ps;
        forall i, j | 0 <= i < j < |ps| ensures ps[i] != ps[j] {
          assert ps[j] == rest[j - 1];
          if i > 0 {
            assert ps[i] == rest[i - 1];
          } else {
            assert ps[j] in rest;
          }
        }
      }
    }
  }

  /** Each post shown in the order given. */
  function ShowAll(db: Db, ps: seq<Uuid>, subdomain: string): (shown: seq<Shown>)
    requires forall i :: 0 <= i < |ps| ==> ps[i] in db.posts
    ensures |shown| == |ps|
    ensures forall i :: 0 <= i < |ps| ==> shown[i] == ShowPost(db, ps[i], subdomain)
  {
    if ps == [] then [] else [ShowPost(db, ps[0], subdomain)] + ShowAll(db, ps[1..], subdomain)
  }

  /**
    post_list: the corna's posts that are not deleted, each shown;
    `rows` is the order the unordered query returns the posts table in.
   */
  function PostList(db: Db, subdomain: string, rows: seq<Uuid>): (r: Result<seq<Shown>, Error>)
    ensures r.Err? <==> CurrentCorna(db, subdomain).Err?
    ensures r.Err? ==> r.error == CurrentCorna(db, subdomain).error
    ensures r.Ok? ==> forall i :: 0 <= i < |r.value| ==>
      r.value[i].uuid in rows && Visible(db, CurrentCorna(db, subdomain).value, r.value[i].uuid)
    ensures r.Ok? ==> forall p :: p in rows && Visible(db, CurrentCorna(db, subdomain).value, p) ==>
      exists i :: 0 <= i < |r.value| && r.value[i].uuid == p
  {
    var c :- CurrentCorna(db, subdomain);
    var ps := VisiblePosts(db, c, rows);
    var shown := ShowAll(db, ps, subdomain);
    assert forall p :: p in ps ==> exists i :: 0 <= i < |shown| && shown[i].uuid == p by {
      forall p | p in ps ensures exists i :: 0 <= i < |shown| && shown[i].uuid == p {
        var i :| 0 <= i < |ps| && ps[i] == p;
        assert shown[i].uuid == p;
      }
    }
    Ok(shown)
  }

  /** When the rows list every post once, post_list shows every visible post exactly once. */
  lemma PostListOnce(db: Db, subdomain: string, rows: seq<Uuid>, shown: seq<Shown>)
    requires forall p :: p in db.posts ==> p in rows
    requires Distinct(rows)
    requires PostList(db, subdomain, rows) == Ok(shown)
    ensures forall p :: Visible(db, CurrentCorna(db, subdomain).value, p) <==> exists i :: 0 <= i < |shown| && shown[i].uuid == p
    ensures forall i, j :: 0 <= i < j < |shown| ==> shown[i].uuid != shown[j].uuid
  {
    var c := CurrentCorna(db, subdomain).value;
    var ps := VisiblePosts(db, c, rows);
    assert shown == ShowAll(db, ps, subdomain);
    assert forall i :: 0 <= i < |shown| ==> shown[i].uuid == ps[i];
    VisiblePostsDistinct(db, c, rows);
  }

  /** The posts table rows whose url extension is `extension`. */
  function PostsAt(db: Db, extension: string): (ps: set<Uuid>)
    ensures forall p :: p in ps <==> p in db.posts && db.posts[p].urlExtension == extension
  {
    set p | p in db.posts && db.posts[p].urlExtension == extension
  }

  /**
    single_post: the post with this url extension (one_or_none), which
    must be visible on the subdomain's corna; a missing, deleted or foreign
    post raises PostNotFoundError.
   */
  function SinglePost(db: Db, extension: string, subdomain: string): (r: Result<Shown, Error>)
    ensures CurrentCorna(db, subdomain).Err? ==> r == Err(CurrentCorna(db, subdomain).error)
    ensures r.Ok? ==> exists p :: PostsAt(db, extension) == {p} && Visible(db, CurrentCorna(db, subdomain).value, p)
                                  && r.value == ShowPost(db, p, subdomain)
    ensures CurrentCorna(db, subdomain).Ok? && |PostsAt(db, extension)| <= 1 ==>
      (r.Ok? <==> exists p :: p in PostsAt(db, extension) && Visible(db, CurrentCorna(db, subdomain).value, p))
    ensures r.Err? ==> r.error in {CornaNotFound, MultipleResults, PostNotFound}
  {
    var c :- CurrentCorna(db, subdomain);
    var ps := PostsAt(db, extension);
    if |ps| > 1 then Err(MultipleResults)
    else if |ps| == 0 then Err(PostNotFound)
    else
      var p := Only(ps);
      if !Visible(db, c, p) then Err(PostNotFound) else Ok(ShowPost(db, p, subdomain))
  }

  /** single_post and post_list agree: a post a visitor can open is one the list shows. */
  lemma SinglePostIsListed(db: Db, extension: string, subdomain: string, rows: seq<Uuid>)
    requires SinglePost(db, extension, subdomain).Ok?
    requires forall p :: p in db.posts ==> p in rows
    ensures PostList(db, subdomain, rows).Ok?
    ensures SinglePost(db, extension, subdomain).value in PostList(db, subdomain, rows).value
  {
    var c := CurrentCorna(db, subdomain).value;
    var p := Only(PostsAt(db, extension));
    var shown := PostList(db, subdomain, rows).value;
    var i :| 0 <= i < |shown| && shown[i].uuid == p;
    var ps := VisiblePosts(db, c, rows);
    assert shown == ShowAll(db, ps, subdomain);
    assert shown[i] == ShowPost(db, ps[i], subdomain);
  }

  /** A deleted post is never shown on its own page. */
  lemma DeletedPostHidden(db: Db, extension: string, subdomain: string, p: Uuid)
    requires p in db.posts && db.posts[p].urlExtension == extension && db.posts[p].deleted
    ensures SinglePost(db, extension, subdomain).Err?
  {
  }

  /** corna_title: the corna's title when it has a non-empty one. */
  function CornaTitle(db: Db, subdomain: string): (r: Result<Option<string>, Error>)
    ensures r.Err? <==> CurrentCorna(db, subdomain).Err?
    ensures r.Ok? ==> (r.value.Some? <==> Filled(db.cornas[CurrentCorna(db, subdomain).value].title))
    ensures r.Ok? && r.value.Some? ==> r.value == db.cornas[CurrentCorna(db, subdomain).value].title
  {
    var c :- CurrentCorna(db, subdomain);
    var title := db.cornas[c].title;
    Ok(if Filled(title) then title else None)
  }

  const NoTheme: string := "No theme found for Corna"

  /**
    theme: the path of the theme the corna points at; a corna without a
    theme, or pointing at a missing one, raises ValueError.
   */
  function Theme(db: Db, subdomain: string): (r: Result<Option<string>, Error>)
    ensures CurrentCorna(db, subdomain).Err? ==> r == Err(CurrentCorna(db, subdomain).error)
    ensures CurrentCorna(db, subdomain).Ok? ==>
      var t := db.cornas[CurrentCorna(db, subdomain).value].theme;
      && (r.Ok? <==> t.Some? && t.value in db.themes)
      && (r.Ok? ==> r.value == db.themes[t.value].path)
      && (r.Err? ==> r.error == ValueError(NoTheme))
  {
    var c :- CurrentCorna(db, subdomain);
    match db.cornas[c].theme
    case None => Err(ValueError(NoTheme))
    case Some(t) => if t in db.themes then Ok(db.themes[t].path) else Err(ValueError(NoTheme))
  }

  /** build_page: the post list, the title and the theme path; the first error wins. */
  function BuildPage(db: Db, subdomain: string, rows: seq<Uuid>): (r: Result<(seq<Shown>, Option<string>, Option<string>), Error>)
    ensures r.Ok? <==> CurrentCorna(db, subdomain).Ok? && Theme(db, subdomain).Ok?
    ensures r.Ok? ==> r.value.0 == PostList(db, subdomain, rows).value && r.value.1 == CornaTitle(db, subdomain).value
                      && r.value.2 == Theme(db, subdomain).value
  {
    var _ :- CurrentCorna(db, subdomain);
    var path :- Theme(db, subdomain);
    Ok((PostList(db, subdomain, rows).value, CornaTitle(db, subdomain).value, path))
  }
}

=== FILE: theme_control.dfy ===
/**
  Corna themes (corna/controls/theme_control.py): which theme files are
  accepted, how a new theme's review status is chosen, how a status update
  is checked, and the list of merged themes clients see. Whether a file
  exists under the themes directory is the parameter `onDisk`.
 */
module ThemeControl {
  import opened Base
  import opened Store
  import opened Encodings
  import Utils
  import SubdomainControl

  /** ALLOWED_EXTENSIONS of theme files. */
  const ThemeExtensions: set<string> := {"html", "css", "js"}

  /** The two values of ThemeReviewState. */
  const Unknown: string := "unknown"
  const Merged: string := "merged"

  /** is_allowed: the name has a '.', and the text after the last one, lower-cased, is html, css or js. */
  function IsAllowed(filename: string): (b: bool)
    ensures b <==> exists i :: (0 <= i < |filename| && filename[i] == '.' && '.' !in filename[i + 1..]
                                && Lower(filename[i + 1..]) in ThemeExtensions)
  {
    Utils.IsAllowed(filename, ThemeExtensions)
  }

  /** A name without any '.' is never a theme file. */
  lemma NoDotNotAllowed(filename: string)
    requires '.' !in filename
    ensures !IsAllowed(filename)
  {
  }

  /** Any stem, dots and slashes included, followed by ".html", ".css" or ".js" is a theme file. */
  lemma ThemeFileAllowed(stem: string, ext: string)
    requires ext in ThemeExtensions
    ensures IsAllowed(stem + "." + ext)
  {
    var name := stem + "." + ext;
    assert '.' !in ext && Lower(ext) == ext by {
      if ext == "html" {
        LowerKeeps("html");
      } else if ext == "css" {
        LowerKeeps("css");
      } else {
        LowerKeeps("js");
      }
    }
    assert name[|stem|] == '.';
    assert name[|stem| + 1..] == ext;
  }

  const NotInDirectory: string := "Theme not in directory"
  const IncorrectFileType: string := "Incorrect file type"

  /**
    sanitize_path: no path, or an empty one, is no path; a path that is not
    a file under the themes directory is refused before its extension is
    looked at; a path with the wrong extension is refused; otherwise it is
    kept as given.
   */
  function SanitizePath(path: Option<string>, onDisk: string -> bool): (r: Result<Option<string>, Error>)
    ensures (path.None? || path.value == "") <==> r == Ok(None)
    ensures r.Ok? && r.value.Some? ==> r.value == path && path.value != "" && onDisk(path.value) && IsAllowed(path.value)
    ensures r == Err(ValueError(NotInDirectory)) <==> path.Some? && path.value != "" && !onDisk(path.value)
    ensures r == Err(ValueError(IncorrectFileType)) <==>
      path.Some? && path.value != "" && onDisk(path.value) && !IsAllowed(path.value)
    ensures r.Err? ==> r.error in {ValueError(NotInDirectory), ValueError(IncorrectFileType)}
  {
    if path.None? || path.value == "" then Ok(None)
    else if !onDisk(path.value) then Err(ValueError(NotInDirectory))
    else if !IsAllowed(path.value) then Err(ValueError(IncorrectFileType))
    else Ok(path)
  }

  /** Sanitizing a sanitized path changes nothing. */
  lemma SanitizePathIdempotent(path: Option<string>, onDisk: string -> bool)
    requires SanitizePath(path, onDisk).Ok?
    ensures SanitizePath(SanitizePath(path, onDisk).value, onDisk) == SanitizePath(path, onDisk)
  {
  }

  /**
    The user named `creator`, found with one_or_none: none raises
    NoneExistingUserError and several raise MultipleResultsFound.
   */
  function FindCreator(db: Db, creator: string): (r: Result<Uuid, Error>)
    ensures r.Ok? <==> |UsersNamed(db, creator)| == 1
    ensures r.Ok? ==> UsersNamed(db, creator) == {r.value}
    ensures UsersNamed(db, creator) == {} <==> r == Err(NoneExistingUser)
    ensures |UsersNamed(db, creator)| > 1 <==> r == Err(MultipleResults)
  {
    var us := UsersNamed(db, creator);
    if |us| > 1 then Err(MultipleResults)
    else if |us| == 0 then Err(NoneExistingUser)
    else Ok(Only(us))
  }

  /** The themes `user` made under `name`. */
  function ThemesBy(db: Db, user: Uuid, name: string): (ts: set<Uuid>)
    ensures forall t :: t in ts <==> t in db.themes && db.themes[t].creator == user && db.themes[t].name == name
  {
    set t | t in db.themes && db.themes[t].creator == user && db.themes[t].name == name
  }

  const ThemeExists: string := "Theme already exists"

  /**
    add: the caller must be logged in and the creator must exist; a creator
    cannot reuse a theme name; the path is sanitized, and the new theme is
    MERGED when it has one and UNKNOWN when not. `thumbnail` is the uuid
    `thumbnail()` stored the uploaded image under, when one was sent, and
    `uuid` the new row's key, whose clash fails at commit.
   */
  function Add(db: Db, cookie: Option<Text>, creator: string, name: string, description: Option<string>,
               path: Option<string>, onDisk: string -> bool, thumbnail: Option<Uuid>, uuid: Uuid): (r: Result<Db, Error>)
    ensures SessionUser(db, cookie, NoneExistingUser).Err? ==> r == Err(SessionUser(db, cookie, NoneExistingUser).error)
    ensures SessionUser(db, cookie, NoneExistingUser).Ok? ==>
      (r.Err? <==> (|| FindCreator(db, creator).Err?
                    || ThemesBy(db, FindCreator(db, creator).value, name) != {}
                    || SanitizePath(path, onDisk).Err?
                    || uuid in db.themes))
    ensures (SessionUser(db, cookie, NoneExistingUser).Ok? && FindCreator(db, creator).Ok?
             && ThemesBy(db, FindCreator(db, creator).value, name) != {}) ==> r == Err(ValueError(ThemeExists))
    ensures r.Ok? ==> r.value == db.(themes := r.value.themes)
    ensures r.Ok? ==> r.value.themes.Keys == db.themes.Keys + {uuid} && uuid !in db.themes
    ensures r.Ok? ==> forall t :: t in db.themes ==> r.value.themes[t] == db.themes[t]
    ensures r.Ok? ==> var t := r.value.themes[uuid];
      && t.name == name && t.description == description && t.thumbnail == thumbnail
      && t.creator in db.users && db.users[t.creator].username == creator
      && t.path == SanitizePath(path, onDisk).value
      && (t.status == Merged <==> path.Some? && path.value != "")
      && (t.status == Unknown <==> path.None? || path.value == "")
  {
    var _ :- SessionUser(db, cookie, NoneExistingUser);
    var user :- FindCreator(db, creator);
    if ThemesBy(db, user, name) != {} then Err(ValueError(ThemeExists))
    else
      var p :- SanitizePath(path, onDisk);
      var status := if p.Some? then Merged else Unknown;
      if uuid in db.themes then Err(IntegrityError)
      else Ok(db.(themes := db.themes[uuid := Theme(name, description, p, status, user, thumbnail)]))
  }

  /**
    add as written: `thumbnail()` opens with `image_proc.save(image)`,
    while `save` takes three arguments without defaults, so whenever a
    thumbnail blob is sent (`thumbnail` is `Some`) the call raises
    TypeError once the path is sanitized, and nothing is added. Without a
    blob it is Add.
   */
  function AddAsWritten(db: Db, cookie: Option<Text>, creator: string, name: string, description: Option<string>,
                        path: Option<string>, onDisk: string -> bool, thumbnail: Option<Uuid>, uuid: Uuid): (r: Result<Db, Error>)
    ensures thumbnail.None? ==> r == Add(db, cookie, creator, name, description, path, onDisk, thumbnail, uuid)
    ensures thumbnail.Some? ==> r.Err?
  {
    var _ :- SessionUser(db, cookie, NoneExistingUser);
    var user :- FindCreator(db, creator);
    if ThemesBy(db, user, name) != {} then Err(ValueError(ThemeExists))
    else
      var p :- SanitizePath(path, onDisk);
      var status := if p.Some? then Merged else Unknown;
      if thumbnail.Some? then Err(TypeError)
      else if uuid in db.themes then Err(IntegrityError)
      else Ok(db.(themes := db.themes[uuid := Theme(name, description, p, status, user, None)]))
  }

  /**
    Every request that Add would accept with a thumbnail fails as written
    with TypeError: a theme with a thumbnail can never be added.
   */
  lemma ThumbnailFailsAsWritten(db: Db, cookie: Option<Text>, creator: string, name: string, description: Option<string>,
                                path: Option<string>, onDisk: string -> bool, thumbnail: Uuid, uuid: Uuid)
    requires Add(db, cookie, creator, name, description, path, onDisk, Some(thumbnail), uuid).Ok?
    ensures AddAsWritten(db, cookie, creator, name, description, path, onDisk, Some(thumbnail), uuid) == Err(TypeError)
  {
  }

  /** A creator cannot add the same theme name twice. */
  lemma AddTwiceFails(db: Db, cookie: Option<Text>, creator: string, name: string, description: Option<string>,
                      path: Option<string>, onDisk: string -> bool, thumbnail: Option<Uuid>, uuid: Uuid, db2: Db,
                      uuid2: Uuid)
    requires Add(db, cookie, creator, name, description, path, onDisk, thumbnail, uuid) == Ok(db2)
    requires SessionUser(db2, cookie, NoneExistingUser).Ok?
    ensures Add(db2, cookie, creator, name, description, path, onDisk, thumbnail, uuid2).Err?
  {
    assert db2.users == db.users;
    assert UsersNamed(db2, creator) == UsersNamed(db, creator);
    var user := FindCreator(db, creator).value;
    assert uuid in ThemesBy(db2, user, name);
  }

  // ---------------------------------------------------------------------
  // update
  // ---------------------------------------------------------------------

  /** The fields of a status update request. */
  datatype StatusUpdate = StatusUpdate(creator: string, name: string, path: Option<string>, status: string)

  const NoMatch: string := "No theme exists matching given details"
  const SeveralMatch: string := "User has multiple themes that match that name, unable to update"
  const MergedNeedsPath: string := "Cannot set status to merged without valid path"

  /**
    The part of update before its status guard: the caller must be logged
    in, the creator must exist, exactly one of their themes must have the
    name (none and several are ValueErrors with their own messages), and
    the request's path must sanitize. The theme and the sanitized path are
    the answer.
   */
  function Locate(db: Db, cookie: Option<Text>, data: StatusUpdate, onDisk: string -> bool): (r: Result<(Uuid, Option<string>), Error>)
    ensures SessionUser(db, cookie, NoneExistingUser).Err? ==> r == Err(SessionUser(db, cookie, NoneExistingUser).error)
    ensures r.Ok? ==> FindCreator(db, data.creator).Ok?
                      && ThemesBy(db, FindCreator(db, data.creator).value, data.name) == {r.value.0}
                      && SanitizePath(data.path, onDisk) == Ok(r.value.1)
    ensures SessionUser(db, cookie, NoneExistingUser).Ok? && FindCreator(db, data.creator).Ok? ==>
      var themes := ThemesBy(db, FindCreator(db, data.creator).value, data.name);
      && (themes == {} ==> r == Err(ValueError(NoMatch)))
      && (|themes| > 1 ==> r == Err(ValueError(SeveralMatch)))
      && (|themes| == 1 ==> (r.Ok? <==> SanitizePath(data.path, onDisk).Ok?))
  {
    var _ :- SessionUser(db, cookie, NoneExistingUser);
    var user :- FindCreator(db, data.creator);
    var themes := ThemesBy(db, user, data.name);
    if |themes| == 0 then Err(ValueError(NoMatch))
    else if |themes| > 1 then Err(ValueError(SeveralMatch))
    else
      var path :- SanitizePath(data.path, onDisk);
      Ok((Only(themes), path))
  }

  /**
    update, as evidently intended: setting MERGED without a valid path is
    refused; otherwise the located theme's status becomes the requested
    one and nothing else in the database changes. The stored path is not
    touched, whatever path the request carried.
   */
  function Update(db: Db, cookie: Option<Text>, data: StatusUpdate, onDisk: string -> bool): (r: Result<Db, Error>)
    ensures Locate(db, cookie, data, onDisk).Err? ==> r == Err(Locate(db, cookie, data, onDisk).error)
    ensures Locate(db, cookie, data, onDisk).Ok? ==>
      (r == Err(ValueError(MergedNeedsPath)) <==> data.status == Merged && Locate(db, cookie, data, onDisk).value.1.None?)
    ensures r.Ok? ==> data.status == Merged ==> SanitizePath(data.path, onDisk).value.Some?
    ensures r.Ok? ==> var t := Locate(db, cookie, data, onDisk).value.0;
      && t in db.themes
      && r.value == db.(themes := db.themes[t := db.themes[t].(status := data.status)])
  {
    var (t, path) :- Locate(db, cookie, data, onDisk);
    if path.None? && data.status == Merged then Err(ValueError(MergedNeedsPath))
    else Ok(db.(themes := db.themes[t := db.themes[t].(status := data.status)]))
  }

  /**
    update as written: the guard compares the request's status, a str, with
    the enum member ThemeReviewState.MERGED, which is not a str subclass,
    so the comparison is always false and the guard never fires.
   */
  function UpdateAsWritten(db: Db, cookie: Option<Text>, data: StatusUpdate, onDisk: string -> bool): (r: Result<Db, Error>)
    ensures r.Err? <==> Locate(db, cookie, data, onDisk).Err?
    ensures r.Ok? ==> var t := Locate(db, cookie, data, onDisk).value.0;
      && t in db.themes
      && r.value == db.(themes := db.themes[t := db.themes[t].(status := data.status)])
  {
    var (t, _) :- Locate(db, cookie, data, onDisk);
    Ok(db.(themes := db.themes[t := db.themes[t].(status := data.status)]))
  }

  /** Outside the guarded case the code as written and the corrected update agree. */
  lemma UpdateAgreesOffGuard(db: Db, cookie: Option<Text>, data: StatusUpdate, onDisk: string -> bool)
    requires !(data.status == Merged && SanitizePath(data.path, onDisk) == Ok(None))
    ensures UpdateAsWritten(db, cookie, data, onDisk) == Update(db, cookie, data, onDisk)
  {
  }

  /**
    The discrepancy: whenever the intended update refuses MERGED for want of
    a path, the code as written accepts it and marks the theme merged.
   */
  lemma MergedWithoutPathAsWritten(db: Db, cookie: Option<Text>, data: StatusUpdate, onDisk: string -> bool)
    requires Update(db, cookie, data, onDisk) == Err(ValueError(MergedNeedsPath))
    ensures UpdateAsWritten(db, cookie, data, onDisk).Ok?
    ensures var t := Locate(db, cookie, data, onDisk).value.0;
      UpdateAsWritten(db, cookie, data, onDisk).value.themes[t].status == Merged
    ensures data.path.None? || data.path.value == ""
  {
    MergedNeedsPathLocates(db, cookie, data, onDisk);
    assert SanitizePath(data.path, onDisk) == Ok(None);
  }

  /** The intended update refuses MERGED only after locating the theme, and only without a path. */
  lemma MergedNeedsPathLocates(db: Db, cookie: Option<Text>, data: StatusUpdate, onDisk: string -> bool)
    requires Update(db, cookie, data, onDisk) == Err(ValueError(MergedNeedsPath))
    ensures Locate(db, cookie, data, onDisk).Ok? && data.status == Merged
    ensures Locate(db, cookie, data, onDisk).value.1.None?
  {
    LocateNeverNeedsPath(db, cookie, data, onDisk);
  }

  /** Locating a theme never fails with the MERGED guard's message. */
  lemma LocateNeverNeedsPath(db: Db, cookie: Option<Text>, data: StatusUpdate, onDisk: string -> bool)
    ensures Locate(db, cookie, data, onDisk) != Err(ValueError(MergedNeedsPath))
  {
    var session := SessionUser(db, cookie, NoneExistingUser);
    if session.Err? {
      assert CookieId(cookie).Err? ==> CookieId(cookie).error == MissingCookie || CookieId(cookie).error.Signature?;
    }
  }

  // ---------------------------------------------------------------------
  // get
  // ---------------------------------------------------------------------

  /**
    thumbnail_url: the download URL of the thumbnail image; a theme without
    a thumbnail, or one whose image row is gone, gives "".
   */
  function ThumbnailUrl(db: Db, thumbnail: Option<Uuid>): (url: string)
    ensures url == "" <==> thumbnail.None? || thumbnail.value !in db.media
    ensures url != "" ==> url == SubdomainControl.ImageHref(db.media[thumbnail.value].urlExtension)
  {
    match thumbnail
    case None => ""
    case Some(m) => if m in db.media then SubdomainControl.ImageHref(db.media[m].urlExtension) else ""
  }

  /** creator_: the username of the theme's creator, or "" when the user row is gone. */
  function CreatorName(db: Db, user: Uuid): (name: string)
    ensures user in db.users ==> name == db.users[user].username
    ensures user !in db.users ==> name == ""
  {
    if user in db.users then db.users[user].username else ""
  }

  /** One entry of the theme list. */
  datatype Listed = Listed(name: string, description: Option<string>, thumbnail: string, creator: string, id: Uuid)

  /** The merged themes among `rows`, in that order. */
  function MergedThemes(db: Db, rows: seq<Uuid>): (ts: seq<Uuid>)
    ensures forall t :: t in ts <==> t in rows && t in db.themes && db.themes[t].status == Merged
    ensures forall i :: 0 <= i < |ts| ==> ts[i] in db.themes && db.themes[ts[i]].status == Merged
  {
    if rows == [] then []
    else
      var rest := MergedThemes(db, rows[1..]);
      if rows[0] in db.themes && db.themes[rows[0]].status == Merged then [rows[0]] + rest else rest
  }

  function ListOne(db: Db, t: Uuid): (l: Listed)
    requires t in db.themes
    ensures l.id == t && l.name == db.themes[t].name && l.description == db.themes[t].description
    ensures l.thumbnail == ThumbnailUrl(db, db.themes[t].thumbnail) && l.creator == CreatorName(db, db.themes[t].creator)
  {
    var row := db.themes[t];
    Listed(row.name, row.description, ThumbnailUrl(db, row.thumbnail), CreatorName(db, row.creator), t)
  }

  function ListAll(db: Db, ts: seq<Uuid>): (ls: seq<Listed>)
    requires forall i :: 0 <= i < |ts| ==> ts[i] in db.themes
    ensures |ls| == |ts|
    ensures forall i :: 0 <= i < |ts| ==> ls[i] == ListOne(db, ts[i])
  {
    if ts == [] then [] else [ListOne(db, ts[0])] + ListAll(db, ts[1..])
  }

  /**
    get: every merged theme and only those, each with its thumbnail URL and
    creator name; `rows` is the order the query returns the themes table in.
   */
  function Get(db: Db, rows: seq<Uuid>): (ls: seq<Listed>)
    ensures forall i :: 0 <= i < |ls| ==> ls[i].id in rows && ls[i].id in db.themes
                                          && db.themes[ls[i].id].status == Merged && ls[i] == ListOne(db, ls[i].id)
    ensures forall t :: t in rows && t in db.themes && db.themes[t].status == Merged ==>
      exists i :: 0 <= i < |ls| && ls[i].id == t
  {
    var ts := MergedThemes(db, rows);
    var ls := ListAll(db, ts);
    assert forall t :: t in ts ==> exists i :: 0 <= i < |ls| && ls[i].id == t by {
      forall t | t in ts ensures exists i :: 0 <= i < |ls| && ls[i].id == t {
        var i :| 0 <= i < |ts| && ts[i] == t;
        assert ls[i].id == t;
      }
    }
    ls
  }

  /**
    A theme added with a path is listed by get, and one added without a
    path is not, when the query returns every row.
   */
  lemma AddThenGet(db: Db, cookie: Option<Text>, creator: string, name: string, description: Option<string>,
                   path: Option<string>, onDisk: string -> bool, thumbnail: Option<Uuid>, uuid: Uuid, db2: Db,
                   rows: seq<Uuid>)
    requires Add(db, cookie, creator, name, description, path, onDisk, thumbnail, uuid) == Ok(db2)
    requires uuid in rows
    ensures (exists i :: 0 <= i < |Get(db2, rows)| && Get(db2, rows)[i].id == uuid) <==> path.Some? && path.value != ""
  {
    var ls := Get(db2, rows);
    if exists i :: 0 <= i < |ls| && ls[i].id == uuid {
      var i :| 0 <= i < |ls| && ls[i].id == uuid;
      assert db2.themes[uuid].status == Merged;
    }
  }
}

=== FILE: utils.dfy ===
/**
  Request helpers of corna/utils/utils.py: the upload extension test, the
  order in which `validate_files` rejects a request, the recursive dict
  merge, and the link filter `clean_html` hands to the HTML sanitizer.
  The allowed extensions and the URL validator are parameters.
 */
module Utils {
  import opened Base

  /** UNVERSIONED_API_URL: the base every API link starts with. */
  const ApiUrl: string := "https://api.mycorna.com"

  /** HTTPStatus.UNPROCESSABLE_ENTITY, the status of every rejected upload. */
  const UnprocessableEntity: nat := 422

  /** is_allowed: the name has a '.', and its last extension, lower-cased, is allowed. */
  function IsAllowed(filename: string, allowed: set<string>): (b: bool)
    ensures b <==> exists i :: (0 <= i < |filename| && filename[i] == '.' && '.' !in filename[i + 1..]
                                && Lower(filename[i + 1..]) in allowed)
  {
    HasExtensionMeans(filename, allowed);
    HasExtension(filename, allowed)
  }

  // ---------------------------------------------------------------------
  // validate_files
  // ---------------------------------------------------------------------

  /** Python truthiness of an optional int: `None` and `0` are false. */
  predicate Truthy(o: Option<int>) {
    o.Some? && o.value != 0
  }

  /** Why a batch of uploads is refused (each answered with 422). */
  datatype Rejection = TooFew(minimum: int) | TooMany(maximum: int) | IllegalType

  function RejectionMessage(e: Rejection): string {
    match e
    case TooFew(n) => "This URI expects at least " + IntToString(n) + " files"
    case TooMany(n) => "This URI expects no greater than " + IntToString(n) + " file(s)"
    case IllegalType => "Illegal file type"
  }

  /**
    validate_files: too few files (only when a minimum is set), then too
    many (only when a maximum is set), then any file whose extension is
    not allowed; the first failing check aborts the request.
   */
  function ValidateFiles(names: seq<string>, minimum: Option<int>, maximum: Option<int>, allowed: set<string>): (r: Option<Rejection>)
    ensures Truthy(minimum) && |names| < minimum.value ==> r == Some(TooFew(minimum.value))
    ensures (!(Truthy(minimum) && |names| < minimum.value) && Truthy(maximum) && |names| > maximum.value)
      ==> r == Some(TooMany(maximum.value))
    ensures r == Some(IllegalType) <==>
      (!(Truthy(minimum) && |names| < minimum.value) && !(Truthy(maximum) && |names| > maximum.value)
       && exists i :: 0 <= i < |names| && !IsAllowed(names[i], allowed))
    ensures r.None? <==>
      (!(Truthy(minimum) && |names| < minimum.value) && !(Truthy(maximum) && |names| > maximum.value)
       && forall i :: 0 <= i < |names| ==> IsAllowed(names[i], allowed))
  {
    if Truthy(minimum) && |names| < minimum.value then Some(TooFew(minimum.value))
    else if Truthy(maximum) && |names| > maximum.value then Some(TooMany(maximum.value))
    else if exists i :: 0 <= i < |names| && !IsAllowed(names[i], allowed) then Some(IllegalType)
    else None
  }

  /** A bound of zero is no bound: `minimum=0` and `maximum=0` check nothing. */
  lemma ZeroBoundsIgnored(names: seq<string>, allowed: set<string>)
    ensures ValidateFiles(names, Some(0), Some(0), allowed) == ValidateFiles(names, None, None, allowed)
  {
  }

  // ---------------------------------------------------------------------
  // nested_dict_update
  // ---------------------------------------------------------------------

  /** The exception raised by `dest[key] = value` on a destination that is not a dict. */
  const TypeError: string := "TypeError"

  /** The exception raised by `dest.get(key, {})` on a destination that is not a dict. */
  const AttributeError: string := "AttributeError"

  /** `dest.get(key, {})`. */
  function Child(dest: Value, key: string): Value
    requires dest.Dict?
  {
    if key in dest.fields then dest.fields[key] else Dict(map[])
  }

  /**
    The exception a non-dict destination raises on the first key written:
    a mapping value reads `dest.get` (AttributeError), any other value
    assigns `dest[key]` (TypeError). Which key comes first is the update's
    insertion order, which a map does not keep; when the update mixes both
    kinds of value, TypeError is chosen.
   */
  function WriteError(other: map<string, Value>): (e: string)
    ensures e == TypeError || e == AttributeError
    ensures other != map[] && (forall k :: k in other ==> other[k].Dict?) ==> e == AttributeError
    ensures (forall k :: k in other ==> !other[k].Dict?) ==> e == TypeError
  {
    if other != map[] && forall k :: k in other ==> other[k].Dict? then AttributeError else TypeError
  }

  /**
    nested_dict_update: every key of `other` is written into `dest`; a
    mapping value is merged into what `dest` holds under the key (an empty
    dict when nothing), any other value overwrites. Keys only in `dest`
    stay. A non-dict destination fails with WriteError, and a failure in a
    nested merge fails the whole update with one of the two exceptions.
   */
  function NestedUpdate(dest: Value, other: Value): (r: Result<Value, string>)
    requires other.Dict?
    ensures other.fields == map[] ==> r == Ok(dest)
    ensures other.fields != map[] && !dest.Dict? ==> r == Err(WriteError(other.fields))
    ensures r.Err? ==> r.error == TypeError || r.error == AttributeError
    ensures r.Ok? && other.fields != map[] ==> (r.value.Dict? && dest.Dict?
      && r.value.fields.Keys == dest.fields.Keys + other.fields.Keys
      && (forall k :: k in other.fields && !other.fields[k].Dict? ==> r.value.fields[k] == other.fields[k])
      && (forall k :: k in dest.fields && k !in other.fields ==> r.value.fields[k] == dest.fields[k]))
    // A mapping under a key is merged, recursively, into what the destination holds there.
    ensures r.Ok? ==> forall k :: k in other.fields && other.fields[k].Dict? ==>
      NestedUpdate(Child(dest, k), other.fields[k]) == Ok(r.value.fields[k])
    decreases other
  {
    if other.fields == map[] then Ok(dest)
    else if !dest.Dict? then Err(WriteError(other.fields))
    else if exists k :: k in other.fields && other.fields[k].Dict? && NestedUpdate(Child(dest, k), other.fields[k]).Err? then
      var failing := set k | k in other.fields && other.fields[k].Dict? && NestedUpdate(Child(dest, k), other.fields[k]).Err?;
      Err(if forall k :: k in failing ==> NestedUpdate(Child(dest, k), other.fields[k]) == Err(AttributeError)
          then AttributeError else TypeError)
    else
      Ok(Dict(map k | k in dest.fields.Keys + other.fields.Keys ::
        if k in other.fields then
          (if other.fields[k].Dict? then NestedUpdate(Child(dest, k), other.fields[k]).value else other.fields[k])
        else dest.fields[k]))
  }

  /**
    Merging a non-empty mapping into a key that holds a scalar reads
    `.get` on the scalar: `{"a": 5}` updated with `{"a": {"b": {"c": 1}}}`
    raises AttributeError, and so does every update of that shape.
   */
  lemma MergeIntoScalarIsAttributeError(dest: Value, key: string, inner: map<string, Value>)
    requires dest.Dict? && key in dest.fields && !dest.fields[key].Dict?
    requires inner != map[] && forall k :: k in inner ==> inner[k].Dict?
    ensures NestedUpdate(dest, Dict(map[key := Dict(inner)])) == Err(AttributeError)
  {
    var other := Dict(map[key := Dict(inner)]);
    assert Child(dest, key) == dest.fields[key];
    assert NestedUpdate(dest.fields[key], Dict(inner)) == Err(AttributeError);
    assert other.fields.Keys == {key};
  }

  /** Overwriting a key of a scalar assigns into it: `5` updated with `{"a": 1}` raises TypeError. */
  lemma AssignIntoScalarIsTypeError(dest: Value, key: string, v: Value)
    requires !dest.Dict? && !v.Dict?
    ensures NestedUpdate(dest, Dict(map[key := v])) == Err(TypeError)
  {
    assert map[key := v][key] == v;
  }

  /** Updating an empty dict copies `other`. */
  lemma {:induction false} UpdateEmptyCopies(other: Value)
    requires other.Dict?
    ensures NestedUpdate(Dict(map[]), other) == Ok(other)
    decreases other
  {
    if other.fields != map[] {
      forall k | k in other.fields && other.fields[k].Dict?
        ensures NestedUpdate(Child(Dict(map[]), k), other.fields[k]) == Ok(other.fields[k])
      {
        UpdateEmptyCopies(other.fields[k]);
      }
      var r := NestedUpdate(Dict(map[]), other);
      assert r.value.fields == other.fields;
    }
  }

  /** Applying the same update twice is applying it once. */
  lemma {:induction false} UpdateIdempotent(dest: Value, other: Value)
    requires other.Dict?
    requires NestedUpdate(dest, other).Ok?
    ensures NestedUpdate(NestedUpdate(dest, other).value, other) == NestedUpdate(dest, other)
    decreases other
  {
    if other.fields != map[] {
      var once := NestedUpdate(dest, other).value;
      forall k | k in other.fields && other.fields[k].Dict?
        ensures NestedUpdate(Child(once, k), other.fields[k]) == Ok(Child(once, k))
      {
        assert Child(once, k) == NestedUpdate(Child(dest, k), other.fields[k]).value;
        UpdateIdempotent(Child(dest, k), other.fields[k]);
      }
      var twice := NestedUpdate(once, other);
      assert twice.value.fields == once.fields;
    }
  }

  // The merge seen through key paths: `v[p[0]][p[1]]…`.

  /** The value reached from `v` along `path`, or None when a step leaves the mappings. */
  function At(v: Value, path: seq<string>): Option<Value>
    decreases |path|
  {
    if path == [] then Some(v)
    else if v.Dict? && path[0] in v.fields then At(v.fields[path[0]], path[1..])
    else None
  }

  /** At a path, the update holds a non-empty mapping where the destination holds a scalar. */
  predicate ClashAt(dest: Value, other: Value, path: seq<string>) {
    && At(other, path).Some? && At(other, path).value.Dict? && At(other, path).value.fields != map[]
    && At(dest, path).Some? && !At(dest, path).value.Dict?
  }

  lemma AtCons(v: Value, k: string, path: seq<string>)
    ensures At(v, [k] + path) == if v.Dict? && k in v.fields then At(v.fields[k], path) else None
  {
    assert ([k] + path)[1..] == path;
  }

  /** Below a fresh empty mapping there is nothing but that mapping itself. */
  lemma AtEmpty(path: seq<string>)
    ensures At(Dict(map[]), path) == if path == [] then Some(Dict(map[])) else None
  {
  }

  /** nested_update fails exactly when some key path leads to a mapping in the update and a scalar in the destination. */
  lemma {:induction false} UpdateOkIffNoClash(dest: Value, other: Value)
    requires other.Dict?
    ensures NestedUpdate(dest, other).Ok? <==> forall path :: !ClashAt(dest, other, path)
    decreases other
  {
    if other.fields == map[] {
      forall path ensures !ClashAt(dest, other, path) {
        if path != [] {
          assert path[0] !in other.fields;
        }
      }
    } else if !dest.Dict? {
      assert ClashAt(dest, other, []);
    } else {
      forall k | k in other.fields && other.fields[k].Dict? {
        UpdateOkIffNoClash(Child(dest, k), other.fields[k]);
      }
      if NestedUpdate(dest, other).Ok? {
        forall path ensures !ClashAt(dest, other, path) {
          if path != [] && ClashAt(dest, other, path) {
            ClashBelow(dest, other, path);
          }
        }
      } else {
        var k :| k in other.fields && other.fields[k].Dict? && NestedUpdate(Child(dest, k), other.fields[k]).Err?;
        var q :| ClashAt(Child(dest, k), other.fields[k], q);
        ClashAbove(dest, other, k, q);
      }
    }
  }

  /** A clash below the top of a dict destination is a clash in the child under its first key. */
  lemma ClashBelow(dest: Value, other: Value, path: seq<string>)
    requires other.Dict? && dest.Dict? && path != [] && ClashAt(dest, other, path)
    ensures path[0] in other.fields && other.fields[path[0]].Dict?
    ensures ClashAt(Child(dest, path[0]), other.fields[path[0]], path[1..])
  {
    var k := path[0];
    assert path == [k] + path[1..];
    AtCons(other, k, path[1..]);
    AtCons(dest, k, path[1..]);
    AtEmpty(path[1..]);
  }

  /** A clash in the child under `k` is a clash at `k` followed by its path. */
  lemma ClashAbove(dest: Value, other: Value, k: string, path: seq<string>)
    requires other.Dict? && dest.Dict? && k in other.fields && other.fields[k].Dict?
    requires ClashAt(Child(dest, k), other.fields[k], path)
    ensures ClashAt(dest, other, [k] + path)
  {
    AtCons(other, k, path);
    AtCons(dest, k, path);
    AtEmpty(path);
  }

  /** Every scalar the update holds at a key path is what the result holds there. */
  lemma {:induction false} UpdateWritesLeaves(dest: Value, other: Value, path: seq<string>)
    requires other.Dict? && NestedUpdate(dest, other).Ok?
    requires path != [] && At(other, path).Some? && !At(other, path).value.Dict?
    ensures At(NestedUpdate(dest, other).value, path) == At(other, path)
    decreases |path|
  {
    var r := NestedUpdate(dest, other).value;
    var k := path[0];
    assert k in other.fields;
    if other.fields[k].Dict? {
      assert path[1..] != [];
      UpdateWritesLeaves(Child(dest, k), other.fields[k], path[1..]);
    } else {
      assert path[1..] == [];
    }
  }

  /**
    A destination path the update leaves alone is kept: somewhere along
    `path`, at depth `i`, the update holds a mapping without the next key.
   */
  lemma {:induction false} UpdateKeepsUntouched(dest: Value, other: Value, path: seq<string>, i: nat)
    requires other.Dict? && NestedUpdate(dest, other).Ok?
    requires i < |path| && At(other, path[..i]).Some? && At(other, path[..i]).value.Dict?
    requires path[i] !in At(other, path[..i]).value.fields
    ensures At(NestedUpdate(dest, other).value, path) == At(dest, path)
    decreases i
  {
    var r := NestedUpdate(dest, other).value;
    var k := path[0];
    if other.fields != map[] {
      if i == 0 {
        assert At(other, path[..0]) == Some(other);
      } else {
        assert path[..i] == [k] + path[1..][..i - 1];
        AtCons(other, k, path[1..][..i - 1]);
        assert k in other.fields && other.fields[k].Dict?;
        UpdateKeepsUntouched(Child(dest, k), other.fields[k], path[1..], i - 1);
        AtEmpty(path[1..]);
      }
    }
  }

  // ---------------------------------------------------------------------
  // clean_html's attribute_filter
  // ---------------------------------------------------------------------

  /**
    attribute_filter: an `href` or `src` on an `a` or `img` tag must be a
    valid URL, and an image's `src` must moreover point at the API; a
    refused attribute is dropped (None). Every other attribute passes
    unchanged, and a kept value is never rewritten.
   */
  function AttributeFilter(tag: string, attr: string, value: string, isUrl: string -> bool): (r: Option<string>)
    ensures r.Some? ==> r.value == value
    ensures !(tag in {"a", "img"} && attr in {"href", "src"}) ==> r == Some(value)
    ensures tag in {"a", "img"} && attr in {"href", "src"} ==>
      (r.Some? <==> isUrl(value) && (tag == "img" && attr == "src" ==> StartsWith(value, ApiUrl)))
  {
    if tag in {"a", "img"} && attr in {"href", "src"} then
      if !isUrl(value) then None
      else if tag == "img" && attr == "src" && !StartsWith(value, ApiUrl) then None
      else Some(value)
    else Some(value)
  }

  /** An inline image hosted elsewhere is dropped even though its URL is valid. */
  lemma ForeignImageDropped(value: string, isUrl: string -> bool)
    requires isUrl(value) && !StartsWith(value, ApiUrl)
    ensures AttributeFilter("img", "src", value, isUrl).None?
    ensures AttributeFilter("a", "href", value, isUrl) == Some(value)
  {
  }
}

=== FILE: vault_manager.dfy ===
/**
  Reading the Ansible vault that holds the application's secrets
  (corna/utils/vault_manager.py): the checks on the vault file's header,
  the hex-in-hex body that carries the salt, the HMAC and the ciphertext,
  and the dotted-key lookup in the decrypted data. The AES decryption and
  the YAML parser are one parameter, `open`; the decrypted data is an
  argument of the lookups.
 */
module VaultManager {
  import opened Base

  /**
    What reading the vault raises: the four RuntimeErrors of decrypt_data,
    an IndexError on a file or header that is too short, the three ways
    `unhexlify` refuses its input, a failure of the decryption itself, and
    the KeyError and TypeError of a lookup.
   */
  datatype VaultError =
    | BadFormatId
    | BadVersion
    | BadCipher
    | BadParts
    | IndexError
    | NotAscii
    | OddLength
    | NonHexDigit
    | Undecryptable
    | KeyError(crumb: string)
    | TypeError

  /** The RuntimeError messages. */
  function Message(e: VaultError): string
    requires e.BadFormatId? || e.BadVersion? || e.BadCipher? || e.BadParts?
  {
    match e
    case BadFormatId => "Invalid header - bad format id"
    case BadVersion => "Invalid header - bad version"
    case BadCipher => "Invalid header - bad cipher"
    case BadParts => "Invalid number of parts to vaulttext"
  }

  const FormatId: string := "$ANSIBLE_VAULT"
  const Versions: set<string> := {"1.1", "1.2"}
  const Cipher: string := "AES256"

  /** The byte b"\n" that separates the three parts of the decoded body. */
  const Newline: byte := 10

  // ---------------------------------------------------------------------
  // binascii.hexlify and unhexlify
  // ---------------------------------------------------------------------

  /** An ASCII code of a hexadecimal digit, either case. */
  predicate IsHexCode(c: byte) {
    (48 <= c <= 57) || (97 <= c <= 102) || (65 <= c <= 70)
  }

  function HexCodeValue(c: byte): (v: nat)
    requires IsHexCode(c)
    ensures v < 16
  {
    if c <= 57 then c - 48 else if c >= 97 then c - 87 else c - 55
  }

  /** The lower-case ASCII digit of a nibble. */
  function HexCode(v: nat): (c: byte)
    requires v < 16
    ensures IsHexCode(c) && HexCodeValue(c) == v && c != Newline
  {
    if v < 10 then 48 + v else 87 + v
  }

  /** `binascii.hexlify`: two lower-case hex digits per byte, high nibble first. */
  function Hexlify(data: bytes): (h: bytes)
    ensures |h| == 2 * |data|
    ensures forall i :: 0 <= i < |h| ==> IsHexCode(h[i]) && h[i] != Newline
  {
    if data == [] then [] else [HexCode(data[0] / 16), HexCode(data[0] % 16)] + Hexlify(data[1..])
  }

  /** The bytes a well-formed run of hex digits stands for. */
  function Pairs(codes: bytes): (data: bytes)
    requires |codes| % 2 == 0
    requires forall i :: 0 <= i < |codes| ==> IsHexCode(codes[i])
    ensures |data| * 2 == |codes|
  {
    if codes == [] then []
    else [HexCodeValue(codes[0]) * 16 + HexCodeValue(codes[1])] + Pairs(codes[2..])
  }

  /**
    `binascii.unhexlify` of bytes: an odd number of digits is refused, then
    any character that is not a hex digit of either case.
   */
  function Unhexlify(codes: bytes): (r: Result<bytes, VaultError>)
    ensures r == Err(OddLength) <==> |codes| % 2 == 1
    ensures r == Err(NonHexDigit) <==> |codes| % 2 == 0 && exists i :: 0 <= i < |codes| && !IsHexCode(codes[i])
    ensures r.Ok? ==> |r.value| * 2 == |codes|
  {
    if |codes| % 2 == 1 then Err(OddLength)
    else if exists i :: 0 <= i < |codes| && !IsHexCode(codes[i]) then Err(NonHexDigit)
    else Ok(Pairs(codes))
  }

  /** Hex digits read back give the bytes they were written from. */
  lemma {:induction false} PairsOfHexlify(data: bytes)
    ensures Pairs(Hexlify(data)) == data
  {
    if data != [] {
      var h := Hexlify(data);
      assert h[2..] == Hexlify(data[1..]);
      PairsOfHexlify(data[1..]);
      assert data[0] == (data[0] / 16) * 16 + data[0] % 16;
    }
  }

  /** unhexlify undoes hexlify. */
  lemma UnhexlifyHexlify(data: bytes)
    ensures Unhexlify(Hexlify(data)) == Ok(data)
  {
    PairsOfHexlify(data);
  }

  /** The character string of some ASCII codes. */
  function Chars(codes: bytes): (s: string)
    requires forall i :: 0 <= i < |codes| ==> codes[i] < 128
    ensures |s| == |codes| && forall i :: 0 <= i < |s| ==> s[i] as int == codes[i]
  {
    seq(|codes|, i requires 0 <= i < |codes| => codes[i] as char)
  }

  /** The ASCII codes of an ASCII string. */
  function Codes(s: string): (codes: bytes)
    requires forall i :: 0 <= i < |s| ==> s[i] as int < 128
    ensures |codes| == |s| && forall i :: 0 <= i < |s| ==> codes[i] == s[i] as int
  {
    seq(|s|, i requires 0 <= i < |s| => s[i] as int)
  }

  /** `binascii.unhexlify` of a str: only ASCII text is accepted, then read as bytes. */
  function UnhexlifyText(s: string): (r: Result<bytes, VaultError>)
    ensures r == Err(NotAscii) <==> exists i :: 0 <= i < |s| && s[i] as int >= 128
    ensures r != Err(NotAscii) ==> r == Unhexlify(Codes(s))
  {
    if exists i :: 0 <= i < |s| && s[i] as int >= 128 then Err(NotAscii) else Unhexlify(Codes(s))
  }

  // ---------------------------------------------------------------------
  // decrypt_data: header and body
  // ---------------------------------------------------------------------

  /** `s.rstrip()` of every line, concatenated: `"".join(l.rstrip() for l in lines)`. */
  function JoinStripped(lines: seq<string>): string {
    if lines == [] then [] else RStrip(lines[0]) + JoinStripped(lines[1..])
  }

  /** The three hex-decoded parts of a vault body. */
  datatype Envelope = Envelope(salt: bytes, hmac: bytes, ciphertext: bytes)

  /**
    The header checks of decrypt_data on the first line, right-stripped and
    split on ';': the format id, then the version, then the cipher, each
    with its own RuntimeError. A file with no line, or a header with too
    few fields for the check reached, raises IndexError.
   */
  function CheckHeader(lines: seq<string>): (r: Result<(), VaultError>)
    ensures lines == [] ==> r == Err(IndexError)
    ensures lines != [] ==> var h := Split(RStrip(lines[0]), ';');
      && (r.Ok? <==> |h| >= 3 && h[0] == FormatId && h[1] in Versions && h[2] == Cipher)
      && (r == Err(BadFormatId) <==> h[0] != FormatId)
      && (r == Err(BadVersion) <==> h[0] == FormatId && |h| >= 2 && h[1] !in Versions)
      && (r == Err(BadCipher) <==> h[0] == FormatId && |h| >= 3 && h[1] in Versions && h[2] != Cipher)
      && (r == Err(IndexError) <==> h[0] == FormatId && (|h| < 2 || (h[1] in Versions && |h| < 3)))
  {
    if lines == [] then Err(IndexError)
    else
      var h := Split(RStrip(lines[0]), ';');
      if h[0] != FormatId then Err(BadFormatId)
      else if |h| < 2 then Err(IndexError)
      else if h[1] !in Versions then Err(BadVersion)
      else if |h| < 3 then Err(IndexError)
      else if h[2] != Cipher then Err(BadCipher)
      else Ok(())
  }

  /**
    decrypt_data up to the decryption: the header passes, the other lines
    right-stripped and joined are hex text whose bytes split on b"\n" into
    exactly three parts, and each part is itself hex for the salt, the
    HMAC and the ciphertext, in that order.
   */
  function ParseVault(lines: seq<string>): (r: Result<Envelope, VaultError>)
    ensures r.Ok? ==> CheckHeader(lines).Ok?
    ensures CheckHeader(lines).Err? ==> r == Err(CheckHeader(lines).error)
    ensures CheckHeader(lines).Ok? ==>
      var body := UnhexlifyText(JoinStripped(lines[1..]));
      && (body.Err? ==> r == Err(body.error))
      && (body.Ok? ==> (r == Err(BadParts) <==> |Split(body.value, Newline)| != 3))
    ensures r.Ok? ==>
      var parts := Split(UnhexlifyText(JoinStripped(lines[1..])).value, Newline);
      && |parts| == 3
      && Unhexlify(parts[0]) == Ok(r.value.salt)
      && Unhexlify(parts[1]) == Ok(r.value.hmac)
      && Unhexlify(parts[2]) == Ok(r.value.ciphertext)
  {
    var _ :- CheckHeader(lines);
    var body :- UnhexlifyText(JoinStripped(lines[1..]));
    var parts := Split(body, Newline);
    if |parts| != 3 then Err(BadParts)
    else
      var salt :- Unhexlify(parts[0]);
      var hmac :- Unhexlify(parts[1]);
      var ciphertext :- Unhexlify(parts[2]);
      Ok(Envelope(salt, hmac, ciphertext))
  }

  /**
    decrypt_data: the parsed envelope handed to `open`, which stands for
    VaultAES256.decrypt with the password followed by yaml.safe_load.
   */
  function DecryptData(lines: seq<string>, open: Envelope -> Result<Value, VaultError>): (r: Result<Value, VaultError>)
    ensures ParseVault(lines).Err? ==> r == Err(ParseVault(lines).error)
    ensures ParseVault(lines).Ok? ==> r == open(ParseVault(lines).value)
  {
    var envelope :- ParseVault(lines);
    open(envelope)
  }

  // ---------------------------------------------------------------------
  // Writing a vault: the partner of ParseVault
  // ---------------------------------------------------------------------

  /** The decoded body: the three parts in hex, separated by b"\n". */
  function Inner(e: Envelope): (inner: bytes)
    ensures forall i :: 0 <= i < |inner| ==> inner[i] < 128
  {
    Hexlify(e.salt) + [Newline] + Hexlify(e.hmac) + [Newline] + Hexlify(e.ciphertext)
  }

  /** The decoded body splits on b"\n" into exactly the three hex parts. */
  lemma InnerSplits(e: Envelope)
    ensures Split(Inner(e), Newline) == [Hexlify(e.salt), Hexlify(e.hmac), Hexlify(e.ciphertext)]
  {
    var a, b, c := Hexlify(e.salt), Hexlify(e.hmac), Hexlify(e.ciphertext);
    assert Inner(e) == a + [Newline] + (b + [Newline] + c);
    SplitThree(a, b, c, Newline);
  }

  /** The header line a vault of this version starts with, without its line end. */
  function HeaderLine(version: string): (h: string)
    requires version in Versions
    ensures |h| > 0 && h[|h| - 1] == '6'
  {
    FormatId + [';'] + (version + [';'] + Cipher)
  }

  /** The header line splits on ';' into the format id, the version and the cipher. */
  lemma HeaderSplits(version: string)
    requires version in Versions
    ensures Split(HeaderLine(version), ';') == [FormatId, version, Cipher]
  {
    assert ';' !in FormatId;
    assert ';' !in version;
    assert ';' !in Cipher;
    SplitThree(FormatId, version, Cipher, ';');
  }

  /** A vault file as `readlines` gives it: the header line and one body line, each ending in "\n". */
  function Seal(version: string, e: Envelope): (lines: seq<string>)
    requires version in Versions
    ensures |lines| == 2
  {
    [HeaderLine(version) + "\n", Chars(Hexlify(Inner(e))) + "\n"]
  }

  /** A trailing whitespace character goes, and then nothing else of a line ending in a non-space. */
  lemma RStripLine(s: string)
    requires |s| > 0 && !IsSpace(s[|s| - 1])
    ensures RStrip(s + "\n") == s
  {
    assert (s + "\n")[..|s|] == s;
  }

  /** The header Seal writes passes every check. */
  lemma SealedHeader(version: string, e: Envelope)
    requires version in Versions
    ensures CheckHeader(Seal(version, e)) == Ok(())
  {
    RStripLine(HeaderLine(version));
    HeaderSplits(version);
  }

  /** The body line Seal writes, right-stripped and hex-decoded, is the inner body. */
  lemma SealedBody(version: string, e: Envelope)
    requires version in Versions
    ensures UnhexlifyText(JoinStripped(Seal(version, e)[1..])) == Ok(Inner(e))
  {
    var text := Chars(Hexlify(Inner(e)));
    assert Seal(version, e)[1..] == [text + "\n"];
    HexLineRoundTrip(Inner(e));
  }

  /** One hex line with its newline, right-stripped and decoded, gives the bytes back. */
  lemma HexLineRoundTrip(inner: bytes)
    requires |inner| > 0
    ensures UnhexlifyText(JoinStripped([Chars(Hexlify(inner)) + "\n"])) == Ok(inner)
  {
    LastHexNotSpace(inner);
    HexTextRoundTrip(inner);
    StrippedLine(Chars(Hexlify(inner)));
  }

  /** A line ending in a non-space loses only its newline. */
  lemma StrippedLine(text: string)
    requires |text| > 0 && !IsSpace(text[|text| - 1])
    ensures JoinStripped([text + "\n"]) == text
  {
    RStripLine(text);
    JoinStrippedOne(text + "\n");
  }

  lemma LastHexNotSpace(inner: bytes)
    requires |inner| > 0
    ensures var text := Chars(Hexlify(inner)); |text| > 0 && !IsSpace(text[|text| - 1])
  {
    assert IsHexCode(Hexlify(inner)[2 * |inner| - 1]);
  }

  lemma JoinStrippedOne(line: string)
    ensures JoinStripped([line]) == RStrip(line)
  {
    assert [line][1..] == [];
  }

  /** Hexlified bytes read back as text decode to the bytes. */
  lemma HexTextRoundTrip(inner: bytes)
    ensures UnhexlifyText(Chars(Hexlify(inner))) == Ok(inner)
  {
    var text := Chars(Hexlify(inner));
    assert Codes(text) == Hexlify(inner);
    UnhexlifyHexlify(inner);
  }

  /** Every vault Seal writes parses back into the envelope it was written from. */
  lemma ParseSealed(version: string, e: Envelope)
    requires version in Versions
    ensures ParseVault(Seal(version, e)) == Ok(e)
  {
    SealedHeader(version, e);
    SealedBody(version, e);
    InnerSplits(e);
    UnhexlifyHexlify(e.salt);
    UnhexlifyHexlify(e.hmac);
    UnhexlifyHexlify(e.ciphertext);
  }

  // ---------------------------------------------------------------------
  // get_item and get_items
  // ---------------------------------------------------------------------

  /** `data[crumb]` for each crumb in turn: a missing key raises KeyError, indexing a non-dict TypeError. */
  function Walk(data: Value, crumbs: seq<string>): Result<Value, VaultError> {
    if crumbs == [] then Ok(data)
    else if !data.Dict? then Err(TypeError)
    else if crumbs[0] !in data.fields then Err(KeyError(crumbs[0]))
    else Walk(data.fields[crumbs[0]], crumbs[1..])
  }

  /** Continuing a walk that got somewhere. */
  function Then(r: Result<Value, VaultError>, crumbs: seq<string>): Result<Value, VaultError> {
    if r.Ok? then Walk(r.value, crumbs) else r
  }

  /** Walking a path is walking its first part and then the rest from where that ends. */
  lemma {:induction false} WalkAppend(data: Value, a: seq<string>, b: seq<string>)
    ensures Walk(data, a + b) == Then(Walk(data, a), b)
  {
    if a != [] {
      assert (a + b)[0] == a[0];
      assert (a + b)[1..] == a[1..] + b;
      if data.Dict? && a[0] in data.fields {
        WalkAppend(data.fields[a[0]], a[1..], b);
      }
    } else {
      assert a + b == b;
    }
  }

  /** The crumbs get_item walks: "vault", then the key split on '.', when a non-empty key is given. */
  function Crumbs(key: Option<string>): (crumbs: seq<string>)
    ensures |crumbs| >= 1 && crumbs[0] == "vault"
    ensures key.None? || key.value == "" ==> crumbs == ["vault"]
    ensures key.Some? && key.value != "" ==> crumbs[1..] == Split(key.value, '.')
  {
    ["vault"] + (if key.Some? && key.value != "" then Split(key.value, '.') else [])
  }

  /**
    get_item: the value under `vault` and then under each '.'-separated
    part of the key; without a key, the whole `vault` subtree.
   */
  function GetItem(data: Value, key: Option<string>): (r: Result<Value, VaultError>)
    ensures key.None? ==> r == Walk(data, ["vault"])
    ensures r.Ok? ==> data.Dict? && "vault" in data.fields
    ensures key.Some? && key.value != "" ==>
      r == Then(Walk(data, ["vault"]), Split(key.value, '.'))
  {
    var rest := if key.Some? && key.value != "" then Split(key.value, '.') else [];
    assert Crumbs(key) == ["vault"] + rest;
    WalkAppend(data, ["vault"], rest);
    Walk(data, Crumbs(key))
  }

  /** A dotted key reaches exactly the nested value its parts name. */
  lemma GetItemNested(secret: Value, a: string, b: string)
    requires '.' !in a && '.' !in b
    ensures GetItem(Dict(map["vault" := Dict(map[a := Dict(map[b := secret])])]), Some(a + "." + b)) == Ok(secret)
  {
    SplitFree(a, '.');
    SplitFree(b, '.');
    SplitAppend(a, '.', b);
    assert a + "." + b == a + ['.'] + b;
    var inner := Dict(map[a := Dict(map[b := secret])]);
    var data := Dict(map["vault" := inner]);
    assert Walk(data, ["vault"]) == Ok(inner) by {
      assert ["vault"][1..] == [];
    }
    assert Walk(Dict(map[b := secret]), [b]) == Ok(secret) by {
      assert [b][1..] == [];
    }
    assert Walk(inner, [a, b]) == Ok(secret) by {
      assert [a, b][0] == a && [a, b][1..] == [b];
    }
  }

  /**
    get_items: one get_item per key, in order; the first key that fails
    raises its error and no tuple is returned.
   */
  function GetItems(data: Value, keys: seq<Option<string>>): (r: Result<seq<Value>, VaultError>)
    ensures r.Ok? <==> forall i :: 0 <= i < |keys| ==> GetItem(data, keys[i]).Ok?
    ensures r.Ok? ==> |r.value| == |keys| && forall i :: 0 <= i < |keys| ==> GetItem(data, keys[i]) == Ok(r.value[i])
    ensures r.Err? ==> exists i :: 0 <= i < |keys| && GetItem(data, keys[i]) == Err(r.error)
                                   && forall j :: 0 <= j < i ==> GetItem(data, keys[j]).Ok?
  {
    if keys == [] then Ok([])
    else
      match GetItem(data, keys[0])
      case Err(e) => Err(e)
      case Ok(v) =>
        match GetItems(data, keys[1..])
        case Err(e) =>
          assert forall j :: 1 <= j < |keys| ==> keys[j] == keys[1..][j - 1];
          Err(e)
        case Ok(vs) =>
          assert forall j :: 1 <= j < |keys| ==> keys[j] == keys[1..][j - 1];
          Ok([v] + vs)
  }
}
